=== FILE: README.md ===
# MiniShop flash-sale core in Dafny

This project models the flash-sale ("seckill") engine of MiniShop, a set of Go
micro-services, and proves properties of that model. It covers:

- **Purchase protocol.** These are the Redis Lua scripts (full, simple, rollback, batch
  status, stats) and the seckill core that runs them. There is also the cache
  service's lock-guarded purchase, with its distributed lock (SETNX with an
  owner token, compare-and-delete unlock, compare-and-extend renew).
- **Flow control.** This is the token bucket, the sliding and fixed windows, the
  multi-level chain, the circuit breaker (CLOSED / OPEN / HALF_OPEN with
  generations) and the priority request queue.
- **Seckill coordinator.** This is the service that composes admission control,
  the breaker, the purchase script and the message emission, and the HTTP
  handler that maps its results to status codes.
- **Order compensator.** This covers idempotent order creation, the failure
  records, the exponential back-off, the message consumers (RabbitMQ ack/nack,
  Kafka), and the periodic compensation manager.
- **Inventory reconciler.** This covers the versioned stock sync, the Redis
  versus database difference check, alerts, the manual fix and the health
  checker's automatic fix.
- **API gateway edge.** This covers the Redis sliding-window rate limiters, JWT
  and HMAC-signature authentication, CORS, the reverse proxy's routing and
  header handling, and the health aggregation.

How the model treats the world outside the code:

- Redis is an immutable value. It holds counters, sets, purchase records,
  activities and lock entries with expiry. The database tables are sequences
  of rows.
- Every network or store failure is an explicit boolean (or set of failing
  attempt numbers, or a function from product to faults) passed in. Both the
  success and the failure paths are modelled, including writes whose error
  is only logged.
- Clocks are integer parameters: nanoseconds for the flow control, seconds
  for JWT and signature timestamps.
- Go map iteration order, where the result depends on it, is an explicit
  sequence parameter.
- Go's truncating `/` is written out (`Common.GoDiv`), because Dafny's
  division is Euclidean.
- Floating-point factors become exact rationals: the token rate, the back-off
  multiplier and the 0.6 failure ratio.

One Dafny module corresponds to each source component, in one file each. The
shared helpers are `Common`, `Decimal` (Go's `%d` and `strconv.ParseInt`),
`Strings` and `FastStore`.

## Model

| member | source | states |
|---|---|---|
| Backoff.IntervalFrom | backend/order-service/internal/service/order_service.go:316-323 | After zero steps the interval is the starting one. After one or more steps it never exceeds the maximum interval. |
| Backoff.Interval | backend/order-service/internal/compensation/compensation.go:222-233 | A retry count of zero or less waits the initial interval. Every later retry waits at most the maximum interval. |
| Backoff.ComputeInterval | backend/order-service/internal/service/order_service.go:315-327 | The loop with its clamp-and-break computes exactly the back-off `Interval` defines. |
| Backoff.ScaleGrows | backend/order-service/internal/service/order_service.go:319 | With a multiplier of at least 1, one truncated multiplication never shrinks a non-negative interval. |
| Backoff.IntervalFromMonotone | backend/order-service/internal/service/order_service.go:318-323 | With a multiplier of at least 1, each further step never lowers the interval. |
| Backoff.IntervalMonotone | backend/order-service/internal/compensation/compensation.go:222-233 | With a multiplier of at least 1, the back-off never decreases from one retry to the next. |
| Backoff.ClampIsFinal | backend/order-service/internal/service/order_service.go:320-323 | Once the interval has been clamped to the maximum, every later retry also waits exactly the maximum. |
| CacheSeckill.GetStock | backend/cache-service/internal/seckill/seckill.go:93-110 | A client failure is an error. A missing stock key is "stock not found". Otherwise the stored counter is returned. |
| CacheSeckill.DecrScript | backend/cache-service/internal/seckill/seckill.go:113-130 | A missing key gives -1 and insufficient stock gives -2, both without writing. Otherwise the stock is lowered by the quantity and the new value returned. |
| CacheSeckill.DecrStock | backend/cache-service/internal/seckill/seckill.go:133-153 | The call succeeds exactly when the script runs and the key exists. Every error path leaves the store unchanged. A script failure and a missing key are told apart. |
| CacheSeckill.IncrStock | backend/cache-service/internal/seckill/seckill.go:156-159 | On success the counter (zero when absent) grows by the quantity. A failure writes nothing. |
| CacheSeckill.IsUserPurchased | backend/cache-service/internal/seckill/seckill.go:162-165 | Errs exactly on a client failure. Otherwise true exactly when the user is in the product's buyer set. |
| CacheSeckill.AddUserPurchase | backend/cache-service/internal/seckill/seckill.go:168-171 | On success the buyer set gains exactly this user. A failure writes nothing. |
| CacheSeckill.RemoveUserPurchase | backend/cache-service/internal/seckill/seckill.go:174-177 | On success the buyer set loses exactly this user. A failure writes nothing. |
| CacheSeckill.GetPurchaseUserCount | backend/cache-service/internal/seckill/seckill.go:180-183 | On success the result is the size of the buyer set. |
| CacheSeckill.CriticalSection | backend/cache-service/internal/seckill/seckill.go:203-239 | The purchase under the lock succeeds exactly when the check succeeds, the user is new and the decrement and add succeed. An earlier buyer is refused with nothing written. Lock entries are never touched. |
| CacheSeckill.AddFailureRestoresStock | backend/cache-service/internal/seckill/seckill.go:219-223 | When recording the buyer fails, the compensating increment restores the counters and sets exactly. |
| CacheSeckill.SeckillPurchase | backend/cache-service/internal/seckill/seckill.go:192-240 | Without the lock the purchase fails and nothing changes. With it, the result is the critical section's, run at the acquiring attempt's time. The deferred unlock frees the lock unless it fails. |
| CacheSeckill.CriticalSectionIgnoresLocks | backend/cache-service/internal/seckill/seckill.go:203-239 | Stores that differ only in lock entries give the same result and the same data. |
| CacheSeckill.UnitPurchaseKeepsBalance | backend/cache-service/internal/seckill/seckill.go:213-223 | A one-unit purchase keeps stock plus buyer count unchanged, whichever step fails, provided the compensating increment itself succeeds. |
| CacheSeckill.StockMatchesBuyers | backend/cache-service/examples/seckill_test.go:269-274 | After any run of one-unit purchases, the remaining stock is the initial stock less the number of new buyers. This is the example's consistency check, for every sequence of users. |
| CacheSeckill.RepeatPurchaseRefused | backend/cache-service/internal/seckill/seckill.go:204-210 | A user whose purchase succeeded is refused the second time, and the store stays as it was. |
| CacheSeckill.NegativeQuantityRaisesStock | backend/cache-service/internal/seckill/seckill.go:113-130 | As written: with 10 in stock, a purchase of -5 succeeds and leaves 15. |
| CacheSeckill.CriticalSectionChecked | backend/cache-service/internal/seckill/seckill.go:192-240 | Corrected: a non-positive quantity is refused with nothing written. No purchase ever raises the stock. A successful one lowers it by exactly the quantity. |
| CacheSeckill.NeverRaisesStock | backend/cache-service/internal/seckill/seckill.go:213-223 | For positive quantities, the purchase never increases the stock counter, whichever steps fail. |
| CircuitBreaker.ToNewGeneration | backend/seckill-service/internal/flowcontrol/circuit_breaker.go:260-277 | A new generation clears the counts and bumps the generation. Its expiry is now plus the interval in CLOSED (none when the interval is 0), now plus the timeout in OPEN, and none in HALF_OPEN. |
| CircuitBreaker.NewCircuitBreaker | backend/seckill-service/internal/flowcontrol/circuit_breaker.go:84-119 | A fresh breaker is CLOSED in generation 1. Max requests 0 becomes 1, and a non-positive interval or timeout becomes 60 s. The default trip rule applies when none is given. |
| CircuitBreaker.SetState | backend/seckill-service/internal/flowcontrol/circuit_breaker.go:242-257 | Setting the current state changes nothing. Any other state starts a new generation. |
| CircuitBreaker.CurrentState | backend/seckill-service/internal/flowcontrol/circuit_breaker.go:227-239 | A CLOSED breaker whose non-zero expiry is past rolls to a new generation. An OPEN breaker whose expiry is past becomes HALF_OPEN. Every other breaker is returned unchanged. |
| CircuitBreaker.BeforeRequest | backend/seckill-service/internal/flowcontrol/circuit_breaker.go:173-188 | OPEN refuses with "circuit breaker is open". HALF_OPEN at its request limit refuses with "too many requests". Otherwise the request is counted and admitted under the current generation. |
| CircuitBreaker.CountSuccess | backend/seckill-service/internal/flowcontrol/circuit_breaker.go:302-306 | A success bumps both success counters and zeroes the consecutive failures. |
| CircuitBreaker.CountFailure | backend/seckill-service/internal/flowcontrol/circuit_breaker.go:308-312 | A failure bumps both failure counters and zeroes the consecutive successes. |
| CircuitBreaker.OnSuccess | backend/seckill-service/internal/flowcontrol/circuit_breaker.go:209-215 | A success in HALF_OPEN closes the breaker with fresh counts. In other states it is only counted. |
| CircuitBreaker.OnFailure | backend/seckill-service/internal/flowcontrol/circuit_breaker.go:218-224 | A failure opens the breaker, in any state, exactly when the trip rule holds on the updated counts. Otherwise it is only counted. |
| CircuitBreaker.AfterRequest | backend/seckill-service/internal/flowcontrol/circuit_breaker.go:191-206 | A result from a stale generation is ignored. Otherwise it is recorded as a success or a failure. |
| CircuitBreaker.Execute | backend/seckill-service/internal/flowcontrol/circuit_breaker.go:133-150 | A call is refused exactly when the breaker refuses it beforehand. A refused call reports the breaker's error. An admitted one records its result afterwards. |
| CircuitBreaker.Reset | backend/seckill-service/internal/flowcontrol/circuit_breaker.go:372-382 | After a reset the breaker is CLOSED with cleared counts. Its expiry is computed for the state it had before the reset. |
| CircuitBreaker.ResetFromHalfOpenNeverRollsOver | backend/seckill-service/internal/flowcontrol/circuit_breaker.go:376-380 | A breaker reset from HALF_OPEN is CLOSED without an expiry, so it never rolls over to a new generation. |
| CircuitBreaker.NewIsValid | backend/seckill-service/internal/flowcontrol/circuit_breaker.go:84-119 | A new breaker satisfies the invariant: HALF_OPEN within its limit, OPEN with an expiry, and successes plus failures at most the requests. |
| CircuitBreaker.CurrentStateValid | backend/seckill-service/internal/flowcontrol/circuit_breaker.go:227-239 | The clock-driven transition preserves the invariant. |
| CircuitBreaker.ExecutePreservesValid | backend/seckill-service/internal/flowcontrol/circuit_breaker.go:133-150 | One call, admitted or refused, preserves the invariant. |
| CircuitBreaker.ResetIsValid | backend/seckill-service/internal/flowcontrol/circuit_breaker.go:372-382 | A reset preserves the invariant. |
| CircuitBreaker.RunAllValid | backend/seckill-service/internal/flowcontrol/circuit_breaker.go:133-150 | Any sequence of calls preserves the invariant. |
| CircuitBreaker.OpenRefusesUntilTimeout | backend/seckill-service/internal/flowcontrol/circuit_breaker.go:173-188 | An OPEN breaker refuses every call up to its expiry and admits one after it. |
| CircuitBreaker.HalfOpenFailureSticks | backend/seckill-service/internal/flowcontrol/circuit_breaker.go:218-224 | As written, with the default trip rule and one probe, a failed HALF_OPEN probe leaves the breaker HALF_OPEN with its slot used. Every later call is refused. |
| CircuitBreaker.OnFailureReopening | backend/seckill-service/internal/flowcontrol/circuit_breaker.go:218-224 | Corrected: a failure in HALF_OPEN reopens the breaker with a fresh timeout. In other states it behaves as written. |
| CircuitBreaker.AfterRequestReopening | backend/seckill-service/internal/flowcontrol/circuit_breaker.go:191-206 | Corrected: as written, except that a failure goes through the reopening failure rule. |
| CircuitBreaker.ExecuteReopening | backend/seckill-service/internal/flowcontrol/circuit_breaker.go:133-150 | Corrected: a call is refused exactly when the breaker refuses it beforehand, and then the breaker stays as the admission check left it. An admitted call reports its outcome, with a failure in HALF_OPEN reopening the breaker. |
| CircuitBreaker.FailedProbeRecovers | backend/seckill-service/internal/flowcontrol/circuit_breaker.go:218-224 | With the correction, a failed probe leaves the breaker OPEN, and a call after the timeout is admitted again, so HALF_OPEN cannot wedge. |
| CircuitBreaker.GetCircuitBreaker | backend/seckill-service/internal/flowcontrol/circuit_breaker.go:338-349 | A registered breaker is returned as is. Otherwise a new one is created and registered under the name. |
| CircuitBreaker.ResetCircuitBreaker | backend/seckill-service/internal/flowcontrol/circuit_breaker.go:371-382 | Resetting by name closes that breaker and clears its counts. The other breakers are untouched and the name set is kept. |
| Compensation.Rows | backend/order-service/internal/compensation/compensation.go:93-98 | The scan yields exactly the existing rows with their stored contents. |
| Compensation.Select | backend/order-service/internal/compensation/compensation.go:93-98 | The batch holds only eligible rows: pending, due, below the retry limit and inside the retry horizon. A non-negative batch size bounds it. A negative batch size, which writes no LIMIT, or one covering the scan, selects every eligible row. |
| Compensation.Mark | backend/order-service/internal/compensation/compensation.go:209-219 | The status update rewrites only the named record's status and error. Everything else stays. |
| Compensation.RunHandler | backend/order-service/internal/compensation/compensation.go:309-343 | The handler never touches the failure table. The service handler's outcome is the failure-type dispatch. |
| Compensation.DefaultHandlerFailsOnDuplicate | backend/order-service/internal/compensation/compensation.go:330-333 | The default handler reports a failure when the buyer already has an order, so an already-completed order is retried as a failure. |
| Compensation.Step | backend/order-service/internal/compensation/compensation.go:121-148 | One record's processing changes only that record and bumps the processed count. When marking it "processing" fails, the database is unchanged. |
| Compensation.StepOutcome | backend/order-service/internal/compensation/compensation.go:151-206 | A final write that fails leaves "processing". Otherwise the record ends in success, failed (limit reached) or pending, with one more retry scheduled by the back-off. |
| Compensation.ServiceStepSucceeds | backend/order-service/internal/compensation/compensation.go:151-164 | Under the service's handler a step succeeds exactly when the record's failure type is known. |
| Compensation.StepProgress | backend/order-service/internal/compensation/compensation.go:167-206 | An eligible record leaves pending, or its remaining retries strictly shrink, so each record is attempted only finitely often. |
| Compensation.GiveUpKeepsStoredCount | backend/order-service/internal/compensation/compensation.go:170-175 | A record that gives up keeps its old stored retry count. |
| Compensation.UntypedRecordNeverSucceeds | backend/order-service/internal/service/order_service.go:773-791 | A record without a failure type, as the order service writes them, never reaches success under the service handler. |
| Compensation.ProcessAll | backend/order-service/internal/compensation/compensation.go:111-113 | A batch keeps the record set and well-formedness, and bumps the processed count by the batch size. |
| Compensation.ProcessAllFrame | backend/order-service/internal/compensation/compensation.go:111-113 | A record outside the batch is unchanged. |
| Compensation.Cleanup | backend/order-service/internal/compensation/compensation.go:236-248 | The sweep marks exactly the stale pending and processing records "expired" and counts them. A failed sweep changes nothing. |
| Compensation.CleanupLeavesNoStale | backend/order-service/internal/compensation/compensation.go:236-248 | After a sweep no stale record remains. |
| Compensation.Tick | backend/order-service/internal/compensation/compensation.go:88-118 | A disabled manager, a failed query or an empty batch changes nothing. Otherwise the record set and well-formedness are kept. |
| Compensation.TickKeepsFinalRecords | backend/order-service/internal/compensation/compensation.go:88-118 | Records already in success, failed or expired are never rewritten. |
| Compensation.ManualRetry | backend/order-service/internal/compensation/compensation.go:251-269 | A manual retry proceeds exactly when the record exists and has not succeeded. It then runs one step, and otherwise changes nothing. |
| DistributedLock.NewDistributedLock | backend/cache-service/internal/lock/distributed_lock.go:30-37 | A new handle keeps the key and TTL and carries a non-empty owner token. |
| DistributedLock.LockTokensDistinct | backend/cache-service/internal/lock/distributed_lock.go:34 | Locks created at different instants carry different tokens. |
| DistributedLock.GetValue | backend/cache-service/internal/lock/distributed_lock.go:130-137 | A non-empty value read back is the owner of a live entry under the key. |
| DistributedLock.ExpiryFor | backend/cache-service/internal/lock/distributed_lock.go:40-41 | A millisecond TTL is refused exactly when it is negative, since go-redis's keep-TTL marker is -1 ns and any negative millisecond TTL goes out as a negative `px`. A zero TTL gives no expiry, and a positive one gives an expiry of now plus the TTL. |
| DistributedLock.Lock | backend/cache-service/internal/lock/distributed_lock.go:40-51 | Locking succeeds exactly when the client works, the TTL is accepted and the key is free. It then writes this owner's entry. A negative TTL is a client error. A taken key gives "lock failed" and writes nothing. |
| DistributedLock.TryLock | backend/cache-service/internal/lock/distributed_lock.go:54-71 | At most the configured number of attempts, every attempt before the last having failed. Success is exactly the last attempt succeeding and leaves that attempt's lock. Running out gives "lock failed" and cancellation gives the context error, both with nothing written. |
| DistributedLock.Unlock | backend/cache-service/internal/lock/distributed_lock.go:74-99 | Unlock succeeds exactly when this owner holds the live lock, and it then frees the key. Otherwise "lock not held" and nothing changes. |
| DistributedLock.Renew | backend/cache-service/internal/lock/distributed_lock.go:102-127 | Renew succeeds exactly when this owner holds the live lock. Otherwise "lock not held" and nothing changes. Other keys are untouched. |
| DistributedLock.IsHeld | backend/cache-service/internal/lock/distributed_lock.go:130-137 | Errs exactly on a client failure. Otherwise true exactly when this owner holds the live lock. |
| DistributedLock.LockWithAutoRenew | backend/cache-service/internal/lock/distributed_lock.go:140-169 | Fails exactly when the initial lock fails, with its error and nothing written. On success it returns the handle and the lock's store. |
| DistributedLock.OnlyOwnerReleases | backend/cache-service/internal/lock/distributed_lock.go:74-127 | While A's lock is live, a holder of a different token can neither take, release nor renew it, and A can release it. |
| DistributedLock.RetriesBeforeExpiryFail | backend/cache-service/internal/lock/distributed_lock.go:54-71 | Every retry that falls before a live holder's expiry fails. |
| GatewayAuth.ContextValueOf | backend/api-gateway/internal/middleware/auth.go:84 | A JSON claim stored in the context is a Go string exactly when it was a JSON string. It is never an int64 and never missing. |
| GatewayAuth.UnixSeconds | backend/api-gateway/internal/middleware/auth.go:168 | The Unix seconds of an instant are the whole seconds at or before it. |
| GatewayAuth.TokenFromRequest | backend/api-gateway/internal/middleware/auth.go:126-148 | A non-empty Authorization header wins: it is returned with any "Bearer " prefix removed. Otherwise the token query parameter, then the cookie, then empty. |
| GatewayAuth.BearerRoundTrip | backend/api-gateway/internal/middleware/auth.go:131-133 | "Bearer " followed by a token yields that token back. |
| GatewayAuth.IsWhitelisted | backend/api-gateway/internal/middleware/auth.go:283-290 | A path is whitelisted exactly when some entry is a prefix of it. |
| GatewayAuth.EmptyEntryWhitelistsAll | backend/api-gateway/internal/middleware/auth.go:285 | An empty whitelist entry whitelists every path. |
| GatewayAuth.NumericDate | backend/api-gateway/internal/middleware/auth.go:152-158 | A time claim is no date when absent or the number 0, a date when it is any other number, and an invalid-type error when it is a string or another value. |
| GatewayAuth.ParseClaims | backend/api-gateway/internal/middleware/auth.go:152-162 | A decoded, correctly signed token passes the library's validation exactly when its expiry, if any, is strictly after now and its not-before, if any, is at or before now. The claims come back unchanged. |
| GatewayAuth.ValidateJwt | backend/api-gateway/internal/middleware/auth.go:151-178 | A token validates exactly when the library admits it and the gateway's own check finds no numeric exp whose second is already past. The claims are returned unchanged. |
| GatewayAuth.OwnCheckOnlyCatchesZero | backend/api-gateway/internal/middleware/auth.go:166-172 | Once the library has admitted a token, the gateway's own expiry check fires exactly when exp is 0, which the library reads as no expiry, and now is past the first second of the epoch. |
| GatewayAuth.AccessClaims | backend/api-gateway/internal/middleware/auth.go:293-305 | An access token carries the user id, the username, the issue second, no type and no not-before, and expires at the Unix second its lifetime ends in. |
| GatewayAuth.RefreshClaims | backend/api-gateway/internal/middleware/auth.go:308-319 | A refresh token carries the user id, the type "refresh", no username and no not-before, and expires at the Unix second its lifetime ends in. |
| GatewayAuth.IssuedTokenLifetime | backend/api-gateway/internal/middleware/auth.go:151-178 | An issued access token validates exactly until the start of the second its lifetime ends in. An expiry second of 0 instead lasts until the end of that second. |
| GatewayAuth.RefreshToken | backend/api-gateway/internal/middleware/auth.go:322-347 | A refresh token is exchanged exactly when the library admits it and its type claim is the string "refresh". The new access token has the same user id, an empty username and the configured lifetime. |
| GatewayAuth.RefreshOnce | backend/api-gateway/internal/middleware/auth.go:322-347 | A refresh token refreshes until the start of the second its lifetime ends in. The access token it yields cannot itself be refreshed. |
| GatewayAuth.JwtAuth | backend/api-gateway/internal/middleware/auth.go:36-89 | Disabled or whitelisted requests pass with no user. Otherwise a request passes exactly when a token is found, decodes with a good signature and validates, and it then carries the token's user_id. |
| GatewayAuth.FirstValue | backend/api-gateway/internal/middleware/auth.go:234-247 | A parameter has a first value exactly when its name occurs. |
| GatewayAuth.CollectedKeysMembers | backend/api-gateway/internal/middleware/auth.go:233-254 | The signed names are the four fixed fields, the query names, and the form names on POST. |
| GatewayAuth.SigningParams | backend/api-gateway/internal/middleware/auth.go:229-254 | The signing map holds exactly the collected names. The fixed fields override the form, and the form overrides the query. |
| GatewayAuth.SigningParamsFixed | backend/api-gateway/internal/middleware/auth.go:250-254 | timestamp, nonce, method and path are always signed, with the request's own values. |
| GatewayAuth.SigningParamsSources | backend/api-gateway/internal/middleware/auth.go:233-254 | Each signed value comes from the fixed fields, else the POST form's first value, else the query's first value. Nothing else is signed. |
| GatewayAuth.KeysAreParams | backend/api-gateway/internal/middleware/auth.go:256-269 | Every sorted key names an entry of the signing map. |
| GatewayAuth.SigningString | backend/api-gateway/internal/middleware/auth.go:263-274 | The string signed always ends in "&secret=" and the secret. |
| GatewayAuth.SigningKeysSorted | backend/api-gateway/internal/middleware/auth.go:256-261 | The signing keys are the parameter names, each once, in strictly ascending order. |
| GatewayAuth.SigningStringOrderFree | backend/api-gateway/internal/middleware/auth.go:256-274 | Two requests with the same signed names and values sign the same string, whatever order their parameters arrived in. |
| GatewayAuth.Wrap64 | backend/api-gateway/internal/middleware/auth.go:206 | 64-bit two's-complement wrap-around: the result is in range, and in-range values are unchanged. |
| GatewayAuth.FutureTimestampFresh | backend/api-gateway/internal/middleware/auth.go:205-208 | A timestamp at or after the current second always passes the freshness test. |
| GatewayAuth.MinTimestampNeverExpires | backend/api-gateway/internal/middleware/auth.go:205-208 | As written: the smallest 64-bit timestamp wraps now - ts negative and passes at every positive time. The corrected test refuses it. |
| GatewayAuth.FreshCheckedBoundsAge | backend/api-gateway/internal/middleware/auth.go:205-208 | Corrected: wherever now minus the timestamp fits in 64 bits, the unwrapped test agrees with the test as written. |
| GatewayAuth.MissingHeader | backend/api-gateway/internal/middleware/auth.go:187-192 | Nothing is reported exactly when every required header is present. A reported header is a required one that is absent. |
| GatewayAuth.ValidateSignature | backend/api-gateway/internal/middleware/auth.go:181-227 | A signature is accepted exactly when all of the following hold: the required headers are present, the timestamp parses as int64 and is fresh, nonce and signature are present, and the signature equals the MAC of the signing string. |
| GatewayAuth.SignatureAuth | backend/api-gateway/internal/middleware/auth.go:92-124 | Disabled or whitelisted requests pass. Otherwise a request passes exactly when its signature validates. |
| GatewayLimiter.Kept | backend/api-gateway/internal/middleware/rate_limiter.go:234 | The entries kept are exactly those not evicted: scores above now minus the window. |
| GatewayLimiter.AddMember | backend/api-gateway/internal/middleware/rate_limiter.go:240-243 | Adding a member gives the old members plus the new one. |
| GatewayLimiter.Step | backend/api-gateway/internal/middleware/rate_limiter.go:224-258 | The request is allowed exactly when the kept entries, counted before adding the current request, number at most the burst. The key then holds the kept entries plus the current instant. |
| GatewayLimiter.CheckWindow | backend/api-gateway/internal/middleware/rate_limiter.go:224-258 | A failed pipeline is an error with nothing written. Otherwise the verdict and the new entries are those of Step, and other keys are untouched. |
| GatewayLimiter.UserId | backend/api-gateway/internal/middleware/rate_limiter.go:261-278 | A string user_id is used as is. An int64 is rendered in decimal. Anything else falls back to the X-User-ID header. |
| GatewayLimiter.EndpointKey | backend/api-gateway/internal/middleware/rate_limiter.go:219 | The endpoint key is the prefix followed by the path with every "/" replaced by ":". |
| GatewayLimiter.KeyFamiliesDisjoint | backend/api-gateway/internal/middleware/rate_limiter.go:207-219 | User, IP and endpoint keys never collide with each other. |
| GatewayLimiter.EndpointKeysCollide | backend/api-gateway/internal/middleware/rate_limiter.go:219 | Distinct paths "/a/b" and "/a:b" share one endpoint counter. |
| GatewayLimiter.UserRateLimit | backend/api-gateway/internal/middleware/rate_limiter.go:84-124 | Disabled, or no user id: admitted with nothing written. Otherwise refused with 429 exactly when the pipeline works and the user's kept entries exceed the burst; a pipeline error fails open. |
| GatewayLimiter.IpRateLimit | backend/api-gateway/internal/middleware/rate_limiter.go:126-160 | Disabled: admitted. Otherwise refused exactly when the pipeline works and the IP's kept entries exceed the burst. |
| GatewayLimiter.EndpointRateLimit | backend/api-gateway/internal/middleware/rate_limiter.go:162-204 | A path without its own limit, or a disabled limiter, is admitted. Otherwise refused exactly when the pipeline works and the one-minute window holds more than the path's burst. |
| GatewayLimiter.GlobalRateLimit | backend/api-gateway/internal/middleware/rate_limiter.go:57-82 | Refused exactly when enabled and the global token bucket refuses. |
| GatewayLimiter.NumericClaimDefersToHeader | backend/api-gateway/internal/middleware/rate_limiter.go:263-275 | A JSON-number user_id (a float64, neither string nor int64) is ignored in favour of the header; with no header the user is not limited. |
| GatewayLimiter.Run | backend/api-gateway/internal/middleware/rate_limiter.go:224-258 | A run of requests gives one verdict per request. |
| GatewayLimiter.CheckWindowIsStep | backend/api-gateway/internal/middleware/rate_limiter.go:224-258 | A working pipeline's check is exactly one Step on the key. |
| GatewayLimiter.KeptAll | backend/api-gateway/internal/middleware/rate_limiter.go:234 | When no entry is old enough to evict, all are kept in order. |
| GatewayLimiter.IncreasingPrefix | backend/api-gateway/internal/middleware/rate_limiter.go:231-234 | Within an increasing run inside one window, the earlier requests stay inside the last request's window. |
| GatewayLimiter.FreshStep | backend/api-gateway/internal/middleware/rate_limiter.go:234-243 | A new request that evicts nothing is counted against the earlier entries and appended. |
| GatewayLimiter.RunLast | backend/api-gateway/internal/middleware/rate_limiter.go:224-258 | A run's last request is one Step after the run of the earlier ones. |
| GatewayLimiter.LastIsFresh | backend/api-gateway/internal/middleware/rate_limiter.go:231-243 | The last request of an increasing run within one window is new and evicts none of the earlier ones. |
| GatewayLimiter.WindowHoldsAll | backend/api-gateway/internal/middleware/rate_limiter.go:231-246 | Within one window every request of an increasing run stays recorded. |
| GatewayLimiter.BurstPlusOnePerWindow | backend/api-gateway/internal/middleware/rate_limiter.go:254-257 | Within one window the i-th request (from 0) is admitted exactly when i is at most the burst, so burst+1 requests pass. |
| GatewayCors.SetHeader | backend/api-gateway/internal/middleware/cors.go:36-65 | gin's header write: an empty value deletes the header, any other value sets it, and other headers are untouched. |
| GatewayCors.IsOriginAllowed | backend/api-gateway/internal/middleware/cors.go:78-94 | An origin is allowed exactly when some entry is "*", equals it, or is a wildcard pattern matching it. |
| GatewayCors.IsAllowAll | backend/api-gateway/internal/middleware/cors.go:97-104 | True exactly when "*" is an entry. |
| GatewayCors.ListHeader | backend/api-gateway/internal/middleware/cors.go:43-55 | A non-empty list is written joined by ", ". An empty list writes nothing. |
| GatewayCors.Cors | backend/api-gateway/internal/middleware/cors.go:26-75 | Disabled: the chain continues untouched. OPTIONS is answered as a preflight exactly when enabled. An allowed origin is echoed. A refused origin leaves Allow-Origin as it was. Allow-Methods, Allow-Headers and Expose-Headers each hold their configured list joined with ", ", and an empty list leaves that header as it was. Credentials write "true", and a positive max-age writes its decimal text. |
| GatewayCors.AllowAllIsAllowed | backend/api-gateway/internal/middleware/cors.go:36-40 | A "*" entry admits every origin, so the literal "*" branch is never taken. |
| GatewayCors.OriginEchoed | backend/api-gateway/internal/middleware/cors.go:36-40 | Any Allow-Origin the middleware writes is the request's own origin. |
| GatewayCors.CredentialedWildcardReflectsAnyOrigin | backend/api-gateway/internal/middleware/cors.go:36-60 | With "*" and credentials, every non-empty origin is reflected together with Allow-Credentials: true. |
| GatewayCors.MissingOriginSendsNoAllowOrigin | backend/api-gateway/internal/middleware/cors.go:36-40 | Under "*" a request without Origin gets no Allow-Origin, since echoing the empty origin deletes the header. |
| GatewayCors.WildcardAdmitsSubdomains | backend/api-gateway/internal/middleware/cors.go:107-119 | "*.d" matches every subdomain of d and d itself. |
| GatewayCors.MidPatternStarNeverMatches | backend/api-gateway/internal/middleware/cors.go:107-119 | A pattern not starting with "*" matches nothing. |
| GatewayCors.WildcardNeedsDot | backend/api-gateway/internal/middleware/cors.go:113-115 | "*.a.io" matches "http://b.a.io" but not "http://ba.io". |
| GatewayHealth.HealthyCount | backend/api-gateway/internal/handler/gateway_handler.go:41-47 | The healthy count never exceeds the number of backends. |
| GatewayHealth.Aggregate | backend/api-gateway/internal/handler/gateway_handler.go:50-59 | Critical (503) exactly when none is healthy, degraded (206) exactly when some but not all are, healthy (200) exactly when all of at least one are. |
| GatewayHealth.Statuses | backend/api-gateway/internal/proxy/proxy.go:300-346 | Each backend's recorded status is its probe's status, one per backend. |
| GatewayHealth.CountAllHealthy | backend/api-gateway/internal/handler/gateway_handler.go:41-47 | The count equals the number of backends exactly when every one is healthy. |
| GatewayHealth.CountNoneHealthy | backend/api-gateway/internal/handler/gateway_handler.go:41-47 | The count is zero exactly when none is healthy. |
| GatewayHealth.NoBackendsIsCritical | backend/api-gateway/internal/handler/gateway_handler.go:50-52 | No backends at all is critical, not healthy. |
| GatewayHealth.AllAnsweringIsHealthy | backend/api-gateway/internal/handler/gateway_handler.go:50-59 | Every backend answering below 400 makes the gateway healthy. |
| GatewayHealth.OneFailingIsDegraded | backend/api-gateway/internal/handler/gateway_handler.go:50-59 | One backend erroring or answering 400 or more among healthy ones makes it degraded. |
| GatewayHealth.NoneAnsweringIsCritical | backend/api-gateway/internal/handler/gateway_handler.go:50-59 | No backend answering below 400 makes it critical. |
| GatewayProxy.FirstPrefix | backend/api-gateway/internal/proxy/proxy.go:116-123 | The prefix found is in the iteration and starts the path. None is found exactly when no prefix starts the path. |
| GatewayProxy.ServiceByPath | backend/api-gateway/internal/proxy/proxy.go:116-123 | When some prefix starts the path, the service of one such prefix. Otherwise "". |
| GatewayProxy.ServiceByPathOrderFree | backend/api-gateway/internal/proxy/proxy.go:116-123 | When every matching prefix names the same service, Go's map order does not matter. |
| GatewayProxy.NestedPrefixesDependOnOrder | backend/api-gateway/internal/proxy/proxy.go:117-121 | With "/api" and "/api/orders" both mapped, the service chosen for "/api/orders/7" depends on the map's iteration order. |
| GatewayProxy.TargetPath | backend/api-gateway/internal/proxy/proxy.go:233-244 | With no matching prefix the path is unchanged. Otherwise the first prefix is removed and a leading "/" restored. |
| GatewayProxy.BuildTargetUrl | backend/api-gateway/internal/proxy/proxy.go:230-252 | The URL is scheme, "://", host and target path, followed by "?" and the raw query exactly when it is non-empty. |
| GatewayProxy.SelectionAndStrippingDisagree | backend/api-gateway/internal/proxy/proxy.go:116-123 | Selection and stripping iterate the map separately: a request routed to order-service can be sent the path "/orders/7". |
| GatewayProxy.SkipSet | backend/api-gateway/internal/proxy/proxy.go:257-266 | The skipped names include the eight listed. The as-written list lacks Keep-Alive. The completed list covers every hop-by-hop header of section 13.5.1 of RFC 2616. |
| GatewayProxy.CopyHeaders | backend/api-gateway/internal/proxy/proxy.go:255-276 | A header is copied exactly when it is not skipped and has a value, and then unchanged. |
| GatewayProxy.KeepAliveForwarded | backend/api-gateway/internal/proxy/proxy.go:257-266 | As written: a Keep-Alive header, hop-by-hop in RFC 2616, is forwarded to the backend. |
| GatewayProxy.NoHopByHopForwarded | backend/api-gateway/internal/proxy/proxy.go:255-276 | Corrected: no hop-by-hop header is forwarded, and every other header with a value is forwarded unchanged. |
| GatewayProxy.Scheme | backend/api-gateway/internal/proxy/proxy.go:279-289 | TLS gives "https". Otherwise a non-empty X-Forwarded-Proto, else "http". |
| GatewayProxy.TraceId | backend/api-gateway/internal/proxy/proxy.go:172-176 | An incoming trace id is kept. Otherwise one is generated from the prefix and the clock's decimal nanoseconds. |
| GatewayProxy.GeneratedTraceIdsDistinct | backend/api-gateway/internal/proxy/proxy.go:292-294 | Trace ids generated at different nanoseconds differ. |
| GatewayProxy.ForwardHeaders | backend/api-gateway/internal/proxy/proxy.go:163-176 | The five proxy headers carry the client IP, scheme, host and trace id. Every other header is exactly the filtered copy of the request's. |
| GatewayProxy.FirstValue | backend/api-gateway/internal/proxy/proxy.go:172 | The first value of a header, or "" when it is absent or has no value. |
| GatewayProxy.ProxyStatus | backend/api-gateway/internal/proxy/proxy.go:87-227 | No matching prefix gives 404. A service without a client gives 503. A body-read or request-build failure gives 500. A transport error gives 502. Otherwise the backend's status is relayed. |
| GatewayProxy.OtherStatusesAreBackends | backend/api-gateway/internal/proxy/proxy.go:182-220 | Any status other than the gateway's own four is the backend's, from a service with a client. |
| GatewayProxy.UnknownServiceUnavailable | backend/api-gateway/internal/proxy/proxy.go:49-108 | A prefix naming a service outside the four known names answers 503. |
| GatewayProxy.HealthPath | backend/api-gateway/internal/proxy/proxy.go:301-304 | The configured health path, or "/health" when none is configured. |
| GatewayProxy.ServiceStatus | backend/api-gateway/internal/proxy/proxy.go:327-340 | "error" exactly on a transport error, "unhealthy" exactly for a status of 400 or more, "healthy" otherwise. |
| HealthChecker.FixDirection | backend/inventory-service/internal/health/health_checker.go:133-138 | A negative difference (Redis below the database) repairs Redis from the database. Any other difference repairs the database from Redis. |
| HealthChecker.LatestPendingFrom | backend/inventory-service/internal/health/health_checker.go:163-169 | Corrected lookup: the newest pending record of the product, with no newer one, or 0 when there is none. |
| HealthChecker.DiffIdFor | backend/inventory-service/internal/health/health_checker.go:142-146 | As written every lookup yields record 1. The corrected lookup yields a pending record of the product itself. |
| HealthChecker.AutoFixDifference | backend/inventory-service/internal/health/health_checker.go:127-160 | No record id means no repair and no change. A reported repair marks the targeted record fixed. The database invariant is kept. |
| HealthChecker.FixLoop | backend/inventory-service/internal/health/health_checker.go:94-114 | Every drift is counted. At most the repairable drifts (auto-fix on and small enough) are repaired. With auto-fix off nothing is repaired or written. |
| HealthChecker.PerformHealthCheck | backend/inventory-service/internal/health/health_checker.go:78-124 | Every pass counts one check. A failed listing changes only that count. Repairs never exceed the differences found in the pass. |
| HealthChecker.RepairableAreDrifts | backend/inventory-service/internal/health/health_checker.go:105-107 | Every repairable response is a found difference. |
| HealthChecker.ResetStats | backend/inventory-service/internal/health/health_checker.go:184-187 | Resetting zeroes the statistics and keeps the service. |
| HealthChecker.Tick | backend/inventory-service/internal/health/health_checker.go:47-51 | A disabled checker never changes. An enabled one counts one check per tick. |
| HealthChecker.FirstRecordRepairsWrongProduct | backend/inventory-service/internal/health/health_checker.go:163-169 | As written: with drifts recorded for products 7 then 8, checking 8 repairs record 1 (product 7) and leaves 8's record pending. |
| HealthChecker.FirstRecordRepairedOnce | backend/inventory-service/internal/health/health_checker.go:142-148 | As written: once record 1 is fixed, no automatic repair ever succeeds again. |
| HealthChecker.LatestRecordRepairsOwnProduct | backend/inventory-service/internal/health/health_checker.go:142-148 | Corrected: a reported repair fixes a pending record of the checked product. When Redis was lower, Redis now holds that record's database stock. |
| InventoryModel.FindRow | backend/inventory-service/internal/model/inventory.go:27 | A product's row is found exactly when some row has its id, and the index found holds it. |
| InventoryModel.EmptyIsValid | backend/inventory-service/internal/model/inventory.go:25-40 | The empty database satisfies the invariant: unique products, available = stock - reserved, consistent diffs and logs, each row's stock equal to its last logged after-stock, and fresh diff ids. |
| InventoryService.StartRow | backend/inventory-service/internal/service/inventory_service.go:75-103 | A missing product starts with the default stock, nothing reserved, available equal to stock, version 0 and the low-stock threshold as minimum. |
| InventoryService.SyncStock | backend/inventory-service/internal/service/inventory_service.go:51-190 | A non-positive product id is an error. The sync succeeds exactly when nothing fails and the delta does not take the stock below zero. On success the new stock is before plus delta and one sync log is appended. Otherwise the database is unchanged. |
| InventoryService.FindAfterSync | backend/inventory-service/internal/service/inventory_service.go:123-141 | After the write, the product's row is found and is the written row. |
| InventoryService.LastAfterAppend | backend/inventory-service/internal/service/inventory_service.go:144-160 | Appending a log entry makes it the product's last after-stock and leaves other products' unchanged. |
| InventoryService.SyncKeepsValid | backend/inventory-service/internal/service/inventory_service.go:105-160 | Writing the row together with its log entry keeps the database invariant. |
| InventoryService.SyncKeepsStockNonNegative | backend/inventory-service/internal/service/inventory_service.go:109-120 | With a non-negative default, no sync ever makes a stock negative. |
| InventoryService.Classify | backend/inventory-service/internal/service/inventory_service.go:265-281 | The difference is Redis minus database stock. The status is diff_found exactly when its magnitude exceeds the tolerance. |
| InventoryService.RecordDrift | backend/inventory-service/internal/service/inventory_service.go:454-485 | A drift adds one pending record with the next id unless that insert fails, and then the records are unchanged. An alert is appended exactly when the magnitude exceeds the alert threshold and the alert insert works. |
| InventoryService.RecordedDriftsBound | backend/inventory-service/internal/service/inventory_service.go:472-485 | The drifts whose record was inserted are at most the drifts found, and all of them when no insert fails. |
| InventoryService.CheckRows | backend/inventory-service/internal/service/inventory_service.go:244-292 | Every response matches its product's Redis stock and tolerance. One diff record is added per drift whose insert works, and existing records are untouched. |
| InventoryService.CheckInventoryHealth | backend/inventory-service/internal/service/inventory_service.go:237-300 | A failed listing is an error with nothing written. Otherwise the found differences grow by the number of drifts, and the records by the drifts whose insert works. Rows, logs and old records are unchanged, and a valid database stays valid. |
| InventoryService.FoundDiffsCoverRecords | backend/inventory-service/internal/service/inventory_service.go:270-292 | A check counts at least as many drifts as it writes records for, and exactly as many when no insert fails. |
| InventoryService.StockAlert | backend/inventory-service/internal/service/inventory_service.go:436-469 | An alert exactly when the product has a row and the stock is at most 0 (out of stock, error) or at most the row's minimum (low stock, warning). |
| InventoryService.EmptyingSyncAlerts | backend/inventory-service/internal/service/inventory_service.go:172 | A sync that empties the stock succeeds and raises an out-of-stock alert. |
| InventoryService.MarkFixed | backend/inventory-service/internal/service/inventory_service.go:333-346 | Marking changes only that record's status to fixed. A failed update changes nothing. |
| InventoryService.FixInventoryDiff | backend/inventory-service/internal/service/inventory_service.go:303-355 | Only a pending record is fixed. An unknown fix type is refused. use_db sets Redis to the database stock. use_redis succeeds whenever the sync call returns without error, even when the sync refused the change. |
| InventoryService.RefusedRepairMarkedFixed | backend/inventory-service/internal/service/inventory_service.go:320-328 | As written: a use_redis repair whose sync is refused (stock 5, delta -8) is still marked fixed while the row keeps stock 5. |
| InventoryService.FixInventoryDiffChecked | backend/inventory-service/internal/service/inventory_service.go:318-328 | Corrected: a use_redis repair is marked fixed only when the sync succeeded. |
| InventoryService.CheckedRepairConverges | backend/inventory-service/internal/service/inventory_service.go:318-346 | Corrected: a successful use_redis repair leaves the database row at the recorded Redis stock. |
| Limiter.NewTokenBucket | backend/seckill-service/internal/flowcontrol/limiter.go:31-39 | A new bucket starts full at the given rate. |
| Limiter.Refill | backend/seckill-service/internal/flowcontrol/limiter.go:90-104 | Tokens only grow, and are capped at the capacity. The refill instant moves only when a whole token has been earned; otherwise nothing changes. The bucket invariant is kept. |
| Limiter.BucketAllowN | backend/seckill-service/internal/flowcontrol/limiter.go:47-59 | After refilling, n tokens are granted exactly when available and then deducted. A refusal keeps the refilled bucket. |
| Limiter.GetTokens | backend/seckill-service/internal/flowcontrol/limiter.go:107-112 | The token count reported is the refilled one, and one token is grantable exactly when it is at least 1. |
| Limiter.BurstAdmitsCapacity | backend/seckill-service/internal/flowcontrol/limiter.go:47-59 | At one instant, k requests of one token are admitted up to the tokens present, and no more. |
| Limiter.OneTokenAfterInterval | backend/seckill-service/internal/flowcontrol/limiter.go:90-104 | After one token's worth of time has passed, a single-token request is admitted. |
| Limiter.WaitNGuard | backend/seckill-service/internal/flowcontrol/limiter.go:67-70 | A wait for more tokens than the capacity is refused at once. |
| Limiter.WaitPauseAsWritten | backend/seckill-service/internal/flowcontrol/limiter.go:78 | The pause is a whole number of seconds (integer division before scaling): a shortfall under one second's refill waits zero. |
| Limiter.SubSecondPauseIsZero | backend/seckill-service/internal/flowcontrol/limiter.go:78 | At 10 tokens a second, waiting for one missing token pauses 0 s rather than 100 ms. |
| Limiter.NewSlidingWindow | backend/seckill-service/internal/flowcontrol/limiter.go:124-131 | A new sliding window holds no requests. |
| Limiter.Recent | backend/seckill-service/internal/flowcontrol/limiter.go:143-152 | Exactly the requests newer than the cutoff are kept, in order. |
| Limiter.WindowAllowN | backend/seckill-service/internal/flowcontrol/limiter.go:139-166 | n requests are admitted exactly when the recent ones plus n fit the limit, and are then recorded n times at now. Old ones are dropped either way. |
| Limiter.GetCurrentRequests | backend/seckill-service/internal/flowcontrol/limiter.go:190-205 | The reported count never exceeds the stored requests, and one more is admitted exactly when the count is below the limit. |
| Limiter.WindowBounded | backend/seckill-service/internal/flowcontrol/limiter.go:139-166 | A window within its limit stays within it. |
| Limiter.RecentKeepsOrder | backend/seckill-service/internal/flowcontrol/limiter.go:143-152 | Dropping old requests keeps timestamps in order. |
| Limiter.WindowKeepsOrder | backend/seckill-service/internal/flowcontrol/limiter.go:139-166 | The recorded timestamps stay in order under any admission. |
| Limiter.NewFixedWindow | backend/seckill-service/internal/flowcontrol/limiter.go:218-226 | A new fixed window starts empty at now. |
| Limiter.FixedAllowN | backend/seckill-service/internal/flowcontrol/limiter.go:234-253 | An elapsed window restarts at now with a zero count. n is admitted exactly when it fits the count, and a window within its limit stays within it. |
| Limiter.GetCurrentCount | backend/seckill-service/internal/flowcontrol/limiter.go:282-292 | An elapsed window reports zero, and one more request is admitted exactly when the count is below the limit. |
| Limiter.StubAllowN | backend/seckill-service/internal/flowcontrol/limiter.go:320-327 | The distributed limiter stub admits everything. |
| Limiter.FirstRefusal | backend/seckill-service/internal/flowcontrol/limiter.go:370-377 | Every limiter before the first refusal admits, and the one at it refuses. |
| Limiter.ChainAllowN | backend/seckill-service/internal/flowcontrol/limiter.go:370-377 | The chain admits exactly when every limiter admits. Limiters up to and including the first refusal are charged; later ones are untouched. |
| Limiter.StubNeverRefuses | backend/seckill-service/internal/flowcontrol/limiter.go:320-327 | Appending the stub to a chain never changes its verdict. |
| LuaScripts.SimpleScript | backend/seckill-service/internal/seckill/lua_scripts.go:99-151 | Succeeds exactly for a positive quantity, a new user and enough stock. It then deducts the quantity, adds the user and returns the new stock. Each failure returns its own code and writes nothing. |
| LuaScripts.ToNumberOfDecimal | backend/seckill-service/internal/seckill/lua_scripts.go:44-45 | Decimal integer text reads back through tonumber as the number it was written from. |
| LuaScripts.Rfc3339NotANumber | backend/seckill-service/internal/seckill/lua_scripts.go:44-45 | An RFC 3339 time, a four-digit year followed by "-", reads through tonumber as nil. |
| LuaScripts.FullScript | backend/seckill-service/internal/seckill/lua_scripts.go:4-96 | The script raises an error, with no write, exactly when it compares now with a window bound that tonumber read as nil. Otherwise it behaves as the simple script, and additionally the activity must exist with now inside its numeric window, both ends inclusive. Success also writes a pending purchase record. |
| LuaScripts.RollbackScript | backend/seckill-service/internal/seckill/lua_scripts.go:154-181 | A user who has not bought gets 0 and nothing changes. Otherwise the stock is raised by the quantity and the user leaves the set. |
| LuaScripts.RollbackUndoesPurchase | backend/seckill-service/internal/seckill/lua_scripts.go:154-181 | Rolling back a successful purchase restores exactly the store before it. |
| LuaScripts.BatchCheckScript | backend/seckill-service/internal/seckill/lua_scripts.go:184-199 | One 0/1 entry per user id, in order: 1 exactly when the user has bought. |
| LuaScripts.StatsScript | backend/seckill-service/internal/seckill/lua_scripts.go:202-232 | The stats report the stock (0 when absent), the number of buyers, and the activity exactly when it exists. |
| LuaScripts.PurchaseVisibleInStats | backend/seckill-service/internal/seckill/lua_scripts.go:213-231 | A successful purchase shows as exactly quantity less stock and one more buyer. |
| LuaScripts.NoOversell | backend/seckill-service/internal/seckill/lua_scripts.go:143-150 | Over any sequence of purchase attempts the stock never goes negative. The stock sold equals the winning quantities. Every winner is a distinct new buyer. |
| OrderConsumer.Dispatch | backend/order-service/internal/mq/consumer.go:158-180 | A stock-update or user-notify message is acknowledged exactly when its body decodes and the store is untouched. A body that does not decode is refused. A seckill order is acknowledged exactly when the order handler accepts it. |
| OrderConsumer.RabbitHandle | backend/order-service/internal/mq/consumer.go:146-191 | A message without a readable type is dropped (Nack without requeue). An unknown type is acked and changes nothing. A known type whose body does not decode is requeued. A known type is acked exactly when dispatch succeeds, otherwise requeued. The database invariants are kept. |
| OrderConsumer.KafkaHandle | backend/order-service/internal/mq/consumer.go:255-297 | The Kafka consumer has the same effect on the order service as the RabbitMQ consumer, and an untyped or unknown message changes nothing. |
| OrderConsumer.ConsumeKeepsOneOrder | backend/order-service/internal/model/order.go:142-160 | Over any sequence of deliveries on either broker the database invariants hold, so no two orders share a (user, product) pair. |
| OrderConsumer.AckedEventRedelivered | backend/order-service/internal/mq/consumer.go:160-189 | A seckill event that was acked, delivered again, is acked again and creates no second order. |
| OrderConsumer.InvalidEventRequeuedForever | backend/order-service/internal/mq/consumer.go:182-186 | A seckill event that fails validation is requeued, writes one more failure record and creates no order, on every delivery. |
| OrderModel.OneOrderPerBuyer | backend/order-service/internal/model/order.go:142-160 | In a well-formed database two orders with the same user and product are the same order. |
| OrderModel.ZeroPriceNeverBinds | backend/order-service/internal/model/order.go:171 | The request binding rejects a price of zero, because a required number must be non-zero. |
| OrderModel.WithDefaults | backend/order-service/internal/model/order.go:83 | An inserted failure record with max retries 0 gets the column default 3; any other field is kept. |
| OrderModel.InsertFailure | backend/order-service/internal/model/order.go:74-88 | Inserting a failure record stores it under the next id, leaves orders, items and idempotency rows alone, and keeps the invariants. |
| OrderService.ValidateOrderRequest | backend/order-service/internal/service/order_service.go:229-249 | A request passes exactly when it has an order id, positive user, product and quantity, a non-negative price and an order type. Otherwise the first failing check, in that order, names the error, one message per check. |
| OrderService.BoundRequestValidates | backend/order-service/internal/service/order_service.go:229-249 | A request the binding accepts, with positive user and product ids, always passes validation. |
| OrderService.CheckIdempotency | backend/order-service/internal/service/order_service.go:252-267 | The check passes exactly when the query works and the buyer has no row for the product, and reports a duplicate exactly when such a row exists. |
| OrderService.CreateOrder | backend/order-service/internal/service/order_service.go:137-226 | Creation succeeds exactly when validation, the idempotency check and the three inserts succeed. A new order is pending, priced quantity times price, and expires after the order timeout; order, item and idempotency row are appended together. Any error leaves the database as it was. A duplicate is reported exactly for a valid request whose buyer already has a row. The database invariants are kept. |
| OrderService.AppendKeepsWellFormed | backend/order-service/internal/model/order.go:142-160 | Appending an order for a new buyer-product pair and a new order id keeps both unique indexes. |
| OrderService.RequestFor | backend/order-service/internal/service/order_service.go:62-71 | The request built from a seckill message carries its order id, user, product, quantity and price, with order type seckill. |
| OrderService.RecordOrderFailure | backend/order-service/internal/service/order_service.go:291-312 | A recorded failure is pending, has retry count 0, an empty failure type, the original message, and a next retry one initial interval later; earlier records and all orders are kept. An insert error writes nothing. |
| OrderService.HandleSeckillOrder | backend/order-service/internal/service/order_service.go:51-99 | The handler passes exactly when the order is created or is a duplicate. It counts every message once, and success, duplicate and failure counters add up to the total. On failure no order is written and a failure record is added unless its insert fails. |
| OrderService.RedeliveryAddsNoOrder | backend/order-service/internal/service/order_service.go:75-85 | A message handled successfully, handled again, passes as a duplicate and adds no order. |
| OrderService.HandledEventsKeepOneOrder | backend/order-service/internal/service/order_service.go:51-99 | After handling a message no two orders share a user and product. |
| OrderService.FindOrder | backend/order-service/internal/service/order_service.go:567-568 | The lookup finds an order exactly when one carries the id, and returns its position. |
| OrderService.CancelWithKeys | backend/order-service/internal/service/order_service.go:558-606 | A cancel whose update sets a given key set succeeds exactly when both queries work, every key is a column of the orders table, and the order exists and is neither cancelled nor completed. Only that order's status changes, to cancelled. A missing order reports not found, and any failure leaves the database unchanged. |
| OrderService.CancelOrder | backend/order-service/internal/service/order_service.go:558-606 | As written, the cancel never succeeds and never changes the database. An order that would be cancelled gets the store error, because the update names a "remark" column the table lacks. Every other refusal matches the corrected cancel. |
| OrderService.CancelOrderNoRemark | backend/order-service/internal/service/order_service.go:578-598 | With the update limited to status and update time, cancelling succeeds exactly when the order exists, is neither cancelled nor completed, and both queries work. Only that order's status changes. |
| OrderService.PendingCancelFails | backend/order-service/internal/service/order_service.go:589-593 | For a pending order with working queries, the cancel as written returns the store error and leaves the database unchanged, while the corrected cancel succeeds. |
| OrderService.CancelTwice | backend/order-service/internal/service/order_service.go:578-582 | With the corrected cancel, cancelling an order a second time reports that it is already cancelled. |
| OrderService.PaidOrderIsCancellable | backend/order-service/internal/service/order_service.go:578-586 | With the corrected cancel, a paid order can be cancelled, since only cancelled and completed orders are refused. |
| OrderService.RetryWithKeys | backend/order-service/internal/service/order_service.go:671-714 | A retry whose failed-rerun update sets a given key set reports a lookup error, a missing record and an already successful record without any change. A successful rerun marks the record success when the update lands. A failed rerun adds one to the retry count only when the update lands and every key is a column, and it leaves the status alone. |
| OrderService.RetryFailedOrder | backend/order-service/internal/service/order_service.go:671-714 | As written, a failed rerun never changes the record's retry count, because its update names a "last_error" column the failure table lacks. The other outcomes match the corrected retry. |
| OrderService.RetryFailedOrderNoLastError | backend/order-service/internal/service/order_service.go:695-709 | With the failed-rerun update limited to existing columns, a failed rerun adds one to the retry count when the update lands. |
| OrderService.RetryCountStaysPut | backend/order-service/internal/service/order_service.go:697-702 | The retry as written and the corrected retry give the same outcome. They differ only after a failed rerun, where the corrected one has counted one more attempt. |
| OrderService.FailedRetryAddsRecord | backend/order-service/internal/service/order_service.go:695-703 | A retry that fails again writes a new pending failure record through the handler, and the retried record stays pending. |
| OrderService.ProcessFailedOrder | backend/order-service/internal/service/order_service.go:773-791 | A failure record is processed exactly when its type is inventory lock, payment or order creation. |
| OrderService.RecordedFailuresNeverProcess | backend/order-service/internal/service/order_service.go:294-305 | A record written by the order handler has an empty failure type, so processing it always fails. |
| OrderService.TotalPages | backend/order-service/internal/service/order_service.go:492-495 | The page count is undefined (a division by zero) exactly for page size 0. For a positive size it is the least number of pages that holds every row. For a negative size it is at most 1. |
| OrderService.ListTotals | backend/order-service/internal/service/order_service.go:447-504 | When the count succeeds and the page size is non-zero, the total is the number of orders matching every given filter and the page count follows from it. |
| OrderService.NoFilterCountsAll | backend/order-service/internal/service/order_service.go:452-470 | With no filter the total counts every order. |
| RequestQueue.NewRequestQueue | backend/seckill-service/internal/flowcontrol/queue.go:56-65 | A new queue is open and empty, has zero statistics and keeps the requested capacity. |
| RequestQueue.Enqueue | backend/seckill-service/internal/flowcontrol/queue.go:184-199 | A closed queue refuses and changes nothing. A done context is refused without counting. A queue with room appends the item and counts it as total and queued. A full queue appends nothing and counts it as total and failed. Capacity and the closed flag are kept. |
| RequestQueue.Submit | backend/seckill-service/internal/flowcontrol/queue.go:170-199 | A closed queue refuses with its statistics unchanged. An accepted request is appended at the back with its id, the request itself, its arrival time and its timeout. |
| RequestQueue.SubmitAsync | backend/seckill-service/internal/flowcontrol/queue.go:216-245 | The asynchronous submit admits requests exactly as the synchronous one does. |
| RequestQueue.UpdateStats | backend/seckill-service/internal/flowcontrol/queue.go:266-293 | A finished item leaves the queued count and adds one to exactly one of processed, failed and timed out. The maximum wait is the larger of the old maximum and this wait. Once something has been processed the average is never above the larger of the old average and this wait; before that it is this wait. |
| RequestQueue.FirstSuccessHalvesWait | backend/seckill-service/internal/flowcontrol/queue.go:286-292 | On a fresh queue the first processed item records half its wait as the average, because the average starts from zero. |
| RequestQueue.SuccessAfterFailureAverages | backend/seckill-service/internal/flowcontrol/queue.go:286-292 | Before any success the average is the latest wait, so the first success after a failure averages its wait with that failure's wait. |
| RequestQueue.ProcessItem | backend/seckill-service/internal/flowcontrol/queue.go:115-149 | An item times out exactly when its timeout is positive and has passed; then the processor is not run. Otherwise it counts as processed exactly when the processor succeeds. |
| RequestQueue.Work | backend/seckill-service/internal/flowcontrol/queue.go:100-112 | A worker takes the oldest pending item, if any, and reports what processing it gave. |
| RequestQueue.ReplayBalanced | backend/seckill-service/internal/flowcontrol/queue.go:184-199 | Over any sequence of arrivals and services the totals balance and the backlog never exceeds the capacity. |
| RequestQueue.InsertionPoint | backend/seckill-service/internal/flowcontrol/queue.go:393-407 | The insertion point comes after every item of priority at least as high and before the first item of lower priority. |
| RequestQueue.InsertByPriority | backend/seckill-service/internal/flowcontrol/queue.go:393-407 | Inserting adds exactly the new item at the insertion point and keeps every other item. |
| RequestQueue.InsertKeepsOrder | backend/seckill-service/internal/flowcontrol/queue.go:393-407 | Inserting into a list ordered by non-increasing priority keeps it ordered, and equal priorities stay first-come first-served. |
| RequestQueue.NextPriorityItem | backend/seckill-service/internal/flowcontrol/queue.go:410-421 | An empty list yields nothing; otherwise the head is taken and the rest is kept in order. |
| RequestQueue.NextIsHighest | backend/seckill-service/internal/flowcontrol/queue.go:410-421 | From an ordered list the taken item has the highest priority and the rest stays ordered. |
| RequestQueue.SubmitWithPriority | backend/seckill-service/internal/flowcontrol/queue.go:351-390 | A closed queue refuses without change. Otherwise the request is counted as total and queued, the list gains exactly that item, and an ordered list stays ordered. The call then never succeeds: it ends with the context error when the caller's context ends and otherwise never returns. |
| SeckillCore.ResultMessage | backend/seckill-service/internal/seckill/seckill_core.go:193-212 | Every known result code has its own message and any other code gets the unknown-result message. |
| SeckillCore.ResultMessagesDistinct | backend/seckill-service/internal/seckill/seckill_core.go:193-212 | Two different known codes never share a message. |
| SeckillCore.ParseSeckillResult | backend/seckill-service/internal/seckill/seckill_core.go:162-190 | A result succeeds exactly when its code is Success and never carries an order id. An array reply gives the code and remaining stock from its first two entries, an integer reply gives the code with zero stock. A well-shaped reply gets the code's message, and anything else is a system error with the parse-failure message. |
| SeckillCore.ExecuteSeckill | backend/seckill-service/internal/seckill/seckill_core.go:120-159 | A request with a non-positive product, user or quantity is rejected as invalid quantity without touching the store. A failing script is a system error that also returns the error. Otherwise the store and the result are those of the purchase script on the product's stock and buyer keys. A failed purchase never changes the store. |
| SeckillCore.ExecuteSeckillSuccess | backend/seckill-service/internal/seckill/seckill_core.go:120-159 | A successful purchase takes exactly the quantity from the product's stock, leaves it non-negative, reports it as the remaining stock and records a first-time buyer. |
| SeckillCore.ExecuteSeckillFrame | backend/seckill-service/internal/seckill/seckill_core.go:130-136 | A purchase never changes another product's stock or buyers. |
| SeckillCore.RollbackStock | backend/seckill-service/internal/seckill/seckill_core.go:215-241 | A failing script reports an error and changes nothing. Otherwise a recorded buyer is removed and the quantity returned to stock, and an unknown buyer changes nothing. |
| SeckillCore.PurchaseThenRollback | backend/seckill-service/internal/seckill/seckill_core.go:215-241 | Rolling back a successful purchase restores the store as it was before the purchase. |
| SeckillCore.ParseStatuses | backend/seckill-service/internal/seckill/seckill_core.go:268-280 | An array reply yields one flag per entry, true exactly for the entry 1; any other reply is a parse error. |
| SeckillCore.BatchCheckUserStatus | backend/seckill-service/internal/seckill/seckill_core.go:244-281 | An error is returned exactly when the script fails; otherwise there is one flag per user id, in order, true exactly when that user has bought the product. |
| SeckillCore.IsUserPurchased | backend/seckill-service/internal/seckill/seckill_core.go:334-345 | The answer is true exactly when the user is recorded as a buyer of the product, and an error exactly when the script fails. |
| SeckillCore.GetSeckillStats | backend/seckill-service/internal/seckill/seckill_core.go:284-331 | The stats carry the product id, the stock (0 when absent), the number of buyers and the activity exactly when it exists; a failing script returns an error. |
| SeckillCore.PrewarmActivity | backend/seckill-service/internal/seckill/seckill_core.go:348-370 | Prewarm succeeds exactly when neither write fails. A failing stock write changes nothing. Otherwise the stock is set to the activity's stock and no buyer set is touched. The activity is stored only when its write succeeds. |
| SeckillCore.PrewarmThenPurchase | backend/seckill-service/internal/seckill/seckill_core.go:348-370 | After a prewarm, a valid first purchase within the stock succeeds. |
| SeckillCore.PrewarmedWindowRaises | backend/seckill-service/internal/seckill/seckill_core.go:357-363 | As written, the prewarmed document holds RFC 3339 times, so after a prewarm the full script raises on every purchase of a positive quantity, at any time. |
| SeckillCore.UnixTimesDocument | backend/seckill-service/internal/seckill/seckill_core.go:357-363 | A document whose times are written as decimal Unix seconds reads back, through tonumber, the exact start and end seconds. |
| SeckillCore.PrewarmActivityUnixTimes | backend/seckill-service/internal/seckill/seckill_core.go:348-370 | The corrected prewarm succeeds exactly without a fault. It then sets the stock, leaves the buyer sets alone, and stores a document whose bounds read back as the given seconds. |
| SeckillCore.UnixPrewarmWindow | backend/seckill-service/internal/seckill/lua_scripts.go:47-53 | After the corrected prewarm the full script never raises. Before the start it answers not started, and after the end it answers ended. Inside the window a purchase succeeds exactly when the buyer is new and the stock covers it. |
| SeckillCore.CleanupActivity | backend/seckill-service/internal/seckill/seckill_core.go:373-387 | Cleanup removes the product's stock, buyers and activity, and a failing delete changes nothing. |
| SeckillCore.OrderIdAmbiguous | backend/seckill-service/internal/seckill/seckill_core.go:390-393 | Order ids glue product, user and time together without separators, so product 1 with user 23 and product 12 with user 3 get the same id at the same instant. |
| SeckillHandler.StatusFor | backend/seckill-service/api/rest/handler.go:57-69 | Success maps to 200, system busy to 429, insufficient stock and already bought to 409, and every other code to 400. |
| SeckillHandler.SystemErrorIsBadRequest | backend/seckill-service/api/rest/handler.go:68-69 | A system error and an invalid quantity are both answered with 400. |
| SeckillHandler.SeckillPurchase | backend/seckill-service/api/rest/handler.go:28-72 | A missing body or a non-positive product, user or quantity is answered with 400 and touches nothing. Otherwise a service error is answered with 500, and a result with the status its code maps to. |
| SeckillHandler.InvalidRequestTouchesNothing | backend/seckill-service/api/rest/handler.go:38-44 | An invalid purchase request is answered with 400 and leaves the service unchanged. |
| SeckillHandler.SeckillPurchaseAsync | backend/seckill-service/api/rest/handler.go:75-108 | Invalid input is answered with 400 and touches nothing; an accepted request is answered with 202 and a refused one with 503. |
| SeckillHandler.PrewarmActivity | backend/seckill-service/api/rest/handler.go:111-143 | A missing body, a non-positive product or a non-positive stock is answered with 400 and touches nothing. Otherwise the answer is 200 exactly when the prewarm succeeds, and 500 otherwise. |
| SeckillKeys.KeysInjective | backend/seckill-service/internal/seckill/seckill_core.go:130-132 | Two products share a stock, buyer or activity key only when they are the same product. |
| SeckillKeys.KeyFamiliesDisjoint | backend/seckill-service/internal/seckill/seckill_core.go:285-287 | A stock key, a buyer-set key and an activity key never coincide, whatever the products. |
| SeckillKeys.PurchaseKeyInjective | backend/seckill-service/internal/seckill/lua_scripts.go:83 | A purchase key determines both its product and its user. |
| SeckillService.Uint32 | backend/seckill-service/internal/service/seckill_service.go:110 | The conversion to uint32 keeps values in range and wraps others modulo 2^32. |
| SeckillService.ServiceBreakerConfig | backend/seckill-service/internal/service/seckill_service.go:108-120 | The breaker counts over 60-second intervals, uses the recovery timeout, admits the half-open request count converted to uint32, and trips on at least three requests with at least the threshold of failures. |
| SeckillService.NegativeHalfOpenWraps | backend/seckill-service/internal/service/seckill_service.go:110 | A half-open request count of -1 becomes 4294967295. |
| SeckillService.NewService | backend/seckill-service/internal/service/seckill_service.go:45-143 | A new service has a full token bucket of the burst size, a closed breaker with the configured trip rule, zero statistics, an empty outbox and an empty queue. |
| SeckillService.IsSystemBusy | backend/seckill-service/internal/service/seckill_service.go:297-309 | The system never reports itself busy. |
| SeckillService.ExecuteSeckillStep | backend/seckill-service/internal/service/seckill_service.go:210-253 | Each executed request is counted once, as a success or a failure. A store error becomes a system error result. A success carries the generated order id. A failure publishes nothing and leaves the store. The limiter, breaker and queue are untouched. |
| SeckillService.ProcessSeckill | backend/seckill-service/internal/service/seckill_service.go:168-207 | A request the bucket refuses is answered busy and counted as rate limited. One the open breaker refuses is answered busy and counted as a breaker trip. One refused as too many half-open requests is an error with the store untouched. An admitted request gets the executed result, recorded by the breaker as a success. |
| SeckillService.SendFailuresInvisible | backend/seckill-service/internal/service/seckill_service.go:229-240 | Whether publishing the order or the stock message fails changes neither the answer nor the store. |
| SeckillService.SuccessPublishes | backend/seckill-service/internal/service/seckill_service.go:224-240 | A successful purchase publishes an order message with the generated id, the quantity and the fixed price 99.99, then a stock update with the remaining stock. |
| SeckillService.BreakerNeverOpens | backend/seckill-service/internal/service/seckill_service.go:194-207 | Because the executed step never returns an error, a breaker that is not open never opens and never counts a failure. |
| SeckillService.StoreOutageKeepsBreakerClosed | backend/seckill-service/internal/service/seckill_service.go:214-222 | A store outage is answered as a system error while the breaker stays closed. |
| SeckillService.ProcessSeckillAsync | backend/seckill-service/internal/service/seckill_service.go:322-356 | A request the bucket refuses is counted as rate limited and not queued. Otherwise it is submitted with a 30-second timeout, a full queue is counted, and the store and breaker are untouched. |
| SeckillService.ServeQueued | backend/seckill-service/internal/service/seckill_service.go:312-319 | A worker step on an empty queue changes nothing. Otherwise the head is taken. An expired head is not purchased. Any other head is purchased as the synchronous step would purchase it, with the limiter and the breaker untouched, and counted by the queue as processed whatever the purchase's result. |
| SeckillService.AcceptedAsyncIsPurchased | backend/seckill-service/internal/service/seckill_service.go:312-356 | A request accepted onto an empty queue and served within 30 seconds is purchased exactly as the synchronous step would purchase it at serving time. This holds whatever the breaker's state, and the queue is left empty. |

## Behaviour worth knowing

These are facts of the Go code that the model follows and that a reader might
not expect:

- Request fields are validated by the HTTP handler. The seckill core checks
  them again only after the rate limiter and the breaker have admitted the
  request.
- A failed half-open trial reopens the breaker only when the trip rule holds
  on the new counts (see Findings).
- A successful purchase sends the order message first, then the stock
  update. Every order message carries the fixed price 99.99.
- The system-busy check always answers "not busy".
- The RabbitMQ consumer requeues every handler error, including a failed
  validation, so an invalid order message is redelivered, and recorded as a
  failure, forever (`OrderConsumer.InvalidEventRequeuedForever`).
- A failure record whose insert fails is only logged
  (`OrderService.RecordOrderFailure`), and the Kafka consumer logs and drops
  every error.
- The gateway's own expiry check runs after the JWT library has already
  refused expired tokens, so it only ever refuses an `exp` of 0
  (`GatewayAuth.OwnCheckOnlyCatchesZero`).
- The full purchase script, the one with the activity window, is never
  loaded by `InitScripts`. The production path runs the simple script. The
  window finding below applies once the full script is used.
- Nothing reads the priority list: `getNextPriorityItem` has no caller and
  the workers take items only from the plain queue. A `SubmitWithPriority`
  call therefore never gets a reply. It ends with the caller's context error,
  or blocks for good (`RequestQueue.SubmitWithPriority`).
- The asynchronous path consults the rate limiter when it queues a request.
  The worker that later runs the purchase consults neither the limiter nor
  the breaker (`SeckillService.ServeQueued`).
- `Limit` follows GORM 1.24 and later, where a negative limit writes no
  `LIMIT` clause. The source pins no GORM version.

## Left out

- Goroutines, channels, mutexes, worker pools, cron jobs and tickers: every operation is one atomic step on an immutable state. A queue worker is one `ServeQueued` step, the scheduling of the ten workers is not modelled, and neither is the renewal loop of `LockWithAutoRenew`.
- JSON encoding and decoding: whether a body decodes is a boolean parameter, and decoded messages are values.
- JWT decoding, the signature check and HMAC-SHA256: a decoded token is a record of claims or nothing, and the signature function is a parameter. The library's default checks on `exp` and `nbf` are modelled (`GatewayAuth.ParseClaims`).
- GatewayAuth.ParseClaims: time claims are whole seconds. A fractional, `json.Number` or out-of-range `exp` or `nbf` is not modelled. `iat`, the audience and the issuer are not checked, because the gateway enables none of those checks, and the leeway is zero.
- `url.Parse` failures in the proxy: the set of services whose URL parses is a parameter.
- Network I/O, response-body copying, logging, metrics and the state-change observer callbacks.
- GORM soft delete: deleted rows are not represented, so the unique indexes cover every row.
- Configuration loading, router wiring and broker client set-up.
- Read-only statistics getters (`GetServiceStats`, `GetStats`, `GetRateLimitStats`, `GetAllStates`, `RemoveCircuitBreaker`, `GetQueueStats`, `GetFailedOrders`, `GetOrderStats`, `GetOrder`, `GetUserOrders`) and the paging of `GetCompensationTasks`: they only read state the model already exposes.
- The gateway's `Login` and `RefreshToken` HTTP handlers (`gateway_handler.go`) and token issuing: they call the token library, which is not part of this model. The refresh-window check they rely on is modelled.
- `HandleStockUpdate` and `HandleUserNotify` in the order service only log; their effect on the store is nothing, and dispatch models them that way.
- `UpdateOrderStatus`, `calculateOrderStats` and the order cache writes: they do not affect the properties proved.
- The multi-level `WaitN` and the blocking wait loop of the token bucket: only the guard that rejects an oversized request is modelled (`Limiter.WaitNGuard`).
- `ExecuteWithContext` is modelled like `Execute`; context cancellation during the call is not.
- `TriggerCheck` in the health checker runs the same check as the ticker and is not modelled separately.
- Integer widths: `int64`, `uint32` and `uint64` counters are unbounded integers, except for the `uint32` conversions of the seckill breaker settings (`SeckillService.Uint32`) and the 64-bit timestamp subtraction in signature checking.
- Floating-point values: token rates, back-off multipliers, the 0.6 failure ratio and prices are exact rationals or integer cents. A float rounding difference is not modelled.
- OrderService.ListTotals: the start-date and end-date filters are not modelled, so the count is over the user, product, status and type filters only.
- RequestQueue.Submit: the wait for the worker's reply after admission is not modelled; only the admission step and its statistics are.
- RequestQueue.SubmitAsync: the callback goroutine is not modelled; only the admission step and its statistics are.
- SeckillService.ProcessSeckill: the degradation message of the busy check is not modelled, because `isSystemBusy` never reports busy.
- GatewayLimiter: the expiry set on the sliding-window key is not modelled; entries leave the window only by their score.
- GatewayLimiter: window scores are exact integers here, while Redis stores sorted-set scores as float64, so nanosecond timestamps above 2^53 round. A failed pipeline is taken to write nothing (`GatewayLimiter.CheckWindow`), while Redis may already have applied some of its commands, such as the trim or the add, before the error.
- SeckillCore.PrewarmActivity: the 24-hour expiry on the stock and activity keys is not modelled. After a day Redis drops both, and purchases then answer stock-not-found. The simple script's own SET of the stock also clears that expiry.
- LuaScripts.ToNumber: Lua's `tonumber` also reads hexadecimal, floating-point and space-padded text. Only signed decimal integers are modelled, which covers every value the model writes.
- InventoryService.RecordDrift: a failed insert is taken not to consume an auto-increment id.
- OrderModel.UpdateApplies: only the missing-column error of a map update is modelled. Other database errors are the explicit fault flags.

## Findings

| source | as written | input that shows it | evidently intended | confidence | as-written member | corrected member |
|---|---|---|---|---|---|---|
| backend/cache-service/internal/seckill/seckill.go:113-130 | The decrement script and the purchase accept any non-zero quantity, so a negative one adds stock. | 10 in stock, a purchase of -5 succeeds and leaves 15. | Refuse a non-positive quantity, so a purchase never raises the stock. | not executed | CacheSeckill.NegativeQuantityRaisesStock | CacheSeckill.CriticalSectionChecked |
| backend/seckill-service/internal/flowcontrol/circuit_breaker.go:218-224 | A failure in HALF_OPEN reopens the breaker only when the trip rule holds on the new counts. | Default trip rule, one probe: the probe fails with 1 request, the rule needs 3, so the breaker stays HALF_OPEN with its slot used and refuses every later call. | Any failed probe reopens the breaker. | not executed | CircuitBreaker.HalfOpenFailureSticks | CircuitBreaker.FailedProbeRecovers |
| backend/inventory-service/internal/service/inventory_service.go:320-328 | A use_redis repair checks only the sync's error, not its success flag, and marks the difference fixed. | A row with stock 5 and a pending record of database stock 10 and Redis stock 2: the sync of -8 is refused, yet the record is marked fixed and the row keeps 5. | Mark the record fixed only when the sync succeeded. | not executed | InventoryService.RefusedRepairMarkedFixed | InventoryService.CheckedRepairConverges |
| backend/inventory-service/internal/health/health_checker.go:163-169 | The automatic fix always repairs difference record 1, whatever product was checked. | Drifts recorded for product 7 then product 8: checking 8 repairs record 1, which belongs to 7, and 8's record stays pending. | Repair the latest pending record of the checked product. | not executed | HealthChecker.FirstRecordRepairsWrongProduct | HealthChecker.LatestRecordRepairsOwnProduct |
| backend/api-gateway/internal/proxy/proxy.go:257-266 | The skip list of hop-by-hop headers leaves out Keep-Alive, which section 13.5.1 of RFC 2616 lists. | A request with `Keep-Alive: timeout=5` has that header forwarded to the backend. | Forward no hop-by-hop header. | not executed | GatewayProxy.KeepAliveForwarded | GatewayProxy.NoHopByHopForwarded |
| backend/api-gateway/internal/middleware/auth.go:205-208 | The signature freshness test subtracts a client timestamp from now in 64-bit arithmetic, which wraps. | A timestamp of -9223372036854775808: now minus it wraps to a negative age, so the request passes at every positive time. | Bound the request's true age by the expiry. | not executed | GatewayAuth.MinTimestampNeverExpires | GatewayAuth.FreshCheckedBoundsAge |
| backend/order-service/internal/service/order_service.go:589-593 | The cancel's update sets a "remark" column, which the orders table does not have, so the statement fails and the transaction rolls back. This rests on the premise that the table holds exactly the order struct's columns, as `Database.AutoMigrate` creates it. The order service's main never calls `AutoMigrate`, and no SQL schema is part of the source. | A pending order with working queries: the cancel returns the store error and the order stays pending. | Update only the status and the update time, so a cancellable order is cancelled. | not executed | OrderService.PendingCancelFails | OrderService.CancelOrderNoRemark |
| backend/order-service/internal/service/order_service.go:697-702 | After a failed rerun the record update sets a "last_error" column, which the failure table does not have. The error is ignored, so the retry count never moves. This rests on the same premise, that the table holds exactly the failure struct's columns. | A pending record whose rerun fails: the retry returns the handler's error and the record's retry count is what it was. | Count the attempt: update only the retry count and the update time. | not executed | OrderService.RetryCountStaysPut | OrderService.RetryFailedOrderNoLastError |
| backend/seckill-service/internal/seckill/seckill_core.go:357-363 | The prewarm stores the activity as JSON, where its start and end times are RFC 3339 strings. The full purchase script reads them with `tonumber`, which yields nil, and comparing now with nil raises an error. | Any prewarmed activity, then a purchase of quantity 1 through the full script: the script raises instead of answering. | Store the window as Unix seconds, so the script compares numbers. | not executed | SeckillCore.PrewarmedWindowRaises | SeckillCore.UnixPrewarmWindow |

=== FILE: backoff.dfy ===
/** The retry back-off shared by the order service and the compensation
    manager: the interval starts at `initial`, is multiplied by the
    multiplier once per earlier retry (truncating to whole nanoseconds), and
    is clamped to `maxInterval` at the first overshoot, which also ends the
    loop. The float multiplier is the rational `mulNum / mulDen`. */
module Backoff {
  import opened Common

  type PosInt = x: int | x > 0 witness 1

  datatype RetryConfig = RetryConfig(initial: int, maxInterval: int, mulNum: int, mulDen: PosInt)

  /** `time.Duration(float64(d) * multiplier)`: the product truncated toward zero. */
  function Scale(c: RetryConfig, d: int): int {
    GoDiv(d * c.mulNum, c.mulDen)
  }

  /** The interval after `k` more steps from `d`, by the loop's rule. */
  function IntervalFrom(c: RetryConfig, d: int, k: nat): (r: int)
    ensures k == 0 ==> r == d
    ensures k >= 1 ==> r <= c.maxInterval
    decreases k
  {
    if k == 0 then d
    else if Scale(c, d) > c.maxInterval then c.maxInterval
    else IntervalFrom(c, Scale(c, d), k - 1)
  }

  /** The back-off before retry number `retryCount`; a negative count runs
      the loop zero times. */
  function Interval(c: RetryConfig, retryCount: int): (r: int)
    ensures retryCount <= 0 ==> r == c.initial
    ensures retryCount >= 1 ==> r <= c.maxInterval
  {
    if retryCount <= 0 then c.initial else IntervalFrom(c, c.initial, retryCount)
  }

  /** The loop as the source writes it. */
  method ComputeInterval(c: RetryConfig, retryCount: int) returns (interval: int)
    ensures interval == Interval(c, retryCount)
  {
    interval := c.initial;
    var i := 0;
    while i < retryCount
      invariant 0 <= i && (retryCount >= 0 ==> i <= retryCount)
      invariant IntervalFrom(c, interval, if retryCount - i > 0 then retryCount - i else 0) == Interval(c, retryCount)
      invariant i > 0 ==> interval <= c.maxInterval
    {
      interval := Scale(c, interval);
      if interval > c.maxInterval {
        interval := c.maxInterval;
        return;
      }
      i := i + 1;
    }
  }

  /** With a multiplier of at least one, scaling never shrinks a
      non-negative interval. */
  lemma ScaleGrows(c: RetryConfig, d: int)
    requires c.mulNum >= c.mulDen && d >= 0
    ensures Scale(c, d) >= d
  {
    assert d * c.mulNum >= d * c.mulDen by {
      MulMonotone(d, c.mulDen, c.mulNum);
    }
    assert d * c.mulDen - d * c.mulDen == 0;
    GoDivAtLeast(d * c.mulNum, c.mulDen, d);
  }

  lemma MulMonotone(d: int, a: int, b: int)
    requires d >= 0 && a <= b
    ensures d * a <= d * b
  {
  }

  lemma GoDivAtLeast(x: int, m: int, d: int)
    requires m > 0 && d >= 0 && x >= d * m
    ensures GoDiv(x, m) >= d
  {
    var q := GoDiv(x, m);
    if q < d {
      MulMonotone(m, q + 1, d);
      assert false;
    }
  }

  /** From the first retry on, the back-off never shrinks as retries
      accumulate, for a multiplier of at least one and a non-negative start. */
  lemma {:induction false} IntervalFromMonotone(c: RetryConfig, d: int, k: nat)
    requires c.mulNum >= c.mulDen && d >= 0 && k >= 1
    ensures IntervalFrom(c, d, k) <= IntervalFrom(c, d, k + 1)
    decreases k
  {
    var next := Scale(c, d);
    ScaleGrows(c, d);
    if next <= c.maxInterval {
      if k == 1 {
        ScaleGrows(c, next);
        assert IntervalFrom(c, next, 0) == next;
      } else {
        IntervalFromMonotone(c, next, k - 1);
      }
    }
  }

  lemma IntervalMonotone(c: RetryConfig, retryCount: int)
    requires c.mulNum >= c.mulDen && c.initial >= 0 && retryCount >= 1
    ensures Interval(c, retryCount) <= Interval(c, retryCount + 1)
  {
    IntervalFromMonotone(c, c.initial, retryCount);
  }

  /** Once the clamp is reached, it stays: the interval is capped for every
      later retry. */
  lemma {:induction false} ClampIsFinal(c: RetryConfig, d: int, k: nat)
    requires c.mulNum >= c.mulDen && d >= 0 && k >= 1 && IntervalFrom(c, d, k) == c.maxInterval
    ensures IntervalFrom(c, d, k + 1) == c.maxInterval
    decreases k
  {
    IntervalFromMonotone(c, d, k);
  }
}

=== FILE: cache_seckill.dfy ===
/** The cache service's purchase path: stock read and decrement, buyer-set
    bookkeeping, and a purchase that runs check, decrement and add under a
    per-product lock. Store failures are explicit inputs. */
module CacheSeckill {
  import opened Common
  import opened FastStore
  import Decimal
  import SeckillKeys
  import DL = DistributedLock

  /** Key prefixes come from configuration; TTLs are whole seconds. */
  datatype Config = Config(stockKeyPrefix: string, userKeyPrefix: string, lockKeyPrefix: string, defaultTtlSeconds: int)

  function StockKey(cfg: Config, productId: int): string {
    cfg.stockKeyPrefix + Decimal.IntToString(productId)
  }

  function UserKey(cfg: Config, productId: int): string {
    cfg.userKeyPrefix + Decimal.IntToString(productId)
  }

  function LockKey(cfg: Config, productId: int): string {
    cfg.lockKeyPrefix + Decimal.IntToString(productId)
  }

  datatype CacheError =
    | ClientFailed
    | StockNotFound
    | StockUnparsable
    | ScriptFailed
    | InsufficientStock
    | UnexpectedReply
    | LockUnavailable(cause: DL.LockError)
    | CheckFailed
    | AlreadyPurchased
    | DecrementFailed(reason: CacheError)
    | AddPurchaseFailed
    | SetInfoFailed
    | InvalidQuantity

  /** Reads the stock text; "" (a missing key) is "not found". */
  function GetStock(st: Store, cfg: Config, productId: int, getFails: bool): (r: Result<int, CacheError>)
    ensures getFails ==> r == Err(ClientFailed)
    ensures !getFails && StockKey(cfg, productId) !in st.counters ==> r == Err(StockNotFound)
    ensures !getFails && StockKey(cfg, productId) in st.counters ==>
      var v := st.counters[StockKey(cfg, productId)];
      (Decimal.MinInt64 <= v <= Decimal.MaxInt64 ==> r == Ok(v))
      && (!(Decimal.MinInt64 <= v <= Decimal.MaxInt64) ==> r == Err(StockUnparsable))
  {
    if getFails then Err(ClientFailed)
    else
      var text := GetText(st, StockKey(cfg, productId));
      if text == "" then Err(StockNotFound)
      else match Decimal.ParseInt64(text)
        case None => Err(StockUnparsable)
        case Some(v) => Ok(v)
  }

  /** The decrement script: -1 when the key is missing, -2 when the stock is
      below the quantity, otherwise the new stock after writing it. */
  function DecrScript(st: Store, key: string, quantity: int): (r: (Reply, Store))
    ensures key !in st.counters ==> r == (RInt(-1), st)
    ensures key in st.counters && st.counters[key] < quantity ==> r == (RInt(-2), st)
    ensures key in st.counters && st.counters[key] >= quantity ==>
      r.0 == RInt(st.counters[key] - quantity) && r.1 == SetCounter(st, key, st.counters[key] - quantity)
  {
    if key !in st.counters then (RInt(-1), st)
    else if st.counters[key] < quantity then (RInt(-2), st)
    else (RInt(st.counters[key] - quantity), SetCounter(st, key, st.counters[key] - quantity))
  }

  /** Maps the script's sentinels to errors and any other integer to the new stock. */
  function DecrStock(st: Store, cfg: Config, productId: int, quantity: int, evalFails: bool)
    : (r: (Result<int, CacheError>, Store))
    ensures r.0.Ok? <==> !evalFails && StockKey(cfg, productId) in st.counters
                         && st.counters[StockKey(cfg, productId)] >= quantity
    ensures r.0.Ok? ==>
      var k := StockKey(cfg, productId);
      r.0.value == st.counters[k] - quantity >= 0 && r.1 == SetCounter(st, k, r.0.value)
    ensures r.0.Err? ==> r.1 == st
    ensures evalFails ==> r.0 == Err(ScriptFailed)
    ensures !evalFails && StockKey(cfg, productId) !in st.counters ==> r.0 == Err(StockNotFound)
  {
    if evalFails then (Err(ScriptFailed), st)
    else
      var (reply, next) := DecrScript(st, StockKey(cfg, productId), quantity);
      match reply
      case RInt(v) =>
        if v == -1 then (Err(StockNotFound), st)
        else if v == -2 then (Err(InsufficientStock), st)
        else (Ok(v), next)
      case _ => (Err(UnexpectedReply), st)
  }

  /** Rollback increment of the stock counter. */
  function IncrStock(st: Store, cfg: Config, productId: int, quantity: int, fails: bool): (r: (Result<int, CacheError>, Store))
    ensures fails ==> r == (Err(ClientFailed), st)
    ensures !fails ==> (r.0 == Ok(CounterOrZero(st, StockKey(cfg, productId)) + quantity)
      && r.1 == IncrBy(st, StockKey(cfg, productId), quantity))
  {
    if fails then (Err(ClientFailed), st)
    else
      var next := IncrBy(st, StockKey(cfg, productId), quantity);
      (Ok(next.counters[StockKey(cfg, productId)]), next)
  }

  function IsUserPurchased(st: Store, cfg: Config, productId: int, userId: int, fails: bool): (r: Result<bool, CacheError>)
    ensures fails <==> r.Err?
    ensures r.Ok? ==> (r.value <==> userId in Members(st, UserKey(cfg, productId)))
  {
    if fails then Err(ClientFailed) else Ok(IsMember(st, UserKey(cfg, productId), userId))
  }

  function AddUserPurchase(st: Store, cfg: Config, productId: int, userId: int, fails: bool): (r: (Outcome<CacheError>, Store))
    ensures fails ==> r == (Fail(ClientFailed), st)
    ensures !fails ==> r.0 == Pass && Members(r.1, UserKey(cfg, productId)) == Members(st, UserKey(cfg, productId)) + {userId}
  {
    if fails then (Fail(ClientFailed), st) else (Pass, SAdd(st, UserKey(cfg, productId), userId))
  }

  function RemoveUserPurchase(st: Store, cfg: Config, productId: int, userId: int, fails: bool): (r: (Outcome<CacheError>, Store))
    ensures fails ==> r == (Fail(ClientFailed), st)
    ensures !fails ==> r.0 == Pass && Members(r.1, UserKey(cfg, productId)) == Members(st, UserKey(cfg, productId)) - {userId}
  {
    if fails then (Fail(ClientFailed), st) else (Pass, SRem(st, UserKey(cfg, productId), userId))
  }

  function GetPurchaseUserCount(st: Store, cfg: Config, productId: int, fails: bool): (r: Result<nat, CacheError>)
    ensures fails <==> r.Err?
    ensures r.Ok? ==> r.value == |Members(st, UserKey(cfg, productId))|
  {
    if fails then Err(ClientFailed) else Ok(Cardinality(st, UserKey(cfg, productId)))
  }

  /** Which store calls inside the purchase fail. */
  datatype Faults = Faults(checkFails: bool, decrFails: bool, addFails: bool, incrFails: bool,
                           infoFails: bool, unlockFails: bool)

  const NoFaults := Faults(false, false, false, false, false, false)

  /** The purchase-info document's key. */
  function InfoKey(productId: int, userId: int): string {
    SeckillKeys.PurchaseKey(productId, userId)
  }

  /** The part of the purchase that runs while the lock is held, at time `now`. */
  function CriticalSection(st: Store, cfg: Config, productId: int, userId: int, quantity: int, now: int, f: Faults)
    : (r: (Outcome<CacheError>, Store))
    ensures r.1.locks == st.locks
    ensures r.0.Pass? <==> (!f.checkFails && !IsMember(st, UserKey(cfg, productId), userId)
      && !f.decrFails && StockKey(cfg, productId) in st.counters && st.counters[StockKey(cfg, productId)] >= quantity
      && !f.addFails && !f.infoFails)
    ensures f.checkFails || IsMember(st, UserKey(cfg, productId), userId) ==> r.1 == st
    ensures !f.checkFails && IsMember(st, UserKey(cfg, productId), userId) ==> r.0 == Fail(AlreadyPurchased)
    ensures (!f.checkFails && !IsMember(st, UserKey(cfg, productId), userId)
             && DecrStock(st, cfg, productId, quantity, f.decrFails).0.Err?) ==> r.1 == st
    ensures r.0.Pass? ==>
      var k := StockKey(cfg, productId);
      r.1.counters == st.counters[k := st.counters[k] - quantity]
      && Members(r.1, UserKey(cfg, productId)) == Members(st, UserKey(cfg, productId)) + {userId}
      && InfoKey(productId, userId) in r.1.records
      && r.1.records[InfoKey(productId, userId)] ==
         PurchaseRecord(userId, productId, quantity, now, "pending", cfg.defaultTtlSeconds)
  {
    match IsUserPurchased(st, cfg, productId, userId, f.checkFails)
    case Err(_) => (Fail(CheckFailed), st)
    case Ok(purchased) =>
      if purchased then (Fail(AlreadyPurchased), st)
      else
        var (decr, decremented) := DecrStock(st, cfg, productId, quantity, f.decrFails);
        if decr.Err? then (Fail(DecrementFailed(decr.error)), st)
        else
          var (added, withBuyer) := AddUserPurchase(decremented, cfg, productId, userId, f.addFails);
          if added.Fail? then
            (Fail(AddPurchaseFailed), IncrStock(decremented, cfg, productId, quantity, f.incrFails).1)
          else if f.infoFails then (Fail(SetInfoFailed), withBuyer)
          else
            var info := PurchaseRecord(userId, productId, quantity, now, "pending", cfg.defaultTtlSeconds);
            (Pass, withBuyer.(records := withBuyer.records[InfoKey(productId, userId) := info]))
  }

  /** A failed add after the decrement is compensated: the stock counter is
      back to its value before the purchase (unless the compensating
      increment itself fails). */
  lemma AddFailureRestoresStock(st: Store, cfg: Config, productId: int, userId: int, quantity: int, now: int, f: Faults)
    requires !f.checkFails && !f.decrFails && f.addFails && !f.incrFails
    ensures CriticalSection(st, cfg, productId, userId, quantity, now, f).1.counters == st.counters
    ensures CriticalSection(st, cfg, productId, userId, quantity, now, f).1.sets == st.sets
  {
    var k := StockKey(cfg, productId);
    if !IsMember(st, UserKey(cfg, productId), userId) && k in st.counters && st.counters[k] >= quantity {
      var after := CriticalSection(st, cfg, productId, userId, quantity, now, f).1;
      assert after.counters == st.counters[k := st.counters[k] - quantity][k := st.counters[k]];
    }
  }

  const LockTtlMs: int := 10_000
  const LockRetryMs: nat := 100
  const LockMaxRetries: int := 50

  /** The locked purchase. The lock is created at `nanos` with a 10 s TTL and
      acquired with up to 50 attempts 100 ms apart; the critical section runs
      at the acquiring attempt's time, and the deferred unlock follows. */
  method SeckillPurchase(st: Store, cfg: Config, productId: int, userId: int, quantity: int,
                         now: int, nanos: int, cancelAt: Option<int>, lockFailsAt: set<nat>, f: Faults)
    returns (r: Outcome<CacheError>, st': Store, acquired: bool, at: int)
    ensures !acquired ==> r.Fail? && r.error.LockUnavailable? && st' == st
    ensures acquired ==> at >= now && CriticalSection(st, cfg, productId, userId, quantity, at, f).0 == r
    ensures acquired && !f.unlockFails ==> DL.Free(st', LockKey(cfg, productId), at)
    ensures acquired ==>
      var cs := CriticalSection(st, cfg, productId, userId, quantity, at, f).1;
      st'.counters == cs.counters && st'.sets == cs.sets && st'.records == cs.records
  {
    var l := DL.NewDistributedLock(LockKey(cfg, productId), LockTtlMs, nanos);
    var locked, held, attempts := DL.TryLock(st, l, now, LockRetryMs, LockMaxRetries, cancelAt, lockFailsAt);
    if locked.Fail? {
      return Fail(LockUnavailable(locked.error)), st, false, now;
    }
    acquired := true;
    at := now + (attempts - 1) * LockRetryMs;
    assert held == DL.Lock(st, l, at, false).1;
    assert held.counters == st.counters && held.sets == st.sets && held.records == st.records;
    assert DL.HeldBy(held, l.key, l.token, at);
    var cs := CriticalSection(held, cfg, productId, userId, quantity, at, f);
    assert CriticalSection(held, cfg, productId, userId, quantity, at, f).0
        == CriticalSection(st, cfg, productId, userId, quantity, at, f).0
      && CriticalSection(held, cfg, productId, userId, quantity, at, f).1.counters
        == CriticalSection(st, cfg, productId, userId, quantity, at, f).1.counters
      && CriticalSection(held, cfg, productId, userId, quantity, at, f).1.sets
        == CriticalSection(st, cfg, productId, userId, quantity, at, f).1.sets
      && CriticalSection(held, cfg, productId, userId, quantity, at, f).1.records
        == CriticalSection(st, cfg, productId, userId, quantity, at, f).1.records
    by {
      CriticalSectionIgnoresLocks(st, held, cfg, productId, userId, quantity, at, f);
    }
    r := cs.0;
    st' := DL.Unlock(cs.1, l, at, f.unlockFails).1;
  }

  /** The critical section reads and writes no lock entries. */
  lemma CriticalSectionIgnoresLocks(a: Store, b: Store, cfg: Config, productId: int, userId: int,
                                    quantity: int, now: int, f: Faults)
    requires a.counters == b.counters && a.sets == b.sets && a.records == b.records && a.activities == b.activities
    ensures CriticalSection(a, cfg, productId, userId, quantity, now, f).0
         == CriticalSection(b, cfg, productId, userId, quantity, now, f).0
    ensures CriticalSection(a, cfg, productId, userId, quantity, now, f).1
         == CriticalSection(b, cfg, productId, userId, quantity, now, f).1.(locks := a.locks)
  {
  }

  // ---------------------------------------------------------------------------
  // Stock accounting across purchases of one unit each.

  /** Stock left plus buyers recorded: constant while every purchase is of one unit. */
  function Balance(st: Store, cfg: Config, productId: int): int {
    CounterOrZero(st, StockKey(cfg, productId)) + |Members(st, UserKey(cfg, productId))|
  }

  /** A one-unit purchase moves a unit from stock to the buyer set or changes
      neither, whatever fails, provided the compensating increment works. */
  lemma UnitPurchaseKeepsBalance(st: Store, cfg: Config, productId: int, userId: int, now: int, f: Faults)
    requires !f.incrFails
    ensures Balance(CriticalSection(st, cfg, productId, userId, 1, now, f).1, cfg, productId) == Balance(st, cfg, productId)
  {
    var k := StockKey(cfg, productId);
    var uk := UserKey(cfg, productId);
    var after := CriticalSection(st, cfg, productId, userId, 1, now, f).1;
    if !f.checkFails && !IsMember(st, uk, userId) && !f.decrFails && k in st.counters && st.counters[k] >= 1 {
      if f.addFails {
        AddFailureRestoresStock(st, cfg, productId, userId, 1, now, f);
      } else {
        assert Members(after, uk) == Members(st, uk) + {userId};
        assert |Members(after, uk)| == |Members(st, uk)| + 1;
      }
    }
  }

  /** Purchases by each user in turn, one unit each, with no failures. */
  function RunPurchases(st: Store, cfg: Config, productId: int, users: seq<int>, now: int): Store
    decreases |users|
  {
    if |users| == 0 then st
    else RunPurchases(CriticalSection(st, cfg, productId, users[0], 1, now, NoFaults).1, cfg, productId, users[1..], now)
  }

  /** The cache example's accounting: after any run of one-unit purchases the
      remaining stock is the initial stock less the number of new buyers. */
  lemma {:induction false} StockMatchesBuyers(st: Store, cfg: Config, productId: int, users: seq<int>, now: int)
    ensures var fin := RunPurchases(st, cfg, productId, users, now);
            CounterOrZero(fin, StockKey(cfg, productId))
            == CounterOrZero(st, StockKey(cfg, productId))
               - (|Members(fin, UserKey(cfg, productId))| - |Members(st, UserKey(cfg, productId))|)
    decreases |users|
  {
    if |users| > 0 {
      var next := CriticalSection(st, cfg, productId, users[0], 1, now, NoFaults).1;
      UnitPurchaseKeepsBalance(st, cfg, productId, users[0], now, NoFaults);
      StockMatchesBuyers(next, cfg, productId, users[1..], now);
    }
  }

  /** A user who has bought once is refused the second time, and the stock stays put. */
  lemma RepeatPurchaseRefused(st: Store, cfg: Config, productId: int, userId: int, quantity: int, now: int, later: int)
    requires CriticalSection(st, cfg, productId, userId, quantity, now, NoFaults).0.Pass?
    ensures var once := CriticalSection(st, cfg, productId, userId, quantity, now, NoFaults).1;
            CriticalSection(once, cfg, productId, userId, quantity, later, NoFaults) == (Fail(AlreadyPurchased), once)
  {
  }

  // ---------------------------------------------------------------------------
  // The quantity is never validated on this path.

  /** As written, a negative quantity passes the stock check and the
      "decrement" raises the stock: 10 in stock, a purchase of -5 succeeds
      and leaves 15. */
  lemma NegativeQuantityRaisesStock()
    ensures var cfg := Config("seckill:stock:", "seckill:users:", "seckill:lock:", 3600);
            var st := SetCounter(EmptyStore, StockKey(cfg, 1), 10);
            var r := CriticalSection(st, cfg, 1, 7, -5, 0, NoFaults);
            r.0 == Pass && r.1.counters[StockKey(cfg, 1)] == 15
  {
    var cfg := Config("seckill:stock:", "seckill:users:", "seckill:lock:", 3600);
    var st := SetCounter(EmptyStore, StockKey(cfg, 1), 10);
    assert !IsMember(st, UserKey(cfg, 1), 7);
  }

  /** The purchase with the quantity check the flash-sale service performs:
      a quantity that is not positive is refused before anything is read. */
  function CriticalSectionChecked(st: Store, cfg: Config, productId: int, userId: int, quantity: int, now: int, f: Faults)
    : (r: (Outcome<CacheError>, Store))
    ensures quantity <= 0 ==> r == (Fail(InvalidQuantity), st)
    ensures quantity > 0 ==> r == CriticalSection(st, cfg, productId, userId, quantity, now, f)
    ensures CounterOrZero(r.1, StockKey(cfg, productId)) <= CounterOrZero(st, StockKey(cfg, productId))
    ensures r.0.Pass? ==>
      CounterOrZero(r.1, StockKey(cfg, productId)) == CounterOrZero(st, StockKey(cfg, productId)) - quantity
      && CounterOrZero(r.1, StockKey(cfg, productId)) < CounterOrZero(st, StockKey(cfg, productId))
  {
    if quantity <= 0 then (Fail(InvalidQuantity), st)
    else
      var r := CriticalSection(st, cfg, productId, userId, quantity, now, f);
      NeverRaisesStock(st, cfg, productId, userId, quantity, now, f);
      r
  }

  /** With a positive quantity the stock can only go down. */
  lemma NeverRaisesStock(st: Store, cfg: Config, productId: int, userId: int, quantity: int, now: int, f: Faults)
    requires quantity > 0
    ensures CounterOrZero(CriticalSection(st, cfg, productId, userId, quantity, now, f).1, StockKey(cfg, productId))
            <= CounterOrZero(st, StockKey(cfg, productId))
  {
    var k := StockKey(cfg, productId);
    if !f.checkFails && !IsMember(st, UserKey(cfg, productId), userId) && !f.decrFails
       && k in st.counters && st.counters[k] >= quantity && f.addFails && !f.incrFails {
      AddFailureRestoresStock(st, cfg, productId, userId, quantity, now, f);
    }
  }
}

=== FILE: circuit_breaker.dfy ===
/** The generation-based circuit breaker of the flash-sale service. Each call
    takes the current instant in nanoseconds. Counters are unbounded naturals. */
module CircuitBreaker {
  import opened Common

  const Second: int := 1_000_000_000
  const DefaultInterval: int := 60 * Second
  const DefaultTimeout: int := 60 * Second

  datatype State = Closed | Open | HalfOpen

  datatype BreakerError = BreakerOpen | TooManyRequests

  datatype Counts = Counts(requests: nat, totalSuccesses: nat, totalFailures: nat,
                           consecutiveSuccesses: nat, consecutiveFailures: nat)

  const NoCounts := Counts(0, 0, 0, 0, 0)

  /** The trip predicates in use: the breaker's default one, and the one the
      seckill service configures with a failure threshold. */
  datatype TripRule = DefaultTrip | AtLeastFailures(threshold: nat)

  /** The default rule asks for a failure ratio of at least 0.6. For counts that
      fit in 32 bits the float comparison agrees with `5 * failures >= 3 * requests`:
      a ratio below 0.6 is below it by at least 1 / (5 * requests), far more than
      the rounding error of a double. */
  predicate ReadyToTrip(rule: TripRule, c: Counts) {
    match rule
    case DefaultTrip => c.requests >= 3 && c.totalFailures > 0 && 5 * c.totalFailures >= 3 * c.requests
    case AtLeastFailures(t) => c.requests >= 3 && c.totalFailures >= t
  }

  /** The configuration as given: zero or negative durations and a zero
      `maxRequests` mean "use the default"; `None` means no trip predicate. */
  datatype Config = Config(maxRequests: nat, interval: int, timeout: int, trip: Option<TripRule>)

  /** `expiry == None` is Go's zero time, which lies before every instant. */
  datatype Breaker = Breaker(maxRequests: nat, interval: int, timeout: int, trip: TripRule,
                             state: State, generation: nat, counts: Counts, expiry: Option<int>)

  predicate Configured(b: Breaker) {
    b.maxRequests >= 1 && b.interval > 0 && b.timeout > 0
  }

  /** Starts a new generation: clears the counts and sets the expiry the
      current state calls for. */
  function ToNewGeneration(b: Breaker, now: int): (r: Breaker)
    ensures r.generation == b.generation + 1 && r.counts == NoCounts && r.state == b.state
    ensures r.maxRequests == b.maxRequests && r.interval == b.interval && r.timeout == b.timeout && r.trip == b.trip
    ensures b.state == Closed ==> r.expiry == (if b.interval == 0 then None else Some(now + b.interval))
    ensures b.state == Open ==> r.expiry == Some(now + b.timeout)
    ensures b.state == HalfOpen ==> r.expiry == None
  {
    var expiry := match b.state
      case Closed => if b.interval == 0 then None else Some(now + b.interval)
      case Open => Some(now + b.timeout)
      case HalfOpen => None;
    b.(generation := b.generation + 1, counts := NoCounts, expiry := expiry)
  }

  function NewCircuitBreaker(cfg: Config, now: int): (b: Breaker)
    ensures Configured(b)
    ensures b.state == Closed && b.counts == NoCounts && b.generation == 1
    ensures b.maxRequests == (if cfg.maxRequests == 0 then 1 else cfg.maxRequests)
    ensures b.interval == (if cfg.interval <= 0 then DefaultInterval else cfg.interval)
    ensures b.timeout == (if cfg.timeout <= 0 then DefaultTimeout else cfg.timeout)
    ensures b.trip == (if cfg.trip.Some? then cfg.trip.value else DefaultTrip)
    ensures b.expiry == Some(now + b.interval)
  {
    var blank := Breaker(
      if cfg.maxRequests == 0 then 1 else cfg.maxRequests,
      if cfg.interval <= 0 then DefaultInterval else cfg.interval,
      if cfg.timeout <= 0 then DefaultTimeout else cfg.timeout,
      if cfg.trip.Some? then cfg.trip.value else DefaultTrip,
      Closed, 0, NoCounts, None);
    ToNewGeneration(blank, now)
  }

  /** Changing to the state already held does nothing; any other change opens
      a new generation under the new state. */
  function SetState(b: Breaker, s: State, now: int): (r: Breaker)
    ensures r.state == s
    ensures b.state == s ==> r == b
    ensures b.state != s ==> r.generation == b.generation + 1 && r.counts == NoCounts
    ensures r.maxRequests == b.maxRequests && r.interval == b.interval && r.timeout == b.timeout && r.trip == b.trip
  {
    if b.state == s then b else ToNewGeneration(b.(state := s), now)
  }

  /** The state at `now`, after applying expiry: a CLOSED window that has run
      out starts a new generation, an OPEN breaker whose timeout has passed
      becomes HALF_OPEN. HALF_OPEN never expires. */
  function CurrentState(b: Breaker, now: int): (r: Breaker)
    ensures b.state == Closed && b.expiry.Some? && b.expiry.value < now ==>
      r == ToNewGeneration(b, now)
    ensures b.state == Open && (b.expiry.None? || b.expiry.value < now) ==>
      r.state == HalfOpen && r.generation == b.generation + 1 && r.counts == NoCounts && r.expiry == None
    ensures b.state == HalfOpen ==> r == b
    ensures b.state == Open && b.expiry.Some? && b.expiry.value >= now ==> r == b
    ensures b.state == Closed && (b.expiry.None? || b.expiry.value >= now) ==> r == b
    ensures r.maxRequests == b.maxRequests && r.interval == b.interval && r.timeout == b.timeout && r.trip == b.trip
  {
    match b.state
    case Closed =>
      if b.expiry.Some? && b.expiry.value < now then ToNewGeneration(b, now) else b
    case Open =>
      if b.expiry.None? || b.expiry.value < now then SetState(b, HalfOpen, now) else b
    case HalfOpen => b
  }

  /** The breaker after the check, and either the generation the request
      belongs to or the reason it was refused. */
  datatype Admission = Admission(breaker: Breaker, verdict: Result<nat, BreakerError>)

  function BeforeRequest(b: Breaker, now: int): (a: Admission)
    ensures var cur := CurrentState(b, now);
      && (cur.state == Open ==> a == Admission(cur, Err(BreakerOpen)))
      && (cur.state == HalfOpen && cur.counts.requests >= cur.maxRequests ==>
            a == Admission(cur, Err(TooManyRequests)))
      && (a.verdict.Ok? ==>
            a.verdict.value == cur.generation &&
            a.breaker == cur.(counts := cur.counts.(requests := cur.counts.requests + 1)))
      && (a.verdict.Ok? <==> cur.state == Closed || (cur.state == HalfOpen && cur.counts.requests < cur.maxRequests))
  {
    var cur := CurrentState(b, now);
    if cur.state == Open then Admission(cur, Err(BreakerOpen))
    else if cur.state == HalfOpen && cur.counts.requests >= cur.maxRequests then Admission(cur, Err(TooManyRequests))
    else Admission(cur.(counts := cur.counts.(requests := cur.counts.requests + 1)), Ok(cur.generation))
  }

  function CountSuccess(c: Counts): (r: Counts)
    ensures r.totalSuccesses == c.totalSuccesses + 1 && r.consecutiveSuccesses == c.consecutiveSuccesses + 1
    ensures r.consecutiveFailures == 0
    ensures r.requests == c.requests && r.totalFailures == c.totalFailures
  {
    c.(totalSuccesses := c.totalSuccesses + 1, consecutiveSuccesses := c.consecutiveSuccesses + 1, consecutiveFailures := 0)
  }

  function CountFailure(c: Counts): (r: Counts)
    ensures r.totalFailures == c.totalFailures + 1 && r.consecutiveFailures == c.consecutiveFailures + 1
    ensures r.consecutiveSuccesses == 0
    ensures r.requests == c.requests && r.totalSuccesses == c.totalSuccesses
  {
    c.(totalFailures := c.totalFailures + 1, consecutiveFailures := c.consecutiveFailures + 1, consecutiveSuccesses := 0)
  }

  /** A success in HALF_OPEN closes the breaker. */
  function OnSuccess(b: Breaker, now: int): (r: Breaker)
    ensures b.state == HalfOpen ==> r.state == Closed && r.counts == NoCounts && r.generation == b.generation + 1
    ensures b.state != HalfOpen ==> r == b.(counts := CountSuccess(b.counts))
  {
    var counted := b.(counts := CountSuccess(b.counts));
    if b.state == HalfOpen then SetState(counted, Closed, now) else counted
  }

  /** A failure, in any state, opens the breaker only when the trip predicate
      holds of the updated counts. */
  function OnFailure(b: Breaker, now: int): (r: Breaker)
    ensures ReadyToTrip(b.trip, CountFailure(b.counts)) ==>
      r.state == Open && (b.state != Open ==> r.counts == NoCounts && r.expiry == Some(now + b.timeout))
    ensures !ReadyToTrip(b.trip, CountFailure(b.counts)) ==> r == b.(counts := CountFailure(b.counts))
  {
    var counted := b.(counts := CountFailure(b.counts));
    if ReadyToTrip(b.trip, counted.counts) then SetState(counted, Open, now) else counted
  }

  /** A result reported under a generation other than the current one is
      dropped; only the expiry bookkeeping of `CurrentState` happens. */
  function AfterRequest(b: Breaker, before: nat, success: bool, now: int): (r: Breaker)
    ensures CurrentState(b, now).generation != before ==> r == CurrentState(b, now)
    ensures CurrentState(b, now).generation == before ==>
      r == (if success then OnSuccess(CurrentState(b, now), now) else OnFailure(CurrentState(b, now), now))
  {
    var cur := CurrentState(b, now);
    if cur.generation != before then cur
    else if success then OnSuccess(cur, now) else OnFailure(cur, now)
  }

  /** `Execute`: check at `start`, run the request (its verdict under the
      breaker's success predicate is `success`), report at `finish`. A refused
      request is never run. */
  function Execute(b: Breaker, start: int, success: bool, finish: int): (r: (Outcome<BreakerError>, Breaker))
    ensures r.0.Fail? <==> BeforeRequest(b, start).verdict.Err?
    ensures r.0.Fail? ==> r.0.error == BeforeRequest(b, start).verdict.error && r.1 == BeforeRequest(b, start).breaker
    ensures r.0.Pass? ==> r.1 == AfterRequest(BeforeRequest(b, start).breaker, BeforeRequest(b, start).verdict.value, success, finish)
  {
    var a := BeforeRequest(b, start);
    match a.verdict
    case Err(e) => (Fail(e), a.breaker)
    case Ok(gen) => (Pass, AfterRequest(a.breaker, gen, success, finish))
  }

  /** `ResetCircuitBreaker`: a new generation computed from the state held
      before the reset, then CLOSED. Resetting a HALF_OPEN breaker leaves a
      CLOSED breaker with no expiry, whose counts then never roll over. */
  function Reset(b: Breaker, now: int): (r: Breaker)
    ensures r.state == Closed && r.counts == NoCounts && r.generation == b.generation + 1
    ensures b.state == Closed ==> r.expiry == (if b.interval == 0 then None else Some(now + b.interval))
    ensures b.state == Open ==> r.expiry == Some(now + b.timeout)
    ensures b.state == HalfOpen ==> r.expiry == None
  {
    ToNewGeneration(b, now).(state := Closed)
  }

  /** A reset HALF_OPEN breaker stays in one CLOSED generation forever. */
  lemma ResetFromHalfOpenNeverRollsOver(b: Breaker, now: int, later: int)
    requires b.state == HalfOpen
    ensures CurrentState(Reset(b, now), later) == Reset(b, now)
  {
  }

  // ---------------------------------------------------------------------------
  // Invariants

  /** What every reachable breaker satisfies: HALF_OPEN never admits more
      than `maxRequests`, an OPEN breaker has a deadline, and every recorded
      outcome belongs to an admitted request. */
  predicate Valid(b: Breaker) {
    && Configured(b)
    && (b.state == HalfOpen ==> b.counts.requests <= b.maxRequests)
    && (b.state == Open ==> b.expiry.Some?)
    && b.counts.totalSuccesses + b.counts.totalFailures <= b.counts.requests
  }

  lemma NewIsValid(cfg: Config, now: int)
    ensures Valid(NewCircuitBreaker(cfg, now))
  {
  }

  lemma CurrentStateValid(b: Breaker, now: int)
    requires Valid(b)
    ensures Valid(CurrentState(b, now))
  {
  }

  /** An admitted request has not yet been reported; once it is, the outcome
      counts still never exceed the requests. */
  lemma ExecutePreservesValid(b: Breaker, start: int, success: bool, finish: int)
    requires Valid(b)
    ensures Valid(Execute(b, start, success, finish).1)
  {
    CurrentStateValid(b, start);
    var a := BeforeRequest(b, start);
    if a.verdict.Ok? {
      var mid := a.breaker;
      assert mid.counts.totalSuccesses + mid.counts.totalFailures < mid.counts.requests;
      CurrentStateValid(mid, finish);
    }
  }

  lemma ResetIsValid(b: Breaker, now: int)
    requires Valid(b)
    ensures Valid(Reset(b, now))
  {
  }

  /** The breaker runs each request on its own: while no more than one request
      is in flight, the outcomes always belong to the generation that
      admitted them. This is the sequential trace. */
  function RunAll(b: Breaker, calls: seq<(int, bool, int)>): (r: Breaker)
    decreases |calls|
  {
    if |calls| == 0 then b
    else RunAll(Execute(b, calls[0].0, calls[0].1, calls[0].2).1, calls[1..])
  }

  /** A HALF_OPEN generation admits at most `maxRequests` requests. */
  lemma {:induction false} RunAllValid(b: Breaker, calls: seq<(int, bool, int)>)
    requires Valid(b)
    ensures Valid(RunAll(b, calls))
    decreases |calls|
  {
    if |calls| > 0 {
      ExecutePreservesValid(b, calls[0].0, calls[0].1, calls[0].2);
      RunAllValid(Execute(b, calls[0].0, calls[0].1, calls[0].2).1, calls[1..]);
    }
  }

  /** An OPEN breaker refuses everything until its timeout has passed, then
      lets a probe through. */
  lemma OpenRefusesUntilTimeout(b: Breaker, now: int)
    requires Valid(b) && b.state == Open
    ensures now <= b.expiry.value ==> BeforeRequest(b, now) == Admission(b, Err(BreakerOpen))
    ensures now > b.expiry.value ==> BeforeRequest(b, now).verdict.Ok?
  {
  }

  // ---------------------------------------------------------------------------
  // HALF_OPEN failures

  /** As written, a HALF_OPEN failure reopens only when the trip predicate
      holds. Under the default predicate a single failure (one request of the
      three it needs) leaves the breaker HALF_OPEN with its only probe slot
      used, and HALF_OPEN has no expiry: every later request is refused. */
  lemma HalfOpenFailureSticks(b: Breaker, start: int, finish: int, later: int)
    requires b.state == HalfOpen && b.counts == NoCounts && b.maxRequests == 1 && b.trip == DefaultTrip
    ensures var stuck := Execute(b, start, false, finish).1;
      stuck.state == HalfOpen &&
      BeforeRequest(stuck, later) == Admission(stuck, Err(TooManyRequests))
  {
  }

  /** The evidently intended failure handling: a failure while HALF_OPEN
      reopens the breaker at once, as in the usual CLOSED / OPEN / HALF_OPEN
      circuit-breaker state machine that this breaker implements. */
  function OnFailureReopening(b: Breaker, now: int): (r: Breaker)
    ensures b.state == HalfOpen ==> r.state == Open && r.expiry == Some(now + b.timeout) && r.counts == NoCounts
    ensures b.state != HalfOpen ==> r == OnFailure(b, now)
  {
    if b.state == HalfOpen then SetState(b.(counts := CountFailure(b.counts)), Open, now)
    else OnFailure(b, now)
  }

  function AfterRequestReopening(b: Breaker, before: nat, success: bool, now: int): (r: Breaker)
    ensures CurrentState(b, now).generation != before ==> r == CurrentState(b, now)
    ensures CurrentState(b, now).generation == before && !success ==>
      r == OnFailureReopening(CurrentState(b, now), now)
  {
    var cur := CurrentState(b, now);
    if cur.generation != before then cur
    else if success then OnSuccess(cur, now) else OnFailureReopening(cur, now)
  }

  /** `Execute` with the corrected failure handling: a refused call leaves
      the breaker as the admission check left it; an admitted one reports
      its outcome against the generation it was admitted in. */
  function ExecuteReopening(b: Breaker, start: int, success: bool, finish: int): (r: (Outcome<BreakerError>, Breaker))
    ensures r.0.Fail? <==> BeforeRequest(b, start).verdict.Err?
    ensures r.0.Fail? ==> r.1 == BeforeRequest(b, start).breaker
    ensures r.0.Pass? ==>
      r.1 == AfterRequestReopening(BeforeRequest(b, start).breaker, BeforeRequest(b, start).verdict.value, success, finish)
  {
    var a := BeforeRequest(b, start);
    match a.verdict
    case Err(e) => (Fail(e), a.breaker)
    case Ok(gen) => (Pass, AfterRequestReopening(a.breaker, gen, success, finish))
  }

  /** With the correction a failed probe reopens the breaker, and once the
      timeout has passed a new probe is admitted: HALF_OPEN cannot wedge. */
  lemma {:induction false} FailedProbeRecovers(b: Breaker, start: int, finish: int, later: int)
    requires Valid(b) && b.state == HalfOpen && b.counts.requests < b.maxRequests
    requires start <= finish
    requires later > finish + b.timeout
    ensures var after := ExecuteReopening(b, start, false, finish).1;
      after.state == Open && BeforeRequest(after, later).verdict.Ok?
  {
    var a := BeforeRequest(b, start);
    assert a.verdict == Ok(b.generation);
    assert CurrentState(a.breaker, finish) == a.breaker;
    var after := ExecuteReopening(b, start, false, finish).1;
    assert after.expiry == Some(finish + b.timeout);
  }

  // ---------------------------------------------------------------------------
  // The manager

  type Breakers = map<string, Breaker>

  /** Returns the breaker registered under `name`, creating it only if absent. */
  function GetCircuitBreaker(m: Breakers, name: string, cfg: Config, now: int): (r: (Breaker, Breakers))
    ensures name in m ==> r == (m[name], m)
    ensures name !in m ==> r.1 == m[name := r.0] && r.0 == NewCircuitBreaker(cfg, now)
  {
    if name in m then (m[name], m) else var b := NewCircuitBreaker(cfg, now); (b, m[name := b])
  }

  function ResetCircuitBreaker(m: Breakers, name: string, now: int): (r: Breakers)
    ensures r.Keys == m.Keys
    ensures name in m ==> r[name].state == Closed && r[name].counts == NoCounts
    ensures forall k :: k in m && k != name ==> r[k] == m[k]
  {
    if name in m then m[name := Reset(m[name], now)] else m
  }
}

=== FILE: common.dfy ===
/** Vocabulary shared by every service model: optional values, outcomes,
    and the parts of Go's integer arithmetic that differ from Dafny's. */
module Common {

  /** A value that may be absent (a Go nil pointer, a missing key, an unset field). */
  datatype Option<+T> = None | Some(value: T)

  /** A Go `(T, error)` pair: a value or an error. */
  datatype Result<+T, +E> = Ok(value: T) | Err(error: E)

  /** The error half of a Go `(T, error)` pair. */
  datatype Outcome<+E> = Pass | Fail(error: E)

  /** Absolute value, as the inventory service's `abs` helpers compute it. */
  function Abs(x: int): (r: nat)
    ensures r == x || r == -x
  {
    if x < 0 then -x else x
  }

  /** Go's integer `/` truncates toward zero, whereas Dafny's is Euclidean.
      Only positive divisors occur in the modelled code. */
  function GoDiv(a: int, b: int): (q: int)
    requires b > 0
    ensures a >= 0 ==> 0 <= a - q * b < b
    ensures a < 0 ==> -b < a - q * b <= 0
  {
    if a >= 0 then a / b else -((-a) / b)
  }

  /** Truncating division keeps the sign of the dividend and sends a dividend
      smaller than the divisor to zero. */
  lemma GoDivSign(a: int, b: int)
    requires b > 0
    ensures a >= 0 ==> GoDiv(a, b) >= 0
    ensures a <= 0 ==> GoDiv(a, b) <= 0
    ensures 0 <= a < b ==> GoDiv(a, b) == 0
  {
    if a >= 0 {
      assert a / b >= 0;
    } else {
      assert (-a) / b >= 0;
    }
  }

  /** The number of elements of `s` satisfying `p`. */
  function CountWhere<T>(s: seq<T>, p: T -> bool): (n: nat)
    ensures n <= |s|
  {
    if |s| == 0 then 0 else CountWhere(s[..|s| - 1], p) + (if p(s[|s| - 1]) then 1 else 0)
  }

  /** The elements of `s` satisfying `p`, in their original order. */
  function Filter<T>(s: seq<T>, p: T -> bool): (r: seq<T>)
    ensures |r| <= |s|
    ensures forall x :: x in r ==> x in s && p(x)
    ensures forall i :: 0 <= i < |s| && p(s[i]) ==> s[i] in r
  {
    if |s| == 0 then [] else
      var rest := Filter(s[..|s| - 1], p);
      assert forall i :: 0 <= i < |s| - 1 ==> s[i] == s[..|s| - 1][i];
      if p(s[|s| - 1]) then rest + [s[|s| - 1]] else rest
  }

  /** The first `n` elements of `s` (all of it when shorter); a SQL `LIMIT n`
      with `n <= 0` yields no rows. */
  function Take<T>(s: seq<T>, n: int): (r: seq<T>)
    ensures |r| == if n <= 0 then 0 else if n < |s| then n else |s|
    ensures r <= s
  {
    if n <= 0 then [] else if n < |s| then s[..n] else s
  }
}

=== FILE: compensation.dfy ===
/** The compensation manager: on every tick it selects due failure records,
    marks each "processing", runs a handler on it and then marks it
    "success", schedules another attempt, or gives up with "failed"; after a
    non-empty batch it expires stale pending and processing records. Each
    database update can fail; those faults are parameters. Times are
    nanoseconds. */
module Compensation {
  import opened Common
  import opened OrderModel
  import Backoff
  import OrderService

  const Hour: int := 3_600_000_000_000

  datatype Config = Config(
    enable: bool, maxRetryHours: int, batchSize: int, retry: Backoff.RetryConfig, orderTimeout: int)

  datatype Stats = Stats(total: nat, processed: nat, successes: nat, failures: nat, retries: nat, expired: nat)

  const NoStats := Stats(0, 0, 0, 0, 0, 0)

  datatype Manager = Manager(db: Db, stats: Stats, cfg: Config)

  /** The handler the manager calls: the order service itself (as the
      service wires it), or the default handler that recreates the order. */
  datatype Handler = ServiceHandler | DefaultHandler(faults: OrderService.CreateFaults)

  /** Which of a step's updates fail: the "processing" mark, and the final update. */
  datatype StepFaults = StepFaults(markFails: bool, finalUpdateFails: bool)

  /** The oldest creation time still retried. */
  function Cutoff(cfg: Config, now: int): int {
    now - cfg.maxRetryHours * Hour
  }

  /** The selection filter: pending, due, below its retry limit, and younger
      than the retry horizon. */
  predicate Eligible(f: OrderFailure, now: int, cfg: Config) {
    f.status == RecordPending && f.nextRetryAt <= now && f.retryCount < f.maxRetries && f.createdAt > Cutoff(cfg, now)
  }

  /** The rows of `scan` (the database's row order) that exist, with their contents. */
  function Rows(db: Db, scan: seq<nat>): (r: seq<(nat, OrderFailure)>)
    ensures forall i :: 0 <= i < |r| ==> r[i].0 in db.failures && db.failures[r[i].0] == r[i].1
    ensures forall id :: id in scan && id in db.failures ==> (id, db.failures[id]) in r
  {
    if |scan| == 0 then [] else
      var rest := Rows(db, scan[1..]);
      assert forall id :: id in scan && id != scan[0] ==> id in scan[1..];
      if scan[0] in db.failures then [(scan[0], db.failures[scan[0]])] + rest else rest
  }

  /** The batch a tick processes: the eligible rows, at most `batchSize` of
      them. GORM writes no `LIMIT` clause for a negative limit, so then every
      eligible row is selected; a zero limit selects none. */
  function Select(m: Manager, scan: seq<nat>, now: int): (r: seq<(nat, OrderFailure)>)
    ensures forall i :: 0 <= i < |r| ==>
      r[i].0 in m.db.failures && m.db.failures[r[i].0] == r[i].1 && Eligible(r[i].1, now, m.cfg)
    ensures m.cfg.batchSize >= 0 ==> |r| <= m.cfg.batchSize
    ensures m.cfg.batchSize < 0 || m.cfg.batchSize >= |scan| ==>
      forall id :: id in scan && id in m.db.failures && Eligible(m.db.failures[id], now, m.cfg) ==>
        (id, m.db.failures[id]) in r
  {
    var due := Filter(Rows(m.db, scan), (p: (nat, OrderFailure)) => Eligible(p.1, now, m.cfg));
    assert forall p :: p in due ==> p in Rows(m.db, scan);
    RowsShort(m.db, scan);
    var r := if m.cfg.batchSize < 0 then due else Take(due, m.cfg.batchSize);
    assert forall i :: 0 <= i < |r| ==> r[i] == due[i] && r[i] in due;
    r
  }

  lemma {:induction false} RowsShort(db: Db, scan: seq<nat>)
    ensures |Rows(db, scan)| <= |scan|
  {
    if |scan| > 0 {
      RowsShort(db, scan[1..]);
    }
  }

  /** `updateFailureStatus`: sets the status, and the error message when one is given. */
  function Mark(db: Db, id: nat, status: string, errorMsg: string): (r: Db)
    ensures r.orders == db.orders && r.items == db.items && r.idempotency == db.idempotency
    ensures r.nextFailureId == db.nextFailureId && r.failures.Keys == db.failures.Keys
    ensures id in db.failures ==>
      r.failures[id] == db.failures[id].(status := status,
                                         errorMsg := if errorMsg != "" then errorMsg else db.failures[id].errorMsg)
    ensures forall k :: k in db.failures && k != id ==> r.failures[k] == db.failures[k]
  {
    if id in db.failures then
      var row := db.failures[id];
      db.(failures := db.failures[id := row.(status := status,
                                             errorMsg := if errorMsg != "" then errorMsg else row.errorMsg)])
    else db
  }

  /** Runs the handler on a record; only the default handler writes orders. */
  function RunHandler(h: Handler, db: Db, rec: OrderFailure, now: int, orderTimeout: int): (r: (Outcome<string>, Db))
    ensures r.1.failures == db.failures && r.1.nextFailureId == db.nextFailureId
    ensures h.ServiceHandler? ==> r == (OrderService.ProcessFailedOrder(rec), db)
    ensures WellFormed(db) ==> WellFormed(r.1)
  {
    match h
    case ServiceHandler => (OrderService.ProcessFailedOrder(rec), db)
    case DefaultHandler(faults) =>
      match rec.message
      case None => (Fail("failed to unmarshal message data"), db)
      case Some(msg) =>
        var (created, db') := OrderService.CreateOrder(db, OrderService.RequestFor(msg), now, orderTimeout, faults);
        if created.Ok? then (Pass, db') else (Fail("failed to retry create order"), db)
  }

  /** The default handler reports a duplicate as a failure, where the
      message path reports it as success. */
  lemma DefaultHandlerFailsOnDuplicate(db: Db, rec: OrderFailure, now: int, orderTimeout: int, faults: OrderService.CreateFaults)
    requires rec.message.Some?
    requires OrderService.ValidateOrderRequest(OrderService.RequestFor(rec.message.value)) == Pass
    requires !faults.idempotencyQueryFails
    requires OrderService.HasBuyerRow(db.idempotency, rec.message.value.userId, rec.message.value.productId)
    ensures RunHandler(DefaultHandler(faults), db, rec, now, orderTimeout).0.Fail?
  {
  }

  /** The record a non-final failure leaves behind: retry count one higher,
      the new error, the next back-off, and back to pending. */
  function Rescheduled(row: OrderFailure, retryCount: int, err: string, now: int, cfg: Config): OrderFailure {
    row.(retryCount := retryCount, errorMsg := err, nextRetryAt := now + Backoff.Interval(cfg.retry, retryCount),
         status := RecordPending)
  }

  /** `processFailedOrder` on the row `id`, whose contents when selected were `rec`. */
  function Step(m: Manager, id: nat, rec: OrderFailure, now: int, h: Handler, sf: StepFaults): (r: Manager)
    ensures r.cfg == m.cfg
    ensures r.db.failures.Keys == m.db.failures.Keys && r.db.nextFailureId == m.db.nextFailureId
    ensures forall k :: k in m.db.failures && k != id ==> r.db.failures[k] == m.db.failures[k]
    ensures sf.markFails ==> r.db == m.db
    ensures r.stats.total == m.stats.total + 1 && r.stats.processed == m.stats.processed + 1
    ensures WellFormed(m.db) ==> WellFormed(r.db)
  {
    var st := m.stats.(total := m.stats.total + 1, processed := m.stats.processed + 1);
    if sf.markFails then m.(stats := st)
    else
      var db1 := Mark(m.db, id, RecordProcessing, "");
      var (o, db2) := RunHandler(h, db1, rec, now, m.cfg.orderTimeout);
      match o
      case Pass =>
        m.(stats := st.(successes := st.successes + 1),
           db := if sf.finalUpdateFails then db2 else Mark(db2, id, RecordSuccess, ""))
      case Fail(err) =>
        var retryCount := rec.retryCount + 1;
        var st' := st.(failures := st.failures + 1);
        if retryCount >= rec.maxRetries then
          m.(stats := st', db := if sf.finalUpdateFails then db2 else Mark(db2, id, RecordFailed, err))
        else if sf.finalUpdateFails || id !in db2.failures then m.(stats := st', db := db2)
        else
          m.(stats := st'.(retries := st'.retries + 1),
             db := db2.(failures := db2.failures[id := Rescheduled(db2.failures[id], retryCount, err, now, m.cfg)]))
  }

  /** Where a step leaves its record: "processing" when the final update
      fails; otherwise "success", "failed" once the retry limit is reached,
      or "pending" with one more retry and the next back-off. */
  lemma StepOutcome(m: Manager, id: nat, rec: OrderFailure, now: int, h: Handler, sf: StepFaults)
    requires id in m.db.failures && !sf.markFails
    ensures var after := Step(m, id, rec, now, h, sf).db.failures[id];
      && (sf.finalUpdateFails ==> after.status == RecordProcessing)
      && (!sf.finalUpdateFails ==> after.status in {RecordSuccess, RecordFailed, RecordPending})
      && (!sf.finalUpdateFails && after.status == RecordPending ==>
            after.retryCount == rec.retryCount + 1 < rec.maxRetries
            && after.nextRetryAt == now + Backoff.Interval(m.cfg.retry, rec.retryCount + 1))
      && (!sf.finalUpdateFails && after.status == RecordFailed ==> rec.retryCount + 1 >= rec.maxRetries)
  {
  }

  /** Under the service's handler a step succeeds exactly when the record's
      failure type is one the service knows. */
  lemma ServiceStepSucceeds(m: Manager, id: nat, rec: OrderFailure, now: int)
    requires id in m.db.failures
    ensures Step(m, id, rec, now, ServiceHandler, StepFaults(false, false)).db.failures[id].status == RecordSuccess
        <==> OrderService.ProcessFailedOrder(rec) == Pass
  {
  }

  /** A step on an eligible record makes progress: the record leaves
      "pending", or its retry count grows, so `maxRetries - retryCount`
      bounds the number of scheduled attempts. */
  lemma StepProgress(m: Manager, id: nat, now: int, h: Handler, sf: StepFaults)
    requires id in m.db.failures && Eligible(m.db.failures[id], now, m.cfg) && !sf.markFails
    ensures var after := Step(m, id, m.db.failures[id], now, h, sf).db.failures[id];
            after.status != RecordPending
            || 0 <= after.maxRetries - after.retryCount < m.db.failures[id].maxRetries - m.db.failures[id].retryCount
  {
  }

  /** A record that gives up keeps its old stored retry count: the final
      update writes only the status and the error. */
  lemma GiveUpKeepsStoredCount(m: Manager, id: nat, now: int, h: Handler)
    requires id in m.db.failures
    requires m.db.failures[id].retryCount + 1 >= m.db.failures[id].maxRetries
    requires Step(m, id, m.db.failures[id], now, h, StepFaults(false, false)).db.failures[id].status == RecordFailed
    ensures Step(m, id, m.db.failures[id], now, h, StepFaults(false, false)).db.failures[id].retryCount
         == m.db.failures[id].retryCount
  {
  }

  /** Under the service's own handler a record from the message path, which
      has no failure type, never succeeds. */
  lemma UntypedRecordNeverSucceeds(m: Manager, id: nat, now: int, sf: StepFaults)
    requires id in m.db.failures && m.db.failures[id].failureType == ""
    requires m.db.failures[id].status != RecordSuccess
    ensures Step(m, id, m.db.failures[id], now, ServiceHandler, sf).db.failures[id].status != RecordSuccess
  {
  }

  /** The loop over the selected batch, in order. */
  function ProcessAll(m: Manager, batch: seq<(nat, OrderFailure)>, now: int, h: Handler, faults: nat -> StepFaults)
    : (r: Manager)
    ensures r.cfg == m.cfg
    ensures r.db.failures.Keys == m.db.failures.Keys && r.db.nextFailureId == m.db.nextFailureId
    ensures r.stats.processed == m.stats.processed + |batch|
    ensures WellFormed(m.db) ==> WellFormed(r.db)
    decreases |batch|
  {
    if |batch| == 0 then m
    else ProcessAll(Step(m, batch[0].0, batch[0].1, now, h, faults(batch[0].0)), batch[1..], now, h, faults)
  }

  /** Rows the batch does not name are untouched by it. */
  lemma {:induction false} ProcessAllFrame(m: Manager, batch: seq<(nat, OrderFailure)>, now: int, h: Handler,
                                           faults: nat -> StepFaults, k: nat)
    requires k in m.db.failures
    requires forall i :: 0 <= i < |batch| ==> batch[i].0 != k
    ensures ProcessAll(m, batch, now, h, faults).db.failures[k] == m.db.failures[k]
    decreases |batch|
  {
    if |batch| > 0 {
      var m' := Step(m, batch[0].0, batch[0].1, now, h, faults(batch[0].0));
      ProcessAllFrame(m', batch[1..], now, h, faults, k);
    }
  }

  /** Stale pending and processing records, which the sweep expires. */
  predicate Stale(f: OrderFailure, now: int, cfg: Config) {
    f.createdAt < Cutoff(cfg, now) && (f.status == RecordPending || f.status == RecordProcessing)
  }

  /** `cleanupExpiredFailures`: stale records become "expired"; nothing else changes. */
  function Cleanup(m: Manager, now: int, fails: bool): (r: Manager)
    ensures fails ==> r == m
    ensures r.db.failures.Keys == m.db.failures.Keys
    ensures r.db.orders == m.db.orders && r.db.idempotency == m.db.idempotency && r.db.nextFailureId == m.db.nextFailureId
    ensures !fails ==> forall id :: id in m.db.failures ==>
      r.db.failures[id] == (if Stale(m.db.failures[id], now, m.cfg) then m.db.failures[id].(status := RecordExpired)
                            else m.db.failures[id])
    ensures !fails ==> r.stats.expired == m.stats.expired + |set id | id in m.db.failures && Stale(m.db.failures[id], now, m.cfg)|
    ensures r.cfg == m.cfg
    ensures WellFormed(m.db) ==> WellFormed(r.db)
  {
    if fails then m
    else
      var fs := m.db.failures;
      var stale := set id | id in fs && Stale(fs[id], now, m.cfg);
      var fs' := map id | id in fs :: if id in stale then fs[id].(status := RecordExpired) else fs[id];
      m.(db := m.db.(failures := fs'), stats := m.stats.(expired := m.stats.expired + |stale|))
  }

  /** After a cleanup no stale record remains. */
  lemma CleanupLeavesNoStale(m: Manager, now: int)
    ensures forall id :: id in Cleanup(m, now, false).db.failures ==>
      !Stale(Cleanup(m, now, false).db.failures[id], now, m.cfg)
  {
  }

  /** The cron job's faults: the selection query and the cleanup update. */
  datatype TickFaults = TickFaults(queryFails: bool, cleanupFails: bool, steps: nat -> StepFaults)

  /** One run of the cron job. A disabled manager never schedules it; an
      empty or failed selection returns before the cleanup. */
  function Tick(m: Manager, scan: seq<nat>, now: int, h: Handler, tf: TickFaults): (r: Manager)
    ensures !m.cfg.enable ==> r == m
    ensures tf.queryFails ==> r == m
    ensures m.cfg.enable && !tf.queryFails && |Select(m, scan, now)| == 0 ==> r == m
    ensures r.db.failures.Keys == m.db.failures.Keys
    ensures WellFormed(m.db) ==> WellFormed(r.db)
  {
    if !m.cfg.enable || tf.queryFails then m
    else
      var batch := Select(m, scan, now);
      if |batch| == 0 then m
      else Cleanup(ProcessAll(m, batch, now, h, tf.steps), now, tf.cleanupFails)
  }

  /** A tick never touches a record that is neither pending nor processing:
      "success", "failed" and "expired" are final for the scheduler. */
  lemma TickKeepsFinalRecords(m: Manager, scan: seq<nat>, now: int, h: Handler, tf: TickFaults, k: nat)
    requires k in m.db.failures
    requires m.db.failures[k].status != RecordPending && m.db.failures[k].status != RecordProcessing
    ensures Tick(m, scan, now, h, tf).db.failures[k] == m.db.failures[k]
  {
    if m.cfg.enable && !tf.queryFails {
      var batch := Select(m, scan, now);
      if |batch| > 0 {
        forall i | 0 <= i < |batch|
          ensures batch[i].0 != k
        {
          assert Eligible(batch[i].1, now, m.cfg);
        }
        ProcessAllFrame(m, batch, now, h, tf.steps, k);
      }
    }
  }

  /** `ManualRetry`: any record except a successful one is processed once
      more, whatever its status or retry count. */
  function ManualRetry(m: Manager, id: nat, now: int, h: Handler, sf: StepFaults, lookupFails: bool)
    : (r: (Outcome<string>, Manager))
    ensures r.0 == Pass <==> !lookupFails && id in m.db.failures && m.db.failures[id].status != RecordSuccess
    ensures r.0.Fail? ==> r.1 == m
    ensures r.0 == Pass ==> r.1 == Step(m, id, m.db.failures[id], now, h, sf)
  {
    if lookupFails || id !in m.db.failures then (Fail("failed to find failure record"), m)
    else if m.db.failures[id].status == RecordSuccess then (Fail("failure already processed successfully"), m)
    else (Pass, Step(m, id, m.db.failures[id], now, h, sf))
  }
}

=== FILE: decimal.dfy ===
/** Decimal text for integers: Go's `%d` formatting and `strconv.ParseInt(s, 10, 64)`.
    Store keys, order ids and request headers are built from or parsed into this form. */
module Decimal {
  import opened Common

  const MinInt64: int := -0x8000_0000_0000_0000
  const MaxInt64: int := 0x7fff_ffff_ffff_ffff

  predicate IsDigit(c: char) {
    '0' <= c <= '9'
  }

  /** A non-empty run of ASCII digits. */
  predicate IsDigits(s: string) {
    |s| > 0 && forall i :: 0 <= i < |s| ==> IsDigit(s[i])
  }

  function DigitChar(d: nat): (c: char)
    requires d < 10
    ensures IsDigit(c)
  {
    (('0' as int) + d) as char
  }

  function DigitValue(c: char): (d: nat)
    requires IsDigit(c)
    ensures d < 10 && DigitChar(d) == c
  {
    (c as int) - ('0' as int)
  }

  /** Go's `%d` of a non-negative number: digits only, no leading zero. */
  function NatToString(n: nat): (s: string)
    ensures IsDigits(s)
    ensures |s| > 1 ==> s[0] != '0'
  {
    if n < 10 then [DigitChar(n)] else NatToString(n / 10) + [DigitChar(n % 10)]
  }

  /** Go's `%d` of any integer: a leading '-' for negatives. */
  function IntToString(i: int): (s: string)
    ensures |s| > 0
    ensures i >= 0 <==> IsDigits(s)
    ensures forall k :: 0 <= k < |s| ==> s[k] != ':' && s[k] != '/'
  {
    if i < 0 then
      var s := "-" + NatToString(-i);
      assert !IsDigit(s[0]);
      s
    else NatToString(i)
  }

  /** The value of a run of digits (leading zeros allowed). */
  function DigitsValue(s: string): (n: nat)
    requires forall i :: 0 <= i < |s| ==> IsDigit(s[i])
  {
    if |s| == 0 then 0 else DigitsValue(s[..|s| - 1]) * 10 + DigitValue(s[|s| - 1])
  }

  /** Decimal parsing with an optional sign and no range limit. */
  function ParseInt(s: string): (r: Option<int>)
    ensures r.Some? ==> |s| > 0
  {
    if |s| > 0 && (s[0] == '-' || s[0] == '+') then
      if IsDigits(s[1..]) then
        var magnitude: int := DigitsValue(s[1..]);
        Some(if s[0] == '-' then -magnitude else magnitude)
      else None
    else if IsDigits(s) then Some(DigitsValue(s))
    else None
  }

  /** `strconv.ParseInt(s, 10, 64)`: a signed decimal that fits 64 bits, else an error. */
  function ParseInt64(s: string): (r: Option<int>)
    ensures r.Some? ==> MinInt64 <= r.value <= MaxInt64
    ensures r.Some? <==> ParseInt(s).Some? && MinInt64 <= ParseInt(s).value <= MaxInt64
  {
    match ParseInt(s)
    case Some(v) => if MinInt64 <= v <= MaxInt64 then Some(v) else None
    case None => None
  }

  lemma {:induction false} NatToStringValue(n: nat)
    ensures DigitsValue(NatToString(n)) == n
    decreases n
  {
    if n >= 10 {
      var s := NatToString(n);
      NatToStringValue(n / 10);
      assert s[..|s| - 1] == NatToString(n / 10);
    }
  }

  /** Parsing undoes `%d` for every integer. */
  lemma IntToStringRoundTrip(i: int)
    ensures ParseInt(IntToString(i)) == Some(i)
  {
    var s := IntToString(i);
    if i < 0 {
      NatToStringValue(-i);
      assert s[1..] == NatToString(-i);
    } else {
      NatToStringValue(i);
      assert s[0] != '-' && s[0] != '+';
    }
  }

  /** ... and so does the 64-bit parser, for every 64-bit value. */
  lemma IntToStringRoundTrip64(i: int)
    requires MinInt64 <= i <= MaxInt64
    ensures ParseInt64(IntToString(i)) == Some(i)
  {
    IntToStringRoundTrip(i);
  }

  /** Distinct integers render as distinct text. */
  lemma IntToStringInjective(a: int, b: int)
    requires IntToString(a) == IntToString(b)
    ensures a == b
  {
    IntToStringRoundTrip(a);
    IntToStringRoundTrip(b);
  }
}

=== FILE: distributed_lock.dfy ===
/** The owner-token lock: set-if-absent with a TTL to acquire, and
    compare-then-delete / compare-then-expire scripts to release and renew.
    Time is in milliseconds; between retries the rest of the world is frozen,
    so an entry changes only by expiring. */
module DistributedLock {
  import opened Common
  import opened FastStore
  import Decimal

  datatype LockError = LockFailed | LockNotHeld | ClientError | Cancelled

  /** A lock handle: the key, the owner token and the TTL in milliseconds. */
  datatype DLock = DLock(key: string, token: string, ttlMs: int)

  /** The token is the decimal text of the creation instant in nanoseconds. */
  function NewDistributedLock(key: string, ttlMs: int, nanos: int): (l: DLock)
    ensures l.key == key && l.ttlMs == ttlMs && l.token != ""
  {
    DLock(key, Decimal.IntToString(nanos), ttlMs)
  }

  /** Locks created at different instants carry different owner tokens. */
  lemma LockTokensDistinct(key: string, ttlMs: int, n1: int, n2: int)
    requires n1 != n2
    ensures NewDistributedLock(key, ttlMs, n1).token != NewDistributedLock(key, ttlMs, n2).token
  {
    if Decimal.IntToString(n1) == Decimal.IntToString(n2) {
      Decimal.IntToStringInjective(n1, n2);
    }
  }

  /** An entry still exists at `now` when it has no expiry or expires later. */
  predicate Live(e: LockEntry, now: int) {
    e.expiresAt.None? || now < e.expiresAt.value
  }

  predicate Free(st: Store, key: string, now: int) {
    key !in st.locks || !Live(st.locks[key], now)
  }

  /** The key is live and holds exactly `token`. */
  predicate HeldBy(st: Store, key: string, token: string, now: int) {
    key in st.locks && Live(st.locks[key], now) && st.locks[key].owner == token
  }

  /** The client wrapper's `GET`: the live value, or "" for a missing key. */
  function GetValue(st: Store, key: string, now: int): (v: string)
    ensures v != "" ==> key in st.locks && Live(st.locks[key], now) && st.locks[key].owner == v
  {
    if key in st.locks && Live(st.locks[key], now) then st.locks[key].owner else ""
  }

  /** The expiry `SET NX` gives for a TTL of whole milliseconds: none for a
      zero TTL (plain `SETNX`), `now + ttl` for a positive one. The client's
      keep-TTL marker is -1 nanosecond, which no millisecond TTL equals, so
      every negative TTL is sent as a negative `px` and Redis refuses it. */
  function ExpiryFor(ttlMs: int, now: int): (r: Option<Option<int>>)
    ensures r.None? <==> ttlMs < 0
    ensures r == Some(None) <==> ttlMs == 0
    ensures r.Some? && r.value.Some? ==> ttlMs > 0 && r.value.value == now + ttlMs
  {
    if ttlMs == 0 then Some(None)
    else if ttlMs > 0 then Some(Some(now + ttlMs))
    else None
  }

  /** One acquisition attempt. */
  function Lock(st: Store, l: DLock, now: int, clientFails: bool): (r: (Outcome<LockError>, Store))
    ensures r.0.Pass? <==> !clientFails && ExpiryFor(l.ttlMs, now).Some? && Free(st, l.key, now)
    ensures r.0.Pass? ==> r.1 == st.(locks := st.locks[l.key := LockEntry(l.token, ExpiryFor(l.ttlMs, now).value)])
    ensures r.0.Pass? && l.ttlMs != 0 ==> HeldBy(r.1, l.key, l.token, now)
    ensures r.0.Fail? ==> r.1 == st
    ensures l.ttlMs < 0 ==> r == (Fail(ClientError), st)
    ensures !clientFails && ExpiryFor(l.ttlMs, now).Some? && !Free(st, l.key, now) ==> r.0 == Fail(LockFailed)
  {
    if clientFails then (Fail(ClientError), st)
    else match ExpiryFor(l.ttlMs, now)
      case None => (Fail(ClientError), st)
      case Some(expiry) =>
        if Free(st, l.key, now) then (Pass, st.(locks := st.locks[l.key := LockEntry(l.token, expiry)]))
        else (Fail(LockFailed), st)
  }

  /** Whether attempt `i` (made at `at`) would succeed. */
  predicate AttemptSucceeds(st: Store, l: DLock, at: int, i: nat, clientFailsAt: set<nat>) {
    Lock(st, l, at, i in clientFailsAt).0.Pass?
  }

  /** Up to `maxRetries` attempts, `retryMs` apart, starting at `now`. Any
      attempt error is retried. A context cancelled before the next attempt
      is due ends the loop with the cancellation error. */
  method TryLock(st: Store, l: DLock, now: int, retryMs: nat, maxRetries: int,
                 cancelAt: Option<int>, clientFailsAt: set<nat>)
    returns (r: Outcome<LockError>, st': Store, attempts: nat)
    ensures maxRetries <= 0 ==> r == Fail(LockFailed) && st' == st && attempts == 0
    ensures attempts <= maxRetries || attempts == 0
    ensures forall i: nat :: i + 1 < attempts ==> !AttemptSucceeds(st, l, now + i * retryMs, i, clientFailsAt)
    ensures r.Pass? <==> attempts > 0 && AttemptSucceeds(st, l, now + (attempts - 1) * retryMs, attempts - 1, clientFailsAt)
    ensures r.Pass? ==> st' == Lock(st, l, now + (attempts - 1) * retryMs, false).1
    ensures r.Fail? ==> st' == st
    ensures r == Fail(LockFailed) && maxRetries > 0 ==>
      attempts == maxRetries && !AttemptSucceeds(st, l, now + (attempts - 1) * retryMs, attempts - 1, clientFailsAt)
    ensures r == Fail(Cancelled) ==>
      attempts < maxRetries && cancelAt.Some? && cancelAt.value < now + attempts * retryMs
  {
    var i: nat := 0;
    while i < maxRetries
      invariant maxRetries > 0 ==> i <= maxRetries
      invariant maxRetries <= 0 ==> i == 0
      invariant forall j: nat :: j < i ==> !AttemptSucceeds(st, l, now + j * retryMs, j, clientFailsAt)
    {
      var at := now + i * retryMs;
      var (outcome, next) := Lock(st, l, at, i in clientFailsAt);
      if outcome.Pass? {
        return Pass, next, i + 1;
      }
      if i < maxRetries - 1 && cancelAt.Some? && cancelAt.value < at + retryMs {
        return Fail(Cancelled), st, i + 1;
      }
      i := i + 1;
    }
    return Fail(LockFailed), st, i;
  }

  /** Release: only the live owner's token deletes the key. A failed script
      call also reports "not held". */
  function Unlock(st: Store, l: DLock, now: int, evalFails: bool): (r: (Outcome<LockError>, Store))
    ensures r.0.Pass? <==> !evalFails && HeldBy(st, l.key, l.token, now)
    ensures r.0.Pass? ==> r.1 == st.(locks := st.locks - {l.key}) && Free(r.1, l.key, now)
    ensures r.0.Fail? ==> r == (Fail(LockNotHeld), st)
  {
    if !evalFails && HeldBy(st, l.key, l.token, now) then (Pass, st.(locks := st.locks - {l.key}))
    else (Fail(LockNotHeld), st)
  }

  /** Renewal: under the same ownership guard, `EXPIRE key <whole seconds of
      the TTL>`. Go truncates the TTL to whole seconds, and a non-positive
      timeout deletes the key, as Redis does. */
  function Renew(st: Store, l: DLock, now: int, evalFails: bool): (r: (Outcome<LockError>, Store))
    ensures r.0.Pass? <==> !evalFails && HeldBy(st, l.key, l.token, now)
    ensures r.0.Fail? ==> r == (Fail(LockNotHeld), st)
    ensures r.0.Pass? && l.ttlMs >= 1000 ==>
      HeldBy(r.1, l.key, l.token, now)
      && r.1.locks[l.key].expiresAt == Some(now + GoDiv(l.ttlMs, 1000) * 1000)
      && now + l.ttlMs - 1000 < r.1.locks[l.key].expiresAt.value <= now + l.ttlMs
    ensures r.0.Pass? && l.ttlMs < 1000 ==> Free(r.1, l.key, now)
    ensures forall k :: k != l.key ==> (k in r.1.locks <==> k in st.locks)
  {
    if evalFails || !HeldBy(st, l.key, l.token, now) then (Fail(LockNotHeld), st)
    else
      var seconds := GoDiv(l.ttlMs, 1000);
      if seconds <= 0 then (Pass, st.(locks := st.locks - {l.key}))
      else (Pass, st.(locks := st.locks[l.key := LockEntry(l.token, Some(now + seconds * 1000))]))
  }

  /** Whether the stored value equals the caller's token. With a non-empty
      token this is exactly ownership of a live entry. */
  function IsHeld(st: Store, l: DLock, now: int, getFails: bool): (r: Result<bool, LockError>)
    ensures getFails <==> r.Err?
    ensures r.Ok? && l.token != "" ==> (r.value <==> HeldBy(st, l.key, l.token, now))
    ensures r.Ok? && l.token == "" ==> (r.value <==> Free(st, l.key, now) || st.locks[l.key].owner == "")
  {
    if getFails then Err(ClientError) else Ok(GetValue(st, l.key, now) == l.token)
  }

  /** Acquire, then hand back the handle whose release cancels renewal and
      unlocks. A failed acquisition returns no handle. */
  function LockWithAutoRenew(st: Store, l: DLock, now: int, clientFails: bool): (r: (Result<DLock, LockError>, Store))
    ensures r.0.Err? <==> Lock(st, l, now, clientFails).0.Fail?
    ensures r.0.Err? ==> r.1 == st && r.0.error == Lock(st, l, now, clientFails).0.error
    ensures r.0.Ok? ==> r.0.value == l && r.1 == Lock(st, l, now, clientFails).1
  {
    var (outcome, next) := Lock(st, l, now, clientFails);
    match outcome
    case Fail(e) => (Err(e), st)
    case Pass => (Ok(l), next)
  }

  /** Mutual exclusion: while A's lock is live, nobody else with a different
      token can take it, release it or renew it, and A can release it. */
  lemma OnlyOwnerReleases(st: Store, a: DLock, b: DLock, t: int, later: int, bFails: bool)
    requires a.key == b.key && a.token != b.token
    requires a.ttlMs > 0 && t <= later < t + a.ttlMs
    requires Lock(st, a, t, false).0.Pass?
    ensures var held := Lock(st, a, t, false).1;
            Lock(held, b, later, bFails).0.Fail?
            && Unlock(held, b, later, bFails) == (Fail(LockNotHeld), held)
            && Renew(held, b, later, bFails) == (Fail(LockNotHeld), held)
            && Unlock(held, a, later, false).0.Pass?
            && Free(Unlock(held, a, later, false).1, a.key, later)
  {
  }

  /** With a live holder and no cancellation, every retry fails: the lock
      is not acquired within `maxRetries` attempts that all fall before the
      holder's expiry. */
  lemma RetriesBeforeExpiryFail(st: Store, l: DLock, now: int, retryMs: nat, maxRetries: int, i: nat)
    requires l.key in st.locks && l.ttlMs > 0
    requires st.locks[l.key].expiresAt.None? || now + i * retryMs < st.locks[l.key].expiresAt.value
    ensures !AttemptSucceeds(st, l, now + i * retryMs, i, {})
  {
  }
}

=== FILE: fast_store.dfy ===
/** Redis, as the services use it, modelled as an immutable value.
    Each kind of value lives in its own map: integer counters (stock),
    sets of user ids (buyers), activity documents, purchase records and lock
    entries. A missing key is simply absent from its map; the client wrapper's
    convention that a missing key reads as the empty string is `GetText`. */
module FastStore {
  import opened Common
  import Decimal

  /** A script's return value as the Go client receives it. */
  datatype Reply = RInt(n: int) | RStr(s: string) | RArray(items: seq<Reply>) | RNil

  /** The activity document a prewarm writes, decoded, keeping the fields the
      scripts read. The times are the text JSON holds for them: `json.Marshal`
      writes a Go time as an RFC 3339 string such as "2024-01-01T10:00:00Z". */
  datatype ActivityInfo = ActivityInfo(productId: int, stock: int, startTime: string, endTime: string)

  /** The shape of every RFC 3339 time `json.Marshal` writes: a four-digit
      year, then '-'. */
  predicate Rfc3339Shaped(s: string) {
    |s| > 4 && s[4] == '-' && forall i :: 0 <= i < 4 ==> Decimal.IsDigit(s[i])
  }

  /** The per-(product, user) purchase details document. */
  datatype PurchaseRecord = PurchaseRecord(
    userId: int, productId: int, quantity: int, purchaseTime: int, status: string, ttlSeconds: int)

  /** A lock key's value (the owner token) and its absolute expiry, if any. */
  datatype LockEntry = LockEntry(owner: string, expiresAt: Option<int>)

  datatype Store = Store(
    counters: map<string, int>,
    sets: map<string, set<int>>,
    activities: map<string, ActivityInfo>,
    records: map<string, PurchaseRecord>,
    locks: map<string, LockEntry>)

  const EmptyStore := Store(map[], map[], map[], map[], map[])

  /** `SMEMBERS`: a missing set reads as empty. */
  function Members(st: Store, key: string): set<int> {
    if key in st.sets then st.sets[key] else {}
  }

  /** `SISMEMBER` */
  predicate IsMember(st: Store, key: string, member: int) {
    member in Members(st, key)
  }

  /** `SADD`: only the named set changes, and it gains exactly `member`. */
  function SAdd(st: Store, key: string, member: int): (r: Store)
    ensures Members(r, key) == Members(st, key) + {member}
    ensures forall k :: k != key ==> Members(r, k) == Members(st, k)
    ensures r.counters == st.counters && r.activities == st.activities
    ensures r.records == st.records && r.locks == st.locks
  {
    st.(sets := st.sets[key := Members(st, key) + {member}])
  }

  /** `SREM`: only the named set changes, and it loses exactly `member`;
      like Redis, a set that becomes empty is deleted. */
  function SRem(st: Store, key: string, member: int): (r: Store)
    ensures Members(r, key) == Members(st, key) - {member}
    ensures forall k :: k != key ==> Members(r, k) == Members(st, k)
    ensures r.counters == st.counters && r.activities == st.activities
    ensures r.records == st.records && r.locks == st.locks
  {
    var rest := Members(st, key) - {member};
    if rest == {} then st.(sets := st.sets - {key}) else st.(sets := st.sets[key := rest])
  }

  /** Redis never stores an empty set: the last `SREM` deletes the key. */
  predicate NoEmptySet(st: Store, key: string) {
    key in st.sets ==> st.sets[key] != {}
  }

  /** `SCARD` */
  function Cardinality(st: Store, key: string): nat {
    |Members(st, key)|
  }

  /** `GET key` on a counter, with `0` for a missing key (Lua's `or 0`, and `INCRBY`'s start value). */
  function CounterOrZero(st: Store, key: string): int {
    if key in st.counters then st.counters[key] else 0
  }

  /** `SET key value` on a counter. */
  function SetCounter(st: Store, key: string, value: int): (r: Store)
    ensures key in r.counters && r.counters[key] == value
    ensures forall k :: k != key ==> (k in r.counters <==> k in st.counters)
    ensures forall k :: k != key && k in st.counters ==> r.counters[k] == st.counters[k]
    ensures r.sets == st.sets && r.activities == st.activities
    ensures r.records == st.records && r.locks == st.locks
  {
    st.(counters := st.counters[key := value])
  }

  /** `INCRBY key delta`: a missing key starts from 0. */
  function IncrBy(st: Store, key: string, delta: int): (r: Store)
    ensures key in r.counters && r.counters[key] == CounterOrZero(st, key) + delta
    ensures forall k :: k != key ==> (k in r.counters <==> k in st.counters)
    ensures forall k :: k != key && k in st.counters ==> r.counters[k] == st.counters[k]
    ensures r.sets == st.sets && r.activities == st.activities
    ensures r.records == st.records && r.locks == st.locks
  {
    SetCounter(st, key, CounterOrZero(st, key) + delta)
  }

  /** The client wrapper's `Get` on a counter: the decimal text, or "" when the key is missing. */
  function GetText(st: Store, key: string): (s: string)
    ensures s == "" <==> key !in st.counters
    ensures key in st.counters ==> Decimal.ParseInt(s) == Some(st.counters[key])
  {
    if key in st.counters then
      Decimal.IntToStringRoundTrip(st.counters[key]);
      Decimal.IntToString(st.counters[key])
    else ""
  }

  /** `DEL key` across every kind of value. */
  function Del(st: Store, key: string): (r: Store)
    ensures key !in r.counters && key !in r.sets && key !in r.activities
    ensures key !in r.records && key !in r.locks
    ensures forall k :: k != key && k in st.counters ==> k in r.counters && r.counters[k] == st.counters[k]
    ensures forall k :: k != key ==> Members(r, k) == Members(st, k)
    ensures forall k :: k != key && k in st.activities ==> k in r.activities && r.activities[k] == st.activities[k]
  {
    Store(st.counters - {key}, st.sets - {key}, st.activities - {key}, st.records - {key}, st.locks - {key})
  }
}

=== FILE: gateway_auth.dfy ===
/** The gateway's authentication middleware: where a bearer token is read
    from (section 2.1 of RFC 6750 for the header form), the path whitelist,
    the expiry rule applied on top of JWT parsing (section 4.1.4 of RFC 7519),
    token refresh, and the request-signature check with its canonical
    signing string. Token decoding and signature checking (`jwt.Parse` up to
    its claims validation) and HMAC-SHA256 are not modelled: a decoded token
    is an `Option<Claims>` and the MAC is a function parameter. The time
    claims validation `jwt.Parse` applies by default is modelled. */
module GatewayAuth {
  import opened Common
  import opened Strings
  import Decimal

  const BearerPrefix: string := "Bearer "
  const RefreshType: string := "refresh"
  const NanosPerSecond: int := 1_000_000_000
  const SecretSeparator: string := "&secret="

  /** A claim as it comes out of JSON decoding into `jwt.MapClaims`: absent,
      a string, a number (a float64 in Go; the integral values used here),
      or anything else. */
  datatype Claim = Missing | Text(s: string) | Number(n: int) | OtherClaim

  datatype Claims = Claims(userId: Claim, username: Claim, typ: Claim, iat: Claim, exp: Claim, nbf: Claim)

  /** The dynamic type of the value stored under "user_id" in the request
      context, as later read back by the rate limiter. */
  datatype ContextValue = Unset | GoString(s: string) | GoInt64(i: int) | GoOther

  /** JSON strings arrive as Go strings; numbers as float64, a missing claim
      as nil: neither of those is a string or an int64. */
  function ContextValueOf(c: Claim): (v: ContextValue)
    ensures v.GoString? <==> c.Text?
    ensures !v.GoInt64? && !v.Unset?
  {
    if c.Text? then GoString(c.s) else GoOther
  }

  /** `time.Time.Unix`: whole seconds, rounded down. */
  function UnixSeconds(ns: int): (s: int)
    ensures s * NanosPerSecond <= ns < (s + 1) * NanosPerSecond
  {
    ns / NanosPerSecond
  }

  // ---------------------------------------------------------------- tokens

  /** `getTokenFromRequest`: the Authorization header (without a leading
      "Bearer "), else the `token` query parameter, else the `token` cookie. */
  function TokenFromRequest(authorization: string, queryToken: string, cookie: Option<string>): (t: string)
    ensures authorization != "" && HasPrefix(authorization, BearerPrefix) ==> BearerPrefix + t == authorization
    ensures authorization != "" && !HasPrefix(authorization, BearerPrefix) ==> t == authorization
    ensures authorization == "" && queryToken != "" ==> t == queryToken
    ensures authorization == "" && queryToken == "" ==> t == (if cookie.Some? then cookie.value else "")
  {
    if authorization != "" then TrimPrefix(authorization, BearerPrefix)
    else if queryToken != "" then queryToken
    else if cookie.Some? then cookie.value
    else ""
  }

  /** Whatever follows "Bearer " is the token, and the other sources are
      not consulted. */
  lemma BearerRoundTrip(t: string, queryToken: string, cookie: Option<string>)
    ensures TokenFromRequest(BearerPrefix + t, queryToken, cookie) == t
  {
    assert HasPrefix(BearerPrefix + t, BearerPrefix) by {
      assert (BearerPrefix + t)[..|BearerPrefix|] == BearerPrefix;
    }
    var r := TokenFromRequest(BearerPrefix + t, queryToken, cookie);
    assert BearerPrefix + r == BearerPrefix + t;
    assert r == (BearerPrefix + r)[|BearerPrefix|..];
  }

  /** `isWhitelisted`: some entry is a prefix of the path (a plain string
      prefix, not a path-segment one). */
  function IsWhitelisted(whitelist: seq<string>, path: string): (r: bool)
    ensures r <==> exists i :: 0 <= i < |whitelist| && HasPrefix(path, whitelist[i])
  {
    if |whitelist| == 0 then false
    else if HasPrefix(path, whitelist[0]) then true
    else
      var r := IsWhitelisted(whitelist[1..], path);
      assert forall i :: 1 <= i < |whitelist| ==> whitelist[1..][i - 1] == whitelist[i];
      assert r ==> exists i :: 0 <= i < |whitelist| && HasPrefix(path, whitelist[i]) by {
        if r {
          var i :| 0 <= i < |whitelist[1..]| && HasPrefix(path, whitelist[1..][i]);
          assert HasPrefix(path, whitelist[i + 1]);
        }
      }
      r
  }

  /** An empty whitelist entry lets every path through unauthenticated. */
  lemma EmptyEntryWhitelistsAll(whitelist: seq<string>, path: string)
    requires "" in whitelist
    ensures IsWhitelisted(whitelist, path)
  {
    var i :| 0 <= i < |whitelist| && whitelist[i] == "";
    assert HasPrefix(path, whitelist[i]);
  }

  // ------------------------------------------------------------------- JWT

  datatype AuthConfig = AuthConfig(enable: bool, tokenExpireNs: int, refreshExpireNs: int, whitelist: seq<string>)

  /** `parseNumericDate` of `jwt.MapClaims`: an absent claim, and the number
      0, are no date; any other number is that Unix second; a claim of any
      other type is an invalid-type error. */
  function NumericDate(c: Claim): (r: Result<Option<int>, string>)
    ensures r.Err? <==> c.Text? || c.OtherClaim?
    ensures r.Ok? && r.value.Some? ==> c == Number(r.value.value) && r.value.value != 0
  {
    match c
    case Missing => Ok(None)
    case Number(n) => if n == 0 then Ok(None) else Ok(Some(n))
    case _ => Err("invalid type")
  }

  /** When the library's default claims validation admits a token at
      `nowNs`: `exp`, if it is a date, is strictly after now, and `nbf`, if
      it is a date, is at or before now (no leeway). `iat` is checked only
      on request, which the gateway does not make. */
  predicate LiveAt(c: Claims, nowNs: int) {
    && (c.exp == Missing || (c.exp.Number? && (c.exp.n == 0 || nowNs < c.exp.n * NanosPerSecond)))
    && (c.nbf == Missing || (c.nbf.Number? && (c.nbf.n == 0 || c.nbf.n * NanosPerSecond <= nowNs)))
  }

  /** `jwt.Parse` with its default validator, after a decoded token with a
      good HMAC signature: the expiry is checked, then not-before. */
  function ParseClaims(decoded: Option<Claims>, nowNs: int): (r: Result<Claims, string>)
    ensures r.Ok? <==> decoded.Some? && LiveAt(decoded.value, nowNs)
    ensures r.Ok? ==> r.value == decoded.value
  {
    match decoded
    case None => Err("token is malformed or unverifiable")
    case Some(c) =>
      match (NumericDate(c.exp), NumericDate(c.nbf))
      case (Err(e), _) => Err(e)
      case (_, Err(e)) => Err(e)
      case (Ok(exp), Ok(nbf)) =>
        if exp.Some? && nowNs >= exp.value * NanosPerSecond then Err("token is expired")
        else if nbf.Some? && nowNs < nbf.value * NanosPerSecond then Err("token is not valid yet")
        else Ok(c)
  }

  /** The gateway's own check after parsing: a numeric `exp` whose second
      is before the current one. */
  predicate ExpiredAt(c: Claims, nowNs: int) {
    c.exp.Number? && UnixSeconds(nowNs) > c.exp.n
  }

  /** `validateJWT`: the library's parse and validation, then the gateway's
      own expiry check. */
  function ValidateJwt(decoded: Option<Claims>, nowNs: int): (r: Result<Claims, string>)
    ensures r.Ok? <==> decoded.Some? && LiveAt(decoded.value, nowNs) && !ExpiredAt(decoded.value, nowNs)
    ensures r.Ok? ==> r.value == decoded.value
  {
    match ParseClaims(decoded, nowNs)
    case Err(e) => Err(e)
    case Ok(c) => if ExpiredAt(c, nowNs) then Err("token已过期") else Ok(c)
  }

  /** Whole seconds below an instant's second are strictly below the instant. */
  lemma SecondsBelow(nowNs: int, n: int)
    requires nowNs < n * NanosPerSecond
    ensures UnixSeconds(nowNs) < n
  {
    var s := UnixSeconds(nowNs);
    assert s * NanosPerSecond <= nowNs;
  }

  /** Once the library has admitted a token, the gateway's own expiry check
      can fire only on an `exp` of 0, which the library reads as no expiry,
      and then it fires after the first second of the epoch. */
  lemma {:induction false} OwnCheckOnlyCatchesZero(c: Claims, nowNs: int)
    requires LiveAt(c, nowNs)
    ensures ExpiredAt(c, nowNs) <==> c.exp == Number(0) && nowNs >= NanosPerSecond
  {
    if c.exp.Number? && c.exp.n != 0 {
      SecondsBelow(nowNs, c.exp.n);
    }
  }

  /** The claims `GenerateJWT` signs. */
  function AccessClaims(userId: Claim, username: string, nowNs: int, expireNs: int): (c: Claims)
    ensures c.typ == Missing && c.nbf == Missing && c.exp == Number(UnixSeconds(nowNs + expireNs))
    ensures c.userId == userId && c.username == Text(username) && c.iat == Number(UnixSeconds(nowNs))
  {
    Claims(userId, Text(username), Missing, Number(UnixSeconds(nowNs)), Number(UnixSeconds(nowNs + expireNs)), Missing)
  }

  /** The claims `GenerateRefreshToken` signs. */
  function RefreshClaims(userId: Claim, nowNs: int, refreshExpireNs: int): (c: Claims)
    ensures c.typ == Text(RefreshType) && c.nbf == Missing && c.exp == Number(UnixSeconds(nowNs + refreshExpireNs))
    ensures c.userId == userId && c.username == Missing
  {
    Claims(userId, Missing, Text(RefreshType), Number(UnixSeconds(nowNs)), Number(UnixSeconds(nowNs + refreshExpireNs)), Missing)
  }

  /** The instant from which a token expiring at Unix second `e` is refused:
      the start of that second, or, for second 0 (which the library reads as
      no expiry), the end of it, where the gateway's own check takes over. */
  function RefusedFrom(e: int): int {
    if e == 0 then NanosPerSecond else e * NanosPerSecond
  }

  /** An issued access token validates exactly until the start of the
      second its lifetime ends in. */
  lemma IssuedTokenLifetime(userId: Claim, username: string, issuedNs: int, expireNs: int, nowNs: int)
    ensures ValidateJwt(Some(AccessClaims(userId, username, issuedNs, expireNs)), nowNs).Ok?
        <==> nowNs < RefusedFrom(UnixSeconds(issuedNs + expireNs))
  {
    var c := AccessClaims(userId, username, issuedNs, expireNs);
    if LiveAt(c, nowNs) {
      OwnCheckOnlyCatchesZero(c, nowNs);
    }
  }

  /** `RefreshToken`: the refresh token goes through the same parse and
      validation; then only one whose `type` claim is the string "refresh"
      is exchanged, for an access token with the same user id, an empty
      username and the configured access lifetime. */
  function RefreshToken(cfg: AuthConfig, decoded: Option<Claims>, nowNs: int): (r: Result<Claims, string>)
    ensures r.Ok? <==> decoded.Some? && LiveAt(decoded.value, nowNs) && decoded.value.typ == Text(RefreshType)
    ensures r.Ok? ==> r.value == AccessClaims(decoded.value.userId, "", nowNs, cfg.tokenExpireNs)
  {
    match ParseClaims(decoded, nowNs)
    case Err(e) => Err(e)
    case Ok(c) =>
      if c.typ != Text(RefreshType) then Err("invalid refresh token")
      else Ok(AccessClaims(c.userId, "", nowNs, cfg.tokenExpireNs))
  }

  /** A refresh token refreshes, until the start of the second its lifetime
      ends in, into an access token; that access token cannot itself be
      refreshed. */
  lemma RefreshOnce(cfg: AuthConfig, userId: Claim, issuedNs: int, nowNs: int, laterNs: int)
    ensures var r := RefreshToken(cfg, Some(RefreshClaims(userId, issuedNs, cfg.refreshExpireNs)), nowNs);
            var e := UnixSeconds(issuedNs + cfg.refreshExpireNs);
            && (r.Ok? <==> e == 0 || nowNs < e * NanosPerSecond)
            && (r.Ok? ==> r.value == AccessClaims(userId, "", nowNs, cfg.tokenExpireNs))
            && (r.Ok? ==> RefreshToken(cfg, Some(r.value), laterNs).Err?)
  {
  }

  datatype Verdict = Proceed(user: ContextValue) | Unauthorized(message: string)

  /** The `JWTAuth` middleware. A request let through without a check
      carries no user id; a checked one carries the `user_id` claim.
      `decode` stands for decoding the token and checking its HMAC
      signature. */
  function JwtAuth(cfg: AuthConfig, path: string, authorization: string, queryToken: string, cookie: Option<string>,
                   decode: string -> Option<Claims>, nowNs: int): (v: Verdict)
    ensures !cfg.enable || IsWhitelisted(cfg.whitelist, path) ==> v == Proceed(Unset)
    ensures cfg.enable && !IsWhitelisted(cfg.whitelist, path) ==>
      var t := TokenFromRequest(authorization, queryToken, cookie);
      && (v.Proceed? <==> t != "" && ValidateJwt(decode(t), nowNs).Ok?)
      && (v.Proceed? ==> v.user == ContextValueOf(decode(t).value.userId))
  {
    if !cfg.enable || IsWhitelisted(cfg.whitelist, path) then Proceed(Unset)
    else
      var t := TokenFromRequest(authorization, queryToken, cookie);
      if t == "" then Unauthorized("缺少认证token")
      else match ValidateJwt(decode(t), nowNs)
        case Err(_) => Unauthorized("token验证失败")
        case Ok(c) => Proceed(ContextValueOf(c.userId))
  }

  // ------------------------------------------------------------- signature

  datatype SignatureConfig = SignatureConfig(enable: bool, secret: string, expireNs: int, requiredHeaders: seq<string>)

  /** A request as the signature check reads it: its headers (a missing
      header reads as ""), its decoded query and form pairs in the order
      they appear, its method and its path. */
  datatype SignedRequest = SignedRequest(
    headers: map<string, string>, query: seq<(string, string)>, form: seq<(string, string)>,
    verb: string, path: string)

  function Header(req: SignedRequest, name: string): string {
    if name in req.headers then req.headers[name] else ""
  }

  function Keys(pairs: seq<(string, string)>): (ks: seq<string>)
    ensures |ks| == |pairs|
    ensures forall i :: 0 <= i < |pairs| ==> ks[i] == pairs[i].0
  {
    seq(|pairs|, i requires 0 <= i < |pairs| => pairs[i].0)
  }

  /** The first value given for a key, as `url.Values` yields through `values[0]`. */
  function FirstValue(pairs: seq<(string, string)>, key: string): (v: Option<string>)
    ensures v.Some? <==> key in Keys(pairs)
  {
    if |pairs| == 0 then None
    else if pairs[0].0 == key then Some(pairs[0].1)
    else
      var v := FirstValue(pairs[1..], key);
      assert Keys(pairs) == [pairs[0].0] + Keys(pairs[1..]);
      v
  }

  const FixedKeys: seq<string> := ["timestamp", "nonce", "method", "path"]

  predicate IsFixedKey(k: string) {
    k == "timestamp" || k == "nonce" || k == "method" || k == "path"
  }

  /** The keys the signing parameters are collected from, in collection order. */
  function CollectedKeys(req: SignedRequest): seq<string> {
    Keys(req.query) + (if req.verb == "POST" then Keys(req.form) else []) + FixedKeys
  }

  lemma CollectedKeysMembers(req: SignedRequest)
    ensures forall k :: k in CollectedKeys(req) <==>
      IsFixedKey(k) || k in Keys(req.query) || (req.verb == "POST" && k in Keys(req.form))
  {
    assert forall k :: IsFixedKey(k) ==> k in FixedKeys;
  }

  /** The value a collected key ends up with: the fixed fields override the
      form, which overrides the query. */
  function ParamValue(req: SignedRequest, timestamp: string, nonce: string, k: string): string {
    if k == "timestamp" then timestamp
    else if k == "nonce" then nonce
    else if k == "method" then req.verb
    else if k == "path" then req.path
    else if req.verb == "POST" && FirstValue(req.form, k).Some? then FirstValue(req.form, k).value
    else if FirstValue(req.query, k).Some? then FirstValue(req.query, k).value
    else ""
  }

  /** `generateSignature`'s parameter map. */
  function SigningParams(req: SignedRequest, timestamp: string, nonce: string): (p: map<string, string>)
    ensures forall k :: k in p <==> k in CollectedKeys(req)
    ensures forall k :: k in p ==> p[k] == ParamValue(req, timestamp, nonce, k)
  {
    map k | k in CollectedKeys(req) :: ParamValue(req, timestamp, nonce, k)
  }

  /** The fixed fields are always signed, with the request's own values. */
  lemma SigningParamsFixed(req: SignedRequest, timestamp: string, nonce: string)
    ensures var p := SigningParams(req, timestamp, nonce);
      && "timestamp" in p && p["timestamp"] == timestamp && "nonce" in p && p["nonce"] == nonce
      && "method" in p && p["method"] == req.verb && "path" in p && p["path"] == req.path
  {
    CollectedKeysMembers(req);
    assert IsFixedKey("timestamp") && IsFixedKey("nonce") && IsFixedKey("method") && IsFixedKey("path");
    assert ParamValue(req, timestamp, nonce, "nonce") == nonce;
    assert ParamValue(req, timestamp, nonce, "method") == req.verb;
    assert ParamValue(req, timestamp, nonce, "path") == req.path;
  }

  /** Where each signing parameter comes from: the fixed fields, then the
      POST form, then the query; nothing else is signed. */
  lemma SigningParamsSources(req: SignedRequest, timestamp: string, nonce: string, k: string)
    ensures var p := SigningParams(req, timestamp, nonce);
      && (k in p <==> IsFixedKey(k) || k in Keys(req.query) || (req.verb == "POST" && k in Keys(req.form)))
      && (k in p && !IsFixedKey(k) && req.verb == "POST" && k in Keys(req.form) ==>
            p[k] == FirstValue(req.form, k).value)
      && (k in p && !IsFixedKey(k) && (req.verb != "POST" || k !in Keys(req.form)) ==>
            p[k] == FirstValue(req.query, k).value)
  {
    CollectedKeysMembers(req);
  }

  function Pairs(p: map<string, string>, ks: seq<string>): (r: seq<string>)
    requires forall i :: 0 <= i < |ks| ==> ks[i] in p
    ensures |r| == |ks|
    ensures forall i :: 0 <= i < |ks| ==> r[i] == ks[i] + "=" + p[ks[i]]
  {
    seq(|ks|, i requires 0 <= i < |ks| => ks[i] + "=" + p[ks[i]])
  }

  /** The sorted `key=value` pairs joined by "&". */
  function SigningBody(req: SignedRequest, timestamp: string, nonce: string): string {
    var p := SigningParams(req, timestamp, nonce);
    var ks := SortKeys(CollectedKeys(req));
    KeysAreParams(req, timestamp, nonce, ks);
    Join(Pairs(p, ks), "&")
  }

  lemma KeysAreParams(req: SignedRequest, timestamp: string, nonce: string, ks: seq<string>)
    requires forall k :: k in ks <==> k in CollectedKeys(req)
    ensures forall i :: 0 <= i < |ks| ==> ks[i] in SigningParams(req, timestamp, nonce)
  {
    forall i | 0 <= i < |ks| ensures ks[i] in SigningParams(req, timestamp, nonce) {
      assert ks[i] in ks;
    }
  }

  /** The string that is MACed: the parameters as `key=value`, keys in
      ascending order, joined by "&", then "&secret=" and the secret. */
  function SigningString(req: SignedRequest, timestamp: string, nonce: string, secret: string): (s: string)
    ensures HasSuffix(s, SecretSeparator + secret)
  {
    var body := SigningBody(req, timestamp, nonce);
    SuffixOfConcat(body, SecretSeparator + secret);
    body + SecretSeparator + secret
  }

  lemma SuffixOfConcat(a: string, b: string)
    ensures HasSuffix(a + b, b)
  {
    assert (a + b)[|a + b| - |b|..] == b;
  }

  /** The signing keys are the parameter names, each once, in ascending order. */
  lemma SigningKeysSorted(req: SignedRequest, timestamp: string, nonce: string)
    ensures var ks := SortKeys(CollectedKeys(req));
            && StrictlySorted(ks)
            && forall k :: k in ks <==> k in SigningParams(req, timestamp, nonce)
  {
  }

  /** Two requests with the same parameter names and values sign the same
      string, whatever order their parameters came in. */
  lemma {:induction false} SigningStringOrderFree(r1: SignedRequest, r2: SignedRequest, timestamp: string, nonce: string, secret: string)
    requires SigningParams(r1, timestamp, nonce) == SigningParams(r2, timestamp, nonce)
    ensures SigningString(r1, timestamp, nonce, secret) == SigningString(r2, timestamp, nonce, secret)
  {
    SortKeysOrderFree(CollectedKeys(r1), CollectedKeys(r2));
  }

  /** Two's-complement wrap-around of a 64-bit subtraction result. */
  function Wrap64(x: int): (r: int)
    ensures Decimal.MinInt64 <= r <= Decimal.MaxInt64
    ensures Decimal.MinInt64 <= x <= Decimal.MaxInt64 ==> r == x
  {
    (x - Decimal.MinInt64) % 0x1_0000_0000_0000_0000 + Decimal.MinInt64
  }

  /** The freshness test as written: `now - ts` in 64-bit arithmetic against
      the whole seconds of the configured expiry. */
  predicate Fresh(nowSec: int, ts: int, expireNs: int) {
    Wrap64(nowSec - ts) <= GoDiv(expireNs, NanosPerSecond)
  }

  /** A timestamp at or after the current second always passes. */
  lemma FutureTimestampFresh(nowSec: int, ts: int, expireNs: int)
    requires 0 <= nowSec <= ts <= Decimal.MaxInt64 && expireNs >= 0
    ensures Fresh(nowSec, ts, expireNs)
  {
    GoDivSign(expireNs, NanosPerSecond);
  }

  /** The smallest 64-bit timestamp wraps `now - ts` to a negative number,
      so a request carrying it never expires. */
  lemma MinTimestampNeverExpires(nowSec: int, expireNs: int)
    requires 0 < nowSec <= Decimal.MaxInt64 && 0 <= expireNs <= Decimal.MaxInt64
    ensures Fresh(nowSec, Decimal.MinInt64, expireNs)
    ensures !FreshChecked(nowSec, Decimal.MinInt64, expireNs)
  {
    GoDivSign(expireNs, NanosPerSecond);
    assert expireNs / NanosPerSecond <= expireNs;
    var x := nowSec - Decimal.MinInt64;
    assert Wrap64(x) == x - 0x1_0000_0000_0000_0000;
  }

  /** The intended freshness test: the request is at most the expiry old. */
  predicate FreshChecked(nowSec: int, ts: int, expireNs: int) {
    nowSec - ts <= GoDiv(expireNs, NanosPerSecond)
  }

  /** Wherever the subtraction does not overflow, the intended test agrees
      with the test as written. */
  lemma FreshCheckedBoundsAge(nowSec: int, ts: int, expireNs: int)
    ensures Decimal.MinInt64 <= nowSec - ts <= Decimal.MaxInt64 ==>
      (Fresh(nowSec, ts, expireNs) <==> FreshChecked(nowSec, ts, expireNs))
  {
  }

  /** The first required header the request lacks, if any. */
  function MissingHeader(req: SignedRequest, required: seq<string>): (h: Option<string>)
    ensures h.None? <==> forall i :: 0 <= i < |required| ==> Header(req, required[i]) != ""
    ensures h.Some? ==> h.value in required && Header(req, h.value) == ""
  {
    if |required| == 0 then None
    else if Header(req, required[0]) == "" then Some(required[0])
    else
      var h := MissingHeader(req, required[1..]);
      assert forall i :: 1 <= i < |required| ==> required[1..][i - 1] == required[i];
      h
  }

  /** `validateSignature`; `mac` is HMAC-SHA256 under the configured secret,
      hex-encoded. */
  function ValidateSignature(cfg: SignatureConfig, req: SignedRequest, nowNs: int, mac: string -> string): (r: Outcome<string>)
    ensures r == Pass <==>
      && (forall i :: 0 <= i < |cfg.requiredHeaders| ==> Header(req, cfg.requiredHeaders[i]) != "")
      && Decimal.ParseInt64(Header(req, "timestamp")).Some?
      && Fresh(UnixSeconds(nowNs), Decimal.ParseInt64(Header(req, "timestamp")).value, cfg.expireNs)
      && Header(req, "nonce") != ""
      && Header(req, "signature") != ""
      && Header(req, "signature") == mac(SigningString(req, Header(req, "timestamp"), Header(req, "nonce"), cfg.secret))
  {
    var ts := Header(req, "timestamp");
    var nonce := Header(req, "nonce");
    var sig := Header(req, "signature");
    match MissingHeader(req, cfg.requiredHeaders)
    case Some(h) => Fail("缺少必需的header: " + h)
    case None =>
      if ts == "" then Fail("缺少timestamp")
      else match Decimal.ParseInt64(ts)
        case None => Fail("invalid timestamp format")
        case Some(t) =>
          if !Fresh(UnixSeconds(nowNs), t, cfg.expireNs) then Fail("请求已过期")
          else if nonce == "" then Fail("缺少nonce")
          else if sig == "" then Fail("缺少signature")
          else if sig != mac(SigningString(req, ts, nonce, cfg.secret)) then Fail("签名不匹配")
          else Pass
  }

  /** The `SignatureAuth` middleware. */
  function SignatureAuth(cfg: SignatureConfig, whitelist: seq<string>, req: SignedRequest, nowNs: int, mac: string -> string)
    : (v: Verdict)
    ensures !cfg.enable || IsWhitelisted(whitelist, req.path) ==> v == Proceed(Unset)
    ensures cfg.enable && !IsWhitelisted(whitelist, req.path) ==>
      (v.Proceed? <==> ValidateSignature(cfg, req, nowNs, mac) == Pass)
  {
    if !cfg.enable || IsWhitelisted(whitelist, req.path) then Proceed(Unset)
    else if ValidateSignature(cfg, req, nowNs, mac) == Pass then Proceed(Unset)
    else Unauthorized("签名验证失败")
  }
}

=== FILE: gateway_cors.dfy ===
/** The gateway's CORS middleware: which origins are allowed, and the
    response headers and preflight answer it produces. Response headers
    are written through gin's `Header`, which deletes a header when given
    an empty value. */
module GatewayCors {
  import opened Strings
  import Decimal
  import Common

  const AllowOrigin: string := "Access-Control-Allow-Origin"
  const AllowMethods: string := "Access-Control-Allow-Methods"
  const AllowHeaders: string := "Access-Control-Allow-Headers"
  const ExposeHeaders: string := "Access-Control-Expose-Headers"
  const AllowCredentials: string := "Access-Control-Allow-Credentials"
  const MaxAge: string := "Access-Control-Max-Age"

  const ListSeparator: string := ", "
  const StatusNoContent: int := 204

  datatype CorsConfig = CorsConfig(
    enable: bool,
    allowedOrigins: seq<string>,
    allowedMethods: seq<string>,
    allowedHeaders: seq<string>,
    exposedHeaders: seq<string>,
    allowCredentials: bool,
    maxAge: int)

  type Headers = map<string, string>

  /** gin's `Context.Header`: set, or delete when the value is empty. */
  function SetHeader(h: Headers, k: string, v: string): (r: Headers)
    ensures v == "" ==> k !in r
    ensures v != "" ==> k in r && r[k] == v
    ensures forall j :: j != k ==> (j in r <==> j in h) && (j in r ==> r[j] == h[j])
  {
    if v == "" then h - {k} else h[k := v]
  }

  /** `matchWildcard`: "*" matches everything, "*.d" matches the strings
      ending in ".d" and `d` itself, and no other pattern matches. */
  predicate MatchWildcard(pattern: string, s: string) {
    if pattern == "*" then true
    else if HasPrefix(pattern, "*.") then
      var domain := TrimPrefix(pattern, "*.");
      HasSuffix(s, "." + domain) || s == domain
    else false
  }

  /** One entry of the allowed list admits `origin`. */
  predicate Admits(entry: string, origin: string) {
    entry == "*" || entry == origin || ('*' in entry && MatchWildcard(entry, origin))
  }

  /** `isOriginAllowed`: the first admitting entry stops the scan. */
  function IsOriginAllowed(allowed: seq<string>, origin: string): (b: bool)
    ensures b <==> exists i :: 0 <= i < |allowed| && Admits(allowed[i], origin)
  {
    if |allowed| == 0 then false
    else if Admits(allowed[0], origin) then true
    else
      var b := IsOriginAllowed(allowed[1..], origin);
      assert forall i :: 1 <= i < |allowed| ==> allowed[i] == allowed[1..][i - 1];
      b
  }

  /** `isAllowAll`. */
  function IsAllowAll(allowed: seq<string>): (b: bool)
    ensures b <==> "*" in allowed
  {
    if |allowed| == 0 then false
    else allowed[0] == "*" || IsAllowAll(allowed[1..])
  }

  /** What the middleware does with the request. */
  datatype CorsResult =
    | Next(headers: Headers)       // the chain continues
    | Preflight(headers: Headers)  // answered with 204 and aborted

  function ListHeader(h: Headers, k: string, values: seq<string>): (r: Headers)
    ensures |values| > 0 ==> r == SetHeader(h, k, Join(values, ListSeparator))
    ensures |values| == 0 ==> r == h
  {
    if |values| > 0 then SetHeader(h, k, Join(values, ListSeparator)) else h
  }

  /** Header `k` of `r` is what writing the list `values` into `h` gives:
      the joined list when it is non-empty, else `h`'s own entry. */
  predicate ListWritten(r: Headers, h: Headers, k: string, values: seq<string>) {
    var w := ListHeader(h, k, values);
    (k in r <==> k in w) && (k in r ==> r[k] == w[k])
  }

  /** Header `k` is the same in `a` and `b`. */
  predicate SameAt(a: Headers, b: Headers, k: string) {
    (k in a <==> k in b) && (k in a ==> a[k] == b[k])
  }

  /** The three list headers, written one after the other; no other header
      changes. */
  function WriteLists(cfg: CorsConfig, h: Headers): (r: Headers)
    ensures ListWritten(r, h, AllowMethods, cfg.allowedMethods)
    ensures ListWritten(r, h, AllowHeaders, cfg.allowedHeaders)
    ensures ListWritten(r, h, ExposeHeaders, cfg.exposedHeaders)
    ensures forall k :: k != AllowMethods && k != AllowHeaders && k != ExposeHeaders ==> SameAt(r, h, k)
  {
    var h2 := ListHeader(h, AllowMethods, cfg.allowedMethods);
    var h3 := ListHeader(h2, AllowHeaders, cfg.allowedHeaders);
    ListHeader(h3, ExposeHeaders, cfg.exposedHeaders)
  }

  /** The response header names the middleware writes are distinct. */
  lemma NamesDistinct()
    ensures AllowOrigin != AllowMethods && AllowOrigin != AllowHeaders && AllowOrigin != ExposeHeaders
    ensures AllowCredentials != AllowMethods && AllowCredentials != AllowHeaders && AllowCredentials != ExposeHeaders
    ensures MaxAge != AllowMethods && MaxAge != AllowHeaders && MaxAge != ExposeHeaders
    ensures AllowCredentials != MaxAge && AllowOrigin != MaxAge && AllowOrigin != AllowCredentials
  {
    assert |AllowOrigin| == 27 && |AllowCredentials| == 32 && |MaxAge| == 22;
    assert |AllowMethods| == 28 && |AllowHeaders| == 28 && |ExposeHeaders| == 29;
  }

  /** List headers written into `h1` survive later writes to other headers
      and read the same as if written into `h`, when `h1` and `h` agree on
      them. */
  lemma ListsCarried(cfg: CorsConfig, h: Headers, h1: Headers, r: Headers)
    requires SameAt(h1, h, AllowMethods) && SameAt(h1, h, AllowHeaders) && SameAt(h1, h, ExposeHeaders)
    requires var w := WriteLists(cfg, h1);
      SameAt(r, w, AllowMethods) && SameAt(r, w, AllowHeaders) && SameAt(r, w, ExposeHeaders)
    ensures ListWritten(r, h, AllowMethods, cfg.allowedMethods)
    ensures ListWritten(r, h, AllowHeaders, cfg.allowedHeaders)
    ensures ListWritten(r, h, ExposeHeaders, cfg.exposedHeaders)
  {
  }

  /** The Allow-Origin header: the request's origin when it is allowed, a
      literal "*" when the list allows all (never reached, see
      `AllowAllIsAllowed`), else left as it was. No other header changes. */
  function OriginHeader(cfg: CorsConfig, origin: string, h: Headers): (r: Headers)
    ensures IsOriginAllowed(cfg.allowedOrigins, origin) && origin != "" ==>
      AllowOrigin in r && r[AllowOrigin] == origin
    ensures !IsOriginAllowed(cfg.allowedOrigins, origin) ==> SameAt(r, h, AllowOrigin)
    ensures forall k :: k != AllowOrigin ==> SameAt(r, h, k)
  {
    if IsOriginAllowed(cfg.allowedOrigins, origin) then SetHeader(h, AllowOrigin, origin)
    else if IsAllowAll(cfg.allowedOrigins) then SetHeader(h, AllowOrigin, "*")
    else h
  }

  /** Allow-Credentials when credentials are allowed, and Max-Age in
      decimal when it is positive. No other header changes. */
  function TailHeaders(cfg: CorsConfig, h: Headers): (r: Headers)
    ensures cfg.allowCredentials ==> AllowCredentials in r && r[AllowCredentials] == "true"
    ensures !cfg.allowCredentials ==> SameAt(r, h, AllowCredentials)
    ensures cfg.maxAge > 0 ==> MaxAge in r && Decimal.ParseInt(r[MaxAge]) == Common.Some(cfg.maxAge)
    ensures cfg.maxAge <= 0 ==> SameAt(r, h, MaxAge)
    ensures forall k :: k != AllowCredentials && k != MaxAge ==> SameAt(r, h, k)
  {
    NamesDistinct();
    var h5 := if cfg.allowCredentials then SetHeader(h, AllowCredentials, "true") else h;
    if cfg.maxAge > 0 then
      Decimal.IntToStringRoundTrip(cfg.maxAge);
      SetHeader(h5, MaxAge, Decimal.IntToString(cfg.maxAge))
    else h5
  }

  /** The CORS handler on a request with the given `Origin` header and
      method, writing into the response headers `h`. */
  function Cors(cfg: CorsConfig, origin: string, verb: string, h: Headers): (r: CorsResult)
    ensures !cfg.enable ==> r == Next(h)
    ensures cfg.enable ==> (r.Preflight? <==> verb == "OPTIONS")
    ensures cfg.enable && IsOriginAllowed(cfg.allowedOrigins, origin) && origin != "" ==>
      AllowOrigin in r.headers && r.headers[AllowOrigin] == origin
    ensures cfg.enable && !IsOriginAllowed(cfg.allowedOrigins, origin) ==>
      (AllowOrigin in r.headers <==> AllowOrigin in h) &&
      (AllowOrigin in h ==> r.headers[AllowOrigin] == h[AllowOrigin])
    ensures cfg.enable ==> ListWritten(r.headers, h, AllowMethods, cfg.allowedMethods)
    ensures cfg.enable ==> ListWritten(r.headers, h, AllowHeaders, cfg.allowedHeaders)
    ensures cfg.enable ==> ListWritten(r.headers, h, ExposeHeaders, cfg.exposedHeaders)
    ensures cfg.enable && cfg.allowCredentials ==>
      AllowCredentials in r.headers && r.headers[AllowCredentials] == "true"
    ensures cfg.enable && cfg.maxAge > 0 ==>
      MaxAge in r.headers && Decimal.ParseInt(r.headers[MaxAge]) == Common.Some(cfg.maxAge)
    ensures cfg.enable && cfg.maxAge <= 0 ==>
      (MaxAge in r.headers <==> MaxAge in h) && (MaxAge in h ==> r.headers[MaxAge] == h[MaxAge])
  {
    if !cfg.enable then Next(h)
    else
      NamesDistinct();
      var h1 := OriginHeader(cfg, origin, h);
      var h4 := WriteLists(cfg, h1);
      var h6 := TailHeaders(cfg, h4);
      assert SameAt(h6, h4, AllowOrigin) && SameAt(h4, h1, AllowOrigin);
      assert SameAt(h6, h4, AllowMethods) && SameAt(h6, h4, AllowHeaders) && SameAt(h6, h4, ExposeHeaders);
      assert SameAt(h1, h, AllowMethods) && SameAt(h1, h, AllowHeaders) && SameAt(h1, h, ExposeHeaders);
      assert SameAt(h4, h1, AllowCredentials) && SameAt(h1, h, AllowCredentials);
      assert SameAt(h4, h1, MaxAge) && SameAt(h1, h, MaxAge);
      ListsCarried(cfg, h, h1, h6);
      if verb == "OPTIONS" then Preflight(h6) else Next(h6)
  }

  /** A "*" entry admits every origin, so the branch that would answer
      with a literal "*" is never taken: any Allow-Origin the middleware
      writes is the request's own origin. */
  lemma AllowAllIsAllowed(allowed: seq<string>, origin: string)
    requires IsAllowAll(allowed)
    ensures IsOriginAllowed(allowed, origin)
  {
    var i :| 0 <= i < |allowed| && allowed[i] == "*";
    assert Admits(allowed[i], origin);
  }

  lemma {:induction false} OriginEchoed(cfg: CorsConfig, origin: string, verb: string, h: Headers)
    requires cfg.enable && AllowOrigin !in h
    ensures var r := Cors(cfg, origin, verb, h);
            AllowOrigin in r.headers ==> r.headers[AllowOrigin] == origin
  {
    if IsAllowAll(cfg.allowedOrigins) {
      AllowAllIsAllowed(cfg.allowedOrigins, origin);
    }
  }

  /** With "*" configured and credentials allowed, every non-empty origin
      is reflected back together with Allow-Credentials: true. */
  lemma CredentialedWildcardReflectsAnyOrigin(cfg: CorsConfig, origin: string, verb: string, h: Headers)
    requires cfg.enable && cfg.allowCredentials && "*" in cfg.allowedOrigins && origin != ""
    ensures var r := Cors(cfg, origin, verb, h);
            && r.headers[AllowOrigin] == origin
            && r.headers[AllowCredentials] == "true"
  {
    AllowAllIsAllowed(cfg.allowedOrigins, origin);
  }

  /** A request without an Origin header on a "*" configuration: the echo
      of the empty origin deletes the header instead. */
  lemma MissingOriginSendsNoAllowOrigin(cfg: CorsConfig, verb: string, h: Headers)
    requires cfg.enable && "*" in cfg.allowedOrigins
    ensures AllowOrigin !in Cors(cfg, "", verb, h).headers
  {
    AllowAllIsAllowed(cfg.allowedOrigins, "");
  }

  /** "*.d" admits each subdomain of d and d itself. */
  lemma WildcardAdmitsSubdomains(domain: string, sub: string)
    ensures MatchWildcard("*." + domain, sub + "." + domain)
    ensures MatchWildcard("*." + domain, domain)
  {
    var p := "*." + domain;
    assert p[..2] == "*.";
    assert TrimPrefix(p, "*.") == domain;
    var s := sub + "." + domain;
    assert s[|s| - |"." + domain|..] == "." + domain;
  }

  /** A pattern whose star is not at its head (a scheme written before
      the star, say) never matches anything. */
  lemma MidPatternStarNeverMatches(pattern: string, s: string)
    requires |pattern| > 0 && pattern[0] != '*'
    ensures !MatchWildcard(pattern, s)
  {
  }

  /** "*." + d requires the dot: an origin that merely ends in d is not
      matched. */
  lemma WildcardNeedsDot()
    ensures !MatchWildcard("*.a.io", "http://ba.io")
    ensures MatchWildcard("*.a.io", "http://b.a.io")
  {
    WildcardAdmitsSubdomains("a.io", "http://b");
    var p := "*.a.io";
    assert p[..2] == "*.";
    assert TrimPrefix(p, "*.") == "a.io";
    var s := "http://ba.io";
    assert s[|s| - 5] == 'b';
    assert s[|s| - 5..] != ".a.io";
  }
}

=== FILE: gateway_health.dfy ===
/** The gateway's own health answer: the backends' probe results folded
    into healthy (200), degraded (206) or critical (503). */
module GatewayHealth {
  import opened Common
  import GatewayProxy

  const StatusOk: int := 200
  const StatusPartialContent: int := 206
  const StatusServiceUnavailable: int := 503

  predicate IsHealthy(status: string) {
    status == "healthy"
  }

  /** The number of backends whose recorded status is exactly "healthy". */
  function HealthyCount(statuses: seq<string>): (n: nat)
    ensures n <= |statuses|
  {
    CountWhere(statuses, IsHealthy)
  }

  /** The gateway's status word and HTTP status for the backends' statuses
      (in whatever order the result map is visited). */
  function Aggregate(statuses: seq<string>): (r: (string, int))
    ensures r == ("critical", StatusServiceUnavailable) <==> HealthyCount(statuses) == 0
    ensures r == ("degraded", StatusPartialContent) <==> 0 < HealthyCount(statuses) < |statuses|
    ensures r == ("healthy", StatusOk) <==> 0 < HealthyCount(statuses) == |statuses|
  {
    var healthy := HealthyCount(statuses);
    if healthy == 0 then ("critical", StatusServiceUnavailable)
    else if healthy < |statuses| then ("degraded", StatusPartialContent)
    else ("healthy", StatusOk)
  }

  /** The recorded statuses of a sequence of probe results. */
  function Statuses(probes: seq<GatewayProxy.Probe>): (s: seq<string>)
    ensures |s| == |probes|
    ensures forall i :: 0 <= i < |probes| ==> s[i] == GatewayProxy.ServiceStatus(probes[i])
  {
    if |probes| == 0 then []
    else Statuses(probes[..|probes| - 1]) + [GatewayProxy.ServiceStatus(probes[|probes| - 1])]
  }

  /** The count of healthy entries is |s| exactly when all are healthy. */
  lemma {:induction false} CountAllHealthy(s: seq<string>)
    ensures HealthyCount(s) == |s| <==> forall i :: 0 <= i < |s| ==> IsHealthy(s[i])
  {
    if |s| > 0 {
      var init := s[..|s| - 1];
      CountAllHealthy(init);
      assert forall i :: 0 <= i < |init| ==> init[i] == s[i];
    }
  }

  /** The count is zero exactly when none is healthy. */
  lemma {:induction false} CountNoneHealthy(s: seq<string>)
    ensures HealthyCount(s) == 0 <==> forall i :: 0 <= i < |s| ==> !IsHealthy(s[i])
  {
    if |s| > 0 {
      var init := s[..|s| - 1];
      CountNoneHealthy(init);
      assert forall i :: 0 <= i < |init| ==> init[i] == s[i];
    }
  }

  /** No backends at all is critical, not healthy. */
  lemma NoBackendsIsCritical()
    ensures Aggregate([]) == ("critical", StatusServiceUnavailable)
  {
  }

  /** Every backend answering below 400 makes the gateway healthy. */
  lemma AllAnsweringIsHealthy(probes: seq<GatewayProxy.Probe>)
    requires |probes| > 0
    requires forall i :: 0 <= i < |probes| ==> probes[i].ProbeStatus? && probes[i].code < GatewayProxy.UnhealthyFrom
    ensures Aggregate(Statuses(probes)) == ("healthy", StatusOk)
  {
    CountAllHealthy(Statuses(probes));
  }

  /** One backend erroring or answering 400 or above, among others that
      answer below 400, makes the gateway degraded. */
  lemma OneFailingIsDegraded(probes: seq<GatewayProxy.Probe>, j: nat)
    requires j < |probes| && |probes| > 1
    requires !(probes[j].ProbeStatus? && probes[j].code < GatewayProxy.UnhealthyFrom)
    requires forall i :: 0 <= i < |probes| && i != j ==>
      probes[i].ProbeStatus? && probes[i].code < GatewayProxy.UnhealthyFrom
    ensures Aggregate(Statuses(probes)) == ("degraded", StatusPartialContent)
  {
    var s := Statuses(probes);
    CountAllHealthy(s);
    CountNoneHealthy(s);
    var k := if j == 0 then 1 else 0;
    assert IsHealthy(s[k]);
    assert !IsHealthy(s[j]);
  }

  /** No backend answering below 400 makes the gateway critical. */
  lemma NoneAnsweringIsCritical(probes: seq<GatewayProxy.Probe>)
    requires forall i :: 0 <= i < |probes| ==> !(probes[i].ProbeStatus? && probes[i].code < GatewayProxy.UnhealthyFrom)
    ensures Aggregate(Statuses(probes)) == ("critical", StatusServiceUnavailable)
  {
    CountNoneHealthy(Statuses(probes));
  }
}

=== FILE: gateway_limiter.dfy ===
/** The gateway's Redis-backed rate limiting. Each limited key holds a
    sorted set of request timestamps (nanoseconds; member and score are the
    same number, so one timestamp is stored once). A check evicts the
    entries at or before `now - window`, counts what is left, records the
    current request whether or not it is admitted, and admits it when the
    count it saw is at most `burst`: burst + 1 requests pass per window. */
module GatewayLimiter {
  import opened Common
  import opened Strings
  import Decimal
  import opened GatewayAuth

  const UserKeyPrefix: string := "rate_limit:user:"
  const IpKeyPrefix: string := "rate_limit:ip:"
  const EndpointKeyPrefix: string := "rate_limit:endpoint:"

  /** The endpoint limits' fixed window: one minute in nanoseconds. */
  const EndpointWindowNs: int := 60_000_000_000

  /** The sorted sets, by key; a missing key is an empty set. */
  type Zsets = map<string, seq<int>>

  function Entries(z: Zsets, key: string): seq<int> {
    if key in z then z[key] else []
  }

  /** `ZREMRANGEBYSCORE key 0 now-window`: both bounds inclusive. */
  predicate Evicted(t: int, now: int, window: int) {
    0 <= t <= now - window
  }

  function Kept(entries: seq<int>, now: int, window: int): (r: seq<int>)
    ensures forall t :: t in r <==> t in entries && !Evicted(t, now, window)
  {
    Filter(entries, (t: int) => !Evicted(t, now, window))
  }

  /** `ZADD`: a member already present is not added again. */
  function AddMember(entries: seq<int>, t: int): (r: seq<int>)
    ensures forall x :: x in r <==> x in entries || x == t
  {
    if t in entries then entries else entries + [t]
  }

  /** The pipeline's effect on one key's entries: evict, count, record.
      The verdict is taken on the count seen before the current request. */
  function Step(entries: seq<int>, burst: int, window: int, now: int): (r: (bool, seq<int>))
    ensures r.0 <==> |Kept(entries, now, window)| <= burst
    ensures forall t :: t in r.1 <==> (t in entries && !Evicted(t, now, window)) || t == now
  {
    var kept := Kept(entries, now, window);
    (|kept| <= burst, AddMember(kept, now))
  }

  /** `checkRedisRateLimit`: the pipeline's error fails the check (and
      nothing is assumed written); otherwise the request is admitted iff the
      count after eviction is at most `burst`, and is recorded either way;
      no other key changes. */
  function CheckWindow(z: Zsets, key: string, burst: int, window: int, now: int, fails: bool)
    : (r: (Result<bool, string>, Zsets))
    ensures fails ==> r == (Err("pipeline failed"), z)
    ensures !fails ==> r.0.Ok? && (r.0.value <==> |Kept(Entries(z, key), now, window)| <= burst)
    ensures !fails ==> key in r.1 && forall t :: t in r.1[key] <==>
      (t in Entries(z, key) && !Evicted(t, now, window)) || t == now
    ensures forall k :: k != key ==> (k in r.1 <==> k in z) && (k in z ==> r.1[k] == z[k])
  {
    if fails then (Err("pipeline failed"), z)
    else
      var (ok, entries) := Step(Entries(z, key), burst, window, now);
      (Ok(ok), z[key := entries])
  }

  /** What a limiting middleware does with the request. */
  datatype Decision = Admit | TooManyRequests

  datatype LimitConfig = LimitConfig(
    enable: bool, userBurst: int, userWindowNs: int, ipBurst: int, ipWindowNs: int,
    endpointBursts: map<string, int>)

  /** `getUserID`: a string in the context, an int64 in the context printed
      in decimal, else the `X-User-ID` header. */
  function UserId(ctx: ContextValue, header: string): (uid: string)
    ensures ctx.GoString? ==> uid == ctx.s
    ensures ctx.GoInt64? ==> uid == Decimal.IntToString(ctx.i) && uid != ""
    ensures ctx.Unset? || ctx.GoOther? ==> uid == header
  {
    match ctx
    case GoString(s) => s
    case GoInt64(i) => Decimal.IntToString(i)
    case _ => header
  }

  function UserKey(uid: string): string {
    UserKeyPrefix + uid
  }

  function IpKey(ip: string): string {
    IpKeyPrefix + ip
  }

  /** The endpoint key: every "/" of the path becomes ":". */
  function EndpointKey(path: string): (k: string)
    ensures |k| == |EndpointKeyPrefix| + |path|
    ensures forall i :: 0 <= i < |path| ==> k[|EndpointKeyPrefix| + i] == (if path[i] == '/' then ':' else path[i])
  {
    EndpointKeyPrefix + ReplaceChar(path, '/', ':')
  }

  /** The user, IP and endpoint key families never share a key. */
  lemma KeyFamiliesDisjoint(u: string, ip: string, path: string)
    ensures UserKey(u) != IpKey(ip) && UserKey(u) != EndpointKey(path) && IpKey(ip) != EndpointKey(path)
  {
    assert UserKey(u)[11] == 'u' && IpKey(ip)[11] == 'i' && EndpointKey(path)[11] == 'e';
  }

  /** Two configured paths that differ only in "/" versus ":" share one window. */
  lemma EndpointKeysCollide()
    ensures "/a/b" != "/a:b" && EndpointKey("/a/b") == EndpointKey("/a:b")
  {
  }

  /** `UserRateLimit`: disabled limiting, an unknown user and a store error
      all let the request through. */
  function UserRateLimit(cfg: LimitConfig, z: Zsets, ctx: ContextValue, header: string, now: int, fails: bool)
    : (r: (Decision, Zsets))
    ensures !cfg.enable || UserId(ctx, header) == "" ==> r == (Admit, z)
    ensures r.0 == TooManyRequests <==>
      cfg.enable && UserId(ctx, header) != "" && !fails
      && |Kept(Entries(z, UserKey(UserId(ctx, header))), now, cfg.userWindowNs)| > cfg.userBurst
    ensures r.1 == (if !cfg.enable || UserId(ctx, header) == "" then z
                    else CheckWindow(z, UserKey(UserId(ctx, header)), cfg.userBurst, cfg.userWindowNs, now, fails).1)
  {
    if !cfg.enable then (Admit, z)
    else
      var uid := UserId(ctx, header);
      if uid == "" then (Admit, z)
      else
        var (res, z') := CheckWindow(z, UserKey(uid), cfg.userBurst, cfg.userWindowNs, now, fails);
        match res
        case Err(_) => (Admit, z')
        case Ok(allowed) => (if allowed then Admit else TooManyRequests, z')
  }

  /** `IPRateLimit`. */
  function IpRateLimit(cfg: LimitConfig, z: Zsets, ip: string, now: int, fails: bool): (r: (Decision, Zsets))
    ensures !cfg.enable ==> r == (Admit, z)
    ensures r.0 == TooManyRequests <==>
      cfg.enable && !fails && |Kept(Entries(z, IpKey(ip)), now, cfg.ipWindowNs)| > cfg.ipBurst
    ensures cfg.enable ==> r.1 == CheckWindow(z, IpKey(ip), cfg.ipBurst, cfg.ipWindowNs, now, fails).1
  {
    if !cfg.enable then (Admit, z)
    else
      var (res, z') := CheckWindow(z, IpKey(ip), cfg.ipBurst, cfg.ipWindowNs, now, fails);
      match res
      case Err(_) => (Admit, z')
      case Ok(allowed) => (if allowed then Admit else TooManyRequests, z')
  }

  /** `EndpointRateLimit`: only paths configured exactly are limited, over
      a one-minute window. */
  function EndpointRateLimit(cfg: LimitConfig, z: Zsets, path: string, now: int, fails: bool): (r: (Decision, Zsets))
    ensures !cfg.enable || path !in cfg.endpointBursts ==> r == (Admit, z)
    ensures r.0 == TooManyRequests <==>
      cfg.enable && path in cfg.endpointBursts && !fails
      && |Kept(Entries(z, EndpointKey(path)), now, EndpointWindowNs)| > cfg.endpointBursts[path]
  {
    if !cfg.enable || path !in cfg.endpointBursts then (Admit, z)
    else
      var (res, z') := CheckWindow(z, EndpointKey(path), cfg.endpointBursts[path], EndpointWindowNs, now, fails);
      match res
      case Err(_) => (Admit, z')
      case Ok(allowed) => (if allowed then Admit else TooManyRequests, z')
  }

  /** `GlobalRateLimit`: an in-process token bucket from a library; its
      verdict is a parameter. */
  function GlobalRateLimit(cfg: LimitConfig, bucketAllows: bool): (d: Decision)
    ensures d == TooManyRequests <==> cfg.enable && !bucketAllows
  {
    if cfg.enable && !bucketAllows then TooManyRequests else Admit
  }

  /** A user id taken from a JWT's numeric `user_id` claim reaches the
      limiter as a float64, so the limiter keys on the client-supplied
      `X-User-ID` header instead, and skips user limiting when it is absent. */
  lemma NumericClaimDefersToHeader(cfg: LimitConfig, z: Zsets, n: int, header: string, now: int, fails: bool)
    ensures UserId(ContextValueOf(Number(n)), header) == header
    ensures header == "" ==> UserRateLimit(cfg, z, ContextValueOf(Number(n)), header, now, fails) == (Admit, z)
  {
  }

  // ---------------------------------------------------- one window, in full

  predicate StrictlyIncreasing(times: seq<int>) {
    forall i, j :: 0 <= i < j < |times| ==> times[i] < times[j]
  }

  /** A run of fault-free checks on one key, from the entries it held. */
  function Run(entries: seq<int>, burst: int, window: int, times: seq<int>): (r: (seq<bool>, seq<int>))
    ensures |r.0| == |times|
    decreases |times|
  {
    if |times| == 0 then ([], entries)
    else
      var (verdicts, e1) := Run(entries, burst, window, times[..|times| - 1]);
      var (ok, e2) := Step(e1, burst, window, times[|times| - 1]);
      (verdicts + [ok], e2)
  }

  /** A fault-free check is one `Step` on the key's entries, so a `Run`
      is the key's history under a sequence of checks. */
  lemma CheckWindowIsStep(z: Zsets, key: string, burst: int, window: int, now: int)
    ensures var st := Step(Entries(z, key), burst, window, now);
            CheckWindow(z, key, burst, window, now, false) == (Ok(st.0), z[key := st.1])
  {
  }

  lemma {:induction false} KeptAll(entries: seq<int>, now: int, window: int)
    requires forall i :: 0 <= i < |entries| ==> !Evicted(entries[i], now, window)
    ensures Kept(entries, now, window) == entries
    decreases |entries|
  {
    if |entries| > 0 {
      var init := entries[..|entries| - 1];
      KeptAll(init, now, window);
      assert entries == init + [entries[|entries| - 1]];
    }
  }

  /** Dropping the last request keeps the run increasing and within one window. */
  lemma IncreasingPrefix(times: seq<int>, window: int)
    requires |times| > 0 && StrictlyIncreasing(times)
    requires times[|times| - 1] - times[0] < window
    ensures var init := times[..|times| - 1];
      && StrictlyIncreasing(init)
      && (|init| > 0 ==> init[|init| - 1] - init[0] < window)
      && (forall i :: 0 <= i < |init| ==> init[i] < times[|times| - 1])
      && (forall i :: 0 <= i < |init| ==> times[|times| - 1] - init[i] < window)
  {
    var init := times[..|times| - 1];
    forall i | 0 <= i < |init| ensures init[i] == times[i] && times[0] <= times[i] {
      if i > 0 { assert times[0] < times[i]; }
    }
  }

  /** One check whose timestamp is new and evicts nothing: it counts
      what the key holds and appends the timestamp. */
  lemma FreshStep(init: seq<int>, burst: int, window: int, t: int)
    requires t !in init
    requires forall i :: 0 <= i < |init| ==> !Evicted(init[i], t, window)
    ensures Step(init, burst, window, t) == (|init| <= burst, init + [t])
  {
    KeptAll(init, t, window);
  }

  /** The step a run takes for its last request. */
  lemma RunLast(entries: seq<int>, burst: int, window: int, times: seq<int>)
    requires |times| > 0
    ensures var r1 := Run(entries, burst, window, times[..|times| - 1]);
            var s := Step(r1.1, burst, window, times[|times| - 1]);
            Run(entries, burst, window, times) == (r1.0 + [s.0], s.1)
  {
  }

  /** The last request of an increasing run within one window is new
      and evicts none of the earlier ones. */
  lemma LastIsFresh(times: seq<int>, window: int)
    requires |times| > 0 && StrictlyIncreasing(times)
    requires times[|times| - 1] - times[0] < window
    ensures var init := times[..|times| - 1];
            var t := times[|times| - 1];
            && t !in init
            && (forall i :: 0 <= i < |init| ==> !Evicted(init[i], t, window))
            && init + [t] == times
  {
    IncreasingPrefix(times, window);
    assert times[..|times| - 1] + [times[|times| - 1]] == times;
  }

  /** Requests on a fresh key, all within one window of the first: the key
      ends up holding every one of them. */
  lemma {:induction false} WindowHoldsAll(burst: int, window: int, times: seq<int>)
    requires StrictlyIncreasing(times)
    requires |times| > 0 ==> times[|times| - 1] - times[0] < window
    ensures Run([], burst, window, times).1 == times
    decreases |times|
  {
    if |times| > 0 {
      var n := |times| - 1;
      var init := times[..n];
      IncreasingPrefix(times, window);
      WindowHoldsAll(burst, window, init);
      LastIsFresh(times, window);
      FreshStep(init, burst, window, times[n]);
      RunLast([], burst, window, times);
    }
  }

  /** ... and exactly the first burst + 1 of them are admitted. */
  lemma {:induction false} BurstPlusOnePerWindow(burst: int, window: int, times: seq<int>)
    requires StrictlyIncreasing(times)
    requires |times| > 0 ==> times[|times| - 1] - times[0] < window
    ensures forall i :: 0 <= i < |times| ==> (Run([], burst, window, times).0[i] <==> i <= burst)
    decreases |times|
  {
    if |times| > 0 {
      var n := |times| - 1;
      var init := times[..n];
      var before := Run([], burst, window, init).0;
      assert Run([], burst, window, times).0 == before + [n <= burst] by {
        IncreasingPrefix(times, window);
        WindowHoldsAll(burst, window, init);
        LastIsFresh(times, window);
        FreshStep(init, burst, window, times[n]);
        RunLast([], burst, window, times);
      }
      assert forall i :: 0 <= i < n ==> (before[i] <==> i <= burst) by {
        IncreasingPrefix(times, window);
        BurstPlusOnePerWindow(burst, window, init);
      }
    }
  }
}

=== FILE: gateway_proxy.dfy ===
/** The gateway's reverse proxy: picking the backend by path prefix,
    rewriting the path, filtering and adding headers, the error statuses
    it answers with, and the per-backend health probe. Go map iteration
    order is unspecified, so every `range` over the prefix mapping is
    given as an explicit order of its keys. */
module GatewayProxy {
  import opened Common
  import opened Strings
  import Decimal

  /** The backends a client is created for, when their URL parses. */
  const ServiceNames: set<string> := {"cache-service", "seckill-service", "order-service", "inventory-service"}

  const DefaultHealthPath: string := "/health"
  const TraceIdPrefix: string := "gateway-"

  const StatusNotFound: int := 404
  const StatusInternalServerError: int := 500
  const StatusBadGateway: int := 502
  const StatusServiceUnavailable: int := 503
  const UnhealthyFrom: int := 400

  /** `order` lists exactly the keys of `m`: the order of one `range`. */
  ghost predicate Enumerates(order: seq<string>, m: map<string, string>) {
    forall k :: k in order <==> k in m
  }

  /** The first key in `order` that is a prefix of `path`. */
  function FirstPrefix(order: seq<string>, path: string): (r: Option<string>)
    ensures r.Some? ==> r.value in order && HasPrefix(path, r.value)
    ensures r.None? <==> forall p :: p in order ==> !HasPrefix(path, p)
  {
    if |order| == 0 then None
    else if HasPrefix(path, order[0]) then Some(order[0])
    else
      assert forall p :: p in order <==> p == order[0] || p in order[1..] by {
        assert order == [order[0]] + order[1..];
      }
      FirstPrefix(order[1..], path)
  }

  // ------------------------------------------------------------- routing

  /** `getServiceByPath`: the service of some prefix that starts the path,
      or "" when none does. */
  function ServiceByPath(mapping: map<string, string>, order: seq<string>, path: string): (name: string)
    requires Enumerates(order, mapping)
    ensures (exists p :: p in mapping && HasPrefix(path, p)) ==>
      exists p :: p in mapping && HasPrefix(path, p) && name == mapping[p]
    ensures (forall p :: p in mapping ==> !HasPrefix(path, p)) ==> name == ""
  {
    match FirstPrefix(order, path)
    case None => ""
    case Some(p) => mapping[p]
  }

  /** When every prefix that starts the path names the same service, the
      iteration order does not matter. */
  lemma ServiceByPathOrderFree(mapping: map<string, string>, o1: seq<string>, o2: seq<string>, path: string)
    requires Enumerates(o1, mapping) && Enumerates(o2, mapping)
    requires forall p, q :: p in mapping && q in mapping && HasPrefix(path, p) && HasPrefix(path, q) ==>
      mapping[p] == mapping[q]
    ensures ServiceByPath(mapping, o1, path) == ServiceByPath(mapping, o2, path)
  {
  }

  /** With nested prefixes the service depends on the order the map
      happens to be visited in. */
  lemma NestedPrefixesDependOnOrder()
    ensures var m := map["/api" := "cache-service", "/api/orders" := "order-service"];
            && ServiceByPath(m, ["/api/orders", "/api"], "/api/orders/7") == "order-service"
            && ServiceByPath(m, ["/api", "/api/orders"], "/api/orders/7") == "cache-service"
  {
    var path := "/api/orders/7";
    assert HasPrefix(path, "/api/orders") by { assert path[..11] == "/api/orders"; }
    assert HasPrefix(path, "/api") by { assert path[..4] == "/api"; }
  }

  /** `buildTargetURL`'s path: the first prefix in its own iteration of
      the mapping removed, with a leading "/" restored. */
  function TargetPath(order: seq<string>, path: string): (r: string)
    ensures FirstPrefix(order, path).None? ==> r == path
    ensures FirstPrefix(order, path).Some? ==>
      var pre := FirstPrefix(order, path).value;
      |r| > 0 && r[0] == '/' && (pre + r == path || pre + r[1..] == path)
  {
    match FirstPrefix(order, path)
    case None => path
    case Some(pre) =>
      var t := TrimPrefix(path, pre);
      if HasPrefix(t, "/") then t
      else
        assert ("/" + t)[1..] == t;
        "/" + t
  }

  /** `buildTargetURL`: scheme://host, the rewritten path, and the raw
      query after a "?" only when there is one. */
  function BuildTargetUrl(order: seq<string>, scheme: string, host: string, path: string, rawQuery: string)
    : (u: string)
    ensures HasPrefix(u, scheme + "://" + host + TargetPath(order, path))
    ensures rawQuery == "" ==> u == scheme + "://" + host + TargetPath(order, path)
    ensures rawQuery != "" ==> HasSuffix(u, "?" + rawQuery) && |u| == |scheme + "://" + host + TargetPath(order, path)| + 1 + |rawQuery|
  {
    var base := scheme + "://" + host + TargetPath(order, path);
    if rawQuery == "" then base
    else
      var u := base + "?" + rawQuery;
      assert u[..|base|] == base;
      assert u[|u| - |"?" + rawQuery|..] == "?" + rawQuery;
      u
  }

  /** Choosing the service and stripping the prefix are two separate
      iterations of the mapping: with nested prefixes the order service
      can be chosen while the shorter prefix is the one removed, and it
      receives "/orders/7" rather than "/7". */
  lemma SelectionAndStrippingDisagree()
    ensures var m := map["/api" := "cache-service", "/api/orders" := "order-service"];
            && ServiceByPath(m, ["/api/orders", "/api"], "/api/orders/7") == "order-service"
            && TargetPath(["/api", "/api/orders"], "/api/orders/7") == "/orders/7"
            && TargetPath(["/api/orders", "/api"], "/api/orders/7") == "/7"
  {
    NestedPrefixesDependOnOrder();
    var path := "/api/orders/7";
    assert HasPrefix(path, "/api/orders") by { assert path[..11] == "/api/orders"; }
    assert HasPrefix(path, "/api") by { assert path[..4] == "/api"; }
    assert TrimPrefix(path, "/api") == "/orders/7";
    assert TrimPrefix(path, "/api/orders") == "/7";
  }

  // ------------------------------------------------------------- headers

  /** An `http.Header`: canonical name to its values. */
  type HttpHeader = map<string, seq<string>>

  /** The headers `copyHeaders` skips, in Go's canonical spelling. */
  const SkipHeaders: set<string> := {
    "Connection", "Proxy-Connection", "Proxy-Authenticate", "Proxy-Authorization",
    "Te", "Trailers", "Transfer-Encoding", "Upgrade"}

  /** The hop-by-hop headers of section 13.5.1 of RFC 2616, in Go's
      canonical spelling. */
  const Rfc2616HopByHop: set<string> := {
    "Connection", "Keep-Alive", "Proxy-Authenticate", "Proxy-Authorization",
    "Te", "Trailers", "Transfer-Encoding", "Upgrade"}

  /** Which skip list the copy uses: the one in the code, or the one
      completed with Keep-Alive. */
  datatype HeaderFilter = AsWritten | AllHopByHop

  function SkipSet(f: HeaderFilter): (s: set<string>)
    ensures SkipHeaders <= s
    ensures f == AllHopByHop ==> Rfc2616HopByHop <= s
    ensures f == AsWritten ==> "Keep-Alive" !in s
  {
    match f
    case AsWritten => SkipHeaders
    case AllHopByHop => SkipHeaders + {"Keep-Alive"}
  }

  /** `copyHeaders` into a fresh header: each value of each kept name is
      added, so a name without values does not appear. */
  function CopyHeaders(skip: set<string>, src: HttpHeader): (dst: HttpHeader)
    ensures forall k :: k in dst <==> k in src && k !in skip && |src[k]| > 0
    ensures forall k :: k in dst ==> dst[k] == src[k]
  {
    map k | k in src && k !in skip && |src[k]| > 0 :: src[k]
  }

  /** As written, a client's Keep-Alive header reaches the backend. */
  lemma KeepAliveForwarded()
    ensures var src: HttpHeader := map["Keep-Alive" := ["timeout=5"]];
            && "Keep-Alive" in Rfc2616HopByHop
            && "Keep-Alive" in CopyHeaders(SkipSet(AsWritten), src)
  {
  }

  /** With the completed list no hop-by-hop header of RFC 2616 is
      forwarded, and every other header is forwarded unchanged. */
  lemma NoHopByHopForwarded(src: HttpHeader)
    ensures forall k :: k in Rfc2616HopByHop ==> k !in CopyHeaders(SkipSet(AllHopByHop), src)
    ensures forall k :: k in src && |src[k]| > 0 && k !in Rfc2616HopByHop && k != "Proxy-Connection" ==>
      k in CopyHeaders(SkipSet(AllHopByHop), src) && CopyHeaders(SkipSet(AllHopByHop), src)[k] == src[k]
  {
  }

  /** `getScheme`. */
  function Scheme(tls: bool, forwardedProto: string): (s: string)
    ensures s != ""
    ensures tls ==> s == "https"
    ensures !tls && forwardedProto != "" ==> s == forwardedProto
  {
    if tls then "https"
    else if forwardedProto != "" then forwardedProto
    else "http"
  }

  /** The trace id passed on: the client's, or `gateway-<nanoseconds>`. */
  function TraceId(header: string, nowNs: int): (t: string)
    ensures header != "" ==> t == header
    ensures header == "" ==> HasPrefix(t, TraceIdPrefix) && t[|TraceIdPrefix|..] == Decimal.IntToString(nowNs)
  {
    if header != "" then header
    else
      var t := TraceIdPrefix + Decimal.IntToString(nowNs);
      assert t[..|TraceIdPrefix|] == TraceIdPrefix;
      t
  }

  /** Ids generated at distinct instants are distinct. */
  lemma GeneratedTraceIdsDistinct(a: int, b: int)
    requires a != b
    ensures TraceId("", a) != TraceId("", b)
  {
    if TraceId("", a) == TraceId("", b) {
      Decimal.IntToStringInjective(a, b);
    }
  }

  // Go stores header names canonically: "X-Real-IP" becomes "X-Real-Ip".
  const ForwardedFor: string := "X-Forwarded-For"
  const ForwardedProto: string := "X-Forwarded-Proto"
  const ForwardedHost: string := "X-Forwarded-Host"
  const RealIp: string := "X-Real-Ip"
  const TraceHeader: string := "X-Trace-Id"

  predicate IsProxyHeader(k: string) {
    k == ForwardedFor || k == ForwardedProto || k == ForwardedHost || k == RealIp || k == TraceHeader
  }

  /** The outgoing request's headers: the copied ones, then the proxy
      headers set over them (`Header.Set` replaces whatever was copied). */
  function ForwardHeaders(f: HeaderFilter, src: HttpHeader, clientIp: string, tls: bool, host: string, nowNs: int)
    : (dst: HttpHeader)
    ensures ForwardedFor in dst && RealIp in dst && ForwardedProto in dst && ForwardedHost in dst && TraceHeader in dst
    ensures dst[ForwardedFor] == [clientIp] && dst[RealIp] == [clientIp]
    ensures dst[ForwardedProto] == [Scheme(tls, FirstValue(src, ForwardedProto))]
    ensures dst[ForwardedHost] == [host]
    ensures dst[TraceHeader] == [TraceId(FirstValue(src, TraceHeader), nowNs)]
    ensures forall k :: !IsProxyHeader(k) ==>
      (k in dst <==> k in src && k !in SkipSet(f) && |src[k]| > 0) && (k in dst ==> dst[k] == src[k])
  {
    var copied := CopyHeaders(SkipSet(f), src);
    var scheme := Scheme(tls, FirstValue(src, ForwardedProto));
    var trace := TraceId(FirstValue(src, TraceHeader), nowNs);
    copied[ForwardedFor := [clientIp]][ForwardedProto := [scheme]][ForwardedHost := [host]]
          [RealIp := [clientIp]][TraceHeader := [trace]]
  }

  /** `Header.Get`: the first value, or "". */
  function FirstValue(h: HttpHeader, k: string): (v: string)
    ensures k in h && |h[k]| > 0 ==> v == h[k][0]
    ensures !(k in h && |h[k]| > 0) ==> v == ""
  {
    if k in h && |h[k]| > 0 then h[k][0] else ""
  }

  // ------------------------------------------------------ proxy statuses

  /** What the backend call produced. */
  datatype Backend = TransportError | Response(status: int)

  /** The status the gateway answers a proxied request with. */
  function ProxyStatus(mapping: map<string, string>, order: seq<string>, clients: set<string>, path: string,
                       bodyReadFails: bool, requestFails: bool, backend: Backend): (status: int)
    requires Enumerates(order, mapping)
    ensures (forall p :: p in mapping ==> !HasPrefix(path, p)) ==> status == StatusNotFound
    ensures var name := ServiceByPath(mapping, order, path);
            name != "" && name !in clients ==> status == StatusServiceUnavailable
    ensures var name := ServiceByPath(mapping, order, path);
            name in clients && name != "" && !bodyReadFails && !requestFails ==>
              status == (if backend.TransportError? then StatusBadGateway else backend.status)
    ensures var name := ServiceByPath(mapping, order, path);
            name in clients && name != "" && (bodyReadFails || requestFails) ==> status == StatusInternalServerError
  {
    var name := ServiceByPath(mapping, order, path);
    if name == "" then StatusNotFound
    else if name !in clients then StatusServiceUnavailable
    else if bodyReadFails || requestFails then StatusInternalServerError
    else
      match backend
      case TransportError => StatusBadGateway
      case Response(s) => s
  }

  /** A status other than the gateway's own four error statuses is the
      backend's, and it came from a backend that has a client. */
  lemma OtherStatusesAreBackends(mapping: map<string, string>, order: seq<string>, clients: set<string>, path: string,
                                 bodyReadFails: bool, requestFails: bool, backend: Backend)
    requires Enumerates(order, mapping)
    requires var s := ProxyStatus(mapping, order, clients, path, bodyReadFails, requestFails, backend);
             s !in {StatusNotFound, StatusInternalServerError, StatusBadGateway, StatusServiceUnavailable}
    ensures backend == Response(ProxyStatus(mapping, order, clients, path, bodyReadFails, requestFails, backend))
    ensures ServiceByPath(mapping, order, path) in clients
  {
  }

  /** A prefix naming a service the gateway has no client for (a name
      outside the four, or one whose URL did not parse) answers 503. */
  lemma UnknownServiceUnavailable(mapping: map<string, string>, order: seq<string>, clients: set<string>, path: string,
                                  bodyReadFails: bool, requestFails: bool, backend: Backend)
    requires Enumerates(order, mapping)
    requires clients <= ServiceNames
    requires exists p :: p in mapping && HasPrefix(path, p)
    requires forall p :: p in mapping && HasPrefix(path, p) ==> mapping[p] != "" && mapping[p] !in ServiceNames
    ensures ProxyStatus(mapping, order, clients, path, bodyReadFails, requestFails, backend) == StatusServiceUnavailable
  {
  }

  // -------------------------------------------------------- health probe

  /** The configured health path of a backend, "/health" when none is set. */
  function HealthPath(healthChecks: map<string, string>, name: string): (p: string)
    ensures p != ""
    ensures name in healthChecks && healthChecks[name] != "" ==> p == healthChecks[name]
    ensures !(name in healthChecks && healthChecks[name] != "") ==> p == DefaultHealthPath
  {
    if name in healthChecks && healthChecks[name] != "" then healthChecks[name] else DefaultHealthPath
  }

  /** What probing one backend produced: an error building or sending the
      request, or a status code. */
  datatype Probe = ProbeError | ProbeStatus(code: int)

  /** The status recorded for one backend. */
  function ServiceStatus(probe: Probe): (s: string)
    ensures s == "healthy" <==> probe.ProbeStatus? && probe.code < UnhealthyFrom
    ensures s == "unhealthy" <==> probe.ProbeStatus? && probe.code >= UnhealthyFrom
    ensures s == "error" <==> probe.ProbeError?
  {
    match probe
    case ProbeError => "error"
    case ProbeStatus(code) => if code >= UnhealthyFrom then "unhealthy" else "healthy"
  }
}

=== FILE: health_checker.dfy ===
/** The inventory health checker: a periodic run of the drift check that
    counts the drifts found and repairs the small ones automatically,
    towards Redis when Redis holds more and towards the database when it
    holds less. */
module HealthChecker {
  import opened Common
  import opened InventoryModel
  import IS = InventoryService
  import FastStore
  import SeckillKeys

  datatype Config = Config(enable: bool, autoFix: bool, maxFixAmount: int)

  datatype Stats = Stats(totalChecks: nat, foundDifferences: nat, autoFixed: nat)

  datatype Checker = Checker(svc: IS.Service, stats: Stats, cfg: Config)

  /** How an automatic repair picks the drift record it repairs: as written,
      always record 1; as intended, the product's latest pending record. */
  datatype Targeting = AlwaysFirstRecord | LatestOfProduct

  /** Redis lower than the database is taken for a lost cache entry and
      repaired from the database; otherwise Redis is taken as right. */
  function FixDirection(diff: int): (t: string)
    ensures t == IS.UseDb <==> diff < 0
    ensures t == IS.UseDb || t == IS.UseRedis
  {
    if diff < 0 then IS.UseDb else IS.UseRedis
  }

  /** The newest pending drift record of a product with an id at most `k`,
      or 0 when there is none. */
  function LatestPendingFrom(diffs: map<nat, InventoryDiff>, productId: int, k: nat): (id: nat)
    ensures id <= k
    ensures id != 0 ==> id in diffs && diffs[id].productId == productId && diffs[id].status == DiffPending
    ensures forall j :: id < j <= k && j in diffs ==> diffs[j].productId != productId || diffs[j].status != DiffPending
    decreases k
  {
    if k == 0 then 0
    else if k in diffs && diffs[k].productId == productId && diffs[k].status == DiffPending then k
    else LatestPendingFrom(diffs, productId, k - 1)
  }

  function DiffIdFor(t: Targeting, db: InvDb, productId: int): (id: nat)
    ensures t == AlwaysFirstRecord ==> id == 1
    ensures t == LatestOfProduct && id != 0 ==>
      id in db.diffs && db.diffs[id].productId == productId && db.diffs[id].status == DiffPending
  {
    match t
    case AlwaysFirstRecord => 1
    case LatestOfProduct => LatestPendingFrom(db.diffs, productId, db.nextDiffId)
  }

  /** The repair gate: a found drift, auto-fix on, and small enough. */
  predicate Repairable(cfg: Config, h: IS.HealthResponse) {
    h.status == IS.StatusDiffFound && cfg.autoFix && Abs(h.diff) <= cfg.maxFixAmount
  }

  /** `autoFixDifference`: true when the repair went through. */
  function AutoFixDifference(svc: IS.Service, h: IS.HealthResponse, t: Targeting, f: IS.FixFaults): (r: (bool, IS.Service))
    ensures r.0 ==> var id := DiffIdFor(t, svc.db, h.productId);
      id != 0 && IS.Fixable(svc, id, f) && id in r.1.db.diffs && r.1.db.diffs[id].status == DiffFixed
    ensures DiffIdFor(t, svc.db, h.productId) == 0 ==> r == (false, svc)
    ensures Valid(svc.db) ==> Valid(r.1.db)
  {
    var id := DiffIdFor(t, svc.db, h.productId);
    if id == 0 then (false, svc)
    else
      var (o, svc') := IS.FixInventoryDiff(svc, id, FixDirection(h.diff), f);
      (o == Pass, svc')
  }

  /** The loop over one check's report, in order: the drifts found and the
      repairs made. */
  function FixLoop(svc: IS.Service, hs: seq<IS.HealthResponse>, cfg: Config, t: Targeting, faults: int -> IS.FixFaults)
    : (r: (nat, nat, IS.Service))
    ensures r.0 == CountWhere(hs, IS.IsDrift)
    ensures r.1 <= CountWhere(hs, (h: IS.HealthResponse) => Repairable(cfg, h))
    ensures !cfg.autoFix ==> r.1 == 0 && r.2 == svc
    ensures Valid(svc.db) ==> Valid(r.2.db)
    decreases |hs|
  {
    if |hs| == 0 then (0, 0, svc)
    else
      var (found, fixed, svc1) := FixLoop(svc, hs[..|hs| - 1], cfg, t, faults);
      var h := hs[|hs| - 1];
      if !IS.IsDrift(h) then (found, fixed, svc1)
      else if !Repairable(cfg, h) then (found + 1, fixed, svc1)
      else
        var (ok, svc2) := AutoFixDifference(svc1, h, t, faults(h.productId));
        (found + 1, if ok then fixed + 1 else fixed, svc2)
  }

  /** `performHealthCheck` (also what a manual trigger runs). A failed
      check leaves the counters of this run at zero. */
  function PerformHealthCheck(c: Checker, t: Targeting, listFails: bool, readFails: int -> bool,
                              insertFails: int -> IS.InsertFaults, faults: int -> IS.FixFaults)
    : (r: Checker)
    ensures r.stats.totalChecks == c.stats.totalChecks + 1
    ensures r.stats.autoFixed - c.stats.autoFixed <= r.stats.foundDifferences - c.stats.foundDifferences
    ensures listFails ==> r.stats == c.stats.(totalChecks := c.stats.totalChecks + 1)
    ensures !listFails ==>
      r.stats.foundDifferences == c.stats.foundDifferences + CountWhere(IS.CheckInventoryHealth(c.svc, false, readFails, insertFails).0.value, IS.IsDrift)
    ensures r.cfg == c.cfg
    ensures Valid(c.svc.db) ==> Valid(r.svc.db)
  {
    var st := c.stats.(totalChecks := c.stats.totalChecks + 1);
    var (res, svc1) := IS.CheckInventoryHealth(c.svc, listFails, readFails, insertFails);
    match res
    case Err(_) => c.(svc := svc1, stats := st)
    case Ok(hs) =>
      var (found, fixed, svc2) := FixLoop(svc1, hs, c.cfg, t, faults);
      RepairableAreDrifts(hs, c.cfg);
      c.(svc := svc2, stats := st.(foundDifferences := st.foundDifferences + found, autoFixed := st.autoFixed + fixed))
  }

  lemma {:induction false} RepairableAreDrifts(hs: seq<IS.HealthResponse>, cfg: Config)
    ensures CountWhere(hs, (h: IS.HealthResponse) => Repairable(cfg, h)) <= CountWhere(hs, IS.IsDrift)
  {
    if |hs| > 0 {
      RepairableAreDrifts(hs[..|hs| - 1], cfg);
    }
  }

  /** `ResetStats`. */
  function ResetStats(c: Checker): (r: Checker)
    ensures r.stats == Stats(0, 0, 0) && r.svc == c.svc && r.cfg == c.cfg
  {
    c.(stats := Stats(0, 0, 0))
  }

  /** The cron job exists only when the checker is enabled. */
  function Tick(c: Checker, t: Targeting, listFails: bool, readFails: int -> bool, insertFails: int -> IS.InsertFaults,
                faults: int -> IS.FixFaults)
    : (r: Checker)
    ensures !c.cfg.enable ==> r == c
    ensures c.cfg.enable ==> r.stats.totalChecks == c.stats.totalChecks + 1
  {
    if c.cfg.enable then PerformHealthCheck(c, t, listFails, readFails, insertFails, faults) else c
  }

  /** As written, a repair for one product lands on record 1, which may
      belong to another: product 8's drift (record 2) stays pending while
      record 1, product 7's, is marked fixed and Redis for product 7 is
      overwritten. */
  lemma FirstRecordRepairsWrongProduct()
    ensures var cfg := IS.Config(100, 10, 0, 100);
            var d7 := InventoryDiff(7, 40, 30, -10, DiffPending);
            var d8 := InventoryDiff(8, 50, 45, -5, DiffPending);
            var db := InvDb([], [], map[1 := d7, 2 := d8], 3, []);
            var svc := IS.Service(db, FastStore.EmptyStore, IS.NoStats, cfg);
            var h := IS.HealthResponse(8, 50, 45, -5, IS.StatusDiffFound);
            var (ok, svc') := AutoFixDifference(svc, h, AlwaysFirstRecord, IS.NoFixFaults);
            && ok
            && svc'.db.diffs[1].status == DiffFixed
            && svc'.db.diffs[2].status == DiffPending
            && IS.RedisStock(svc'.store, 7) == 40
            && IS.RedisStock(svc'.store, 8) == 0
  {
    var cfg := IS.Config(100, 10, 0, 100);
    var d7 := InventoryDiff(7, 40, 30, -10, DiffPending);
    var d8 := InventoryDiff(8, 50, 45, -5, DiffPending);
    var db := InvDb([], [], map[1 := d7, 2 := d8], 3, []);
    var svc := IS.Service(db, FastStore.EmptyStore, IS.NoStats, cfg);
    var svc' := AutoFixDifference(svc, IS.HealthResponse(8, 50, 45, -5, IS.StatusDiffFound), AlwaysFirstRecord, IS.NoFixFaults).1;
    if SeckillKeys.StockKey(7) == SeckillKeys.StockKey(8) {
      SeckillKeys.KeysInjective(7, 8);
    }
  }

  /** Once record 1 is no longer pending, every later automatic repair
      fails, whatever product drifts. */
  lemma FirstRecordRepairedOnce(svc: IS.Service, h: IS.HealthResponse, f: IS.FixFaults)
    requires 1 in svc.db.diffs && svc.db.diffs[1].status == DiffFixed
    ensures AutoFixDifference(svc, h, AlwaysFirstRecord, f) == (false, svc)
  {
  }

  /** With the intended targeting a repair lands on the product's own
      latest pending record, and a repair from the database sets the
      product's Redis counter to the recorded database stock. */
  lemma LatestRecordRepairsOwnProduct(svc: IS.Service, h: IS.HealthResponse, f: IS.FixFaults)
    requires AutoFixDifference(svc, h, LatestOfProduct, f).0
    ensures var id := DiffIdFor(LatestOfProduct, svc.db, h.productId);
            var svc' := AutoFixDifference(svc, h, LatestOfProduct, f).1;
            && id != 0 && svc.db.diffs[id].productId == h.productId
            && svc'.db.diffs[id].status == DiffFixed
            && (h.diff < 0 ==> IS.RedisStock(svc'.store, h.productId) == svc.db.diffs[id].dbStock)
  {
  }
}

=== FILE: inventory_model.dfy ===
/** The inventory service's tables: one stock row per product, the
    append-only operation log, the drift records the health check writes
    and the alerts. Only rows that are not soft-deleted are modelled. */
module InventoryModel {
  import opened Common

  const StatusActive: string := "active"
  const StatusInactive: string := "inactive"
  const StatusLocked: string := "locked"

  const OpDeduct: string := "deduct"
  const OpAdd: string := "add"
  const OpSync: string := "sync"
  const OpInit: string := "init"

  const DiffPending: string := "pending"
  const DiffFixed: string := "fixed"
  const DiffIgnored: string := "ignored"

  const AlertLowStock: string := "low_stock"
  const AlertOutOfStock: string := "out_of_stock"
  const AlertDiff: string := "diff_alert"

  const LevelInfo: string := "info"
  const LevelWarning: string := "warning"
  const LevelError: string := "error"

  /** A stock row; `available` is documented as `stock - reserved`. */
  datatype Inventory = Inventory(
    productId: int, productName: string, stock: int, reserved: int, available: int,
    version: int, status: string, minStock: int, maxStock: int)

  /** A log entry; `delta` is positive for an increase, negative for a decrease. */
  datatype InventoryLog = InventoryLog(
    productId: int, opType: string, delta: int, beforeStock: int, afterStock: int,
    orderId: string, reason: string, operator: string, traceId: string)

  /** A drift record; `diff` is documented as `redisStock - dbStock`. */
  datatype InventoryDiff = InventoryDiff(productId: int, dbStock: int, redisStock: int, diff: int, status: string)

  datatype InventoryAlert = InventoryAlert(productId: int, alertType: string, message: string, level: string, status: string)

  /** The database. Drift records are keyed by their auto-increment id. */
  datatype InvDb = InvDb(
    rows: seq<Inventory>, logs: seq<InventoryLog>, diffs: map<nat, InventoryDiff>, nextDiffId: nat,
    alerts: seq<InventoryAlert>)

  /** The partial unique index on `product_id`. */
  predicate UniqueProducts(rows: seq<Inventory>) {
    forall i, j :: 0 <= i < j < |rows| ==> rows[i].productId != rows[j].productId
  }

  predicate AvailableConsistent(rows: seq<Inventory>) {
    forall i :: 0 <= i < |rows| ==> rows[i].available == rows[i].stock - rows[i].reserved
  }

  predicate DiffsConsistent(diffs: map<nat, InventoryDiff>) {
    forall id :: id in diffs ==> diffs[id].diff == diffs[id].redisStock - diffs[id].dbStock
  }

  predicate LogsConsistent(logs: seq<InventoryLog>) {
    forall i :: 0 <= i < |logs| ==> logs[i].afterStock == logs[i].beforeStock + logs[i].delta
  }

  /** The position of a product's row, if it has one. */
  function FindRow(rows: seq<Inventory>, productId: int): (k: Option<nat>)
    ensures k.None? <==> forall i :: 0 <= i < |rows| ==> rows[i].productId != productId
    ensures k.Some? ==> k.value < |rows| && rows[k.value].productId == productId
  {
    if |rows| == 0 then None
    else if rows[|rows| - 1].productId == productId then Some(|rows| - 1)
    else
      var k := FindRow(rows[..|rows| - 1], productId);
      assert forall i :: 0 <= i < |rows| - 1 ==> rows[..|rows| - 1][i] == rows[i];
      k
  }

  /** The after-stock of a product's latest log entry, if it has any. */
  function LastAfter(logs: seq<InventoryLog>, productId: int): Option<int> {
    if |logs| == 0 then None
    else if logs[|logs| - 1].productId == productId then Some(logs[|logs| - 1].afterStock)
    else LastAfter(logs[..|logs| - 1], productId)
  }

  /** The log agrees with the table: a product's latest entry ends at the
      stock its row holds. */
  predicate Ledger(db: InvDb) {
    forall i :: 0 <= i < |db.rows| ==>
      (LastAfter(db.logs, db.rows[i].productId).Some? ==> LastAfter(db.logs, db.rows[i].productId).value == db.rows[i].stock)
  }

  predicate Valid(db: InvDb) {
    && UniqueProducts(db.rows)
    && AvailableConsistent(db.rows)
    && DiffsConsistent(db.diffs)
    && LogsConsistent(db.logs)
    && Ledger(db)
    && (forall id :: id in db.diffs ==> id < db.nextDiffId)
  }

  const EmptyInvDb := InvDb([], [], map[], 1, [])

  lemma EmptyIsValid()
    ensures Valid(EmptyInvDb)
  {
  }
}

=== FILE: inventory_service.dfy ===
/** The inventory service: stock synchronisation with an optimistic version
    check, the drift check between the database and the flash-sale stock
    counters in Redis, the repair of a recorded drift, and the stock alert.
    Database and Redis faults are parameters. */
module InventoryService {
  import opened Common
  import opened InventoryModel
  import FastStore
  import SeckillKeys
  import Decimal

  datatype Config = Config(defaultStock: int, lowStockThreshold: int, tolerance: int, alertThreshold: int)

  datatype Stats = Stats(
    totalSync: nat, successSync: nat, failedSync: nat, totalDiffChecks: nat, foundDiffs: nat, fixedDiffs: nat)

  const NoStats := Stats(0, 0, 0, 0, 0, 0)

  /** The service's state: its database, the shared Redis, and its counters. */
  datatype Service = Service(db: InvDb, store: FastStore.Store, stats: Stats, cfg: Config)

  datatype SyncRequest = SyncRequest(productId: int, delta: int, orderId: string, reason: string, traceId: string)

  datatype SyncResponse = SyncResponse(
    productId: int, beforeStock: int, afterStock: int, delta: int, success: bool, message: string)

  /** Which statement of the sync transaction fails; `versionConflict` is a
      concurrent writer having bumped the version (no row updated). */
  datatype SyncFaults = SyncFaults(
    lookupFails: bool, createFails: bool, updateFails: bool, versionConflict: bool, logFails: bool, commitFails: bool)

  const NoSyncFaults := SyncFaults(false, false, false, false, false, false)

  const InsufficientStockMessage: string := "库存不足"

  /** The row a sync starts from: the product's row, or the initial row it
      creates for an unknown product. */
  function StartRow(db: InvDb, productId: int, cfg: Config): (r: Inventory)
    ensures r.productId == productId
    ensures FindRow(db.rows, productId).None? ==>
      r.stock == cfg.defaultStock && r.reserved == 0 && r.available == cfg.defaultStock && r.version == 0
      && r.status == StatusActive && r.minStock == cfg.lowStockThreshold
  {
    match FindRow(db.rows, productId)
    case Some(k) => db.rows[k]
    case None =>
      Inventory(productId, "Product-" + Decimal.IntToString(productId), cfg.defaultStock, 0, cfg.defaultStock,
                0, StatusActive, cfg.lowStockThreshold, cfg.defaultStock * 10)
  }

  /** A decrease that would take the stock below zero is refused; an
      increase never is. */
  predicate Refused(before: int, delta: int) {
    delta < 0 && before + delta < 0
  }

  /** No statement fails; the insert can fail only when there is a row to create. */
  predicate NoFault(db: InvDb, productId: int, f: SyncFaults) {
    && !f.lookupFails && !(FindRow(db.rows, productId).None? && f.createFails)
    && !f.updateFails && !f.versionConflict && !f.logFails && !f.commitFails
  }

  /** The product's row after a successful sync. */
  function Synced(row: Inventory, delta: int): Inventory {
    row.(stock := row.stock + delta, available := row.stock + delta - row.reserved, version := row.version + 1)
  }

  /** `SyncStock`. The missing-row insert belongs to the transaction, so a
      refused or failed sync leaves the table as it was. */
  function SyncStock(s: Service, req: SyncRequest, f: SyncFaults): (r: (Result<SyncResponse, string>, Service))
    ensures r.1.store == s.store && r.1.cfg == s.cfg && r.1.db.diffs == s.db.diffs && r.1.db.alerts == s.db.alerts
    ensures r.1.db.nextDiffId == s.db.nextDiffId
    ensures req.productId <= 0 ==> r.0.Err? && r.1.db == s.db
    ensures r.0.Ok? && r.0.value.success <==>
      req.productId > 0 && NoFault(s.db, req.productId, f) && !Refused(StartRow(s.db, req.productId, s.cfg).stock, req.delta)
    ensures !(r.0.Ok? && r.0.value.success) ==> r.1.db == s.db
    ensures r.0.Ok? && !r.0.value.success ==>
      var before := StartRow(s.db, req.productId, s.cfg).stock;
      r.0.value == SyncResponse(req.productId, before, before, 0, false, InsufficientStockMessage)
    ensures r.0.Ok? && r.0.value.success ==>
      var row := StartRow(s.db, req.productId, s.cfg);
      && r.0.value.beforeStock == row.stock && r.0.value.afterStock == row.stock + req.delta
      && r.0.value.delta == req.delta
      && r.1.db.logs == s.db.logs + [InventoryLog(req.productId, OpSync, req.delta, row.stock, row.stock + req.delta,
                                                   req.orderId, req.reason, "system", req.traceId)]
      && FindRow(r.1.db.rows, req.productId).Some?
      && r.1.db.rows[FindRow(r.1.db.rows, req.productId).value] == Synced(row, req.delta)
    ensures r.1.stats.totalSync == s.stats.totalSync + 1
    ensures r.1.stats.successSync + r.1.stats.failedSync == s.stats.successSync + s.stats.failedSync
                                                            + (if req.productId <= 0 then 0 else 1)
    ensures Valid(s.db) ==> Valid(r.1.db)
  {
    var st := s.stats.(totalSync := s.stats.totalSync + 1);
    var failed := s.(stats := st.(failedSync := st.failedSync + 1));
    if req.productId <= 0 then (Err("商品ID必须大于0"), s.(stats := st))
    else if f.lookupFails then (Err("获取库存信息失败"), failed)
    else
      var existing := FindRow(s.db.rows, req.productId);
      var row := StartRow(s.db, req.productId, s.cfg);
      var before := row.stock;
      if existing.None? && f.createFails then (Err("创建库存记录失败"), failed)
      else if Refused(before, req.delta) then
        (Ok(SyncResponse(req.productId, before, before, 0, false, InsufficientStockMessage)), failed)
      else if f.updateFails then (Err("更新库存失败"), failed)
      else if f.versionConflict then (Err("库存更新冲突，请重试"), failed)
      else if f.logFails then (Err("记录操作日志失败"), failed)
      else if f.commitFails then (Err("提交事务失败"), failed)
      else
        var row' := Synced(row, req.delta);
        var rows' := if existing.None? then s.db.rows + [row'] else s.db.rows[existing.value := row'];
        var entry := InventoryLog(req.productId, OpSync, req.delta, before, before + req.delta,
                                  req.orderId, req.reason, "system", req.traceId);
        var db' := s.db.(rows := rows', logs := s.db.logs + [entry]);
        SyncKeepsValid(s.db, row, row', rows', entry);
        FindAfterSync(s.db.rows, row', rows', existing);
        (Ok(SyncResponse(req.productId, before, before + req.delta, req.delta, true, "")),
         s.(db := db', stats := st.(successSync := st.successSync + 1)))
  }

  lemma FindAfterSync(rows: seq<Inventory>, row': Inventory, rows': seq<Inventory>, existing: Option<nat>)
    requires existing == FindRow(rows, row'.productId)
    requires rows' == if existing.None? then rows + [row'] else rows[existing.value := row']
    ensures FindRow(rows', row'.productId).Some? && rows'[FindRow(rows', row'.productId).value] == row'
  {
  }

  /** The latest log entry of a product after one append. */
  lemma LastAfterAppend(logs: seq<InventoryLog>, e: InventoryLog, q: int)
    ensures LastAfter(logs + [e], q) == if e.productId == q then Some(e.afterStock) else LastAfter(logs, q)
  {
    assert (logs + [e])[..|logs|] == logs;
  }

  lemma SyncKeepsValid(db: InvDb, row: Inventory, row': Inventory, rows': seq<Inventory>, entry: InventoryLog)
    requires row.productId == row'.productId == entry.productId
    requires FindRow(db.rows, row.productId).Some? ==> row == db.rows[FindRow(db.rows, row.productId).value]
    requires row'.stock == entry.afterStock && row'.available == row'.stock - row'.reserved
    requires entry.afterStock == entry.beforeStock + entry.delta
    requires rows' == if FindRow(db.rows, row.productId).None? then db.rows + [row']
                      else db.rows[FindRow(db.rows, row.productId).value := row']
    ensures Valid(db) ==> Valid(db.(rows := rows', logs := db.logs + [entry]))
  {
    if Valid(db) {
      var db' := db.(rows := rows', logs := db.logs + [entry]);
      var p := row.productId;
      forall i | 0 <= i < |rows'|
        ensures LastAfter(db'.logs, rows'[i].productId).Some? ==> LastAfter(db'.logs, rows'[i].productId).value == rows'[i].stock
      {
        LastAfterAppend(db.logs, entry, rows'[i].productId);
        if rows'[i].productId != p {
          assert rows'[i] == db.rows[i];
        }
      }
      forall i, j | 0 <= i < j < |rows'|
        ensures rows'[i].productId != rows'[j].productId
      {
        if FindRow(db.rows, p).None? {
          if j < |db.rows| {
            assert rows'[i] == db.rows[i] && rows'[j] == db.rows[j];
          } else {
            assert rows'[i] == db.rows[i];
          }
        } else {
          var k := FindRow(db.rows, p).value;
          if i != k && j != k {
            assert rows'[i] == db.rows[i] && rows'[j] == db.rows[j];
          } else if i == k {
            assert rows'[j] == db.rows[j];
          } else {
            assert rows'[i] == db.rows[i];
          }
        }
      }
      assert LogsConsistent(db'.logs) by {
        forall i | 0 <= i < |db'.logs|
          ensures db'.logs[i].afterStock == db'.logs[i].beforeStock + db'.logs[i].delta
        {
          if i < |db.logs| { assert db'.logs[i] == db.logs[i]; }
        }
      }
    }
  }

  /** Stock never goes negative through a sync: with a non-negative default
      stock, non-negative stock is an invariant. */
  predicate StockNonNegative(db: InvDb) {
    forall i :: 0 <= i < |db.rows| ==> db.rows[i].stock >= 0
  }

  lemma SyncKeepsStockNonNegative(s: Service, req: SyncRequest, f: SyncFaults)
    requires StockNonNegative(s.db) && s.cfg.defaultStock >= 0
    requires Valid(s.db)
    ensures StockNonNegative(SyncStock(s, req, f).1.db)
  {
    var (res, s') := SyncStock(s, req, f);
    if res.Ok? && res.value.success {
      var row := StartRow(s.db, req.productId, s.cfg);
      assert row.stock >= 0;
      forall i | 0 <= i < |s'.db.rows|
        ensures s'.db.rows[i].stock >= 0
      {
        var k := FindRow(s'.db.rows, req.productId).value;
        if s'.db.rows[i].productId == req.productId {
          assert i == k;
        } else if FindRow(s.db.rows, req.productId).None? {
          assert s'.db.rows[i] == s.db.rows[i];
        } else {
          assert s'.db.rows[i] == s.db.rows[i];
        }
      }
    }
  }

  /** One product's line in the drift report. */
  datatype HealthResponse = HealthResponse(productId: int, dbStock: int, redisStock: int, diff: int, status: string)

  const StatusNormal: string := "normal"
  const StatusDiffFound: string := "diff_found"

  /** The flash-sale stock counter the check compares with; a missing key reads as 0. */
  function RedisStock(store: FastStore.Store, productId: int): int {
    FastStore.CounterOrZero(store, SeckillKeys.StockKey(productId))
  }

  /** The classification of one product. */
  function Classify(row: Inventory, redisStock: int, cfg: Config): (r: HealthResponse)
    ensures r.productId == row.productId && r.dbStock == row.stock && r.redisStock == redisStock
    ensures r.diff == redisStock - row.stock
    ensures r.status == StatusDiffFound <==> Abs(redisStock - row.stock) > cfg.tolerance
    ensures r.status == StatusNormal || r.status == StatusDiffFound
  {
    var diff := redisStock - row.stock;
    HealthResponse(row.productId, row.stock, redisStock, diff, if Abs(diff) > cfg.tolerance then StatusDiffFound else StatusNormal)
  }

  /** Which of a drift's two inserts fails. A failed insert is only logged:
      the check goes on and still counts the drift. */
  datatype InsertFaults = InsertFaults(diffFails: bool, alertFails: bool)

  const NoInsertFaults := InsertFaults(false, false)

  /** `recordInventoryDiff` and, past the alert threshold, `createAlert`. */
  function RecordDrift(db: InvDb, h: HealthResponse, cfg: Config, f: InsertFaults): (r: InvDb)
    ensures r.rows == db.rows && r.logs == db.logs
    ensures f.diffFails ==> r.diffs == db.diffs && r.nextDiffId == db.nextDiffId
    ensures !f.diffFails ==>
      && r.nextDiffId == db.nextDiffId + 1
      && r.diffs == db.diffs[db.nextDiffId := InventoryDiff(h.productId, h.dbStock, h.redisStock, h.diff, DiffPending)]
    ensures |r.alerts| == |db.alerts| + (if Abs(h.diff) > cfg.alertThreshold && !f.alertFails then 1 else 0)
    ensures r.alerts[..|db.alerts|] == db.alerts
    ensures Abs(h.diff) > cfg.alertThreshold && !f.alertFails ==>
      r.alerts[|db.alerts|] == InventoryAlert(h.productId, AlertDiff, "库存差异过大", LevelError, "pending")
  {
    var db' := if f.diffFails then db
               else db.(diffs := db.diffs[db.nextDiffId := InventoryDiff(h.productId, h.dbStock, h.redisStock, h.diff, DiffPending)],
                        nextDiffId := db.nextDiffId + 1);
    if Abs(h.diff) > cfg.alertThreshold && !f.alertFails then
      db'.(alerts := db.alerts + [InventoryAlert(h.productId, AlertDiff, "库存差异过大", LevelError, "pending")])
    else db'
  }

  predicate IsDrift(h: HealthResponse) {
    h.status == StatusDiffFound
  }

  /** A report line as the check computes it: the Redis value, the signed
      difference, and "diff_found" exactly past the tolerance. */
  predicate Reported(h: HealthResponse, store: FastStore.Store, cfg: Config) {
    && h.diff == h.redisStock - h.dbStock
    && h.redisStock == RedisStock(store, h.productId)
    && (h.status == StatusDiffFound <==> Abs(h.diff) > cfg.tolerance)
  }

  predicate FreshDiffIds(db: InvDb) {
    forall id :: id in db.diffs ==> id < db.nextDiffId
  }

  /** The drifts among `hs` whose difference record was inserted. */
  function RecordedDrifts(hs: seq<HealthResponse>, insertFails: int -> InsertFaults): nat {
    if |hs| == 0 then 0
    else
      var h := hs[|hs| - 1];
      RecordedDrifts(hs[..|hs| - 1], insertFails) + (if IsDrift(h) && !insertFails(h.productId).diffFails then 1 else 0)
  }

  /** Every recorded drift is a found drift; with no insert failing, every
      found drift is recorded. */
  lemma {:induction false} RecordedDriftsBound(hs: seq<HealthResponse>, insertFails: int -> InsertFaults)
    ensures RecordedDrifts(hs, insertFails) <= CountWhere(hs, IsDrift)
    ensures (forall p :: !insertFails(p).diffFails) ==> RecordedDrifts(hs, insertFails) == CountWhere(hs, IsDrift)
  {
    if |hs| > 0 {
      RecordedDriftsBound(hs[..|hs| - 1], insertFails);
    }
  }

  /** The loop of `CheckInventoryHealth` over the active rows; a product
      whose Redis read fails (`readFails`) is skipped. The rows are read in
      table order (the query names no order), and the messages are
      simplified. */
  function CheckRows(rows: seq<Inventory>, store: FastStore.Store, readFails: int -> bool,
                     insertFails: int -> InsertFaults, cfg: Config, db: InvDb)
    : (r: (seq<HealthResponse>, InvDb))
    ensures |r.0| <= |rows|
    ensures forall i :: 0 <= i < |r.0| ==> Reported(r.0[i], store, cfg)
    ensures r.1.nextDiffId == db.nextDiffId + RecordedDrifts(r.0, insertFails)
    ensures r.1.rows == db.rows && r.1.logs == db.logs
    ensures FreshDiffIds(db) ==> FreshDiffIds(r.1) && db.diffs.Keys <= r.1.diffs.Keys
    ensures FreshDiffIds(db) ==> forall id :: id in db.diffs ==> r.1.diffs[id] == db.diffs[id]
    ensures DiffsConsistent(db.diffs) ==> DiffsConsistent(r.1.diffs)
    decreases |rows|
  {
    if |rows| == 0 then ([], db)
    else
      var (rest, db1) := CheckRows(rows[..|rows| - 1], store, readFails, insertFails, cfg, db);
      var row := rows[|rows| - 1];
      if readFails(row.productId) then (rest, db1)
      else
        var h := Classify(row, RedisStock(store, row.productId), cfg);
        assert (rest + [h])[..|rest|] == rest;
        if h.status == StatusDiffFound then (rest + [h], RecordDrift(db1, h, cfg, insertFails(h.productId)))
        else (rest + [h], db1)
  }

  /** The active rows, in table order. */
  function ActiveRows(rows: seq<Inventory>): seq<Inventory> {
    Filter(rows, (r: Inventory) => r.status == StatusActive)
  }

  /** `CheckInventoryHealth`: every found drift is counted, and its record
      is written unless that insert fails. */
  function CheckInventoryHealth(s: Service, listFails: bool, readFails: int -> bool, insertFails: int -> InsertFaults)
    : (r: (Result<seq<HealthResponse>, string>, Service))
    ensures r.1.stats.totalDiffChecks == s.stats.totalDiffChecks + 1
    ensures listFails ==> r.0.Err? && r.1.db == s.db
    ensures r.0.Ok? ==>
      && r.1.stats.foundDiffs == s.stats.foundDiffs + CountWhere(r.0.value, IsDrift)
      && r.1.db.nextDiffId == s.db.nextDiffId + RecordedDrifts(r.0.value, insertFails)
      && (forall i :: 0 <= i < |r.0.value| ==> Reported(r.0.value[i], s.store, s.cfg))
      && |r.0.value| <= |ActiveRows(s.db.rows)|
    ensures r.1.db.rows == s.db.rows && r.1.db.logs == s.db.logs && r.1.store == s.store && r.1.cfg == s.cfg
    ensures FreshDiffIds(s.db) ==> forall id :: id in s.db.diffs ==> id in r.1.db.diffs && r.1.db.diffs[id] == s.db.diffs[id]
    ensures Valid(s.db) ==> Valid(r.1.db)
  {
    var st := s.stats.(totalDiffChecks := s.stats.totalDiffChecks + 1);
    if listFails then (Err("获取库存列表失败"), s.(stats := st))
    else
      var (responses, db') := CheckRows(ActiveRows(s.db.rows), s.store, readFails, insertFails, s.cfg, s.db);
      var found := CountWhere(responses, IsDrift);
      (Ok(responses), s.(db := db', stats := st.(foundDiffs := st.foundDiffs + found)))
  }

  /** A check counts at least as many drifts as it records, exactly as many
      when no insert fails. */
  lemma FoundDiffsCoverRecords(s: Service, readFails: int -> bool, insertFails: int -> InsertFaults)
    ensures var (res, s') := CheckInventoryHealth(s, false, readFails, insertFails);
            && res.Ok?
            && s'.db.nextDiffId - s.db.nextDiffId <= s'.stats.foundDiffs - s.stats.foundDiffs
            && ((forall p :: !insertFails(p).diffFails) ==>
                  s'.db.nextDiffId - s.db.nextDiffId == s'.stats.foundDiffs - s.stats.foundDiffs)
  {
    var (res, s') := CheckInventoryHealth(s, false, readFails, insertFails);
    RecordedDriftsBound(res.value, insertFails);
  }

  /** `checkStockAlert`: out of stock first, then low stock; a product with
      no row raises nothing. */
  function StockAlert(db: InvDb, productId: int, stock: int): (r: Option<InventoryAlert>)
    ensures r.Some? <==> FindRow(db.rows, productId).Some?
                         && (stock <= 0 || stock <= db.rows[FindRow(db.rows, productId).value].minStock)
    ensures r.Some? ==> r.value.productId == productId && r.value.status == "pending"
    ensures r.Some? && stock <= 0 ==> r.value.alertType == AlertOutOfStock && r.value.level == LevelError
    ensures r.Some? && stock > 0 ==> r.value.alertType == AlertLowStock && r.value.level == LevelWarning
  {
    match FindRow(db.rows, productId)
    case None => None
    case Some(k) =>
      if stock <= 0 then Some(InventoryAlert(productId, AlertOutOfStock, "商品已缺货", LevelError, "pending"))
      else if stock <= db.rows[k].minStock then
        Some(InventoryAlert(productId, AlertLowStock, "商品库存不足", LevelWarning, "pending"))
      else None
  }

  /** A sync that empties a product's stock raises an out-of-stock alert. */
  lemma EmptyingSyncAlerts(s: Service, req: SyncRequest)
    requires req.productId > 0
    requires StartRow(s.db, req.productId, s.cfg).stock + req.delta == 0
    ensures var (res, s') := SyncStock(s, req, NoSyncFaults);
            res.Ok? && res.value.success
            && StockAlert(s'.db, req.productId, res.value.afterStock).Some?
            && StockAlert(s'.db, req.productId, res.value.afterStock).value.alertType == AlertOutOfStock
  {
  }

  /** The faults a repair can meet: the diff lookup, the Redis write, the
      sync it runs, and the final status update. */
  datatype FixFaults = FixFaults(lookupFails: bool, redisSetFails: bool, sync: SyncFaults, markFails: bool)

  const NoFixFaults := FixFaults(false, false, NoSyncFaults, false)

  const UseDb: string := "use_db"
  const UseRedis: string := "use_redis"

  /** The shared tail of both repairs: mark the diff fixed, count it. */
  function MarkFixed(s: Service, id: nat, markFails: bool): (r: (Outcome<string>, Service))
    requires id in s.db.diffs
    ensures markFails ==> r == (Fail("更新差异记录失败"), s)
    ensures !markFails ==> r.0 == Pass && r.1.db.diffs == s.db.diffs[id := s.db.diffs[id].(status := DiffFixed)]
                           && r.1.stats.fixedDiffs == s.stats.fixedDiffs + 1
    ensures r.1.db.rows == s.db.rows && r.1.db.logs == s.db.logs && r.1.store == s.store
    ensures Valid(s.db) ==> Valid(r.1.db)
  {
    if markFails then (Fail("更新差异记录失败"), s)
    else
      (Pass, s.(db := s.db.(diffs := s.db.diffs[id := s.db.diffs[id].(status := DiffFixed)]),
                stats := s.stats.(fixedDiffs := s.stats.fixedDiffs + 1)))
  }

  /** The sync a "use_redis" repair runs. */
  function RepairRequest(d: InventoryDiff, id: nat): SyncRequest {
    SyncRequest(d.productId, d.redisStock - d.dbStock, "", "健康检查修复", "health-fix-" + Decimal.IntToString(id))
  }

  predicate Fixable(s: Service, id: nat, f: FixFaults) {
    !f.lookupFails && id in s.db.diffs && s.db.diffs[id].status == DiffPending
  }

  /** `FixInventoryDiff` as written: a "use_redis" repair checks only the
      sync's error, so a sync refused for insufficient stock still marks the
      diff fixed. */
  function FixInventoryDiff(s: Service, id: nat, fixType: string, f: FixFaults): (r: (Outcome<string>, Service))
    ensures !Fixable(s, id, f) ==> r == (Fail("获取差异记录失败"), s)
    ensures Fixable(s, id, f) && fixType != UseDb && fixType != UseRedis ==> r == (Fail("不支持的修复类型"), s)
    ensures r.0 == Pass ==> Fixable(s, id, f) && id in r.1.db.diffs && r.1.db.diffs[id].status == DiffFixed
    ensures r.0 == Pass && fixType == UseDb ==>
      RedisStock(r.1.store, s.db.diffs[id].productId) == s.db.diffs[id].dbStock && r.1.db.rows == s.db.rows
    ensures r.0 == Pass <==>
      Fixable(s, id, f) && !f.markFails
      && ((fixType == UseDb && !f.redisSetFails)
          || (fixType == UseRedis && SyncStock(s, RepairRequest(s.db.diffs[id], id), f.sync).0.Ok?))
    ensures Valid(s.db) ==> Valid(r.1.db)
  {
    if !Fixable(s, id, f) then (Fail("获取差异记录失败"), s)
    else
      var d := s.db.diffs[id];
      if fixType == UseDb then
        if f.redisSetFails then (Fail("更新Redis库存失败"), s)
        else MarkFixed(s.(store := FastStore.SetCounter(s.store, SeckillKeys.StockKey(d.productId), d.dbStock)), id, f.markFails)
      else if fixType == UseRedis then
        var (res, s') := SyncStock(s, RepairRequest(d, id), f.sync);
        if res.Err? then (Fail("更新数据库库存失败"), s')
        else MarkFixed(s', id, f.markFails)
      else (Fail("不支持的修复类型"), s)
  }

  /** The as-written repair marks a diff fixed although the sync was
      refused: a drift of -8 recorded at database stock 10, with the
      database since down to 5, stays unrepaired yet is reported fixed. */
  lemma RefusedRepairMarkedFixed()
    ensures var cfg := Config(100, 10, 0, 100);
            var row := Inventory(7, "Product-7", 5, 0, 5, 3, StatusActive, 10, 1000);
            var d := InventoryDiff(7, 10, 2, -8, DiffPending);
            var s := Service(InvDb([row], [], map[1 := d], 2, []), FastStore.EmptyStore, NoStats, cfg);
            var (o, s') := FixInventoryDiff(s, 1, UseRedis, NoFixFaults);
            o == Pass && s'.db.diffs[1].status == DiffFixed && s'.db.rows == s.db.rows
            && s'.db.rows[0].stock != d.redisStock
  {
    var cfg := Config(100, 10, 0, 100);
    var row := Inventory(7, "Product-7", 5, 0, 5, 3, StatusActive, 10, 1000);
    var d := InventoryDiff(7, 10, 2, -8, DiffPending);
    var s := Service(InvDb([row], [], map[1 := d], 2, []), FastStore.EmptyStore, NoStats, cfg);
    assert FindRow(s.db.rows, 7) == Some(0);
    assert Refused(5, -8);
  }

  /** The repair as evidently intended: a refused sync is an error and the
      diff stays pending. */
  function FixInventoryDiffChecked(s: Service, id: nat, fixType: string, f: FixFaults): (r: (Outcome<string>, Service))
    ensures !Fixable(s, id, f) ==> r == (Fail("获取差异记录失败"), s)
    ensures r.0 == Pass ==> Fixable(s, id, f) && id in r.1.db.diffs && r.1.db.diffs[id].status == DiffFixed
    ensures r.0 == Pass && fixType == UseRedis ==>
      var (res, _) := SyncStock(s, RepairRequest(s.db.diffs[id], id), f.sync);
      res.Ok? && res.value.success
    ensures Valid(s.db) ==> Valid(r.1.db)
  {
    if !Fixable(s, id, f) then (Fail("获取差异记录失败"), s)
    else if fixType == UseRedis then
      var d := s.db.diffs[id];
      var (res, s') := SyncStock(s, RepairRequest(d, id), f.sync);
      if res.Err? then (Fail("更新数据库库存失败"), s')
      else if !res.value.success then (Fail(res.value.message), s')
      else MarkFixed(s', id, f.markFails)
    else FixInventoryDiff(s, id, fixType, f)
  }

  /** A checked "use_redis" repair of a drift recorded against the current
      database stock leaves the database at the Redis value. */
  lemma CheckedRepairConverges(s: Service, id: nat, f: FixFaults)
    requires Valid(s.db) && Fixable(s, id, f)
    requires FindRow(s.db.rows, s.db.diffs[id].productId).Some?
    requires s.db.rows[FindRow(s.db.rows, s.db.diffs[id].productId).value].stock == s.db.diffs[id].dbStock
    requires FixInventoryDiffChecked(s, id, UseRedis, f).0 == Pass
    ensures var s' := FixInventoryDiffChecked(s, id, UseRedis, f).1;
            var p := s.db.diffs[id].productId;
            FindRow(s'.db.rows, p).Some? && s'.db.rows[FindRow(s'.db.rows, p).value].stock == s.db.diffs[id].redisStock
  {
    var d := s.db.diffs[id];
    var (res, s1) := SyncStock(s, RepairRequest(d, id), f.sync);
    assert StartRow(s.db, d.productId, s.cfg).stock == d.dbStock;
  }
}

=== FILE: limiter.dfy ===
/** Request-rate limiters: token bucket, sliding window, fixed window, the
    distributed stub, and a multi-level chain. Time is an integer number of
    nanoseconds supplied by the caller. The bucket's float rate is the
    rational `rateNum / rateDen` tokens per second. */
module Limiter {
  import opened Common

  type PosInt = x: int | x > 0 witness 1

  const NanosPerSecond: int := 1_000_000_000

  // ---------------------------------------------------------------------------
  // Token bucket

  datatype TokenBucket = TokenBucket(rateNum: int, rateDen: PosInt, capacity: int, tokens: int, lastRefill: int)

  /** A new bucket starts full. */
  function NewTokenBucket(rateNum: int, rateDen: PosInt, capacity: int, now: int): (b: TokenBucket)
    ensures b.tokens == b.capacity == capacity && b.lastRefill == now
    ensures b.rateNum == rateNum && b.rateDen == rateDen
  {
    TokenBucket(rateNum, rateDen, capacity, capacity, now)
  }

  /** `int(elapsed_seconds * rate)`: whole tokens earned since the last refill. */
  function TokensEarned(b: TokenBucket, now: int): int {
    ((now - b.lastRefill) * b.rateNum) / (b.rateDen * NanosPerSecond)
  }

  predicate BucketInvariant(b: TokenBucket) {
    0 <= b.tokens <= b.capacity
  }

  /** Adds the earned tokens, capped at capacity; the refill instant only
      moves when at least one token is added. */
  function Refill(b: TokenBucket, now: int): (r: TokenBucket)
    ensures r.rateNum == b.rateNum && r.rateDen == b.rateDen && r.capacity == b.capacity
    ensures r.tokens >= b.tokens || r.tokens == r.capacity
    ensures BucketInvariant(b) ==> BucketInvariant(r)
    ensures now > b.lastRefill && TokensEarned(b, now) > 0 ==>
      r.lastRefill == now &&
      r.tokens == (if b.tokens + TokensEarned(b, now) > b.capacity then b.capacity else b.tokens + TokensEarned(b, now))
    ensures !(now > b.lastRefill && TokensEarned(b, now) > 0) ==> r == b
  {
    if now > b.lastRefill && TokensEarned(b, now) > 0 then
      var added := b.tokens + TokensEarned(b, now);
      b.(tokens := if added > b.capacity then b.capacity else added, lastRefill := now)
    else b
  }

  /** Refill, then take `n` tokens if that many are there. */
  function BucketAllowN(b: TokenBucket, n: int, now: int): (r: (bool, TokenBucket))
    ensures r.0 <==> Refill(b, now).tokens >= n
    ensures r.0 ==> r.1 == Refill(b, now).(tokens := Refill(b, now).tokens - n)
    ensures !r.0 ==> r.1 == Refill(b, now)
    ensures BucketInvariant(b) && n >= 0 ==> BucketInvariant(r.1)
  {
    var refilled := Refill(b, now);
    if refilled.tokens >= n then (true, refilled.(tokens := refilled.tokens - n)) else (false, refilled)
  }

  /** `GetTokens` refills first, so it reports what an admission would see. */
  function GetTokens(b: TokenBucket, now: int): (r: (int, TokenBucket))
    ensures r.1 == Refill(b, now) && r.0 == r.1.tokens
    ensures BucketAllowN(b, 1, now).0 <==> r.0 >= 1
  {
    var refilled := Refill(b, now);
    (refilled.tokens, refilled)
  }

  /** The successes among `k` single admissions at one instant. */
  function Burst(b: TokenBucket, now: int, k: nat): (r: (nat, TokenBucket))
    decreases k
  {
    if k == 0 then (0, b)
    else
      var (ok, next) := BucketAllowN(b, 1, now);
      var (rest, fin) := Burst(next, now, k - 1);
      ((if ok then 1 else 0) + rest, fin)
  }

  /** With no time passing, a full bucket admits exactly `capacity` single
      requests and refuses every one after that. */
  lemma {:induction false} BurstAdmitsCapacity(b: TokenBucket, now: int, k: nat)
    requires 0 <= b.tokens <= b.capacity && now == b.lastRefill
    ensures Burst(b, now, k).0 == (if k <= b.tokens then k else b.tokens)
    ensures Burst(b, now, k).1.tokens == (if k <= b.tokens then b.tokens - k else 0)
    ensures Burst(b, now, k).1.lastRefill == now
    decreases k
  {
    if k > 0 {
      var (ok, next) := BucketAllowN(b, 1, now);
      assert Refill(b, now) == b;
      BurstAdmitsCapacity(next, now, k - 1);
    }
  }

  /** After a full token's worth of time, an empty bucket admits again. */
  lemma OneTokenAfterInterval(b: TokenBucket, now: int)
    requires b.rateNum > 0 && BucketInvariant(b) && b.capacity >= 1
    requires (now - b.lastRefill) * b.rateNum >= b.rateDen * NanosPerSecond
    ensures BucketAllowN(b, 1, now).0
  {
    var d := b.rateDen * NanosPerSecond;
    var e := (now - b.lastRefill) * b.rateNum;
    assert e / d >= 1 by {
      DivAtLeastOne(e, d);
    }
    if now <= b.lastRefill {
      NonPositiveTimes(now - b.lastRefill, b.rateNum);
      assert false;
    }
  }

  lemma DivAtLeastOne(e: int, d: int)
    requires d > 0 && e >= d
    ensures e / d >= 1
  {
  }

  lemma NonPositiveTimes(x: int, y: int)
    requires x <= 0 && y > 0
    ensures x * y <= 0
  {
  }

  /** `WaitN` refuses immediately when more tokens are wanted than the bucket holds. */
  function WaitNGuard(b: TokenBucket, n: int): (r: Outcome<string>)
    ensures r.Fail? <==> n > b.capacity
  {
    if n > b.capacity then Fail("requested tokens exceeds capacity") else Pass
  }

  /** The pause `WaitN` sleeps after a refusal, in nanoseconds, as written:
      the float seconds `(n - tokens) / rate` are converted to a Duration
      (truncating to whole nanoseconds) before being multiplied by a second,
      so the pause is a whole number of seconds. */
  function WaitPauseAsWritten(b: TokenBucket, n: int): (pause: int)
    requires b.rateNum > 0
    ensures pause % NanosPerSecond == 0
    ensures n >= b.tokens ==> pause >= 0
    ensures n < b.tokens ==> pause <= 0
    ensures 0 <= (n - b.tokens) * b.rateDen < b.rateNum ==> pause == 0
  {
    var seconds := GoDiv((n - b.tokens) * b.rateDen, b.rateNum);
    GoDivSign((n - b.tokens) * b.rateDen, b.rateNum);
    WholeSeconds(seconds);
    seconds * NanosPerSecond
  }

  lemma WholeSeconds(q: int)
    ensures (q * NanosPerSecond) % NanosPerSecond == 0
  {
  }

  /** A deficit worth less than a second sleeps zero: at 10 tokens per second
      an empty bucket's `WaitN(1)` polls again immediately. */
  lemma SubSecondPauseIsZero()
    ensures WaitPauseAsWritten(TokenBucket(10, 1, 10, 0, 0), 1) == 0
  {
  }

  // ---------------------------------------------------------------------------
  // Sliding window

  datatype SlidingWindow = SlidingWindow(limit: int, window: int, requests: seq<int>)

  function NewSlidingWindow(limit: int, window: int): (w: SlidingWindow)
    ensures w.requests == [] && w.limit == limit && w.window == window
  {
    SlidingWindow(limit, window, [])
  }

  /** The timestamps strictly after `now - window`, in their original order. */
  function Recent(requests: seq<int>, cutoff: int): (r: seq<int>)
    ensures |r| <= |requests|
    ensures forall i :: 0 <= i < |r| ==> r[i] > cutoff
    ensures forall x :: x in r <==> x in requests && x > cutoff
    ensures r == requests <==> forall i :: 0 <= i < |requests| ==> requests[i] > cutoff
  {
    if |requests| == 0 then []
    else
      var rest := Recent(requests[..|requests| - 1], cutoff);
      assert requests == requests[..|requests| - 1] + [requests[|requests| - 1]];
      if requests[|requests| - 1] > cutoff then rest + [requests[|requests| - 1]] else rest
  }

  /** `n` copies of `t` (none when `n` is not positive). */
  function Repeat(t: int, n: int): (r: seq<int>)
    ensures |r| == (if n > 0 then n else 0)
    ensures forall i :: 0 <= i < |r| ==> r[i] == t
    decreases n
  {
    if n <= 0 then [] else [t] + Repeat(t, n - 1)
  }

  /** Evicts expired timestamps (the eviction persists even on refusal),
      then admits iff the survivors plus `n` fit in the limit, recording `n`
      copies of `now`. */
  function WindowAllowN(w: SlidingWindow, n: int, now: int): (r: (bool, SlidingWindow))
    ensures r.0 <==> |Recent(w.requests, now - w.window)| + n <= w.limit
    ensures !r.0 ==> r.1 == w.(requests := Recent(w.requests, now - w.window))
    ensures r.0 ==> r.1 == w.(requests := Recent(w.requests, now - w.window) + Repeat(now, n))
    ensures r.1.limit == w.limit && r.1.window == w.window
  {
    var kept := Recent(w.requests, now - w.window);
    if |kept| + n > w.limit then (false, w.(requests := kept))
    else (true, w.(requests := kept + Repeat(now, n)))
  }

  /** The count an admission at `now` would see, without evicting anything. */
  function GetCurrentRequests(w: SlidingWindow, now: int): (c: nat)
    ensures c <= |w.requests|
    ensures WindowAllowN(w, 1, now).0 <==> c + 1 <= w.limit
  {
    |Recent(w.requests, now - w.window)|
  }

  predicate NonDecreasing(s: seq<int>) {
    forall i, j :: 0 <= i < j < |s| ==> s[i] <= s[j]
  }

  /** The log never holds more than `limit` entries. */
  lemma WindowBounded(w: SlidingWindow, n: int, now: int)
    requires |w.requests| <= w.limit
    ensures |WindowAllowN(w, n, now).1.requests| <= w.limit
  {
  }

  lemma {:induction false} RecentKeepsOrder(s: seq<int>, cutoff: int)
    requires NonDecreasing(s)
    ensures NonDecreasing(Recent(s, cutoff))
    decreases |s|
  {
    if |s| > 0 {
      var init := s[..|s| - 1];
      var last := s[|s| - 1];
      RecentKeepsOrder(init, cutoff);
      var rest := Recent(init, cutoff);
      if last > cutoff {
        var r := rest + [last];
        forall i, j | 0 <= i < j < |r| ensures r[i] <= r[j] {
          if j == |rest| {
            assert rest[i] in init;
            var m :| 0 <= m < |init| && init[m] == rest[i];
          }
        }
      }
    }
  }

  /** With a clock that never goes back, the log stays in time order. */
  lemma WindowKeepsOrder(w: SlidingWindow, n: int, now: int)
    requires NonDecreasing(w.requests)
    requires forall i :: 0 <= i < |w.requests| ==> w.requests[i] <= now
    ensures NonDecreasing(WindowAllowN(w, n, now).1.requests)
  {
    var kept := Recent(w.requests, now - w.window);
    RecentKeepsOrder(w.requests, now - w.window);
    var tail := Repeat(now, n);
    forall i, j | 0 <= i < j < |kept + tail| ensures (kept + tail)[i] <= (kept + tail)[j] {
      if j >= |kept| {
        assert (kept + tail)[j] == now;
        if i < |kept| {
          assert kept[i] in w.requests;
        }
      }
    }
  }

  // ---------------------------------------------------------------------------
  // Fixed window

  datatype FixedWindow = FixedWindow(limit: int, window: int, count: int, windowStart: int)

  function NewFixedWindow(limit: int, window: int, now: int): (w: FixedWindow)
    ensures w.count == 0 && w.windowStart == now
  {
    FixedWindow(limit, window, 0, now)
  }

  /** Starts a new window once `window` has elapsed, then admits iff the count
      plus `n` stays within the limit. */
  function FixedAllowN(w: FixedWindow, n: int, now: int): (r: (bool, FixedWindow))
    ensures now - w.windowStart >= w.window ==> r.1.windowStart == now
    ensures now - w.windowStart < w.window ==> r.1.windowStart == w.windowStart
    ensures var base := if now - w.windowStart >= w.window then 0 else w.count;
            (r.0 <==> base + n <= w.limit) && r.1.count == (if r.0 then base + n else base)
    ensures 0 <= w.limit && w.count <= w.limit ==> r.1.count <= w.limit
    ensures r.1.limit == w.limit && r.1.window == w.window
  {
    var cur := if now - w.windowStart >= w.window then w.(count := 0, windowStart := now) else w;
    if cur.count + n > cur.limit then (false, cur) else (true, cur.(count := cur.count + n))
  }

  /** The count an admission at `now` would see; 0 once the window has
      elapsed, although nothing is reset. */
  function GetCurrentCount(w: FixedWindow, now: int): (c: int)
    ensures now - w.windowStart >= w.window ==> c == 0
    ensures FixedAllowN(w, 1, now).0 <==> c + 1 <= w.limit
  {
    if now - w.windowStart >= w.window then 0 else w.count
  }

  // ---------------------------------------------------------------------------
  // The distributed stub and the chain

  datatype DistributedStub = DistributedStub(key: string, limit: int, window: int)

  /** The Redis-backed limiter is not implemented: it admits everything. */
  function StubAllowN(d: DistributedStub, n: int): (r: bool)
    ensures r
  {
    true
  }

  datatype AnyLimiter =
    | Bucket(b: TokenBucket)
    | Sliding(s: SlidingWindow)
    | Fixed(f: FixedWindow)
    | Stub(d: DistributedStub)

  function AllowOne(l: AnyLimiter, n: int, now: int): (bool, AnyLimiter) {
    match l
    case Bucket(b) => var (ok, b') := BucketAllowN(b, n, now); (ok, Bucket(b'))
    case Sliding(s) => var (ok, s') := WindowAllowN(s, n, now); (ok, Sliding(s'))
    case Fixed(f) => var (ok, f') := FixedAllowN(f, n, now); (ok, Fixed(f'))
    case Stub(d) => (StubAllowN(d, n), l)
  }

  /** The position of the first limiter that refuses, or `|ls|` when none does. */
  function FirstRefusal(ls: seq<AnyLimiter>, n: int, now: int): (k: nat)
    ensures k <= |ls|
    ensures forall i :: 0 <= i < k ==> AllowOne(ls[i], n, now).0
    ensures k < |ls| ==> !AllowOne(ls[k], n, now).0
    decreases |ls|
  {
    if |ls| == 0 || !AllowOne(ls[0], n, now).0 then 0
    else
      var k := FirstRefusal(ls[1..], n, now);
      assert forall i :: 1 <= i < |ls| ==> ls[i] == ls[1..][i - 1];
      k + 1
  }

  /** Asks each limiter in order and stops at the first refusal: limiters up
      to and including it have been charged, those after it are untouched. */
  function ChainAllowN(ls: seq<AnyLimiter>, n: int, now: int): (r: (bool, seq<AnyLimiter>))
    ensures |r.1| == |ls|
    ensures r.0 <==> forall i :: 0 <= i < |ls| ==> AllowOne(ls[i], n, now).0
    ensures forall i :: 0 <= i < |ls| ==>
      r.1[i] == (if i <= FirstRefusal(ls, n, now) then AllowOne(ls[i], n, now).1 else ls[i])
    decreases |ls|
  {
    if |ls| == 0 then (true, [])
    else
      var (ok, first) := AllowOne(ls[0], n, now);
      if !ok then
        assert FirstRefusal(ls, n, now) == 0;
        (false, [first] + ls[1..])
      else
        var (restOk, rest) := ChainAllowN(ls[1..], n, now);
        assert forall i :: 1 <= i < |ls| ==> ls[i] == ls[1..][i - 1];
        assert FirstRefusal(ls, n, now) == FirstRefusal(ls[1..], n, now) + 1;
        var r := [first] + rest;
        assert forall i :: 1 <= i < |ls| ==> r[i] == rest[i - 1];
        (restOk, r)
  }

  /** A stub in the chain never changes the verdict. */
  lemma StubNeverRefuses(ls: seq<AnyLimiter>, d: DistributedStub, n: int, now: int)
    ensures ChainAllowN(ls + [Stub(d)], n, now).0 == ChainAllowN(ls, n, now).0
  {
    var ext := ls + [Stub(d)];
    assert forall i :: 0 <= i < |ls| ==> ext[i] == ls[i];
  }
}

=== FILE: lua_scripts.dfy ===
/** The server-side purchase scripts. Redis runs each script atomically, so
    each is one pure step from a store to a reply and a new store. */
module LuaScripts {
  import opened Common
  import opened FastStore
  import opened SeckillCodes
  import SeckillKeys
  import Decimal

  /** A script's reply and the store it leaves behind. */
  datatype Step = Step(reply: Reply, store: Store)

  /** The success reply `{1, new_stock}`. */
  predicate Succeeded(r: Step) {
    r.reply.RArray? && |r.reply.items| == 2 && r.reply.items[0] == RInt(Success)
  }

  /** The writes of a successful purchase: the new stock and the buyer's set membership. */
  function Deduct(st: Store, stockKey: string, usersKey: string, userId: int, quantity: int): Store
    requires stockKey in st.counters
  {
    SAdd(SetCounter(st, stockKey, st.counters[stockKey] - quantity), usersKey, userId)
  }

  /** The script the production path loads: quantity check, de-duplication,
      stock check, then deduction. It has no activity-window check. */
  function SimpleScript(st: Store, stockKey: string, usersKey: string, userId: int, quantity: int): (r: Step)
    ensures Succeeded(r) <==>
      quantity > 0 && !IsMember(st, usersKey, userId) && stockKey in st.counters && st.counters[stockKey] >= quantity
    ensures !Succeeded(r) ==> r.store == st
    ensures quantity <= 0 ==> r.reply == RInt(InvalidQuantity)
    ensures quantity > 0 && IsMember(st, usersKey, userId) ==> r.reply == RInt(UserAlreadyBought)
    ensures quantity > 0 && !IsMember(st, usersKey, userId) && stockKey !in st.counters ==>
      r.reply == RInt(StockNotFound)
    ensures (quantity > 0 && !IsMember(st, usersKey, userId) && stockKey in st.counters
             && st.counters[stockKey] < quantity) ==> r.reply == RInt(InsufficientStock)
    ensures Succeeded(r) ==>
      r.reply.items[1] == RInt(st.counters[stockKey] - quantity) && st.counters[stockKey] - quantity >= 0
      && r.store == Deduct(st, stockKey, usersKey, userId, quantity)
  {
    if quantity <= 0 then Step(RInt(InvalidQuantity), st)
    else if IsMember(st, usersKey, userId) then Step(RInt(UserAlreadyBought), st)
    else if stockKey !in st.counters then Step(RInt(StockNotFound), st)
    else if st.counters[stockKey] < quantity then Step(RInt(InsufficientStock), st)
    else
      var newStock := st.counters[stockKey] - quantity;
      Step(RArray([RInt(Success), RInt(newStock)]), Deduct(st, stockKey, usersKey, userId, quantity))
  }

  const PurchaseRecordTtl: int := 3600

  /** Lua's `tonumber` on the decimal integer text used here; `nil` is `None`. */
  function ToNumber(s: string): Option<int> {
    Decimal.ParseInt(s)
  }

  /** Decimal text reads back as the number it was written from. */
  lemma ToNumberOfDecimal(i: int)
    ensures ToNumber(Decimal.IntToString(i)) == Some(i)
  {
    Decimal.IntToStringRoundTrip(i);
  }

  /** An RFC 3339 time is not a number to `tonumber`: the '-' after the year
      stops it. */
  lemma Rfc3339NotANumber(s: string)
    requires Rfc3339Shaped(s)
    ensures ToNumber(s).None?
  {
    assert !Decimal.IsDigit(s[4]);
    assert !Decimal.IsDigit(s[1..][3]);
  }

  /** The activity window, both ends inclusive, when both ends read as numbers. */
  predicate InWindow(a: ActivityInfo, now: int) {
    && ToNumber(a.startTime).Some? && ToNumber(a.endTime).Some?
    && ToNumber(a.startTime).value <= now <= ToNumber(a.endTime).value
  }

  /** Whether the full script raises a Lua error: comparing the current time
      with a start or an end that `tonumber` read as nil. The end is compared
      only once the start has been passed. */
  predicate WindowRaises(a: ActivityInfo, now: int) {
    ToNumber(a.startTime).None? || (now >= ToNumber(a.startTime).value && ToNumber(a.endTime).None?)
  }

  /** The full script: also checks the activity window (inclusive of its end)
      and writes a pending purchase record that expires after an hour. A
      window bound that is not a number raises an error (`Err`), which aborts
      the script before any write. */
  function FullScript(st: Store, stockKey: string, usersKey: string, activityKey: string,
                      userId: int, quantity: int, now: int): (r: Result<Step, string>)
    ensures r.Err? <==> quantity > 0 && activityKey in st.activities && WindowRaises(st.activities[activityKey], now)
    ensures r.Ok? && Succeeded(r.value) <==>
      quantity > 0 && activityKey in st.activities && InWindow(st.activities[activityKey], now)
      && !IsMember(st, usersKey, userId) && stockKey in st.counters && st.counters[stockKey] >= quantity
    ensures r.Ok? && !Succeeded(r.value) ==> r.value.store == st
    ensures quantity <= 0 ==> r == Ok(Step(RInt(InvalidQuantity), st))
    ensures quantity > 0 && activityKey !in st.activities ==> r == Ok(Step(RInt(ActivityNotFound), st))
    ensures quantity > 0 && activityKey in st.activities ==>
      var a := st.activities[activityKey];
      && (ToNumber(a.startTime).Some? && now < ToNumber(a.startTime).value ==> r == Ok(Step(RInt(ActivityNotStarted), st)))
      && ((ToNumber(a.startTime).Some? && now >= ToNumber(a.startTime).value && ToNumber(a.endTime).Some?
           && now > ToNumber(a.endTime).value) ==> r == Ok(Step(RInt(ActivityEnded), st)))
    ensures r.Ok? && Succeeded(r.value) ==>
      var a := st.activities[activityKey];
      var key := SeckillKeys.PurchaseKey(a.productId, userId);
      r.value.reply.items[1] == RInt(st.counters[stockKey] - quantity)
      && r.value.store.counters == Deduct(st, stockKey, usersKey, userId, quantity).counters
      && r.value.store.sets == Deduct(st, stockKey, usersKey, userId, quantity).sets
      && key in r.value.store.records
      && r.value.store.records[key] == PurchaseRecord(userId, a.productId, quantity, now, "pending", PurchaseRecordTtl)
  {
    if quantity <= 0 then Ok(Step(RInt(InvalidQuantity), st))
    else if activityKey !in st.activities then Ok(Step(RInt(ActivityNotFound), st))
    else
      var a := st.activities[activityKey];
      match ToNumber(a.startTime)
      case None => Err("attempt to compare nil with number")
      case Some(start) =>
        if now < start then Ok(Step(RInt(ActivityNotStarted), st))
        else match ToNumber(a.endTime)
          case None => Err("attempt to compare nil with number")
          case Some(end) =>
            if now > end then Ok(Step(RInt(ActivityEnded), st))
            else
              var core := SimpleScript(st, stockKey, usersKey, userId, quantity);
              if !Succeeded(core) then Ok(core)
              else
                var key := SeckillKeys.PurchaseKey(a.productId, userId);
                var record := PurchaseRecord(userId, a.productId, quantity, now, "pending", PurchaseRecordTtl);
                Ok(Step(core.reply, core.store.(records := core.store.records[key := record])))
  }

  /** The rollback script: a user outside the buyer set gets 0 and nothing
      changes; otherwise the stock is incremented (a missing counter counts
      as 0) and the user leaves the set. */
  function RollbackScript(st: Store, stockKey: string, usersKey: string, userId: int, quantity: int): (r: Step)
    ensures !IsMember(st, usersKey, userId) ==> r == Step(RInt(0), st)
    ensures IsMember(st, usersKey, userId) ==>
      stockKey in r.store.counters
      && r.store.counters[stockKey] == CounterOrZero(st, stockKey) + quantity
      && r.reply == RInt(r.store.counters[stockKey])
      && Members(r.store, usersKey) == Members(st, usersKey) - {userId}
      && r.store.activities == st.activities && r.store.records == st.records
  {
    if !IsMember(st, usersKey, userId) then Step(RInt(0), st)
    else
      var incremented := IncrBy(st, stockKey, quantity);
      var removed := SRem(incremented, usersKey, userId);
      Step(RInt(removed.counters[stockKey]), removed)
  }

  /** Rolling back a successful purchase restores the exact prior store. */
  lemma RollbackUndoesPurchase(st: Store, stockKey: string, usersKey: string, userId: int, quantity: int)
    requires NoEmptySet(st, usersKey)
    requires Succeeded(SimpleScript(st, stockKey, usersKey, userId, quantity))
    ensures RollbackScript(SimpleScript(st, stockKey, usersKey, userId, quantity).store,
                           stockKey, usersKey, userId, quantity)
            == Step(RInt(st.counters[stockKey]), st)
  {
    var bought := SimpleScript(st, stockKey, usersKey, userId, quantity).store;
    var back := RollbackScript(bought, stockKey, usersKey, userId, quantity);
    assert back.store.counters == st.counters;
    assert back.store.sets == st.sets;
  }

  /** The batch membership script: one 0/1 entry per user id, in order. */
  method BatchCheckScript(st: Store, usersKey: string, userIds: seq<int>) returns (r: Reply)
    ensures r.RArray? && |r.items| == |userIds|
    ensures forall i :: 0 <= i < |userIds| ==>
      r.items[i] == RInt(if IsMember(st, usersKey, userIds[i]) then 1 else 0)
  {
    var result: seq<Reply> := [];
    var i := 0;
    while i < |userIds|
      invariant 0 <= i <= |userIds|
      invariant |result| == i
      invariant forall j :: 0 <= j < i ==>
        result[j] == RInt(if IsMember(st, usersKey, userIds[j]) then 1 else 0)
    {
      result := result + [RInt(if IsMember(st, usersKey, userIds[i]) then 1 else 0)];
      i := i + 1;
    }
    r := RArray(result);
  }

  /** The stats script's three values: stock (0 when missing), buyer count,
      and the activity document (`None` where the script returns ""). */
  datatype StatsReply = StatsReply(stock: int, userCount: nat, activity: Option<ActivityInfo>)

  function StatsScript(st: Store, stockKey: string, usersKey: string, activityKey: string): (r: StatsReply)
    ensures stockKey !in st.counters ==> r.stock == 0
    ensures stockKey in st.counters ==> r.stock == st.counters[stockKey]
    ensures r.userCount == |Members(st, usersKey)|
    ensures r.activity.Some? <==> activityKey in st.activities
    ensures r.activity.Some? ==> r.activity.value == st.activities[activityKey]
  {
    StatsReply(CounterOrZero(st, stockKey), Cardinality(st, usersKey),
               if activityKey in st.activities then Some(st.activities[activityKey]) else None)
  }

  /** A successful purchase shows up in the stats as exactly `quantity` less
      stock and one more buyer. */
  lemma PurchaseVisibleInStats(st: Store, stockKey: string, usersKey: string, activityKey: string,
                               userId: int, quantity: int)
    requires stockKey != usersKey
    requires Succeeded(SimpleScript(st, stockKey, usersKey, userId, quantity))
    ensures var before := StatsScript(st, stockKey, usersKey, activityKey);
            var after := StatsScript(SimpleScript(st, stockKey, usersKey, userId, quantity).store,
                                     stockKey, usersKey, activityKey);
            after.stock == before.stock - quantity && after.userCount == before.userCount + 1
            && after.activity == before.activity
  {
    var after := SimpleScript(st, stockKey, usersKey, userId, quantity).store;
    assert Members(after, usersKey) == Members(st, usersKey) + {userId};
  }

  // ---------------------------------------------------------------------------
  // Many purchases against one product.

  datatype Attempt = Attempt(userId: int, quantity: int)

  /** The final store after running the simple script for each attempt in
      order, and the attempts that succeeded. */
  datatype Run = Run(store: Store, wins: seq<Attempt>)

  function RunSimple(st: Store, stockKey: string, usersKey: string, attempts: seq<Attempt>): Run
    decreases |attempts|
  {
    if |attempts| == 0 then Run(st, [])
    else
      var first := SimpleScript(st, stockKey, usersKey, attempts[0].userId, attempts[0].quantity);
      var rest := RunSimple(first.store, stockKey, usersKey, attempts[1..]);
      Run(rest.store, (if Succeeded(first) then [attempts[0]] else []) + rest.wins)
  }

  function TotalQuantity(wins: seq<Attempt>): int {
    if |wins| == 0 then 0 else wins[0].quantity + TotalQuantity(wins[1..])
  }

  function Buyers(wins: seq<Attempt>): set<int> {
    set i | 0 <= i < |wins| :: wins[i].userId
  }

  predicate DistinctBuyers(wins: seq<Attempt>) {
    forall i, j :: 0 <= i < j < |wins| ==> wins[i].userId != wins[j].userId
  }

  /** No oversell and one purchase per user: over any sequence of attempts the
      stock never goes negative, the stock sold equals the quantities of the
      winning attempts, and every winner is a new, distinct buyer. */
  lemma {:induction false} NoOversell(st: Store, stockKey: string, usersKey: string, attempts: seq<Attempt>)
    requires stockKey != usersKey
    requires stockKey in st.counters && st.counters[stockKey] >= 0
    ensures var run := RunSimple(st, stockKey, usersKey, attempts);
            stockKey in run.store.counters
            && 0 <= run.store.counters[stockKey]
            && run.store.counters[stockKey] + TotalQuantity(run.wins) == st.counters[stockKey]
            && TotalQuantity(run.wins) <= st.counters[stockKey]
            && Members(run.store, usersKey) == Members(st, usersKey) + Buyers(run.wins)
            && Buyers(run.wins) !! Members(st, usersKey)
            && DistinctBuyers(run.wins)
            && forall i :: 0 <= i < |run.wins| ==> run.wins[i].quantity > 0
    decreases |attempts|
  {
    if |attempts| > 0 {
      var a := attempts[0];
      var first := SimpleScript(st, stockKey, usersKey, a.userId, a.quantity);
      NoOversell(first.store, stockKey, usersKey, attempts[1..]);
      var rest := RunSimple(first.store, stockKey, usersKey, attempts[1..]);
      var run := RunSimple(st, stockKey, usersKey, attempts);
      if Succeeded(first) {
        assert run.wins == [a] + rest.wins;
        assert run.wins[1..] == rest.wins;
        assert Members(first.store, usersKey) == Members(st, usersKey) + {a.userId};
        assert Buyers(run.wins) == {a.userId} + Buyers(rest.wins) by {
          forall x | x in Buyers(run.wins) ensures x in {a.userId} + Buyers(rest.wins) {
            var i :| 0 <= i < |run.wins| && run.wins[i].userId == x;
            if i > 0 { assert rest.wins[i - 1].userId == x; }
          }
          forall x | x in Buyers(rest.wins) ensures x in Buyers(run.wins) {
            var i :| 0 <= i < |rest.wins| && rest.wins[i].userId == x;
            assert run.wins[i + 1].userId == x;
          }
          assert run.wins[0].userId == a.userId;
        }
        forall i, j | 0 <= i < j < |run.wins| ensures run.wins[i].userId != run.wins[j].userId {
          if i == 0 {
            assert run.wins[j] == rest.wins[j - 1];
            assert run.wins[j].userId in Buyers(rest.wins);
          }
        }
      } else {
        assert run.wins == rest.wins;
      }
    }
  }
}

=== FILE: order_consumer.dfy ===
/** The order service's message consumers. A delivery's `message_type`
    picks the handler; RabbitMQ then acknowledges, drops or requeues the
    delivery, while Kafka only logs. Only order events reach the order
    service's state: the stock-update and notification handlers do nothing
    and succeed. */
module OrderConsumer {
  import opened Common
  import opened OrderModel
  import OrderService

  const SeckillOrderType: string := "seckill_order"
  const StockUpdateType: string := "stock_update"
  const UserNotifyType: string := "user_notify"

  /** A delivery as far as the consumer looks at it: the outcome of decoding
      the body into the struct holding only `message_type`, whether the body
      decodes as that type's payload, and the order event it carries when it
      is one. The type is `None` exactly when that first decode errs: the body
      is not valid JSON, its top-level value is neither an object nor `null`,
      or `message_type` is present with a value that is neither a string nor
      `null`. A missing or `null` type decodes as `Some("")`, an unknown type. */
  datatype Delivery = Delivery(messageType: Option<string>, payloadDecodes: bool, order: SeckillOrderMessage)

  datatype Ack = Acked | Dropped | Requeued

  predicate KnownType(t: string) {
    t == SeckillOrderType || t == StockUpdateType || t == UserNotifyType
  }

  /** The handler's verdict on a delivery of a known type. */
  function Dispatch(svc: OrderService.Service, d: Delivery, now: int, f: OrderService.CreateFaults, recordFails: bool)
    : (r: (bool, OrderService.Service))
    requires d.messageType.Some? && KnownType(d.messageType.value)
    ensures d.messageType.value != SeckillOrderType ==> r == (d.payloadDecodes, svc)
    ensures !d.payloadDecodes ==> r == (false, svc)
    ensures d.messageType.value == SeckillOrderType && d.payloadDecodes ==>
      r.0 == (OrderService.HandleSeckillOrder(svc, d.order, now, f, recordFails).0 == Pass)
  {
    if !d.payloadDecodes then (false, svc)
    else if d.messageType.value == SeckillOrderType then
      var (o, svc') := OrderService.HandleSeckillOrder(svc, d.order, now, f, recordFails);
      (o == Pass, svc')
    else (true, svc)
  }

  /** RabbitMQ's `handleMessage`: an unreadable type is dropped, an unknown
      type acknowledged, a failure requeued, a success acknowledged. */
  function RabbitHandle(svc: OrderService.Service, d: Delivery, now: int, f: OrderService.CreateFaults, recordFails: bool)
    : (r: (Ack, OrderService.Service))
    ensures r.0 == Dropped <==> d.messageType.None?
    ensures d.messageType.Some? && !KnownType(d.messageType.value) ==> r == (Acked, svc)
    ensures d.messageType.Some? && KnownType(d.messageType.value) ==>
      (r.0 == Acked <==> Dispatch(svc, d, now, f, recordFails).0)
    ensures d.messageType.Some? && KnownType(d.messageType.value) && !d.payloadDecodes ==> r == (Requeued, svc)
    ensures r.0 != Acked || d.messageType.None? || !KnownType(d.messageType.value) || d.payloadDecodes
    ensures WellFormed(svc.db) ==> WellFormed(r.1.db)
  {
    match d.messageType
    case None => (Dropped, svc)
    case Some(t) =>
      if !KnownType(t) then (Acked, svc)
      else
        var (ok, svc') := Dispatch(svc, d, now, f, recordFails);
        (if ok then Acked else Requeued, svc')
  }

  /** Kafka's `handleMessage`: the same dispatch, with every outcome only
      logged, so a failed event is never retried by the consumer. */
  function KafkaHandle(svc: OrderService.Service, d: Delivery, now: int, f: OrderService.CreateFaults, recordFails: bool)
    : (r: OrderService.Service)
    ensures d.messageType.None? || !KnownType(d.messageType.value) ==> r == svc
    ensures r == RabbitHandle(svc, d, now, f, recordFails).1
  {
    match d.messageType
    case None => svc
    case Some(t) => if !KnownType(t) then svc else Dispatch(svc, d, now, f, recordFails).1
  }

  /** A delivery and the conditions it meets when it arrives. */
  datatype Arrival = Arrival(d: Delivery, now: int, faults: OrderService.CreateFaults, recordFails: bool)

  /** The RabbitMQ consumer over a sequence of (re)deliveries. */
  function Consume(svc: OrderService.Service, arrivals: seq<Arrival>): (r: OrderService.Service)
    decreases |arrivals|
  {
    if |arrivals| == 0 then svc
    else
      var a := arrivals[0];
      Consume(RabbitHandle(svc, a.d, a.now, a.faults, a.recordFails).1, arrivals[1..])
  }

  /** However many times events are delivered and redelivered, a buyer never
      gets two orders for one product. */
  lemma {:induction false} ConsumeKeepsOneOrder(svc: OrderService.Service, arrivals: seq<Arrival>)
    requires WellFormed(svc.db)
    ensures WellFormed(Consume(svc, arrivals).db)
    ensures forall i, j :: 0 <= i < j < |Consume(svc, arrivals).db.orders| ==>
      var os := Consume(svc, arrivals).db.orders;
      os[i].userId != os[j].userId || os[i].productId != os[j].productId
    decreases |arrivals|
  {
    if |arrivals| > 0 {
      var a := arrivals[0];
      ConsumeKeepsOneOrder(RabbitHandle(svc, a.d, a.now, a.faults, a.recordFails).1, arrivals[1..]);
    }
    var db := Consume(svc, arrivals).db;
    forall i, j | 0 <= i < j < |db.orders|
      ensures db.orders[i].userId != db.orders[j].userId || db.orders[i].productId != db.orders[j].productId
    {
      if db.orders[i].userId == db.orders[j].userId && db.orders[i].productId == db.orders[j].productId {
        OneOrderPerBuyer(db, i, j);
      }
    }
  }

  /** An acknowledged order event, redelivered, is acknowledged again
      without a new order (the idempotency row answers it). */
  lemma AckedEventRedelivered(svc: OrderService.Service, d: Delivery, now: int, now2: int,
                              f: OrderService.CreateFaults, recordFails: bool,
                              f2: OrderService.CreateFaults, recordFails2: bool)
    requires d.messageType == Some(SeckillOrderType)
    requires RabbitHandle(svc, d, now, f, recordFails).0 == Acked
    requires !f2.idempotencyQueryFails
    ensures var svc1 := RabbitHandle(svc, d, now, f, recordFails).1;
            var (ack2, svc2) := RabbitHandle(svc1, d, now2, f2, recordFails2);
            ack2 == Acked && svc2.db.orders == svc1.db.orders
  {
    OrderService.RedeliveryAddsNoOrder(svc, d.order, now, now2, f, recordFails, f2, recordFails2);
  }

  /** An order event that fails validation is requeued every time, and each
      delivery records one more failure: the event never leaves the queue. */
  lemma InvalidEventRequeuedForever(svc: OrderService.Service, d: Delivery, now: int, f: OrderService.CreateFaults)
    requires d.messageType == Some(SeckillOrderType) && d.payloadDecodes
    requires OrderService.ValidateOrderRequest(OrderService.RequestFor(d.order)).Fail?
    ensures var (ack, svc') := RabbitHandle(svc, d, now, f, false);
            ack == Requeued && svc'.db.nextFailureId == svc.db.nextFailureId + 1
            && svc'.db.orders == svc.db.orders
  {
  }
}

=== FILE: order_model.dfy ===
/** The order service's tables: orders, order items, failure records kept for
    compensation, and the idempotency rows that stop a buyer ordering the
    same product twice. Only rows that are not soft-deleted are modelled.
    Prices are whole cents. */
module OrderModel {
  import opened Common

  const OrderPending: string := "pending"
  const OrderPaid: string := "paid"
  const OrderCancelled: string := "cancelled"
  const OrderExpired: string := "expired"
  const OrderRefunded: string := "refunded"

  const TypeSeckill: string := "seckill"
  const TypeNormal: string := "normal"

  const FailureInventoryLock: string := "inventory_lock"
  const FailurePayment: string := "payment"
  const FailureOrderCreation: string := "order_creation"

  const RecordPending: string := "pending"
  const RecordProcessing: string := "processing"
  const RecordFailed: string := "failed"
  const RecordSuccess: string := "success"
  /** Written by the compensation sweep, outside the documented domain. */
  const RecordExpired: string := "expired"

  const DefaultMaxRetries: int := 3

  predicate RecordStatus(s: string) {
    s == RecordPending || s == RecordProcessing || s == RecordFailed || s == RecordSuccess || s == RecordExpired
  }

  /** The order event published after a successful purchase. */
  datatype SeckillOrderMessage = SeckillOrderMessage(
    orderId: string, productId: int, userId: int, quantity: int, priceCents: int, traceId: string)

  datatype Order = Order(
    orderId: string, userId: int, productId: int, productName: string, quantity: int,
    priceCents: int, totalCents: int, status: string, orderType: string, traceId: string, expiredAt: int)

  datatype OrderItem = OrderItem(
    orderId: string, productId: int, productName: string, quantity: int, priceCents: int, totalCents: int)

  /** A failure kept for compensation. `message` is the stored event, or
      `None` when the stored text does not decode. */
  datatype OrderFailure = OrderFailure(
    orderId: string, userId: int, productId: int, failureType: string,
    message: Option<SeckillOrderMessage>, errorMsg: string,
    retryCount: int, maxRetries: int, nextRetryAt: int, status: string, createdAt: int)

  datatype Idempotency = Idempotency(userId: int, productId: int, orderId: string, traceId: string, status: string)

  /** The columns of the orders table, taken to be those the order
      service's `Database.AutoMigrate` would create: one per field of the order struct (the
      associations are not columns). The order service itself never calls
      `AutoMigrate` and its source carries no SQL schema, so this is the
      premise the two column findings rest on. */
  const OrderColumns: set<string> := {
    "id", "order_id", "user_id", "product_id", "product_name", "quantity", "price", "total_amount",
    "status", "order_type", "trace_id", "created_at", "updated_at", "deleted_at", "expired_at",
    "paid_at", "cancelled_at"}

  /** The columns of the failure-record table, on the same premise as
      `OrderColumns`. */
  const FailureColumns: set<string> := {
    "id", "order_id", "user_id", "product_id", "failure_type", "message_data", "error_msg",
    "retry_count", "max_retries", "next_retry_at", "status", "created_at", "updated_at", "deleted_at"}

  /** An `Updates` with a map writes every key as a column, known or not, so
      the statement fails in the database unless every key is a column. */
  predicate UpdateApplies(columns: set<string>, keys: set<string>) {
    keys <= columns
  }

  /** The database. Failure records are keyed by their auto-increment id. */
  datatype Db = Db(
    orders: seq<Order>, items: seq<OrderItem>, idempotency: seq<Idempotency>,
    failures: map<nat, OrderFailure>, nextFailureId: nat)

  const EmptyDb := Db([], [], [], map[], 1)

  /** The unique index on `order_id`. */
  predicate UniqueOrderIds(orders: seq<Order>) {
    forall i, j :: 0 <= i < j < |orders| ==> orders[i].orderId != orders[j].orderId
  }

  /** The unique index on `(user_id, product_id)` of the idempotency table. */
  predicate UniqueBuyerProduct(rows: seq<Idempotency>) {
    forall i, j :: 0 <= i < j < |rows| ==>
      (rows[i].userId, rows[i].productId) != (rows[j].userId, rows[j].productId)
  }

  /** Orders and idempotency rows are written together, row for row. */
  predicate Paired(db: Db) {
    && |db.orders| == |db.idempotency|
    && forall i :: 0 <= i < |db.orders| ==>
         db.orders[i].orderId == db.idempotency[i].orderId
         && db.orders[i].userId == db.idempotency[i].userId
         && db.orders[i].productId == db.idempotency[i].productId
  }

  predicate WellFormed(db: Db) {
    && UniqueOrderIds(db.orders)
    && UniqueBuyerProduct(db.idempotency)
    && Paired(db)
    && (forall id :: id in db.failures ==> id < db.nextFailureId)
  }

  /** In a well-formed database a buyer has at most one order per product. */
  lemma OneOrderPerBuyer(db: Db, i: int, j: int)
    requires WellFormed(db)
    requires 0 <= i < |db.orders| && 0 <= j < |db.orders|
    requires db.orders[i].userId == db.orders[j].userId && db.orders[i].productId == db.orders[j].productId
    ensures i == j
  {
  }

  /** The create-order request body as the HTTP binding accepts it: every
      `required` field must differ from its zero value, quantity is at least
      one, and the price is at least zero (so, being required, positive). */
  datatype CreateOrderRequest = CreateOrderRequest(
    orderId: string, userId: int, productId: int, productName: string, quantity: int,
    priceCents: int, orderType: string, traceId: string)

  predicate BindingAccepts(r: CreateOrderRequest) {
    && r.orderId != "" && r.userId != 0 && r.productId != 0 && r.productName != ""
    && r.quantity != 0 && r.quantity >= 1
    && r.priceCents != 0 && r.priceCents >= 0
    && r.orderType != ""
  }

  /** A zero price never binds: `required` refuses the zero value before
      `min=0` is consulted. */
  lemma ZeroPriceNeverBinds(r: CreateOrderRequest)
    requires r.priceCents == 0
    ensures !BindingAccepts(r)
  {
  }

  /** The insert-time column defaults: a zero retry limit is replaced by the
      column default of three (a zero retry count already is its default). */
  function WithDefaults(f: OrderFailure): (r: OrderFailure)
    ensures r.maxRetries == (if f.maxRetries == 0 then DefaultMaxRetries else f.maxRetries)
    ensures r.maxRetries != 0
    ensures r == f.(maxRetries := r.maxRetries)
  {
    if f.maxRetries == 0 then f.(maxRetries := DefaultMaxRetries) else f
  }

  /** Inserts a failure record under the next id. */
  function InsertFailure(db: Db, f: OrderFailure): (r: Db)
    ensures r.failures == db.failures[db.nextFailureId := WithDefaults(f)]
    ensures r.nextFailureId == db.nextFailureId + 1
    ensures r.orders == db.orders && r.items == db.items && r.idempotency == db.idempotency
    ensures WellFormed(db) ==> WellFormed(r)
    ensures db.nextFailureId !in db.failures ==> |r.failures| == |db.failures| + 1
  {
    db.(failures := db.failures[db.nextFailureId := WithDefaults(f)], nextFailureId := db.nextFailureId + 1)
  }
}

=== FILE: order_service.dfy ===
/** The order service: it validates a create request, creates the order, its
    item and its idempotency row in one transaction keyed on (user, product),
    turns order events into orders, records failures for compensation, and
    cancels and retries orders. Database faults are boolean parameters; the
    clock is `now`. */
module OrderService {
  import opened Common
  import opened OrderModel
  import Decimal
  import Backoff

  datatype CreateError = InvalidRequest(reason: string) | DuplicateOrder | StoreFailure(stage: string)

  /** Which statement of the create transaction fails, if any. */
  datatype CreateFaults = CreateFaults(
    idempotencyQueryFails: bool, orderInsertFails: bool, itemInsertFails: bool,
    idempotencyInsertFails: bool, commitFails: bool)

  const NoFaults := CreateFaults(false, false, false, false, false)

  datatype Stats = Stats(total: nat, successes: nat, failures: nat, duplicates: nat, compensationTasks: nat)

  /** `orderTimeout` and the retry intervals are nanoseconds. */
  datatype Config = Config(orderTimeout: int, retry: Backoff.RetryConfig, maxAttempts: int)

  datatype Service = Service(db: Db, stats: Stats, cfg: Config)

  /** The request checks, in the order the service makes them; the first
      that fails gives the message. */
  function ValidateOrderRequest(r: CreateOrderRequest): (o: Outcome<string>)
    ensures o == Pass <==>
      r.orderId != "" && r.userId > 0 && r.productId > 0 && r.quantity > 0 && r.priceCents >= 0 && r.orderType != ""
    ensures r.orderId == "" ==> o == Fail("order_id is required")
    ensures r.orderId != "" && r.userId <= 0 ==> o == Fail("user_id must be positive")
    ensures r.orderId != "" && r.userId > 0 && r.productId <= 0 ==> o == Fail("product_id must be positive")
    ensures r.orderId != "" && r.userId > 0 && r.productId > 0 && r.quantity <= 0 ==>
      o == Fail("quantity must be positive")
    ensures r.orderId != "" && r.userId > 0 && r.productId > 0 && r.quantity > 0 && r.priceCents < 0 ==>
      o == Fail("price cannot be negative")
    ensures (r.orderId != "" && r.userId > 0 && r.productId > 0 && r.quantity > 0 && r.priceCents >= 0
             && r.orderType == "") ==> o == Fail("order_type is required")
  {
    if r.orderId == "" then Fail("order_id is required")
    else if r.userId <= 0 then Fail("user_id must be positive")
    else if r.productId <= 0 then Fail("product_id must be positive")
    else if r.quantity <= 0 then Fail("quantity must be positive")
    else if r.priceCents < 0 then Fail("price cannot be negative")
    else if r.orderType == "" then Fail("order_type is required")
    else Pass
  }

  /** A request the HTTP binding accepts with positive ids also passes the
      service's own checks; the service additionally admits a zero price. */
  lemma BoundRequestValidates(r: CreateOrderRequest)
    requires BindingAccepts(r) && r.userId > 0 && r.productId > 0
    ensures ValidateOrderRequest(r) == Pass
  {
  }

  predicate HasBuyerRow(rows: seq<Idempotency>, userId: int, productId: int) {
    exists i :: 0 <= i < |rows| && rows[i].userId == userId && rows[i].productId == productId
  }

  predicate OrderIdTaken(orders: seq<Order>, orderId: string) {
    exists i :: 0 <= i < |orders| && orders[i].orderId == orderId
  }

  /** The idempotency check inside the transaction: an existing row for the
      buyer and product is a duplicate; a failing query is an error. */
  function CheckIdempotency(db: Db, r: CreateOrderRequest, queryFails: bool): (o: Outcome<CreateError>)
    ensures o == Pass <==> !queryFails && !HasBuyerRow(db.idempotency, r.userId, r.productId)
    ensures o == Fail(DuplicateOrder) <==> !queryFails && HasBuyerRow(db.idempotency, r.userId, r.productId)
  {
    if queryFails then Fail(StoreFailure("check idempotency"))
    else if HasBuyerRow(db.idempotency, r.userId, r.productId) then Fail(DuplicateOrder)
    else Pass
  }

  /** The three rows a successful creation writes. */
  function NewOrder(r: CreateOrderRequest, now: int, orderTimeout: int): Order {
    Order(r.orderId, r.userId, r.productId, r.productName, r.quantity, r.priceCents,
          r.priceCents * r.quantity, OrderPending, r.orderType, r.traceId, now + orderTimeout)
  }

  function NewItem(r: CreateOrderRequest): OrderItem {
    OrderItem(r.orderId, r.productId, r.productName, r.quantity, r.priceCents, r.priceCents * r.quantity)
  }

  function NewIdempotency(r: CreateOrderRequest): Idempotency {
    Idempotency(r.userId, r.productId, r.orderId, r.traceId, OrderPending)
  }

  /** Every way the transaction can commit. */
  predicate CreateSucceeds(db: Db, r: CreateOrderRequest, f: CreateFaults) {
    && ValidateOrderRequest(r) == Pass
    && !f.idempotencyQueryFails
    && !HasBuyerRow(db.idempotency, r.userId, r.productId)
    && !f.orderInsertFails && !OrderIdTaken(db.orders, r.orderId)
    && !f.itemInsertFails && !f.idempotencyInsertFails && !f.commitFails
  }

  /** `CreateOrder`: all three rows or none. The unique index on `order_id`
      makes the order insert fail when the id is taken. */
  function CreateOrder(db: Db, r: CreateOrderRequest, now: int, orderTimeout: int, f: CreateFaults)
    : (res: (Result<Order, CreateError>, Db))
    ensures res.0.Ok? <==> CreateSucceeds(db, r, f)
    ensures res.0.Ok? ==>
      && res.0.value.status == OrderPending
      && res.0.value.totalCents == r.priceCents * r.quantity
      && res.0.value.expiredAt == now + orderTimeout
      && res.1 == db.(orders := db.orders + [res.0.value], items := db.items + [NewItem(r)],
                      idempotency := db.idempotency + [NewIdempotency(r)])
    ensures res.0.Err? ==> res.1 == db
    ensures res.0 == Err(DuplicateOrder) <==>
      ValidateOrderRequest(r) == Pass && !f.idempotencyQueryFails && HasBuyerRow(db.idempotency, r.userId, r.productId)
    ensures WellFormed(db) ==> WellFormed(res.1)
  {
    var v := ValidateOrderRequest(r);
    if v.Fail? then (Err(InvalidRequest(v.error)), db)
    else
      var check := CheckIdempotency(db, r, f.idempotencyQueryFails);
      if check.Fail? then (Err(check.error), db)
      else if f.orderInsertFails || OrderIdTaken(db.orders, r.orderId) then (Err(StoreFailure("create order")), db)
      else if f.itemInsertFails then (Err(StoreFailure("create order item")), db)
      else if f.idempotencyInsertFails then (Err(StoreFailure("create idempotency record")), db)
      else if f.commitFails then (Err(StoreFailure("commit transaction")), db)
      else
        var o := NewOrder(r, now, orderTimeout);
        var db' := db.(orders := db.orders + [o], items := db.items + [NewItem(r)],
                       idempotency := db.idempotency + [NewIdempotency(r)]);
        AppendKeepsWellFormed(db, r, o);
        (Ok(o), db')
  }

  lemma AppendKeepsWellFormed(db: Db, r: CreateOrderRequest, o: Order)
    requires !HasBuyerRow(db.idempotency, r.userId, r.productId) && !OrderIdTaken(db.orders, r.orderId)
    requires o.orderId == r.orderId && o.userId == r.userId && o.productId == r.productId
    ensures WellFormed(db) ==>
      WellFormed(db.(orders := db.orders + [o], items := db.items + [NewItem(r)],
                     idempotency := db.idempotency + [NewIdempotency(r)]))
  {
    if WellFormed(db) {
      var db' := db.(orders := db.orders + [o], items := db.items + [NewItem(r)],
                     idempotency := db.idempotency + [NewIdempotency(r)]);
      forall i, j | 0 <= i < j < |db'.orders|
        ensures db'.orders[i].orderId != db'.orders[j].orderId
      {
        if j == |db.orders| {
          assert db'.orders[i] == db.orders[i];
        } else {
          assert db'.orders[i] == db.orders[i] && db'.orders[j] == db.orders[j];
        }
      }
      forall i, j | 0 <= i < j < |db'.idempotency|
        ensures (db'.idempotency[i].userId, db'.idempotency[i].productId)
             != (db'.idempotency[j].userId, db'.idempotency[j].productId)
      {
        if j == |db.idempotency| {
          assert db'.idempotency[i] == db.idempotency[i];
        } else {
          assert db'.idempotency[i] == db.idempotency[i] && db'.idempotency[j] == db.idempotency[j];
        }
      }
    }
  }

  /** The request an order event becomes; the product name is a placeholder
      built from the product id. */
  function RequestFor(m: SeckillOrderMessage): (r: CreateOrderRequest)
    ensures r.orderId == m.orderId && r.userId == m.userId && r.productId == m.productId
    ensures r.orderType == TypeSeckill && r.quantity == m.quantity && r.priceCents == m.priceCents
  {
    CreateOrderRequest(m.orderId, m.userId, m.productId, "Product-" + Decimal.IntToString(m.productId),
                       m.quantity, m.priceCents, TypeSeckill, m.traceId)
  }

  /** The text stored as a failure's error message. */
  function ErrorText(e: CreateError): string {
    match e
    case InvalidRequest(reason) => "invalid order request: " + reason
    case DuplicateOrder => "duplicate order"
    case StoreFailure(stage) => "failed to " + stage
  }

  /** `recordOrderFailure`: a pending record with no failure type, retry count
      zero, the configured retry limit and the first back-off from now. */
  function RecordOrderFailure(db: Db, m: SeckillOrderMessage, e: CreateError, now: int, cfg: Config, insertFails: bool)
    : (res: (bool, Db))
    ensures !res.0 ==> res.1 == db
    ensures res.0 ==>
      && res.1.nextFailureId == db.nextFailureId + 1
      && db.nextFailureId in res.1.failures
      && var f := res.1.failures[db.nextFailureId];
         && f.status == RecordPending && f.retryCount == 0 && f.failureType == ""
         && f.message == Some(m) && f.orderId == m.orderId
         && f.nextRetryAt == now + cfg.retry.initial && f.createdAt == now
         && f.maxRetries == (if cfg.maxAttempts == 0 then DefaultMaxRetries else cfg.maxAttempts)
    ensures res.0 ==> res.1.orders == db.orders && res.1.idempotency == db.idempotency
    ensures res.0 && WellFormed(db) ==>
      forall id :: id in db.failures ==> id in res.1.failures && res.1.failures[id] == db.failures[id]
    ensures res.0 == !insertFails
    ensures WellFormed(db) ==> WellFormed(res.1)
  {
    if insertFails then (false, db)
    else
      var f := OrderFailure(m.orderId, m.userId, m.productId, "", Some(m), ErrorText(e), 0, cfg.maxAttempts,
                            now + Backoff.Interval(cfg.retry, 0), RecordPending, now);
      (true, InsertFailure(db, f))
  }

  /** Every event handled is counted exactly once as a success, a failure or a duplicate. */
  predicate StatsBalanced(s: Stats) {
    s.total == s.successes + s.failures + s.duplicates
  }

  /** `HandleSeckillOrder`: a duplicate is not an error; any other failure is
      counted and recorded for compensation before it is returned. */
  function HandleSeckillOrder(s: Service, m: SeckillOrderMessage, now: int, f: CreateFaults, recordFails: bool)
    : (res: (Outcome<CreateError>, Service))
    ensures res.0 == Pass <==>
      CreateSucceeds(s.db, RequestFor(m), f)
      || (ValidateOrderRequest(RequestFor(m)) == Pass && !f.idempotencyQueryFails
          && HasBuyerRow(s.db.idempotency, m.userId, m.productId))
    ensures res.1.stats.total == s.stats.total + 1
    ensures StatsBalanced(s.stats) ==> StatsBalanced(res.1.stats)
    ensures res.1.cfg == s.cfg
    ensures res.0.Fail? ==>
      && res.1.db.orders == s.db.orders && res.1.db.idempotency == s.db.idempotency
      && res.1.stats.failures == s.stats.failures + 1
      && res.1.stats.compensationTasks == s.stats.compensationTasks + (if recordFails then 0 else 1)
      && (!recordFails ==>
            && res.1.db.nextFailureId == s.db.nextFailureId + 1
            && s.db.nextFailureId in res.1.db.failures
            && res.1.db.failures[s.db.nextFailureId].status == RecordPending)
    ensures WellFormed(s.db) ==> WellFormed(res.1.db)
  {
    var st := s.stats.(total := s.stats.total + 1);
    var (created, db') := CreateOrder(s.db, RequestFor(m), now, s.cfg.orderTimeout, f);
    match created
    case Ok(_) => (Pass, s.(db := db', stats := st.(successes := st.successes + 1)))
    case Err(e) =>
      if e == DuplicateOrder then (Pass, s.(stats := st.(duplicates := st.duplicates + 1)))
      else
        var (recorded, db'') := RecordOrderFailure(s.db, m, e, now, s.cfg, recordFails);
        var st' := st.(failures := st.failures + 1,
                       compensationTasks := st.compensationTasks + (if recorded then 1 else 0));
        (Fail(e), s.(db := db'', stats := st'))
  }

  /** Redelivering an event that was handled successfully is harmless: the
      second delivery also succeeds and adds no order. */
  lemma {:induction false} RedeliveryAddsNoOrder(s: Service, m: SeckillOrderMessage, now: int, now2: int,
                                                 f: CreateFaults, recordFails: bool, f2: CreateFaults, recordFails2: bool)
    requires HandleSeckillOrder(s, m, now, f, recordFails).0 == Pass
    requires !f2.idempotencyQueryFails
    ensures var s1 := HandleSeckillOrder(s, m, now, f, recordFails).1;
            var (o2, s2) := HandleSeckillOrder(s1, m, now2, f2, recordFails2);
            o2 == Pass && s2.db.orders == s1.db.orders
  {
    var r := RequestFor(m);
    var s1 := HandleSeckillOrder(s, m, now, f, recordFails).1;
    assert ValidateOrderRequest(r) == Pass;
    if CreateSucceeds(s.db, r, f) {
      var k := |s.db.idempotency|;
      assert s1.db.idempotency[k] == NewIdempotency(r);
      assert HasBuyerRow(s1.db.idempotency, m.userId, m.productId);
    } else {
      assert s1.db == s.db;
    }
  }

  /** In a well-formed database, handling any sequence of events leaves at
      most one order per buyer and product. */
  lemma HandledEventsKeepOneOrder(s: Service, m: SeckillOrderMessage, now: int, f: CreateFaults, recordFails: bool,
                                  i: int, j: int)
    requires WellFormed(s.db)
    requires var d := HandleSeckillOrder(s, m, now, f, recordFails).1.db;
             0 <= i < |d.orders| && 0 <= j < |d.orders|
             && d.orders[i].userId == d.orders[j].userId && d.orders[i].productId == d.orders[j].productId
    ensures i == j
  {
    OneOrderPerBuyer(HandleSeckillOrder(s, m, now, f, recordFails).1.db, i, j);
  }

  datatype CancelError = OrderNotFound | AlreadyCancelled | CompletedOrder | CancelStoreFailure

  /** The position of the order with the given id, if any. */
  function FindOrder(orders: seq<Order>, orderId: string): (k: Option<nat>)
    ensures k.None? <==> !OrderIdTaken(orders, orderId)
    ensures k.Some? ==> k.value < |orders| && orders[k.value].orderId == orderId
  {
    if |orders| == 0 then None
    else if orders[|orders| - 1].orderId == orderId then Some(|orders| - 1)
    else
      var k := FindOrder(orders[..|orders| - 1], orderId);
      assert forall i :: 0 <= i < |orders| - 1 ==> orders[..|orders| - 1][i] == orders[i];
      k
  }

  /** The keys of the cancel's `Updates`: as written it also sets "remark",
      which is not a column of the orders table; the intended update sets
      the status and the update time only. */
  const CancelKeysAsWritten: set<string> := {"status", "remark", "updated_at"}
  const CancelKeys: set<string> := {"status", "updated_at"}

  /** Whether a cancel gets as far as its update: the order exists and is
      neither cancelled nor "completed". "completed" is not an order status,
      so every other order, paid ones included, qualifies. */
  predicate Cancellable(db: Db, orderId: string) {
    OrderIdTaken(db.orders, orderId)
    && var k := FindOrder(db.orders, orderId).value;
       db.orders[k].status != OrderCancelled && db.orders[k].status != "completed"
  }

  /** The cancel transaction with an update that sets `keys`: refuses a
      missing, cancelled or "completed" order; the status update is the only
      change, and it fails when `updateFails` or when a key is not a column. */
  function CancelWithKeys(db: Db, orderId: string, keys: set<string>, lookupFails: bool, updateFails: bool)
    : (res: (Outcome<CancelError>, Db))
    ensures res.0 == Pass <==>
      !lookupFails && !updateFails && UpdateApplies(OrderColumns, keys) && Cancellable(db, orderId)
    ensures res.0.Fail? ==> res.1 == db
    ensures res.0 == Pass ==>
      && |res.1.orders| == |db.orders|
      && res.1.items == db.items && res.1.idempotency == db.idempotency && res.1.failures == db.failures
      && (WellFormed(db) ==> forall i :: 0 <= i < |db.orders| ==>
            res.1.orders[i] == (if db.orders[i].orderId == orderId then db.orders[i].(status := OrderCancelled)
                                else db.orders[i]))
    ensures !lookupFails && !OrderIdTaken(db.orders, orderId) ==> res.0 == Fail(OrderNotFound)
    ensures res.0 == Fail(CancelStoreFailure) <==>
      lookupFails || ((updateFails || !UpdateApplies(OrderColumns, keys)) && Cancellable(db, orderId))
    ensures WellFormed(db) ==> WellFormed(res.1)
  {
    if lookupFails then (Fail(CancelStoreFailure), db)
    else match FindOrder(db.orders, orderId)
      case None => (Fail(OrderNotFound), db)
      case Some(k) =>
        if db.orders[k].status == OrderCancelled then (Fail(AlreadyCancelled), db)
        else if db.orders[k].status == "completed" then (Fail(CompletedOrder), db)
        else if updateFails || !UpdateApplies(OrderColumns, keys) then (Fail(CancelStoreFailure), db)
        else
          var db' := db.(orders := db.orders[k := db.orders[k].(status := OrderCancelled)]);
          assert WellFormed(db) ==> forall i :: 0 <= i < |db.orders| && db.orders[i].orderId == orderId ==> i == k;
          (Pass, db')
  }

  /** `CancelOrder` as written: its update names the "remark" column, which
      the orders table lacks, so no cancel ever succeeds. A cancellable
      order gets the store error (the transaction rolls back); the other
      refusals are those of the intended cancel. */
  function CancelOrder(db: Db, orderId: string, lookupFails: bool, updateFails: bool)
    : (res: (Outcome<CancelError>, Db))
    ensures res.0 != Pass && res.1 == db
    ensures res.0 == Fail(CancelStoreFailure) <==> lookupFails || Cancellable(db, orderId)
    ensures !Cancellable(db, orderId) ==> res.0 == CancelOrderNoRemark(db, orderId, lookupFails, updateFails).0
  {
    assert "remark" !in OrderColumns;
    CancelWithKeys(db, orderId, CancelKeysAsWritten, lookupFails, updateFails)
  }

  /** The cancel with the update the orders table accepts: status and
      update time. */
  function CancelOrderNoRemark(db: Db, orderId: string, lookupFails: bool, updateFails: bool)
    : (res: (Outcome<CancelError>, Db))
    ensures res.0 == Pass <==> !lookupFails && !updateFails && Cancellable(db, orderId)
    ensures res.0.Fail? ==> res.1 == db
    ensures res.0 == Pass ==>
      && |res.1.orders| == |db.orders|
      && res.1.items == db.items && res.1.idempotency == db.idempotency && res.1.failures == db.failures
      && (WellFormed(db) ==> forall i :: 0 <= i < |db.orders| ==>
            res.1.orders[i] == (if db.orders[i].orderId == orderId then db.orders[i].(status := OrderCancelled)
                                else db.orders[i]))
    ensures !lookupFails && !OrderIdTaken(db.orders, orderId) ==> res.0 == Fail(OrderNotFound)
    ensures WellFormed(db) ==> WellFormed(res.1)
  {
    assert UpdateApplies(OrderColumns, CancelKeys);
    CancelWithKeys(db, orderId, CancelKeys, lookupFails, updateFails)
  }

  /** A pending order, with both statements working: the intended cancel
      succeeds, the cancel as written reports a store error and changes
      nothing. */
  lemma PendingCancelFails(db: Db, orderId: string)
    requires OrderIdTaken(db.orders, orderId)
    requires db.orders[FindOrder(db.orders, orderId).value].status == OrderPending
    ensures CancelOrder(db, orderId, false, false) == (Fail(CancelStoreFailure), db)
    ensures CancelOrderNoRemark(db, orderId, false, false).0 == Pass
  {
  }

  /** Cancelling twice: the second attempt reports the order as already cancelled. */
  lemma CancelTwice(db: Db, orderId: string)
    requires WellFormed(db)
    requires CancelOrderNoRemark(db, orderId, false, false).0 == Pass
    ensures CancelOrderNoRemark(CancelOrderNoRemark(db, orderId, false, false).1, orderId, false, false).0
      == Fail(AlreadyCancelled)
  {
    var db1 := CancelOrderNoRemark(db, orderId, false, false).1;
    var k := FindOrder(db.orders, orderId).value;
    var k1 := FindOrder(db1.orders, orderId).value;
    assert db1.orders[k1].orderId == orderId;
    assert db1.orders[k1] == db.orders[k1].(status := OrderCancelled);
  }

  /** A paid order is cancelled like a pending one. */
  lemma PaidOrderIsCancellable(db: Db, orderId: string)
    requires OrderIdTaken(db.orders, orderId)
    requires db.orders[FindOrder(db.orders, orderId).value].status == OrderPaid
    ensures CancelOrderNoRemark(db, orderId, false, false).0 == Pass
  {
  }

  datatype RetryError = RecordNotFound | AlreadySucceeded | Undecodable | RetryLookupFailure | HandlerError(e: CreateError)

  /** The keys of the record updates after a rerun. The failed-rerun update
      as written also sets "last_error", which is not a column of the
      failure table; the intended one sets the count and the update time. */
  const RetryFailureKeysAsWritten: set<string> := {"retry_count", "last_error", "updated_at"}
  const RetryFailureKeys: set<string> := {"retry_count", "updated_at"}
  const RetrySuccessKeys: set<string> := {"status", "updated_at"}

  /** The retry with a failed-rerun update that sets `failureKeys`: reruns
      the stored event through the message path. The follow-up update of the
      record is best effort: its error is ignored, and it lands when
      `updateLands` and every key is a column. A failed rerun has also
      recorded a fresh failure of its own. */
  function RetryWithKeys(s: Service, id: nat, now: int, lookupFails: bool, f: CreateFaults, recordFails: bool,
                         failureKeys: set<string>, updateLands: bool)
    : (res: (Outcome<RetryError>, Service))
    ensures lookupFails ==> res == (Fail(RetryLookupFailure), s)
    ensures !lookupFails && id !in s.db.failures ==> res == (Fail(RecordNotFound), s)
    ensures !lookupFails && id in s.db.failures && s.db.failures[id].status == RecordSuccess ==>
      res == (Fail(AlreadySucceeded), s)
    ensures res.0 == Pass ==>
      id in s.db.failures && s.db.failures[id].message.Some?
      && id in res.1.db.failures
      && res.1.db.failures[id].status == (if updateLands then RecordSuccess else s.db.failures[id].status)
    ensures res.0.Fail? && res.0.error.HandlerError? ==>
      id in s.db.failures && id in res.1.db.failures
      && res.1.db.failures[id].retryCount == s.db.failures[id].retryCount
           + (if updateLands && UpdateApplies(FailureColumns, failureKeys) then 1 else 0)
      && res.1.db.failures[id].status == s.db.failures[id].status
    ensures WellFormed(s.db) ==> WellFormed(res.1.db)
  {
    if lookupFails then (Fail(RetryLookupFailure), s)
    else if id !in s.db.failures then (Fail(RecordNotFound), s)
    else
      var rec := s.db.failures[id];
      if rec.status == RecordSuccess then (Fail(AlreadySucceeded), s)
      else match rec.message
        case None => (Fail(Undecodable), s)
        case Some(m) =>
          var (o, s') := HandleSeckillOrder(s, m, now, f, recordFails);
          match o
          case Fail(e) =>
            var lands := updateLands && UpdateApplies(FailureColumns, failureKeys);
            var rec' := if lands then rec.(retryCount := rec.retryCount + 1) else rec;
            (Fail(HandlerError(e)), s'.(db := s'.db.(failures := s'.db.failures[id := rec'])))
          case Pass =>
            assert UpdateApplies(FailureColumns, RetrySuccessKeys);
            var rec' := if updateLands then rec.(status := RecordSuccess) else rec;
            (Pass, s'.(db := s'.db.(failures := s'.db.failures[id := rec'])))
  }

  /** `RetryFailedOrder` as written: after a failed rerun the update names
      the missing "last_error" column, so the retry count never moves; the
      success update applies as intended. */
  function RetryFailedOrder(s: Service, id: nat, now: int, lookupFails: bool, f: CreateFaults, recordFails: bool,
                            updateLands: bool)
    : (res: (Outcome<RetryError>, Service))
    ensures lookupFails ==> res == (Fail(RetryLookupFailure), s)
    ensures !lookupFails && id !in s.db.failures ==> res == (Fail(RecordNotFound), s)
    ensures !lookupFails && id in s.db.failures && s.db.failures[id].status == RecordSuccess ==>
      res == (Fail(AlreadySucceeded), s)
    ensures res.0 == Pass ==>
      id in s.db.failures && s.db.failures[id].message.Some?
      && id in res.1.db.failures
      && res.1.db.failures[id].status == (if updateLands then RecordSuccess else s.db.failures[id].status)
    ensures res.0.Fail? && res.0.error.HandlerError? ==>
      id in s.db.failures && id in res.1.db.failures
      && res.1.db.failures[id].retryCount == s.db.failures[id].retryCount
      && res.1.db.failures[id].status == s.db.failures[id].status
    ensures WellFormed(s.db) ==> WellFormed(res.1.db)
  {
    assert "last_error" !in FailureColumns;
    RetryWithKeys(s, id, now, lookupFails, f, recordFails, RetryFailureKeysAsWritten, updateLands)
  }

  /** The retry whose failed-rerun update names only existing columns: a
      failed rerun whose update lands adds one to the retry count. */
  function RetryFailedOrderNoLastError(s: Service, id: nat, now: int, lookupFails: bool, f: CreateFaults,
                                       recordFails: bool, updateLands: bool)
    : (res: (Outcome<RetryError>, Service))
    ensures lookupFails ==> res == (Fail(RetryLookupFailure), s)
    ensures !lookupFails && id !in s.db.failures ==> res == (Fail(RecordNotFound), s)
    ensures !lookupFails && id in s.db.failures && s.db.failures[id].status == RecordSuccess ==>
      res == (Fail(AlreadySucceeded), s)
    ensures res.0 == Pass ==>
      id in s.db.failures && s.db.failures[id].message.Some?
      && id in res.1.db.failures
      && res.1.db.failures[id].status == (if updateLands then RecordSuccess else s.db.failures[id].status)
    ensures res.0.Fail? && res.0.error.HandlerError? ==>
      id in s.db.failures && id in res.1.db.failures
      && res.1.db.failures[id].retryCount == s.db.failures[id].retryCount + (if updateLands then 1 else 0)
      && res.1.db.failures[id].status == s.db.failures[id].status
    ensures WellFormed(s.db) ==> WellFormed(res.1.db)
  {
    assert UpdateApplies(FailureColumns, RetryFailureKeys);
    RetryWithKeys(s, id, now, lookupFails, f, recordFails, RetryFailureKeys, updateLands)
  }

  /** The two retries differ only in the failed-rerun count: every other
      outcome and state is the same, and where the rerun fails and the
      update lands the intended retry counts one more attempt. */
  lemma RetryCountStaysPut(s: Service, id: nat, now: int, f: CreateFaults, recordFails: bool)
    ensures var (o, s1) := RetryFailedOrder(s, id, now, false, f, recordFails, true);
            var (o2, s2) := RetryFailedOrderNoLastError(s, id, now, false, f, recordFails, true);
            && o == o2
            && (o.Fail? && o.error.HandlerError? ==>
                  s2.db.failures[id].retryCount == s1.db.failures[id].retryCount + 1)
            && (!(o.Fail? && o.error.HandlerError?) ==> s1 == s2)
  {
  }

  /** A retry whose rerun fails leaves two pending traces: the original
      record, still pending, and a new record from the message path. */
  lemma FailedRetryAddsRecord(s: Service, id: nat, now: int, f: CreateFaults)
    requires WellFormed(s.db)
    requires id in s.db.failures && s.db.failures[id].status == RecordPending
    requires s.db.failures[id].message.Some?
    requires RetryFailedOrderNoLastError(s, id, now, false, f, false, true).0.Fail?
    ensures var d := RetryFailedOrderNoLastError(s, id, now, false, f, false, true).1.db;
            && |d.failures| == |s.db.failures| + 1
            && d.failures[id].status == RecordPending
            && d.failures[s.db.nextFailureId].status == RecordPending
  {
    var m := s.db.failures[id].message.value;
    var s' := HandleSeckillOrder(s, m, now, f, false).1;
    assert s.db.nextFailureId !in s.db.failures;
    assert s'.db.failures == s.db.failures[s.db.nextFailureId := s'.db.failures[s.db.nextFailureId]];
  }

  /** `ProcessFailedOrder`: the three known failure types are handled (each
      handler is a stub that succeeds); any other type, the empty one
      included, is an error. */
  function ProcessFailedOrder(f: OrderFailure): (o: Outcome<string>)
    ensures o == Pass <==>
      f.failureType in {FailureInventoryLock, FailurePayment, FailureOrderCreation}
  {
    if f.failureType == FailureInventoryLock || f.failureType == FailurePayment || f.failureType == FailureOrderCreation then Pass
    else Fail("unknown failure type: " + f.failureType)
  }

  /** Records written by the message path carry no failure type, so this
      handler never clears one. */
  lemma RecordedFailuresNeverProcess(db: Db, m: SeckillOrderMessage, e: CreateError, now: int, cfg: Config)
    ensures var (ok, db') := RecordOrderFailure(db, m, e, now, cfg, false);
            ok && ProcessFailedOrder(db'.failures[db.nextFailureId]).Fail?
  {
  }

  /** The order-list filter: a zero id or an empty string means "any". */
  datatype OrderQuery = OrderQuery(userId: int, productId: int, status: string, orderType: string, page: int, pageSize: int)

  predicate Matches(q: OrderQuery, o: Order) {
    && (q.userId > 0 ==> o.userId == q.userId)
    && (q.productId > 0 ==> o.productId == q.productId)
    && (q.status != "" ==> o.status == q.status)
    && (q.orderType != "" ==> o.orderType == q.orderType)
  }

  /** The page count: the total divided by the page size, truncated, plus one
      for a partial page. A zero page size is a division by zero, a panic. */
  function TotalPages(total: nat, pageSize: int): (p: Option<int>)
    ensures p.None? <==> pageSize == 0
    ensures pageSize > 0 ==>
      && p.Some? && p.value >= 0
      && (p.value - 1) * pageSize < total <= p.value * pageSize
      && (total == 0 ==> p.value == 0)
    ensures pageSize < 0 ==> p.Some? && p.value <= 1
  {
    if pageSize == 0 then None
    else if pageSize > 0 then
      PageBounds(total, pageSize);
      Some(if total % pageSize > 0 then total / pageSize + 1 else total / pageSize)
    else
      var size := -pageSize;
      var q := total / size;
      Some(if total % size > 0 then -q + 1 else -q)
  }

  /** Rounding up covers the total with less than one page to spare. */
  lemma PageBounds(total: nat, size: int)
    requires size > 0
    ensures var q := total / size;
            var p := if total % size > 0 then q + 1 else q;
            p >= 0 && (p - 1) * size < total <= p * size && (total == 0 ==> p == 0)
  {
    var q := total / size;
    var rem := total % size;
    assert total == q * size + rem;
    assert q >= 0;
    if rem > 0 {
      assert (q + 1) * size == q * size + size;
    } else {
      assert (q - 1) * size == q * size - size;
    }
  }

  datatype PageInfo = PageInfo(total: nat, totalPages: int)

  /** `ListOrders`' totals: the number of matching orders and its page count. */
  function ListTotals(db: Db, q: OrderQuery, countFails: bool): (r: Option<PageInfo>)
    ensures r.Some? <==> !countFails && q.pageSize != 0
    ensures r.Some? ==>
      && r.value.total == |Filter(db.orders, o => Matches(q, o))|
      && Some(r.value.totalPages) == TotalPages(r.value.total, q.pageSize)
  {
    if countFails then None
    else
      var total := |Filter(db.orders, o => Matches(q, o))|;
      match TotalPages(total, q.pageSize)
      case None => None
      case Some(p) => Some(PageInfo(total, p))
  }

  /** With no filter every order is counted. */
  lemma NoFilterCountsAll(db: Db, q: OrderQuery)
    requires q.userId <= 0 && q.productId <= 0 && q.status == "" && q.orderType == "" && q.pageSize != 0
    ensures ListTotals(db, q, false).Some? && ListTotals(db, q, false).value.total == |db.orders|
  {
    KeepAll(db.orders, o => Matches(q, o));
  }

  lemma {:induction false} KeepAll(s: seq<Order>, p: Order -> bool)
    requires forall o :: p(o)
    ensures Filter(s, p) == s
  {
    if |s| > 0 {
      KeepAll(s[..|s| - 1], p);
      assert s[..|s| - 1] + [s[|s| - 1]] == s;
    }
  }
}

=== FILE: request_queue.dfy ===
/** The bounded request queue of the flash-sale service: admission, the
    timeout check a worker makes, the statistics, and the priority list.
    Channels and goroutines are collapsed: a worker takes the head of the
    queue and processes it in one step. The queue is generic in the request
    it carries (`interface{}` in Go). Durations are nanoseconds. */
module RequestQueue {
  import opened Common

  datatype Item<R> = Item(id: string, request: R, timestamp: int, timeout: int)

  datatype QueueError = QueueClosed | QueueFull | ContextDone | Timeout | ProcessorError

  datatype Stats = Stats(total: int, processed: int, failed: int, timeouts: int, queued: int,
                         averageWait: int, maxWait: int)

  const NoStats := Stats(0, 0, 0, 0, 0, 0, 0)

  datatype Queue<R> = Queue(capacity: int, closed: bool, pending: seq<Item<R>>, stats: Stats)

  function NewRequestQueue<R>(capacity: int): (q: Queue<R>)
    ensures !q.closed && q.pending == [] && q.stats == NoStats && q.capacity == capacity
  {
    Queue(capacity, false, [], NoStats)
  }

  /** Whether a send on the queue's buffered channel can proceed now. */
  predicate HasRoom<R>(q: Queue<R>) {
    |q.pending| < q.capacity
  }

  /** The outcome of the `select` that enqueues an item. When the caller's
      context is already done and the queue also has room, Go picks one of
      the two ready cases at random; `preferContext` is that pick. */
  function Enqueue<R>(q: Queue<R>, item: Item<R>, contextDone: bool, preferContext: bool): (r: (Outcome<QueueError>, Queue<R>))
    ensures q.closed ==> r == (Fail(QueueClosed), q)
    ensures !q.closed && HasRoom(q) && !(contextDone && preferContext) ==>
      r.0 == Pass && r.1.pending == q.pending + [item] &&
      r.1.stats == q.stats.(total := q.stats.total + 1, queued := q.stats.queued + 1)
    ensures !q.closed && contextDone && (preferContext || !HasRoom(q)) ==> r == (Fail(ContextDone), q)
    ensures !q.closed && !HasRoom(q) && !contextDone ==>
      r.0 == Fail(QueueFull) && r.1.pending == q.pending &&
      r.1.stats == q.stats.(total := q.stats.total + 1, failed := q.stats.failed + 1)
    ensures r.1.capacity == q.capacity && r.1.closed == q.closed
  {
    if q.closed then (Fail(QueueClosed), q)
    else if contextDone && (preferContext || !HasRoom(q)) then (Fail(ContextDone), q)
    else if HasRoom(q) then
      (Pass, q.(pending := q.pending + [item], stats := q.stats.(total := q.stats.total + 1, queued := q.stats.queued + 1)))
    else
      (Fail(QueueFull), q.(stats := q.stats.(total := q.stats.total + 1, failed := q.stats.failed + 1)))
  }

  /** `Submit` and `SubmitAsync` share their admission step; what follows
      (waiting for the reply, or the callback goroutine) is not modelled. */
  function Submit<R>(q: Queue<R>, id: string, request: R, now: int, timeout: int, contextDone: bool, preferContext: bool)
    : (r: (Outcome<QueueError>, Queue<R>))
    ensures q.closed ==> r.0 == Fail(QueueClosed) && r.1.stats == q.stats
    ensures r.0.Pass? ==> r.1.pending == q.pending + [Item(id, request, now, timeout)]
  {
    Enqueue(q, Item(id, request, now, timeout), contextDone, preferContext)
  }

  function SubmitAsync<R>(q: Queue<R>, id: string, request: R, now: int, timeout: int, contextDone: bool, preferContext: bool)
    : (r: (Outcome<QueueError>, Queue<R>))
    ensures q.closed ==> r.0 == Fail(QueueClosed) && r.1.stats == q.stats
    ensures r.0.Pass? ==> r.1.pending == q.pending + [Item(id, request, now, timeout)]
  {
    Enqueue(q, Item(id, request, now, timeout), contextDone, preferContext)
  }

  datatype Completion = Processed | Failed | TimedOut

  /** Records one finished item: it leaves the queued count and enters
      exactly one of the processed, failed and timed-out counts. The average
      wait is a halving moving average once anything has been processed. */
  function UpdateStats(s: Stats, c: Completion, wait: int): (r: Stats)
    ensures r.queued == s.queued - 1 && r.total == s.total
    ensures r.processed + r.failed + r.timeouts == s.processed + s.failed + s.timeouts + 1
    ensures r.processed == s.processed + (if c == Processed then 1 else 0)
    ensures r.failed == s.failed + (if c == Failed then 1 else 0)
    ensures r.timeouts == s.timeouts + (if c == TimedOut then 1 else 0)
    ensures r.maxWait >= s.maxWait && r.maxWait >= wait && (r.maxWait == s.maxWait || r.maxWait == wait)
    ensures r.processed > 0 && s.averageWait >= 0 && wait >= 0 ==> r.averageWait <= (if s.averageWait > wait then s.averageWait else wait)
    ensures r.processed == 0 ==> r.averageWait == wait
  {
    var counted := match c
      case Processed => s.(processed := s.processed + 1)
      case TimedOut => s.(timeouts := s.timeouts + 1)
      case Failed => s.(failed := s.failed + 1);
    var maxWait := if wait > s.maxWait then wait else s.maxWait;
    var average := if counted.processed > 0 then GoDiv(s.averageWait + wait, 2) else wait;
    counted.(queued := s.queued - 1, maxWait := maxWait, averageWait := average)
  }

  /** On a fresh queue the first success averages its wait with the zero
      starting average, so the average is half the wait. */
  lemma FirstSuccessHalvesWait(wait: int)
    requires wait >= 0
    ensures UpdateStats(NoStats, Processed, wait).averageWait == wait / 2
  {
  }

  /** Before any success the average is the latest wait, so the first
      success after a failure averages with that failure's wait, not with
      zero. */
  lemma SuccessAfterFailureAverages(failedWait: int, wait: int)
    requires failedWait >= 0 && wait >= 0
    ensures UpdateStats(UpdateStats(NoStats, Failed, failedWait), Processed, wait).averageWait
            == (failedWait + wait) / 2
  {
  }

  /** An item whose timeout is positive and has passed is failed without
      calling the processor. */
  predicate Expired<R>(item: Item<R>, now: int) {
    item.timeout > 0 && now - item.timestamp > item.timeout
  }

  /** The outcome of `processItem` for an item taken at `now`; `processorOk`
      is what the processor would return. The flag reports whether the
      processor ran. */
  function ProcessItem<R>(item: Item<R>, now: int, processorOk: bool): (r: (Completion, bool))
    ensures Expired(item, now) <==> r.0 == TimedOut
    ensures r.1 <==> !Expired(item, now)
    ensures !Expired(item, now) ==> (r.0 == Processed <==> processorOk)
  {
    if Expired(item, now) then (TimedOut, false)
    else if processorOk then (Processed, true) else (Failed, true)
  }

  /** A worker takes the oldest item and records how it finished. */
  function Work<R>(q: Queue<R>, now: int, processorOk: bool): (r: (Option<Completion>, Queue<R>))
    ensures |q.pending| == 0 ==> r == (None, q)
    ensures |q.pending| > 0 ==>
      (r.1.pending == q.pending[1..] && r.0.Some? && r.0.value == ProcessItem(q.pending[0], now, processorOk).0)
  {
    if |q.pending| == 0 then (None, q)
    else
      var item := q.pending[0];
      var (c, _) := ProcessItem(item, now, processorOk);
      (Some(c), q.(pending := q.pending[1..], stats := UpdateStats(q.stats, c, now - item.timestamp)))
  }

  /** The statistics balance: every request counted in `total` is queued,
      processed, failed or timed out, and the queued count is the backlog. */
  predicate Balanced<R>(q: Queue<R>) {
    && q.stats.queued == |q.pending|
    && q.stats.total == q.stats.processed + q.stats.failed + q.stats.timeouts + q.stats.queued
  }

  lemma NewIsBalanced<R>(capacity: int)
    ensures Balanced(NewRequestQueue<R>(capacity))
  {
  }

  lemma EnqueueBalanced<R>(q: Queue<R>, item: Item<R>, contextDone: bool, preferContext: bool)
    requires Balanced(q)
    ensures Balanced(Enqueue(q, item, contextDone, preferContext).1)
  {
  }

  lemma WorkBalanced<R>(q: Queue<R>, now: int, processorOk: bool)
    requires Balanced(q)
    ensures Balanced(Work(q, now, processorOk).1)
  {
  }

  /** A queue step: a submission or a worker taking the head. */
  datatype Event<R> =
    | Arrive(item: Item<R>, contextDone: bool, preferContext: bool)
    | Serve(now: int, processorOk: bool)

  function Apply<R>(q: Queue<R>, e: Event<R>): Queue<R> {
    match e
    case Arrive(item, done, prefer) => Enqueue(q, item, done, prefer).1
    case Serve(now, ok) => Work(q, now, ok).1
  }

  function Replay<R>(q: Queue<R>, es: seq<Event<R>>): Queue<R>
    decreases |es|
  {
    if |es| == 0 then q else Replay(Apply(q, es[0]), es[1..])
  }

  /** Whatever arrives and is served, the counts keep balancing and the
      backlog never exceeds the capacity. */
  lemma {:induction false} ReplayBalanced<R>(q: Queue<R>, es: seq<Event<R>>)
    requires Balanced(q) && |q.pending| <= (if q.capacity > 0 then q.capacity else 0)
    ensures Balanced(Replay(q, es))
    ensures |Replay(q, es).pending| <= (if q.capacity > 0 then q.capacity else 0)
    decreases |es|
  {
    if |es| > 0 {
      match es[0] {
        case Arrive(item, done, prefer) => EnqueueBalanced(q, item, done, prefer);
        case Serve(now, ok) => WorkBalanced(q, now, ok);
      }
      ReplayBalanced(Apply(q, es[0]), es[1..]);
    }
  }

  // ---------------------------------------------------------------------------
  // The priority list

  datatype PriorityItem<R> = PriorityItem(item: Item<R>, priority: int)

  predicate NonIncreasing<R>(s: seq<PriorityItem<R>>) {
    forall i, j :: 0 <= i < j < |s| ==> s[i].priority >= s[j].priority
  }

  /** The first position holding a strictly lower priority, or the end. */
  function InsertionPoint<R>(s: seq<PriorityItem<R>>, p: int): (k: nat)
    ensures k <= |s|
    ensures forall j :: 0 <= j < k ==> s[j].priority >= p
    ensures k < |s| ==> s[k].priority < p
    decreases |s|
  {
    if |s| == 0 || p > s[0].priority then 0
    else
      var k := InsertionPoint(s[1..], p);
      assert forall j :: 1 <= j < |s| ==> s[j] == s[1..][j - 1];
      k + 1
  }

  /** `insertByPriority`: the scan stops at the first strictly lower priority
      and splices the item in there, else appends it. */
  method InsertByPriority<R>(s: seq<PriorityItem<R>>, x: PriorityItem<R>) returns (r: seq<PriorityItem<R>>)
    ensures |r| == |s| + 1
    ensures r == s[..InsertionPoint(s, x.priority)] + [x] + s[InsertionPoint(s, x.priority)..]
    ensures multiset(r) == multiset(s) + multiset{x}
  {
    var i := 0;
    while i < |s|
      invariant 0 <= i <= |s|
      invariant forall j :: 0 <= j < i ==> x.priority <= s[j].priority
      invariant i <= InsertionPoint(s, x.priority)
    {
      if x.priority > s[i].priority {
        r := s[..i] + [x] + s[i..];
        assert s == s[..i] + s[i..];
        return;
      }
      i := i + 1;
    }
    r := s + [x];
    assert s[..|s|] == s;
  }

  /** Splicing an item in between the higher-or-equal and the lower
      priorities keeps the list sorted. */
  lemma SpliceSorted<R>(s: seq<PriorityItem<R>>, k: nat, x: PriorityItem<R>)
    requires k <= |s| && NonIncreasing(s)
    requires forall j :: 0 <= j < k ==> s[j].priority >= x.priority
    requires forall j :: k <= j < |s| ==> s[j].priority < x.priority
    ensures NonIncreasing(s[..k] + [x] + s[k..])
  {
    var r := s[..k] + [x] + s[k..];
    assert forall m :: 0 <= m < k ==> r[m] == s[m];
    assert r[k] == x;
    assert forall m :: k < m < |r| ==> r[m] == s[m - 1];
  }

  /** Insertion keeps the list sorted by priority, highest first, and puts
      the new item after every item of equal priority (first in, first out). */
  lemma InsertKeepsOrder<R>(s: seq<PriorityItem<R>>, x: PriorityItem<R>)
    requires NonIncreasing(s)
    ensures var k := InsertionPoint(s, x.priority);
      var r := s[..k] + [x] + s[k..];
      && NonIncreasing(r)
      && (forall j :: 0 <= j < k ==> s[j].priority >= x.priority)
      && (forall j :: k <= j < |s| ==> s[j].priority < x.priority)
  {
    var k := InsertionPoint(s, x.priority);
    forall j | k <= j < |s| ensures s[j].priority < x.priority {
      assert s[j].priority <= s[k].priority;
    }
    SpliceSorted(s, k, x);
  }

  /** `getNextPriorityItem`: the head and the rest, or nothing when empty. */
  function NextPriorityItem<R>(s: seq<PriorityItem<R>>): (r: (Option<Item<R>>, seq<PriorityItem<R>>))
    ensures |s| == 0 <==> r.0.None?
    ensures |s| == 0 ==> r.1 == []
    ensures |s| > 0 ==> r.0.value == s[0].item && r.1 == s[1..] && [s[0]] + r.1 == s
  {
    if |s| == 0 then (None, []) else (Some(s[0].item), s[1..])
  }

  /** From a sorted list every item taken has a priority at least that of
      every item left behind. */
  lemma NextIsHighest<R>(s: seq<PriorityItem<R>>)
    requires NonIncreasing(s) && |s| > 0
    ensures forall j :: 0 <= j < |NextPriorityItem(s).1| ==> NextPriorityItem(s).1[j].priority <= s[0].priority
    ensures NonIncreasing(NextPriorityItem(s).1)
  {
    var rest := NextPriorityItem(s).1;
    forall j | 0 <= j < |rest| ensures rest[j].priority <= s[0].priority {
      assert rest[j] == s[j + 1];
    }
  }

  datatype PriorityQueue<R> = PriorityQueue(base: Queue<R>, items: seq<PriorityItem<R>>)

  /** `SubmitWithPriority`: a closed queue refuses; otherwise the item is
      inserted by priority and counted as queued, and the caller waits for a
      reply. No worker reads the priority list (`getNextPriorityItem` has no
      caller), so no reply ever comes: the call ends with the context error
      when the caller's context ends, and otherwise never returns (`None`). */
  method SubmitWithPriority<R>(pq: PriorityQueue<R>, id: string, request: R, now: int, timeout: int, priority: int,
                               contextEnds: bool)
    returns (r: Option<Outcome<QueueError>>, pq': PriorityQueue<R>)
    ensures pq.base.closed ==> r == Some(Fail(QueueClosed)) && pq' == pq
    ensures !pq.base.closed ==>
      (&& (r.Some? <==> contextEnds)
       && (contextEnds ==> r == Some(Fail(ContextDone)))
       && pq'.base.stats == pq.base.stats.(total := pq.base.stats.total + 1, queued := pq.base.stats.queued + 1)
       && multiset(pq'.items) == multiset(pq.items) + multiset{PriorityItem(Item(id, request, now, timeout), priority)})
    ensures r != Some(Pass)
    ensures NonIncreasing(pq.items) ==> NonIncreasing(pq'.items)
  {
    if pq.base.closed {
      return Some(Fail(QueueClosed)), pq;
    }
    var x := PriorityItem(Item(id, request, now, timeout), priority);
    var items := InsertByPriority(pq.items, x);
    if NonIncreasing(pq.items) {
      InsertKeepsOrder(pq.items, x);
    }
    var stats := pq.base.stats.(total := pq.base.stats.total + 1, queued := pq.base.stats.queued + 1);
    r := if contextEnds then Some(Fail(ContextDone)) else None;
    pq' := PriorityQueue(pq.base.(stats := stats), items);
  }
}

=== FILE: seckill_codes.dfy ===
/** The purchase result codes shared by the Lua scripts and the Go wrapper. */
module SeckillCodes {
  const Success: int := 1
  const StockNotFound: int := -1
  const InsufficientStock: int := -2
  const UserAlreadyBought: int := -3
  const ActivityNotFound: int := -4
  const ActivityNotStarted: int := -5
  const ActivityEnded: int := -6
  const InvalidQuantity: int := -7
  const SystemError: int := -8
  const SystemBusy: int := -9
  const RequestTimeout: int := -10
}

=== FILE: seckill_core.dfy ===
/** The Go wrapper around the purchase scripts: request validation, key
    derivation, result parsing and messages, rollback, batch membership,
    stats, prewarm and cleanup. A failing store call is an explicit input. */
module SeckillCore {
  import opened Common
  import opened FastStore
  import opened SeckillCodes
  import SeckillKeys
  import LuaScripts
  import Decimal

  datatype SeckillRequest = SeckillRequest(productId: int, userId: int, quantity: int)

  datatype SeckillResult = SeckillResult(
    code: int, message: string, success: bool, remainingStock: int, orderId: string)

  /** An error the store client returns (connection loss, script failure). */
  datatype StoreError = StoreError

  const UnknownMessage: string := "未知错误"

  const KnownCodes: set<int> := {Success, StockNotFound, InsufficientStock, UserAlreadyBought,
    ActivityNotFound, ActivityNotStarted, ActivityEnded, InvalidQuantity, SystemError,
    SystemBusy, RequestTimeout}

  /** The user-facing text of a result code. */
  function ResultMessage(code: int): (m: string)
    ensures code in KnownCodes <==> m != UnknownMessage
  {
    if code == Success then "秒杀成功"
    else if code == StockNotFound then "商品不存在"
    else if code == InsufficientStock then "库存不足"
    else if code == UserAlreadyBought then "您已经购买过了"
    else if code == ActivityNotFound then "活动不存在"
    else if code == ActivityNotStarted then "活动尚未开始"
    else if code == ActivityEnded then "活动已结束"
    else if code == InvalidQuantity then "购买数量无效"
    else if code == SystemError then "系统错误"
    else if code == SystemBusy then "系统繁忙，请稍后重试"
    else if code == RequestTimeout then "请求超时"
    else UnknownMessage
  }

  /** The eleven known codes have eleven different texts. */
  lemma ResultMessagesDistinct(a: int, b: int)
    requires a in KnownCodes && b in KnownCodes && a != b
    ensures ResultMessage(a) != ResultMessage(b)
  {
  }

  /** A reply element read as `int64`, with Go's zero value when it is not one. */
  function IntOrZero(v: Reply): int {
    if v.RInt? then v.n else 0
  }

  const ParseFailedMessage: string := "解析结果失败"

  /** The two reply shapes the wrapper understands. */
  predicate WellShaped(v: Reply) {
    (v.RArray? && |v.items| >= 2) || v.RInt?
  }

  /** Interprets a script reply: an array of two or more gives code and
      remaining stock, a bare integer gives a code with no stock, and any
      other shape is a system error. */
  function ParseSeckillResult(v: Reply): (r: SeckillResult)
    ensures r.success <==> r.code == Success
    ensures r.orderId == ""
    ensures v.RArray? && |v.items| >= 2 ==>
      r.code == IntOrZero(v.items[0]) && r.remainingStock == IntOrZero(v.items[1])
    ensures v.RInt? ==> r.code == v.n && r.remainingStock == 0
    ensures WellShaped(v) ==> r.message == ResultMessage(r.code)
    ensures !WellShaped(v) ==> r == SeckillResult(SystemError, ParseFailedMessage, false, 0, "")
  {
    match v
    case RArray(items) =>
      if |items| >= 2 then
        var code := IntOrZero(items[0]);
        SeckillResult(code, ResultMessage(code), code == Success, IntOrZero(items[1]), "")
      else SeckillResult(SystemError, ParseFailedMessage, false, 0, "")
    case RInt(code) => SeckillResult(code, ResultMessage(code), code == Success, 0, "")
    case _ => SeckillResult(SystemError, ParseFailedMessage, false, 0, "")
  }

  /** The result, the error (if the store call failed) and the store afterwards. */
  datatype Execution = Execution(result: SeckillResult, err: Option<StoreError>, store: Store)

  predicate ValidRequest(req: SeckillRequest) {
    req.productId > 0 && req.userId > 0 && req.quantity > 0
  }

  /** One purchase attempt: validate, then run the simple script on the
      product's stock and buyer keys. `scriptFails` is the store failing. */
  function ExecuteSeckill(st: Store, req: SeckillRequest, scriptFails: bool): (r: Execution)
    ensures !ValidRequest(req) ==>
      r == Execution(SeckillResult(InvalidQuantity, "无效的参数", false, 0, ""), None, st)
    ensures ValidRequest(req) && scriptFails ==>
      r == Execution(SeckillResult(SystemError, "系统错误", false, 0, ""), Some(StoreError), st)
    ensures r.err.None? && ValidRequest(req) ==>
      var step := LuaScripts.SimpleScript(st, SeckillKeys.StockKey(req.productId),
                                          SeckillKeys.UsersKey(req.productId), req.userId, req.quantity);
      r.store == step.store && r.result == ParseSeckillResult(step.reply)
    ensures r.result.success ==> r.err.None? && ValidRequest(req)
    ensures !r.result.success ==> r.store == st
  {
    if !ValidRequest(req) then
      Execution(SeckillResult(InvalidQuantity, "无效的参数", false, 0, ""), None, st)
    else if scriptFails then
      Execution(SeckillResult(SystemError, "系统错误", false, 0, ""), Some(StoreError), st)
    else
      var step := LuaScripts.SimpleScript(st, SeckillKeys.StockKey(req.productId),
                                          SeckillKeys.UsersKey(req.productId), req.userId, req.quantity);
      Execution(ParseSeckillResult(step.reply), None, step.store)
  }

  /** The outcome codes a purchase can produce: the simple script never
      reports an activity problem. */
  lemma ExecuteSeckillCodes(st: Store, req: SeckillRequest, scriptFails: bool)
    ensures ExecuteSeckill(st, req, scriptFails).result.code in
      {Success, StockNotFound, InsufficientStock, UserAlreadyBought, InvalidQuantity, SystemError}
  {
  }

  /** A successful purchase takes exactly `quantity` from the product's stock,
      reports the new stock, and records the buyer. */
  lemma ExecuteSeckillSuccess(st: Store, req: SeckillRequest, scriptFails: bool)
    requires ExecuteSeckill(st, req, scriptFails).result.success
    ensures var r := ExecuteSeckill(st, req, scriptFails);
            var sk := SeckillKeys.StockKey(req.productId);
            sk in st.counters && sk in r.store.counters
            && r.store.counters[sk] == st.counters[sk] - req.quantity >= 0
            && r.result.remainingStock == r.store.counters[sk]
            && !IsMember(st, SeckillKeys.UsersKey(req.productId), req.userId)
            && IsMember(r.store, SeckillKeys.UsersKey(req.productId), req.userId)
  {
  }

  /** A purchase of one product never changes another product's stock or buyers. */
  lemma ExecuteSeckillFrame(st: Store, req: SeckillRequest, scriptFails: bool, other: int)
    requires other != req.productId
    ensures var r := ExecuteSeckill(st, req, scriptFails);
            var sk := SeckillKeys.StockKey(other);
            (sk in r.store.counters <==> sk in st.counters)
            && (sk in st.counters ==> r.store.counters[sk] == st.counters[sk])
            && Members(r.store, SeckillKeys.UsersKey(other)) == Members(st, SeckillKeys.UsersKey(other))
  {
    SeckillKeys.KeyFamiliesDisjoint(other, req.productId);
    SeckillKeys.KeyFamiliesDisjoint(req.productId, other);
    if SeckillKeys.StockKey(other) == SeckillKeys.StockKey(req.productId) {
      SeckillKeys.KeysInjective(other, req.productId);
    }
    if SeckillKeys.UsersKey(other) == SeckillKeys.UsersKey(req.productId) {
      SeckillKeys.KeysInjective(other, req.productId);
    }
  }

  /** Rollback of a purchase; a user who never bought is not an error. */
  function RollbackStock(st: Store, productId: int, userId: int, quantity: int, scriptFails: bool)
    : (r: (Outcome<StoreError>, Store))
    ensures scriptFails ==> r == (Fail(StoreError), st)
    ensures !scriptFails ==> r.0 == Pass
    ensures !scriptFails && !IsMember(st, SeckillKeys.UsersKey(productId), userId) ==> r.1 == st
    ensures !scriptFails && IsMember(st, SeckillKeys.UsersKey(productId), userId) ==>
      CounterOrZero(r.1, SeckillKeys.StockKey(productId)) == CounterOrZero(st, SeckillKeys.StockKey(productId)) + quantity
      && !IsMember(r.1, SeckillKeys.UsersKey(productId), userId)
  {
    if scriptFails then (Fail(StoreError), st)
    else
      SeckillKeys.KeyFamiliesDisjoint(productId, productId);
      (Pass, LuaScripts.RollbackScript(st, SeckillKeys.StockKey(productId), SeckillKeys.UsersKey(productId),
                                       userId, quantity).store)
  }

  /** A purchase followed by its rollback leaves the store as it was. */
  lemma PurchaseThenRollback(st: Store, req: SeckillRequest)
    requires NoEmptySet(st, SeckillKeys.UsersKey(req.productId))
    requires ExecuteSeckill(st, req, false).result.success
    ensures RollbackStock(ExecuteSeckill(st, req, false).store, req.productId, req.userId, req.quantity, false)
            == (Pass, st)
  {
    LuaScripts.RollbackUndoesPurchase(st, SeckillKeys.StockKey(req.productId),
                                      SeckillKeys.UsersKey(req.productId), req.userId, req.quantity);
  }

  /** Reads a batch reply: a non-array is an error; each non-integer entry reads as false. */
  function ParseStatuses(v: Reply): (r: Option<seq<bool>>)
    ensures v.RArray? <==> r.Some?
    ensures r.Some? ==> (|r.value| == |v.items|
      && forall i :: 0 <= i < |v.items| ==> r.value[i] == (v.items[i] == RInt(1)))
  {
    if v.RArray? then Some(seq(|v.items|, i requires 0 <= i < |v.items| => v.items[i] == RInt(1)))
    else None
  }

  /** Purchase status of each user, in order. */
  method BatchCheckUserStatus(st: Store, productId: int, userIds: seq<int>, scriptFails: bool)
    returns (r: Result<seq<bool>, StoreError>)
    ensures scriptFails <==> r.Err?
    ensures r.Ok? ==> (|r.value| == |userIds|
      && forall i :: 0 <= i < |userIds| ==> r.value[i] == IsMember(st, SeckillKeys.UsersKey(productId), userIds[i]))
  {
    if scriptFails {
      return Err(StoreError);
    }
    var reply := LuaScripts.BatchCheckScript(st, SeckillKeys.UsersKey(productId), userIds);
    var statuses := ParseStatuses(reply);
    r := Ok(statuses.value);
  }

  /** One user's status: the first batch entry, or false for an empty batch. */
  method IsUserPurchased(st: Store, productId: int, userId: int, scriptFails: bool)
    returns (r: Result<bool, StoreError>)
    ensures scriptFails <==> r.Err?
    ensures r.Ok? ==> r.value == IsMember(st, SeckillKeys.UsersKey(productId), userId)
  {
    var statuses := BatchCheckUserStatus(st, productId, [userId], scriptFails);
    if statuses.Err? {
      return Err(statuses.error);
    }
    if |statuses.value| > 0 {
      return Ok(statuses.value[0]);
    }
    return Ok(false);
  }

  datatype SeckillStats = SeckillStats(productId: int, currentStock: int, userCount: int, activity: Option<ActivityInfo>)

  /** Stock (0 when missing), buyer count and activity document of a product. */
  function GetSeckillStats(st: Store, productId: int, scriptFails: bool): (r: Result<SeckillStats, StoreError>)
    ensures scriptFails <==> r.Err?
    ensures r.Ok? ==> (r.value.productId == productId
      && r.value.currentStock == CounterOrZero(st, SeckillKeys.StockKey(productId))
      && r.value.userCount == |Members(st, SeckillKeys.UsersKey(productId))|
      && (r.value.activity.Some? <==> SeckillKeys.ActivityKey(productId) in st.activities))
  {
    if scriptFails then Err(StoreError)
    else
      var s := LuaScripts.StatsScript(st, SeckillKeys.StockKey(productId), SeckillKeys.UsersKey(productId),
                                      SeckillKeys.ActivityKey(productId));
      Ok(SeckillStats(productId, s.stock, s.userCount, s.activity))
  }

  /** Which of the prewarm's two writes fails, if any. */
  datatype PrewarmFault = NoFault | StockWriteFails | ActivityWriteFails

  /** Writes the product's stock counter, then its activity document. The two
      writes are not atomic: a failing second write leaves the first in place. */
  function PrewarmActivity(st: Store, activity: ActivityInfo, fault: PrewarmFault): (r: (Outcome<StoreError>, Store))
    ensures r.0.Pass? <==> fault == NoFault
    ensures fault == StockWriteFails ==> r.1 == st
    ensures fault != StockWriteFails ==>
      var sk := SeckillKeys.StockKey(activity.productId);
      sk in r.1.counters && r.1.counters[sk] == activity.stock && r.1.sets == st.sets
    ensures fault == NoFault ==>
      var ak := SeckillKeys.ActivityKey(activity.productId);
      ak in r.1.activities && r.1.activities[ak] == activity
    ensures fault == ActivityWriteFails ==> r.1.activities == st.activities
  {
    var withStock := SetCounter(st, SeckillKeys.StockKey(activity.productId), activity.stock);
    match fault
    case StockWriteFails => (Fail(StoreError), st)
    case ActivityWriteFails => (Fail(StoreError), withStock)
    case NoFault =>
      (Pass, withStock.(activities := withStock.activities[SeckillKeys.ActivityKey(activity.productId) := activity]))
  }

  /** A prewarmed product is ready for purchase: the first buyer of a
      positive quantity within the stock succeeds. */
  lemma PrewarmThenPurchase(st: Store, activity: ActivityInfo, userId: int, quantity: int)
    requires activity.productId > 0 && userId > 0 && 0 < quantity <= activity.stock
    requires !IsMember(st, SeckillKeys.UsersKey(activity.productId), userId)
    ensures var warmed := PrewarmActivity(st, activity, NoFault).1;
            ExecuteSeckill(warmed, SeckillRequest(activity.productId, userId, quantity), false).result.success
  {
    var warmed := PrewarmActivity(st, activity, NoFault).1;
    assert Members(warmed, SeckillKeys.UsersKey(activity.productId)) == Members(st, SeckillKeys.UsersKey(activity.productId));
  }

  /** As written, the prewarmed document holds its times as RFC 3339 text,
      so after a prewarm the full script raises on every purchase of a
      positive quantity, whatever the time. */
  lemma PrewarmedWindowRaises(st: Store, activity: ActivityInfo, userId: int, quantity: int, now: int)
    requires Rfc3339Shaped(activity.startTime)
    requires quantity > 0
    ensures var warmed := PrewarmActivity(st, activity, NoFault).1;
            LuaScripts.FullScript(warmed, SeckillKeys.StockKey(activity.productId),
                                  SeckillKeys.UsersKey(activity.productId), SeckillKeys.ActivityKey(activity.productId),
                                  userId, quantity, now).Err?
  {
    LuaScripts.Rfc3339NotANumber(activity.startTime);
  }

  /** The activity document with its times written as decimal Unix seconds,
      which `tonumber` reads back. */
  function UnixTimesDocument(productId: int, stock: int, startSec: int, endSec: int): (a: ActivityInfo)
    ensures a.productId == productId && a.stock == stock
    ensures LuaScripts.ToNumber(a.startTime) == Some(startSec) && LuaScripts.ToNumber(a.endTime) == Some(endSec)
  {
    LuaScripts.ToNumberOfDecimal(startSec);
    LuaScripts.ToNumberOfDecimal(endSec);
    ActivityInfo(productId, stock, Decimal.IntToString(startSec), Decimal.IntToString(endSec))
  }

  /** The prewarm writing the activity's times as Unix seconds. */
  function PrewarmActivityUnixTimes(st: Store, productId: int, stock: int, startSec: int, endSec: int,
                                    fault: PrewarmFault): (r: (Outcome<StoreError>, Store))
    ensures r.0.Pass? <==> fault == NoFault
    ensures fault == NoFault ==>
      var ak := SeckillKeys.ActivityKey(productId);
      var sk := SeckillKeys.StockKey(productId);
      && ak in r.1.activities
      && LuaScripts.ToNumber(r.1.activities[ak].startTime) == Some(startSec)
      && LuaScripts.ToNumber(r.1.activities[ak].endTime) == Some(endSec)
      && sk in r.1.counters && r.1.counters[sk] == stock && r.1.sets == st.sets
  {
    PrewarmActivity(st, UnixTimesDocument(productId, stock, startSec, endSec), fault)
  }

  /** With Unix-second times the full script never raises after a prewarm,
      and it enforces the window: too early is not started, too late is
      ended, and a purchase inside the window succeeds exactly when the
      buyer is new and the stock covers it. */
  lemma UnixPrewarmWindow(st: Store, productId: int, stock: int, startSec: int, endSec: int,
                          userId: int, quantity: int, now: int)
    requires quantity > 0
    ensures var warmed := PrewarmActivityUnixTimes(st, productId, stock, startSec, endSec, NoFault).1;
            var r := LuaScripts.FullScript(warmed, SeckillKeys.StockKey(productId), SeckillKeys.UsersKey(productId),
                                           SeckillKeys.ActivityKey(productId), userId, quantity, now);
            && r.Ok?
            && (now < startSec ==> r.value.reply == RInt(ActivityNotStarted))
            && (startSec <= now && now > endSec ==> r.value.reply == RInt(ActivityEnded))
            && (LuaScripts.Succeeded(r.value) <==>
                  startSec <= now <= endSec && !IsMember(st, SeckillKeys.UsersKey(productId), userId) && quantity <= stock)
  {
  }

  /** Deletes the product's stock, buyer and activity keys. */
  function CleanupActivity(st: Store, productId: int, delFails: bool): (r: (Outcome<StoreError>, Store))
    ensures delFails ==> r == (Fail(StoreError), st)
    ensures !delFails ==> (r.0 == Pass
      && SeckillKeys.StockKey(productId) !in r.1.counters
      && Members(r.1, SeckillKeys.UsersKey(productId)) == {}
      && SeckillKeys.ActivityKey(productId) !in r.1.activities)
  {
    if delFails then (Fail(StoreError), st)
    else
      (Pass, Del(Del(Del(st, SeckillKeys.StockKey(productId)), SeckillKeys.UsersKey(productId)),
                 SeckillKeys.ActivityKey(productId)))
  }

  /** `SK<product><user><nanos>`; the clock reading is a parameter. */
  function GenerateOrderId(productId: int, userId: int, nanos: int): string {
    "SK" + Decimal.IntToString(productId) + Decimal.IntToString(userId) + Decimal.IntToString(nanos)
  }

  /** The id has no separators, so different (product, user) pairs can share
      an id at the same instant: (1, 23) and (12, 3) both give "SK123...". */
  lemma OrderIdAmbiguous(nanos: int)
    ensures GenerateOrderId(1, 23, nanos) == GenerateOrderId(12, 3, nanos)
  {
    assert Decimal.IntToString(1) == "1";
    assert Decimal.IntToString(23) == "23";
    assert Decimal.IntToString(12) == "12";
    assert Decimal.IntToString(3) == "3";
  }
}

=== FILE: seckill_handler.dfy ===
/** The REST handlers of the flash-sale service: parameter checks in front of
    the coordinator and the mapping from outcome to HTTP status. A request
    body that does not decode is `None`. */
module SeckillHandler {
  import opened Common
  import opened FastStore
  import opened SeckillCodes
  import opened SeckillCore
  import S = SeckillService

  const StatusOK := 200
  const StatusAccepted := 202
  const StatusBadRequest := 400
  const StatusConflict := 409
  const StatusTooManyRequests := 429
  const StatusInternalServerError := 500
  const StatusServiceUnavailable := 503

  /** A reply: its status and, for a purchase, the result returned as body. */
  datatype Response = Response(status: int, result: Option<SeckillResult>)

  /** The status a purchase result is reported with. */
  function StatusFor(code: int): (status: int)
    ensures code == Success <==> status == StatusOK
    ensures code == SystemBusy <==> status == StatusTooManyRequests
    ensures code == InsufficientStock || code == UserAlreadyBought <==> status == StatusConflict
    ensures status in {StatusOK, StatusTooManyRequests, StatusConflict, StatusBadRequest}
  {
    if code == Success then StatusOK
    else if code == SystemBusy then StatusTooManyRequests
    else if code == InsufficientStock || code == UserAlreadyBought then StatusConflict
    else StatusBadRequest
  }

  /** Every purchase outcome other than the four named ones, including the
      store's system error, is reported as a bad request. */
  lemma SystemErrorIsBadRequest()
    ensures StatusFor(SystemError) == StatusBadRequest && StatusFor(InvalidQuantity) == StatusBadRequest
  {
  }

  function SeckillPurchase(svc: S.Service, body: Option<SeckillRequest>, env: S.Env, now: int, finish: int)
    : (r: (Response, S.Service))
    ensures body.None? || !ValidRequest(body.value) ==> r == (Response(StatusBadRequest, None), svc)
    ensures body.Some? && ValidRequest(body.value) ==>
      var (out, next) := S.ProcessSeckill(svc, body.value, env, now, finish);
      r.1 == next &&
      (out.Err? ==> r.0 == Response(StatusInternalServerError, None)) &&
      (out.Ok? ==> r.0 == Response(StatusFor(out.value.code), Some(out.value)))
  {
    match body
    case None => (Response(StatusBadRequest, None), svc)
    case Some(req) =>
      if !ValidRequest(req) then (Response(StatusBadRequest, None), svc)
      else
        var (out, next) := S.ProcessSeckill(svc, req, env, now, finish);
        match out
        case Err(_) => (Response(StatusInternalServerError, None), next)
        case Ok(result) => (Response(StatusFor(result.code), Some(result)), next)
  }

  /** A rejected request never reaches the coordinator, so it cannot buy. */
  lemma InvalidRequestTouchesNothing(svc: S.Service, req: SeckillRequest, env: S.Env, now: int, finish: int)
    requires req.quantity <= 0 || req.productId <= 0 || req.userId <= 0
    ensures SeckillPurchase(svc, Some(req), env, now, finish).1 == svc
    ensures SeckillPurchase(svc, Some(req), env, now, finish).0.status == StatusBadRequest
  {
  }

  function SeckillPurchaseAsync(svc: S.Service, body: Option<SeckillRequest>, now: int, contextDone: bool, preferContext: bool)
    : (r: (Response, S.Service))
    ensures body.None? || !ValidRequest(body.value) ==> r == (Response(StatusBadRequest, None), svc)
    ensures body.Some? && ValidRequest(body.value) ==>
      var (out, next) := S.ProcessSeckillAsync(svc, body.value, now, contextDone, preferContext);
      r.1 == next && r.0 == Response(if out.Pass? then StatusAccepted else StatusServiceUnavailable, None)
  {
    match body
    case None => (Response(StatusBadRequest, None), svc)
    case Some(req) =>
      if !ValidRequest(req) then (Response(StatusBadRequest, None), svc)
      else
        var (out, next) := S.ProcessSeckillAsync(svc, req, now, contextDone, preferContext);
        (Response(if out.Pass? then StatusAccepted else StatusServiceUnavailable, None), next)
  }

  /** Prewarm: a non-positive product id or stock is a bad request; a store
      failure is a server error. */
  function PrewarmActivity(st: Store, body: Option<ActivityInfo>, fault: PrewarmFault): (r: (int, Store))
    ensures body.None? || body.value.productId <= 0 || body.value.stock <= 0 ==> r == (StatusBadRequest, st)
    ensures body.Some? && body.value.productId > 0 && body.value.stock > 0 ==>
      r.1 == SeckillCore.PrewarmActivity(st, body.value, fault).1 &&
      (r.0 == StatusOK <==> fault == NoFault) &&
      (r.0 != StatusOK ==> r.0 == StatusInternalServerError)
  {
    match body
    case None => (StatusBadRequest, st)
    case Some(a) =>
      if a.productId <= 0 || a.stock <= 0 then (StatusBadRequest, st)
      else
        var (out, st') := SeckillCore.PrewarmActivity(st, a, fault);
        (if out.Pass? then StatusOK else StatusInternalServerError, st')
  }
}

=== FILE: seckill_keys.dfy ===
/** Key derivation for the flash-sale fast path. Every product owns a stock
    counter `seckill:stock:<p>`, a buyer set `seckill:users:<p>` and an
    activity document `seckill:activity:<p>`; a purchase record lives at
    `seckill:purchase:<p>:<u>`. The lemmas show these names never collide, so
    operations on one product cannot touch another's state. */
module SeckillKeys {
  import Decimal

  const StockPrefix: string := "seckill:stock:"
  const UsersPrefix: string := "seckill:users:"
  const ActivityPrefix: string := "seckill:activity:"
  const PurchasePrefix: string := "seckill:purchase:"

  function StockKey(productId: int): string {
    StockPrefix + Decimal.IntToString(productId)
  }

  function UsersKey(productId: int): string {
    UsersPrefix + Decimal.IntToString(productId)
  }

  function ActivityKey(productId: int): string {
    ActivityPrefix + Decimal.IntToString(productId)
  }

  function PurchaseKey(productId: int, userId: int): string {
    PurchasePrefix + Decimal.IntToString(productId) + ":" + Decimal.IntToString(userId)
  }

  lemma PrefixCancel(p: string, a: string, b: string)
    requires p + a == p + b
    ensures a == b
  {
    assert a == (p + a)[|p|..];
    assert b == (p + b)[|p|..];
  }

  /** Two strings with different characters at an index both cover are different. */
  lemma DifferAt(a: string, b: string, i: nat)
    requires i < |a| && i < |b| && a[i] != b[i]
    ensures a != b
  {
  }

  /** The index of the first ':' in `s`, or `|s|` when there is none. */
  function FirstColon(s: string): (i: nat)
    ensures i <= |s|
  {
    if |s| == 0 || s[0] == ':' then 0 else 1 + FirstColon(s[1..])
  }

  lemma {:induction false} FirstColonAfter(a: string, b: string)
    requires forall k :: 0 <= k < |a| ==> a[k] != ':'
    ensures FirstColon(a + ":" + b) == |a|
    decreases |a|
  {
    if |a| > 0 {
      assert (a + ":" + b)[1..] == a[1..] + ":" + b;
      FirstColonAfter(a[1..], b);
    }
  }

  /** `a + ":" + b` splits back uniquely when `a` has no colon. */
  lemma ColonSplit(a: string, b: string, c: string, d: string)
    requires forall k :: 0 <= k < |a| ==> a[k] != ':'
    requires forall k :: 0 <= k < |c| ==> c[k] != ':'
    requires a + ":" + b == c + ":" + d
    ensures a == c && b == d
  {
    var s := a + ":" + b;
    FirstColonAfter(a, b);
    FirstColonAfter(c, d);
    assert a == s[..|a|];
    assert c == (c + ":" + d)[..|c|];
    assert b == s[|a| + 1..];
    assert d == (c + ":" + d)[|c| + 1..];
  }

  /** Each key family is injective in the product id. */
  lemma {:induction false} KeysInjective(p: int, q: int)
    requires StockKey(p) == StockKey(q) || UsersKey(p) == UsersKey(q) || ActivityKey(p) == ActivityKey(q)
    ensures p == q
  {
    if StockKey(p) == StockKey(q) {
      PrefixCancel(StockPrefix, Decimal.IntToString(p), Decimal.IntToString(q));
    } else if UsersKey(p) == UsersKey(q) {
      PrefixCancel(UsersPrefix, Decimal.IntToString(p), Decimal.IntToString(q));
    } else {
      PrefixCancel(ActivityPrefix, Decimal.IntToString(p), Decimal.IntToString(q));
    }
    Decimal.IntToStringInjective(p, q);
  }

  /** Stock, buyer-set and activity keys of any two products never coincide. */
  lemma {:induction false} KeyFamiliesDisjoint(p: int, q: int)
    ensures StockKey(p) != UsersKey(q)
    ensures StockKey(p) != ActivityKey(q)
    ensures UsersKey(p) != ActivityKey(q)
  {
    DifferAt(StockKey(p), UsersKey(q), 8);
    DifferAt(StockKey(p), ActivityKey(q), 8);
    DifferAt(UsersKey(p), ActivityKey(q), 8);
  }

  /** A purchase record key names exactly one (product, user) pair. */
  lemma {:induction false} PurchaseKeyInjective(p: int, u: int, q: int, v: int)
    requires PurchaseKey(p, u) == PurchaseKey(q, v)
    ensures p == q && u == v
  {
    var a, b := Decimal.IntToString(p), Decimal.IntToString(u);
    var c, d := Decimal.IntToString(q), Decimal.IntToString(v);
    assert PurchaseKey(p, u) == PurchasePrefix + (a + ":" + b);
    assert PurchaseKey(q, v) == PurchasePrefix + (c + ":" + d);
    PrefixCancel(PurchasePrefix, a + ":" + b, c + ":" + d);
    ColonSplit(a, b, c, d);
    Decimal.IntToStringInjective(p, q);
    Decimal.IntToStringInjective(u, v);
  }
}

=== FILE: seckill_service.dfy ===
/** The flash-sale coordinator: system-busy check, token bucket, circuit
    breaker and the purchase itself, plus the asynchronous path through the
    request queue and its workers. Time is one nanosecond reading per call; the breaker
    reports at `finish`, which is not before `now`. */
module SeckillService {
  import opened Common
  import opened FastStore
  import opened SeckillCodes
  import opened SeckillCore
  import Limiter
  import CB = CircuitBreaker
  import Q = RequestQueue
  import Decimal

  const Second: int := 1_000_000_000

  /** The price every order message carries, in cents (a fixed 99.99). */
  const OrderPriceCents: int := 9999

  const AsyncTimeout: int := 30 * Second

  const RateLimitedMessage: string := "请求过于频繁，请稍后重试"
  const BreakerOpenMessage: string := "系统繁忙，请稍后重试"

  datatype Message =
    | OrderMessage(orderId: string, productId: int, userId: int, quantity: int, priceCents: int)
    | StockUpdate(productId: int, remainingStock: int)

  datatype ServiceStats = ServiceStats(
    total: int, successes: int, failures: int, rateLimited: int,
    breakerTrips: int, queueFull: int, systemBusy: int)

  const NoServiceStats := ServiceStats(0, 0, 0, 0, 0, 0, 0)

  datatype Service = Service(
    store: Store, limiter: Limiter.TokenBucket, breaker: CB.Breaker, queue: Q.Queue<SeckillRequest>,
    stats: ServiceStats, outbox: seq<Message>, degradationEnabled: bool, busyMessage: string)

  /** uint32(x) of a Go int: two's-complement truncation to 32 bits. */
  function Uint32(x: int): (r: nat)
    ensures r < 0x1_0000_0000
    ensures 0 <= x < 0x1_0000_0000 ==> r == x
    ensures (x - r) % 0x1_0000_0000 == 0
  {
    x % 0x1_0000_0000
  }

  datatype BreakerSettings = BreakerSettings(failureThreshold: int, recoveryTimeout: int, halfOpenRequests: int)

  /** The breaker the service builds: half-open slots and the failure
      threshold come from the configuration (converted to uint32), the
      statistics window is one minute, and the trip rule is "at least three
      requests and at least `threshold` failures". */
  function ServiceBreakerConfig(s: BreakerSettings): (c: CB.Config)
    ensures c.interval == 60 * Second && c.timeout == s.recoveryTimeout
    ensures c.maxRequests == Uint32(s.halfOpenRequests)
    ensures c.trip == Some(CB.AtLeastFailures(Uint32(s.failureThreshold)))
  {
    CB.Config(Uint32(s.halfOpenRequests), 60 * Second, s.recoveryTimeout,
              Some(CB.AtLeastFailures(Uint32(s.failureThreshold))))
  }

  /** A negative half-open setting wraps to a huge slot count. */
  lemma NegativeHalfOpenWraps()
    ensures ServiceBreakerConfig(BreakerSettings(5, Second, -1)).maxRequests == 0xFFFF_FFFF
  {
  }

  function NewService(st: Store, requestsPerSecond: int, burst: int, s: BreakerSettings, queueSize: int,
                      degradationEnabled: bool, busyMessage: string, now: int): (svc: Service)
    ensures svc.limiter.tokens == burst && svc.limiter.capacity == burst
    ensures svc.breaker.state == CB.Closed && svc.breaker.trip == CB.AtLeastFailures(Uint32(s.failureThreshold))
    ensures svc.stats == NoServiceStats && svc.outbox == [] && svc.queue.pending == []
  {
    Service(st, Limiter.NewTokenBucket(requestsPerSecond, 1, burst, now),
            CB.NewCircuitBreaker(ServiceBreakerConfig(s), now),
            Q.NewRequestQueue(queueSize), NoServiceStats, [], degradationEnabled, busyMessage)
  }

  /** The load check is a placeholder: with or without degradation enabled
      it never reports the system busy. */
  function IsSystemBusy(svc: Service): (busy: bool)
    ensures !busy
  {
    if !svc.degradationEnabled then false else false
  }

  /** What the environment does during one call: the store failing, and each
      of the two message sends failing. */
  datatype Env = Env(scriptFails: bool, orderSendFails: bool, stockSendFails: bool)

  /** `executeSeckill`: the purchase, with its counters and messages. A store
      error becomes a system-error result and no error. */
  function ExecuteSeckillStep(svc: Service, req: SeckillRequest, env: Env, now: int): (r: (SeckillResult, Service))
    ensures r.1.stats.total == svc.stats.total + 1
    ensures r.0.success ==> r.1.stats.successes == svc.stats.successes + 1 && r.1.stats.failures == svc.stats.failures
    ensures !r.0.success ==> r.1.stats.failures == svc.stats.failures + 1 && r.1.stats.successes == svc.stats.successes
    ensures ValidRequest(req) && env.scriptFails ==> r.0 == SeckillResult(SystemError, "系统错误", false, 0, "")
    ensures r.0.success ==> r.0.orderId == GenerateOrderId(req.productId, req.userId, now)
    ensures !r.0.success ==> r.1.outbox == svc.outbox && r.1.store == svc.store
    ensures r.1.limiter == svc.limiter && r.1.breaker == svc.breaker && r.1.queue == svc.queue
  {
    var ex := ExecuteSeckill(svc.store, req, env.scriptFails);
    var st := svc.stats.(total := svc.stats.total + 1);
    if ex.err.Some? then
      (SeckillResult(SystemError, "系统错误", false, 0, ""), svc.(stats := st.(failures := st.failures + 1)))
    else if ex.result.success then
      var orderId := GenerateOrderId(req.productId, req.userId, now);
      var order := if env.orderSendFails then [] else [OrderMessage(orderId, req.productId, req.userId, req.quantity, OrderPriceCents)];
      var update := if env.stockSendFails then [] else [StockUpdate(req.productId, ex.result.remainingStock)];
      (ex.result.(orderId := orderId),
       svc.(store := ex.store, stats := st.(successes := st.successes + 1), outbox := svc.outbox + order + update))
    else
      (ex.result, svc.(store := ex.store, stats := st.(failures := st.failures + 1)))
  }

  datatype ServiceError = BreakerTooManyRequests

  function Busy(message: string): SeckillResult {
    SeckillResult(SystemBusy, message, false, 0, "")
  }

  /** `ProcessSeckill`: each stage runs only if the previous one let the
      request through. The purchase always reports success to the breaker. */
  function ProcessSeckill(svc: Service, req: SeckillRequest, env: Env, now: int, finish: int): (r: (Result<SeckillResult, ServiceError>, Service))
    ensures var (ok, lim) := Limiter.BucketAllowN(svc.limiter, 1, now);
      && (!ok ==> r == (Ok(Busy(RateLimitedMessage)),
                        svc.(limiter := lim, stats := svc.stats.(rateLimited := svc.stats.rateLimited + 1))))
      && (ok && CB.BeforeRequest(svc.breaker, now).verdict == Err(CB.BreakerOpen) ==>
            r == (Ok(Busy(BreakerOpenMessage)),
                  svc.(limiter := lim, breaker := CB.BeforeRequest(svc.breaker, now).breaker,
                       stats := svc.stats.(breakerTrips := svc.stats.breakerTrips + 1))))
      && (ok && CB.BeforeRequest(svc.breaker, now).verdict == Err(CB.TooManyRequests) ==>
            r.0 == Err(BreakerTooManyRequests) && r.1.store == svc.store)
      && (ok && CB.BeforeRequest(svc.breaker, now).verdict.Ok? ==>
            var a := CB.BeforeRequest(svc.breaker, now);
            var (res, next) := ExecuteSeckillStep(svc.(limiter := lim, breaker := a.breaker), req, env, now);
            r == (Ok(res), next.(breaker := CB.AfterRequest(a.breaker, a.verdict.value, true, finish))))
  {
    if IsSystemBusy(svc) then
      (Ok(Busy(svc.busyMessage)), svc.(stats := svc.stats.(systemBusy := svc.stats.systemBusy + 1)))
    else
      var (ok, lim) := Limiter.BucketAllowN(svc.limiter, 1, now);
      var svc1 := svc.(limiter := lim);
      if !ok then
        (Ok(Busy(RateLimitedMessage)), svc1.(stats := svc.stats.(rateLimited := svc.stats.rateLimited + 1)))
      else
        var a := CB.BeforeRequest(svc.breaker, now);
        match a.verdict
        case Err(e) =>
          if e == CB.BreakerOpen then
            (Ok(Busy(BreakerOpenMessage)), svc1.(breaker := a.breaker, stats := svc.stats.(breakerTrips := svc.stats.breakerTrips + 1)))
          else
            (Err(BreakerTooManyRequests), svc1.(breaker := a.breaker))
        case Ok(gen) =>
          var (res, next) := ExecuteSeckillStep(svc1.(breaker := a.breaker), req, env, now);
          (Ok(res), next.(breaker := CB.AfterRequest(a.breaker, gen, true, finish)))
  }

  /** Message delivery never changes what the buyer is told, nor the stock. */
  lemma SendFailuresInvisible(svc: Service, req: SeckillRequest, env: Env, now: int, finish: int, orderFails: bool, stockFails: bool)
    ensures var other := env.(orderSendFails := orderFails, stockSendFails := stockFails);
      ProcessSeckill(svc, req, env, now, finish).0 == ProcessSeckill(svc, req, other, now, finish).0
      && ProcessSeckill(svc, req, env, now, finish).1.store == ProcessSeckill(svc, req, other, now, finish).1.store
  {
  }

  /** A successful purchase carries its order id and, when both sends
      succeed, leaves exactly the order and stock-update messages behind. */
  lemma SuccessPublishes(svc: Service, req: SeckillRequest, now: int, finish: int)
    requires var r := ProcessSeckill(svc, req, Env(false, false, false), now, finish);
      r.0.Ok? && r.0.value.success
    ensures var r := ProcessSeckill(svc, req, Env(false, false, false), now, finish);
      var id := GenerateOrderId(req.productId, req.userId, now);
      r.0.value.orderId == id
      && r.1.outbox == svc.outbox + [OrderMessage(id, req.productId, req.userId, req.quantity, OrderPriceCents),
                                     StockUpdate(req.productId, r.0.value.remainingStock)]
  {
  }

  /** Because every purchase, even one the store failed, reaches the breaker
      as a success, the service never adds a failure to the breaker's counts
      and never opens it: a breaker that is not OPEN stays out of OPEN. */
  lemma BreakerNeverOpens(svc: Service, req: SeckillRequest, env: Env, now: int, finish: int)
    requires svc.breaker.state != CB.Open
    ensures var b := ProcessSeckill(svc, req, env, now, finish).1.breaker;
      b.state != CB.Open && b.counts.totalFailures <= svc.breaker.counts.totalFailures
  {
  }

  /** An outage of the store is reported to the buyer as a system error and
      to nobody else: the breaker stays closed throughout. */
  lemma StoreOutageKeepsBreakerClosed(svc: Service, req: SeckillRequest, now: int, finish: int)
    requires svc.breaker.state == CB.Closed && ValidRequest(req)
    requires Limiter.BucketAllowN(svc.limiter, 1, now).0
    ensures var r := ProcessSeckill(svc, req, Env(true, false, false), now, finish);
      r.0 == Ok(SeckillResult(SystemError, "系统错误", false, 0, "")) && r.1.breaker.state == CB.Closed
  {
  }

  datatype AsyncError = SystemBusyError | RateLimitedError | QueueError(e: Q.QueueError)

  /** The request id of the asynchronous path: `seckill_<product>_<user>_<nanos>`. */
  function AsyncRequestId(req: SeckillRequest, now: int): string {
    "seckill_" + Decimal.IntToString(req.productId) + "_" + Decimal.IntToString(req.userId) + "_" + Decimal.IntToString(now)
  }

  /** `ProcessSeckillAsync`: busy and rate-limit checks, then a thirty-second
      item on the queue. Only a full queue is counted. */
  function ProcessSeckillAsync(svc: Service, req: SeckillRequest, now: int, contextDone: bool, preferContext: bool)
    : (r: (Outcome<AsyncError>, Service))
    ensures !Limiter.BucketAllowN(svc.limiter, 1, now).0 ==>
      r.0 == Fail(RateLimitedError) && r.1.stats == svc.stats.(rateLimited := svc.stats.rateLimited + 1) && r.1.queue == svc.queue
    ensures Limiter.BucketAllowN(svc.limiter, 1, now).0 ==>
      var (out, q) := Q.SubmitAsync(svc.queue, AsyncRequestId(req, now), req, now, AsyncTimeout, contextDone, preferContext);
      r.1.queue == q &&
      (out.Pass? ==> r.0 == Pass && r.1.stats == svc.stats) &&
      (out == Fail(Q.QueueFull) ==> r.0 == Fail(QueueError(Q.QueueFull)) && r.1.stats == svc.stats.(queueFull := svc.stats.queueFull + 1)) &&
      (out.Fail? && out.error != Q.QueueFull ==> r.0 == Fail(QueueError(out.error)) && r.1.stats == svc.stats)
    ensures r.1.store == svc.store && r.1.breaker == svc.breaker
  {
    if IsSystemBusy(svc) then
      (Fail(SystemBusyError), svc.(stats := svc.stats.(systemBusy := svc.stats.systemBusy + 1)))
    else
      var (ok, lim) := Limiter.BucketAllowN(svc.limiter, 1, now);
      if !ok then
        (Fail(RateLimitedError), svc.(limiter := lim, stats := svc.stats.(rateLimited := svc.stats.rateLimited + 1)))
      else
        var (out, q) := Q.SubmitAsync(svc.queue, AsyncRequestId(req, now), req, now, AsyncTimeout, contextDone, preferContext);
        match out
        case Pass => (Pass, svc.(limiter := lim, queue := q))
        case Fail(e) =>
          var stats := if e == Q.QueueFull then svc.stats.(queueFull := svc.stats.queueFull + 1) else svc.stats;
          (Fail(QueueError(e)), svc.(limiter := lim, queue := q, stats := stats))
  }

  /** One worker step on the service's queue (`processQueueItem`): the head
      item is taken; an expired one is failed without a purchase; otherwise
      the purchase runs as `executeSeckill`, with neither the rate limiter
      nor the breaker consulted. The purchase never returns an error, so the
      queue counts every purchase it ran as processed, whatever its result. */
  function ServeQueued(svc: Service, env: Env, now: int): (r: (Option<SeckillResult>, Service))
    ensures |svc.queue.pending| == 0 ==> r == (None, svc)
    ensures |svc.queue.pending| > 0 ==>
      && r.1.queue == Q.Work(svc.queue, now, true).1
      && r.1.limiter == svc.limiter && r.1.breaker == svc.breaker
      && (r.0.None? <==> Q.Expired(svc.queue.pending[0], now))
      && (r.0.None? ==> r.1.store == svc.store && r.1.stats == svc.stats && r.1.outbox == svc.outbox)
      && (r.0.Some? ==>
            var (res, next) := ExecuteSeckillStep(svc, svc.queue.pending[0].request, env, now);
            && r.0.value == res && r.1.store == next.store && r.1.outbox == next.outbox && r.1.stats == next.stats
            && r.1.queue.stats.processed == svc.queue.stats.processed + 1)
  {
    if |svc.queue.pending| == 0 then (None, svc)
    else
      var item := svc.queue.pending[0];
      var q := Q.Work(svc.queue, now, true).1;
      if Q.Expired(item, now) then (None, svc.(queue := q))
      else
        var (res, next) := ExecuteSeckillStep(svc.(queue := q), item.request, env, now);
        (Some(res), next)
  }

  /** A request accepted onto an empty queue and served within its thirty
      seconds is purchased exactly as the synchronous step would purchase
      it at serving time, whatever state the breaker is in, and leaves the
      queue empty. */
  lemma AcceptedAsyncIsPurchased(svc: Service, req: SeckillRequest, env: Env, now: int, later: int)
    requires svc.queue.pending == []
    requires ProcessSeckillAsync(svc, req, now, false, false).0 == Pass
    requires later - now <= AsyncTimeout
    ensures var s1 := ProcessSeckillAsync(svc, req, now, false, false).1;
            var (res, s2) := ServeQueued(s1, env, later);
            var (sync, s3) := ExecuteSeckillStep(svc, req, env, later);
            && res == Some(sync)
            && s2.store == s3.store && s2.outbox == s3.outbox
            && s2.breaker == svc.breaker && s2.queue.pending == []
  {
    var s1 := ProcessSeckillAsync(svc, req, now, false, false).1;
    assert s1.queue.pending == [Q.Item(AsyncRequestId(req, now), req, now, AsyncTimeout)];
  }
}

=== FILE: strings.dfy ===
/** The parts of Go's `strings` and `sort` packages the gateway relies on:
    prefix and suffix tests, prefix trimming, single-character replacement,
    joining, and the byte-wise ordering `sort.Strings` uses (for the scalar
    values of `char`, code-point order, which is UTF-8 byte order). */
module Strings {

  /** `strings.HasPrefix`. */
  predicate HasPrefix(s: string, p: string) {
    |p| <= |s| && s[..|p|] == p
  }

  /** `strings.HasSuffix`. */
  predicate HasSuffix(s: string, x: string) {
    |x| <= |s| && s[|s| - |x|..] == x
  }

  /** `strings.TrimPrefix`: the prefix removed when present, else `s`. */
  function TrimPrefix(s: string, p: string): (r: string)
    ensures HasPrefix(s, p) ==> p + r == s
    ensures !HasPrefix(s, p) ==> r == s
  {
    if HasPrefix(s, p) then
      assert s == s[..|p|] + s[|p|..];
      s[|p|..]
    else s
  }

  /** `strings.ReplaceAll` with one-character pattern and replacement. */
  function ReplaceChar(s: string, from: char, to: char): (r: string)
    ensures |r| == |s|
    ensures forall i :: 0 <= i < |s| ==> r[i] == (if s[i] == from then to else s[i])
  {
    if |s| == 0 then ""
    else ReplaceChar(s[..|s| - 1], from, to) + [if s[|s| - 1] == from then to else s[|s| - 1]]
  }

  /** `strings.Join`. */
  function Join(parts: seq<string>, sep: string): (r: string)
    ensures |parts| == 1 ==> r == parts[0]
    ensures |parts| == 0 ==> r == ""
  {
    if |parts| == 0 then ""
    else if |parts| == 1 then parts[0]
    else Join(parts[..|parts| - 1], sep) + sep + parts[|parts| - 1]
  }

  /** Go's `<` on strings: the first differing character decides, and a
      proper prefix comes first. */
  predicate Below(a: string, b: string)
    decreases |a|
  {
    if |a| == 0 then |b| > 0
    else if |b| == 0 then false
    else if a[0] != b[0] then a[0] < b[0]
    else Below(a[1..], b[1..])
  }

  lemma {:induction false} BelowIrreflexive(a: string)
    ensures !Below(a, a)
    decreases |a|
  {
    if |a| > 0 {
      BelowIrreflexive(a[1..]);
    }
  }

  lemma {:induction false} BelowTotal(a: string, b: string)
    requires a != b
    ensures Below(a, b) || Below(b, a)
    decreases |a|
  {
    if |a| > 0 && |b| > 0 && a[0] == b[0] {
      assert a == [a[0]] + a[1..] && b == [b[0]] + b[1..];
      BelowTotal(a[1..], b[1..]);
    }
  }

  lemma {:induction false} BelowAsymmetric(a: string, b: string)
    requires Below(a, b)
    ensures !Below(b, a)
    decreases |a|
  {
    if |a| > 0 && |b| > 0 && a[0] == b[0] {
      BelowAsymmetric(a[1..], b[1..]);
    }
  }

  lemma {:induction false} BelowTransitive(a: string, b: string, c: string)
    requires Below(a, b) && Below(b, c)
    ensures Below(a, c)
    decreases |a|
  {
    if |a| > 0 && a[0] == b[0] && b[0] == c[0] {
      BelowTransitive(a[1..], b[1..], c[1..]);
    }
  }

  predicate StrictlySorted(xs: seq<string>) {
    forall i, j :: 0 <= i < j < |xs| ==> Below(xs[i], xs[j])
  }

  /** Insertion into a strictly sorted sequence (an element already present
      is not added twice). */
  function Insert(xs: seq<string>, x: string): (r: seq<string>)
    requires StrictlySorted(xs)
    ensures StrictlySorted(r)
    ensures forall y :: y in r <==> y in xs || y == x
  {
    if |xs| == 0 then [x]
    else if xs[0] == x then xs
    else if Below(x, xs[0]) then
      forall j | 0 <= j < |xs| ensures Below(x, xs[j]) {
        if j > 0 { BelowTransitive(x, xs[0], xs[j]); }
      }
      [x] + xs
    else
      BelowTotal(x, xs[0]);
      var rest := Insert(xs[1..], x);
      assert forall y :: y in rest ==> Below(xs[0], y) by {
        forall y | y in rest ensures Below(xs[0], y) {
          if y != x {
            var j :| 0 <= j < |xs[1..]| && xs[1..][j] == y;
            assert xs[j + 1] == y;
          }
        }
      }
      assert forall y :: y in xs <==> y == xs[0] || y in xs[1..] by {
        assert xs == [xs[0]] + xs[1..];
      }
      [xs[0]] + rest
  }

  /** `sort.Strings` applied to the keys of a map, taken in whatever order
      the map's iteration yields them. */
  function SortKeys(keys: seq<string>): (r: seq<string>)
    ensures StrictlySorted(r)
    ensures forall y :: y in r <==> y in keys
  {
    if |keys| == 0 then []
    else
      var r := Insert(SortKeys(keys[..|keys| - 1]), keys[|keys| - 1]);
      assert forall y :: y in keys <==> y in keys[..|keys| - 1] || y == keys[|keys| - 1] by {
        assert keys == keys[..|keys| - 1] + [keys[|keys| - 1]];
      }
      r
  }

  /** A strictly sorted sequence is fixed by its elements: two sorted
      sequences with the same elements are equal. */
  lemma {:induction false} SortedUnique(a: seq<string>, b: seq<string>)
    requires StrictlySorted(a) && StrictlySorted(b)
    requires forall y :: y in a <==> y in b
    ensures a == b
    decreases |a|
  {
    assert |a| > 0 ==> a[0] in b;
    assert |b| > 0 ==> b[0] in a;
    if |a| > 0 && |b| > 0 {
      if a[0] != b[0] {
        var i :| 0 <= i < |b| && b[i] == a[0];
        var j :| 0 <= j < |a| && a[j] == b[0];
        assert i > 0 && j > 0;
        BelowAsymmetric(a[0], a[j]);
        assert false;
      }
      assert a == [a[0]] + a[1..] && b == [b[0]] + b[1..];
      forall y ensures y in a[1..] <==> y in b[1..] {
        if y in a[1..] {
          var k :| 0 <= k < |a[1..]| && a[1..][k] == y;
          assert a[k + 1] == y && Below(a[0], y);
          BelowIrreflexive(y);
          assert y in b && y != b[0];
        }
        if y in b[1..] {
          var k :| 0 <= k < |b[1..]| && b[1..][k] == y;
          assert b[k + 1] == y && Below(b[0], y);
          BelowIrreflexive(y);
          assert y in a && y != a[0];
        }
      }
      SortedUnique(a[1..], b[1..]);
      assert a == [a[0]] + a[1..] && b == [b[0]] + b[1..];
    }
  }

  /** Sorting forgets the order the keys arrived in. */
  lemma SortKeysOrderFree(k1: seq<string>, k2: seq<string>)
    requires forall y :: y in k1 <==> y in k2
    ensures SortKeys(k1) == SortKeys(k2)
  {
    SortedUnique(SortKeys(k1), SortKeys(k2));
  }
}
